=== FILE: README.md ===
# SuperNova engine core in Dafny

A model of the sequential core of the SuperNova rendering engine, with proofs about it.
The model covers:

- the shader-description front end: the `Lexer`, the recursive-descent `ShaderParser`, the
  `EnumUtils` name tables and the `ShaderParserUtils` error messages;
- the render-graph scheduler: name interning, the one-creator/one-reader rules, the backward
  walk that orders the passes, and the usage stacks that decide each attachment's layouts and
  load/store actions;
- the bookkeeping and translation logic of the four GPU backends:
  - the DirectX 12 descriptor bump allocator and barrier planning;
  - the DXGI vertex-format table;
  - the DirectX 11 clear and bind flags;
  - the OpenGL renderbuffer choice, clear dispatch and shader-state translation;
  - the Vulkan memory-type choice, present mode, frame ring, vertex slicing and texture descriptors;
- asset bookkeeping: `AssetDatabase` paths, caches, index and vertex layout arithmetic, and
  `Mesh`'s byte count and moves;
- input state: the keyboard and mouse action tables, cursor-mode changes, and the
  `EventAction` subscriber list.

Every GPU object is an opaque handle. Every driver call, file read or importer call the core
makes is a parameter: a function from its arguments to its result. `SNV_ASSERT` failures are
`Faults.AssertionFailed(message)`. An exception that nothing catches, which ends the program
through `std::terminate`, is `Faults.Uncaught(exception)`. Undefined behaviour, such as an out-of-bounds write or a
missing map key, is `Faults.Undefined`; inside the lexer, whose results carry its own failures,
the signed `i32` overflow of the number scanner is `NumberOverflow`. Parser exceptions are `ShaderParserUtils` errors. None
of these failure paths is hidden in a precondition where the code handles the input.

Where files of the repository come from different revisions and disagree on a type, each file
is modelled against the types it uses itself. Examples:

- `EnumUtils`' 24-entry `TokenType` name table is indexed with the 21 ordinals of `Lexer.hpp`;
- the parser fills a `ShaderState` with a `BlendState`, a `CullMode` and a `DepthCompareFunction`, types the `RenderTypes.hpp` of the same tree no longer declares; the model gives them just the fields the parser writes, and reads their values through the `EnumUtils` lookups;
- the DirectX 11 render pass holds handles, and the DirectX 12 one attachment descriptions.

Where the code and its evident intent disagree, the model follows the code. Examples:

- `GetAssimpMaterialTexturePath` reads the diffuse slot whatever slot it is asked for, and
  `AssetDatabase.LoadModelAsset` loads models that way;
- the lexer's whitespace rule swallows an end-of-line character after any whitespace, and
  `Lexer.NextToken`, and so the whole parser, counts lines that way;
- `GLShader.Bind` enables blending without disabling a colour logic op, and
  `GLBackend.BindShader` binds that way.

In every such case the operations of the model behave as the code is written, and a
corrected variant is defined and proved alongside (see "Findings").

## Model

| member | source | states |
|---|---|---|
| Tokens.OrdinalInjective | SuperNova/Engine/private/Engine/Assets/ShaderParser/Lexer.hpp:13-45 | the 21 token types have pairwise distinct ordinals, so a table indexed by ordinal is a faithful lookup |
| EnumUtils.TokenTypeNamesMatchOnlyFour | SuperNova/Engine/source/Utils/EnumUtils.cpp:14-54 | the name table was written against a longer token-type list, so only `Identifier`, `Shader`, `State` and `DepthTest` are named by their own spelling; `{` is named `Value_CompareFunction` and the end of file `{` |
| EnumUtils.CullModeFromString | SuperNova/Engine/source/Utils/EnumUtils.cpp:127-135 | "Off" and "Front" read as their modes; every other string reads as `Back` |
| EnumUtils.CullModeToString | SuperNova/Engine/source/Utils/EnumUtils.cpp:59-69 | a cull mode's name reads back as the same mode |
| EnumUtils.CompareFunctionFromString | SuperNova/Engine/source/Utils/EnumUtils.cpp:137-154 | the lookup is defined exactly on the eight compare-function names |
| EnumUtils.CompareFunctionToString | SuperNova/Engine/source/Utils/EnumUtils.cpp:71-86 | a compare function's name reads back as the same function |
| EnumUtils.CompareFunctionNameRoundTrip | SuperNova/Engine/source/Utils/EnumUtils.cpp:137-154 | every accepted name is the name of the function it reads as |
| EnumUtils.BlendOpFromString | SuperNova/Engine/source/Utils/EnumUtils.cpp:156-170 | the lookup is defined exactly on the five blend-op names |
| EnumUtils.BlendOpToString | SuperNova/Engine/source/Utils/EnumUtils.cpp:88-100 | a blend op's name reads back as the same op |
| EnumUtils.BlendOpNameRoundTrip | SuperNova/Engine/source/Utils/EnumUtils.cpp:156-170 | every accepted name is the name of the op it reads as |
| EnumUtils.BlendFactorFromString | SuperNova/Engine/source/Utils/EnumUtils.cpp:172-196 | the lookup is defined exactly on the fifteen blend-factor names |
| EnumUtils.BlendFactorToString | SuperNova/Engine/source/Utils/EnumUtils.cpp:102-124 | a blend factor's name reads back as the same factor |
| EnumUtils.BlendFactorNameRoundTrip | SuperNova/Engine/source/Utils/EnumUtils.cpp:172-196 | every accepted name is the name of the factor it reads as |
| RenderTypes.TypeOfRenderTexture | SuperNova/Engine/source/Renderer/RenderTypes.cpp:8-16 | a render texture is a colour texture exactly when its format is `BGRA32`, otherwise a depth texture; the stencil types are never produced |
| RenderTypes.DefaultStatesAreOpaque | SuperNova/Engine/private/Engine/Renderer/RenderDefaults.hpp:15-37 | the default pipeline is opaque: back faces culled, depth test and write on with `Less`, blending and logic ops off, blend equation `src * One + dst * Zero` |
| Lexer.Step | SuperNova/Engine/source/Assets/ShaderParser/Lexer.cpp:177-183 | consuming an end-of-line character moves to the next line at column 0; any other character advances the column by one |
| Lexer.RunEnd | SuperNova/Engine/source/Assets/ShaderParser/Lexer.cpp:199-203 | a scanning loop stops at the first character outside the run, or at the end of the text; everything before it is in the run |
| Lexer.BlockCommentEnd | SuperNova/Engine/source/Assets/ShaderParser/Lexer.cpp:207-228 | a block comment ends right after the first `*/`; every end-of-line character inside it starts a new line; without a closing `*/` the scan reads past the end of the text |
| Lexer.WhitespaceStep | SuperNova/Engine/source/Assets/ShaderParser/Lexer.cpp:174-190 | one whitespace character, plus the end-of-line character that the rule swallows after it: as written any end-of-line character after any whitespace, corrected only the `\n` of a `\r\n` pair |
| Lexer.SkipWhitespaceUsing | SuperNova/Engine/source/Assets/ShaderParser/Lexer.cpp:169-235 | whitespace skipping stops at the end of the text or at a character that is neither whitespace nor the start of a comment; it never moves back or to an earlier line, and fails only by reading past the end |
| Lexer.SkipWhitespaceAsWrittenLosesLines | SuperNova/Engine/source/Assets/ShaderParser/Lexer.cpp:184-190 | as written, after " \n" the lexer is still on line 1 and after "\n\n" on line 2, although the texts hold one and two line breaks |
| Lexer.TokenAfterSpaceNewlineStaysOnFirstLine | SuperNova/Engine/source/Assets/ShaderParser/Lexer.cpp:36-70 | as written, the keyword after " \n" is reported on line 1 at column 0 |
| Lexer.SkipWhitespaceCountsLineBreaks | SuperNova/Engine/source/Assets/ShaderParser/Lexer.cpp:171-191 | with the corrected rule, skipping comment-free whitespace advances the line number by exactly the number of line breaks skipped, `\r\n` counting once |
| Lexer.IdentifierIffNotKeyword | SuperNova/Engine/source/Assets/ShaderParser/Lexer.cpp:118-166 | a word is classified `Identifier` exactly when it is not a key of the table |
| Lexer.StatementKeywordsAreSpelledLikeTheirKinds | SuperNova/Engine/source/Assets/ShaderParser/Lexer.cpp:120-130 | the statement keywords are exactly the words classified as a statement kind, and each is spelled like the name of its kind |
| Lexer.ValueKindsFollowGroups | SuperNova/Engine/source/Assets/ShaderParser/Lexer.cpp:131-158 | each value kind is given to exactly the words of its group in the table |
| Lexer.ValueKeywordsAreEnumNames | SuperNova/Engine/source/Assets/ShaderParser/Lexer.cpp:131-158 | every blend-mode word is a blend factor name, the compare-function words are exactly the compare function names, and `Off` is the only cull mode name not classified `Value_CullMode` |
| Lexer.WordsAreNeverPunctuation | SuperNova/Engine/source/Assets/ShaderParser/Lexer.cpp:118-166 | no word is classified as punctuation, a number, a string, the end of file or undefined |
| Lexer.ScanAtom | SuperNova/Engine/source/Assets/ShaderParser/Lexer.cpp:238-250 | `Atom`: a token of exactly the character at the cursor, with the cursor's line and column, and the cursor one character further on the same line |
| Lexer.ScanIdentifier | SuperNova/Engine/source/Assets/ShaderParser/Lexer.cpp:252-270 | `Identifier`: the longest run of letters, digits and `_` from the cursor, of the kind the table gives that text |
| Lexer.NumberEnd | SuperNova/Engine/source/Assets/ShaderParser/Lexer.cpp:280-330 | the number literal is an optional sign, digits, and at most one fraction after a `.`; the character after it is not a digit, and is a `.` only if the literal already has one |
| Lexer.ScanNumber | SuperNova/Engine/source/Assets/ShaderParser/Lexer.cpp:272-346 | `Number`: succeeds exactly when the `i32` accumulators cannot overflow, and then is a `Value_String` token holding the literal; a following `e` or `E` is consumed exactly when present and never part of the token |
| Lexer.AccumulatorsFit | SuperNova/Engine/source/Assets/ShaderParser/Lexer.cpp:297-327 | the three `i32` accumulators stay in range exactly when the integer digits denote at most `I32Max - '0'` and the fraction has at most nine digits |
| Lexer.IntegerOverflowExample | SuperNova/Engine/source/Assets/ShaderParser/Lexer.cpp:297-305 | the literal `12345678901` overflows the integer accumulator, so it is not scanned |
| Lexer.FractionOverflowExample | SuperNova/Engine/source/Assets/ShaderParser/Lexer.cpp:311-327 | the literal `0.0000000001` overflows the fraction divisor, so it is not scanned |
| Lexer.StringBodyEnd | SuperNova/Engine/source/Assets/ShaderParser/Lexer.cpp:354-365 | a string body runs to the next `"` or the end of the text, and holds no `"`; it reads past the end exactly when the text ends in a backslash inside the string |
| Lexer.ScanString | SuperNova/Engine/source/Assets/ShaderParser/Lexer.cpp:348-381 | `String`: the token is the text between the opening quote and the next quote, starting one column after the quote; the closing quote is consumed when present |
| Lexer.ScanSignificant | SuperNova/Engine/source/Assets/ShaderParser/Lexer.cpp:49-70 | dispatch on the significant character, in both directions: `{`, `}` and `,` give their punctuation token, a letter a word, a digit or `-` a number, `"` a string, and any other character a one-character `Undefined` token; every token stays on the line and lies in the text, and word tokens carry the kind the table gives their text |
| Lexer.Scan | SuperNova/Engine/source/Assets/ShaderParser/Lexer.cpp:36-70 | `NextToken` without a peeked token: the token is the end of file exactly when only whitespace and comments remain, and is then empty at the end of the text; any other token has the kind the significant character dispatches to, and moves the cursor forward; punctuation starts right after the skipped whitespace |
| Lexer.EndOfFileToken | SuperNova/Engine/source/Assets/ShaderParser/Lexer.cpp:38-46 | the end-of-file token is empty and lies at the end of the text |
| Lexer.EndOfFileRepeats | SuperNova/Engine/source/Assets/ShaderParser/Lexer.cpp:36-47 | from any cursor after which only whitespace and comments remain, the next token is the end of file at the end of the text, and scanning again gives the same token and cursor |
| Lexer.NewLexer | SuperNova/Engine/source/Assets/ShaderParser/Lexer.cpp:17-23 | a new lexer starts at the beginning of the text, on line 1, column 1, with nothing peeked |
| Lexer.NextToken | SuperNova/Engine/source/Assets/ShaderParser/Lexer.cpp:26-71 | a peeked token is handed out once without scanning; otherwise the token lies at or after the cursor and the lexer resumes at or behind its end, right behind it for punctuation; the lexer stays valid, never moves back, and moves on for every token but the end of file |
| Lexer.NextTokenScans | SuperNova/Engine/source/Assets/ShaderParser/Lexer.cpp:26-71 | without a peeked token, `NextToken` fails exactly when scanning does, and otherwise hands out the scanned token and resumes where scanning stopped |
| Lexer.PeekNextToken | SuperNova/Engine/source/Assets/ShaderParser/Lexer.cpp:73-83 | peeking yields exactly the token `NextToken` would return, and remembers it |
| Lexer.Advance | SuperNova/Engine/source/Assets/ShaderParser/Lexer.cpp:85-91 | `Advance` drops the peeked token and leaves the cursor where it is |
| Lexer.PeekIsIdempotent | SuperNova/Engine/source/Assets/ShaderParser/Lexer.cpp:73-83 | peeking twice is the same as peeking once |
| Lexer.NextAfterPeek | SuperNova/Engine/source/Assets/ShaderParser/Lexer.cpp:26-34 | after a peek, `NextToken` returns the same token and lexer as it would have without the peek |
| Lexer.AdvanceAfterPeek | SuperNova/Engine/source/Assets/ShaderParser/Lexer.cpp:73-91 | peeking and then advancing leaves the lexer where taking the next token leaves it |
| Lexer.ExpectToken | SuperNova/Engine/source/Assets/ShaderParser/Lexer.cpp:93-102 | the next token when it has the expected kind; otherwise the `UnexpectedTokenType` error for that token |
| Lexer.ExpectEither | SuperNova/Engine/source/Assets/ShaderParser/Lexer.cpp:104-113 | the next token when it has either kind; otherwise the two-kind `UnexpectedTokenType` error |
| ShaderParserUtils.DecimalRoundTrip | SuperNova/Engine/source/Assets/ShaderParser/ShaderParserUtils.cpp:17-22 | the decimal rendering of a line or column number reads back as that number |
| ShaderParserUtils.DecimalInjective | SuperNova/Engine/source/Assets/ShaderParser/ShaderParserUtils.cpp:17-22 | distinct numbers render differently |
| ShaderParserUtils.MakeFormattedError | SuperNova/Engine/source/Assets/ShaderParser/ShaderParserUtils.cpp:15-24 | an error message is the specific text followed by the token's position suffix |
| ShaderParserUtils.PositionSuffixInjective | SuperNova/Engine/source/Assets/ShaderParser/ShaderParserUtils.cpp:17-22 | the position suffix determines the token's line and column |
| ShaderParserUtils.ErrorsEndWithPosition | SuperNova/Engine/source/Assets/ShaderParser/ShaderParserUtils.cpp:30-57 | each of the four `MakeError` errors ends with the received token's position; an unexpected identifier is quoted by its own text |
| ShaderParser.LastEntryWins | SuperNova/Engine/source/Assets/ShaderParser/ShaderParser.cpp:129-155 | a State block sets each field to the value of its last entry of that kind, and leaves fields without an entry at their default |
| ShaderParser.BlendFactorOfToken | SuperNova/Engine/source/Assets/ShaderParser/ShaderParser.cpp:160-161 | converting a `Value_BlendMode` token gives the blend factor whose name is the token's text |
| ShaderParser.CompareFunctionOfToken | SuperNova/Engine/source/Assets/ShaderParser/ShaderParser.cpp:187-188 | converting a `Value_DepthCompareFunction` token gives the compare function whose name is the token's text |
| ShaderParser.CullModeOfToken | SuperNova/Engine/source/Assets/ShaderParser/ShaderParser.cpp:181-182 | converting a `Value_CullMode` or `Value_Off` token gives the cull mode whose name is the token's text, never the fall-back |
| ShaderParser.ParseBlendFactor | SuperNova/Engine/source/Assets/ShaderParser/ShaderParser.cpp:160 | one blend factor: succeeds exactly when the next token is a `Value_BlendMode`, and names that token's factor |
| ShaderParser.ParseBlendStateValue | SuperNova/Engine/source/Assets/ShaderParser/ShaderParser.cpp:157-177 | two colour factors; after a comma two alpha factors, without one the alpha factors repeat the colour factors |
| ShaderParser.ParseCullModeValue | SuperNova/Engine/source/Assets/ShaderParser/ShaderParser.cpp:179-183 | succeeds exactly when the next token is `Value_CullMode` or `Value_Off`, with the mode that token names |
| ShaderParser.ParseDepthCompareFunctionValue | SuperNova/Engine/source/Assets/ShaderParser/ShaderParser.cpp:185-189 | succeeds exactly when the next token is `Value_DepthCompareFunction`, with the function that token names |
| ShaderParser.ParseStateValue | SuperNova/Engine/source/Assets/ShaderParser/ShaderParser.cpp:144-151 | the entry read after a State key is of the key's kind, and it is exactly the result of the value parser that key's `case` calls (`ParseBlendStateValue`, `ParseCullModeValue` or `ParseDepthCompareFunctionValue`), failing exactly when that parser fails |
| ShaderParser.ParseStateEntries | SuperNova/Engine/source/Assets/ShaderParser/ShaderParser.cpp:135-151 | the entries of a State block: none exactly when `}` comes next; otherwise the first entry is `ParseStateValue`'s result for the key that comes next, and the remaining entries are what the loop parses from behind that value |
| ShaderParser.StateEntriesEndOrReject | SuperNova/Engine/source/Assets/ShaderParser/ShaderParser.cpp:135-151 | a State block ends at `}`; any token other than `}` or a State key is rejected with the unexpected-token error |
| ShaderParser.ParseShaderState | SuperNova/Engine/source/Assets/ShaderParser/ShaderParser.cpp:129-155 | `{`, the entries, `}`; the state is `ShaderState::Default()` with the entries applied in order |
| ShaderParser.UnterminatedStateBlockReportsBrace | SuperNova/Engine/source/Assets/ShaderParser/ShaderParser.cpp:137-150 | a State block cut off by the end of the file is reported as "Unexpected '{'", the name the token-type table gives the end of file |
| ShaderParser.MatchBraces | SuperNova/Engine/source/Assets/ShaderParser/ShaderParser.cpp:104-123 | the tokens consumed are the ones the lexer hands out in turn, and form a balanced run: no end of file, the count of open braces stays positive before the last token and reaches zero at it; the end of the file first is an error |
| ShaderParser.BalancedRunUnique | SuperNova/Engine/source/Assets/ShaderParser/ShaderParser.cpp:104-123 | at most one balanced run follows a lexer state, with one resume point |
| ShaderParser.MatchBracesReturnsTheBalancedRun | SuperNova/Engine/source/Assets/ShaderParser/ShaderParser.cpp:104-123 | whenever `MatchBraces` succeeds, any balanced run read from the same state is the one it returned, so it stops at the matching `}` and not at an earlier one |
| ShaderParser.BalancedRunEndsWithClose | SuperNova/Engine/source/Assets/ShaderParser/ShaderParser.cpp:115-122 | a balanced run from at least one open brace ends with a `}` |
| ShaderParser.BalancedRunReadCloses | SuperNova/Engine/source/Assets/ShaderParser/ShaderParser.cpp:104-123 | the last token of a balanced run the lexer reads is a `}` character of the text after the cursor, and the lexer resumes right behind it |
| ShaderParser.ParseShaderStage | SuperNova/Engine/source/Assets/ShaderParser/ShaderParser.cpp:99-126 | a stage is a `{` and the run `MatchBraces` returns after it; the source is exactly the text strictly between that `{` and the `}` that ends the run, and the lexer resumes behind the `}` |
| ShaderParser.StageAfterBrace | SuperNova/Engine/source/Assets/ShaderParser/ShaderParser.cpp:104-125 | after the `{`, the stage succeeds exactly when the braces match, and its source runs from behind the `{` to before the closing `}` |
| ShaderParser.StageBodyIsBalancedRun | SuperNova/Engine/source/Assets/ShaderParser/ShaderParser.cpp:99-126 | the tokens of a parsed stage after its `{` are a balanced run the lexer reads, ending where parsing resumes |
| ShaderParser.StageBracesAround | SuperNova/Engine/source/Assets/ShaderParser/ShaderParser.cpp:101-125 | after a `{`, the matched run ends at a `}` character of the same text, later than the `{`, with the lexer right behind it |
| ShaderParser.StageParsesIffBracesMatch | SuperNova/Engine/source/Assets/ShaderParser/ShaderParser.cpp:99-126 | a stage parses exactly when a `{` comes next and the braces after it match |
| ShaderParser.ParseBodyItems | SuperNova/Engine/source/Assets/ShaderParser/ShaderParser.cpp:43-87 | a block found once is never replaced |
| ShaderParser.BodyItemsStoreNewBlocks | SuperNova/Engine/source/Assets/ShaderParser/ShaderParser.cpp:56-82 | a State, Vertex or Fragment block not yet found is parsed by `ParseShaderState` or `ParseShaderStage`: its failure is the body's failure, otherwise the loop continues behind it with the block recorded, and a body that parses holds exactly that parser's result |
| ShaderParser.BodyItemsStopOrReject | SuperNova/Engine/source/Assets/ShaderParser/ShaderParser.cpp:45-86 | the body ends at `}`; the end of the file, a State, Vertex or Fragment block found a second time, and any other token are errors with the engine's messages |
| ShaderParser.ParseShaderBody | SuperNova/Engine/source/Assets/ShaderParser/ShaderParser.cpp:35-97 | a parsed body has both stages; a missing vertex stage is reported before a missing fragment stage |
| ShaderParser.ParseShaderName | SuperNova/Engine/source/Assets/ShaderParser/ShaderParser.cpp:27-33 | the name is the text of the token after the `Shader` keyword, which must be a `Value_String` |
| ShaderParser.Parse | SuperNova/Engine/source/Assets/ShaderParser/ShaderParser.cpp:14-24 | a parsed description has the parsed name, the body's stages and State block (or the unset state), and the end of file follows the body |
| RenderGraph.EmptyGraphIsValid | SuperNova/Engine/source/Renderer/RenderGraph.cpp:84-98 | a graph with no passes and no textures satisfies the invariant: interned names, creator and reader links that agree with the nodes' lists |
| RenderGraph.GetRenderTextureID | SuperNova/Engine/source/Renderer/RenderGraph.cpp:137-155 | a known name keeps its ID; a new name gets the next ID and an access entry with neither creator nor reader; the old IDs and the nodes do not change |
| RenderGraph.GetRenderTextureIDKeepsValid | SuperNova/Engine/source/Renderer/RenderGraph.cpp:137-155 | interning a texture name keeps the invariant, and the ID indexes the access table |
| RenderGraph.GetRenderTextureIDIsIdempotent | SuperNova/Engine/source/Renderer/RenderGraph.cpp:137-155 | asking for the same name twice gives the same ID and changes nothing the second time |
| RenderGraph.CreateTexture | SuperNova/Engine/source/Renderer/RenderGraph.cpp:113-122 | succeeds exactly when the texture has no creator yet; then the pass is its creator and the texture is appended to the pass's create list |
| RenderGraph.CreateTextureKeepsValid | SuperNova/Engine/source/Renderer/RenderGraph.cpp:113-122 | creating a texture keeps the invariant |
| RenderGraph.ReadTexture | SuperNova/Engine/source/Renderer/RenderGraph.cpp:124-134 | succeeds exactly when the texture has no reader and the pass reads nothing yet; then each records the other |
| RenderGraph.ReadTextureKeepsValid | SuperNova/Engine/source/Renderer/RenderGraph.cpp:124-134 | reading a texture keeps the invariant |
| RenderGraph.Schedule | SuperNova/Engine/source/Renderer/RenderGraph.cpp:96-97 | a pass's scheduling calls never add or rename passes |
| RenderGraph.ScheduleKeepsValid | SuperNova/Engine/source/Renderer/RenderGraph.cpp:96-97 | any successful sequence of scheduling calls keeps the invariant |
| RenderGraph.AddRenderPass | SuperNova/Engine/source/Renderer/RenderGraph.cpp:84-98 | a registered name trips the assertion; a new one gets the next pass ID and a node of that name |
| RenderGraph.AddRenderPassKeepsValid | SuperNova/Engine/source/Renderer/RenderGraph.cpp:84-98 | adding a pass keeps the invariant |
| RenderGraph.WalkFrom | SuperNova/Engine/source/Renderer/RenderGraph.cpp:34-57 | the loop of `Build` follows each pass to the creator of the texture it reads, starting at the given pass |
| RenderGraph.WalkFromFindsEveryWalk | SuperNova/Engine/source/Renderer/RenderGraph.cpp:34-57 | every finite walk is the one the loop follows |
| RenderGraph.WalkVisitsNoPassTwice | SuperNova/Engine/source/Renderer/RenderGraph.cpp:34-57 | a walk that ends never visits a pass twice |
| RenderGraph.WalkFuelSuffices | SuperNova/Engine/source/Renderer/RenderGraph.cpp:34-57 | a bound of one step per pass loses no walk, so a walk that needs more is the engine's endless loop |
| RenderGraph.ReversedWalkRunsCreatorsFirst | SuperNova/Engine/source/Renderer/RenderGraph.cpp:59-67 | popping the stack of walked passes runs each pass right after the pass that creates what it reads |
| RenderGraph.Push | SuperNova/Engine/source/Renderer/RenderGraph.cpp:46-50 | a push appends to the texture's own usage stack and leaves every other stack alone |
| RenderGraph.PushWalkStacks | SuperNova/Engine/source/Renderer/RenderGraph.cpp:44-50 | the pushes along a walk leave on each stack exactly the uses the passes of the walk make of that texture |
| RenderGraph.Build | SuperNova/Engine/source/Renderer/RenderGraph.cpp:29-74 | the order is the walk from the output's creator, reversed; the output's creator runs last; each usage stack holds the walk's uses; an unknown output name is entered with ID 0 |
| RenderGraph.BuildFindsEveryWalk | SuperNova/Engine/source/Renderer/RenderGraph.cpp:29-67 | `Build` succeeds for every walk from the output's creator and returns it reversed |
| RenderGraph.Execute | SuperNova/Engine/source/Renderer/RenderGraph.cpp:76-82 | the passes are rendered once each, in the built order |
| RenderGraph.ExecuteRunsCreatorsFirst | SuperNova/Engine/source/Renderer/RenderGraph.cpp:29-82 | after a build the first pass rendered reads nothing, each pass is followed by the pass that reads what it creates, and the last pass creates the output |
| RenderGraph.UsesByUnderValid | SuperNova/Engine/source/Renderer/RenderGraph.cpp:44-50 | under the invariant a pass uses a texture once as its creator, then once as its reader |
| RenderGraph.WalkUsesOfRead | SuperNova/Engine/source/Renderer/RenderGraph.cpp:44-57 | on a walk, a texture that a pass reads is pushed `Read` then `Create`, by no other pass |
| RenderGraph.WalkUsesOfStart | SuperNova/Engine/source/Renderer/RenderGraph.cpp:34-57 | the output texture is pushed a single `Create` |
| RenderGraph.BuiltStacks | SuperNova/Engine/source/Renderer/RenderGraph.cpp:29-57 | after a build each texture a pass reads has `Create` under `Read` on its stack, and a known output has the single `Create` |
| RenderGraph.TwoPassCycleDiverges | SuperNova/Engine/source/Renderer/RenderGraph.cpp:34-57 | two passes that read each other's texture form a valid graph on which `Build` never ends |
| RenderGraph.GetRenderTexture | SuperNova/Engine/source/Renderer/RenderGraph.cpp:171-174 | the lookup succeeds exactly for names a texture was created for, with that texture's handle |
| RenderGraph.CreateRenderTexture | SuperNova/Engine/source/Renderer/RenderGraph.cpp:187-217 | the description carries the name, size and format, and asks for a shader-readable texture exactly when some pass reads it; the backend's handle is recorded under the name and mapped to the texture's ID |
| RenderGraph.LoadActionFor | SuperNova/Engine/source/Renderer/RenderGraph.cpp:271-280 | an attachment that starts in the render layout is cleared; one that starts sampled is loaded |
| RenderGraph.CreateAttachmentDesc | SuperNova/Engine/source/Renderer/RenderGraph.cpp:242-294 | pops the texture's top use: it starts in the render layout exactly when that use was its creation, and ends there exactly when no use remains; it keeps its contents exactly when it ends sampled; an empty stack is undefined, and a creation left below trips the assertion |
| RenderGraph.CreateColorAttachments | SuperNova/Engine/source/Renderer/RenderGraph.cpp:229-232 | one attachment per colour handle, in order |
| RenderGraph.CreateRenderPass | SuperNova/Engine/source/Renderer/RenderGraph.cpp:219-239 | one attachment per colour handle, in order, a depth attachment exactly when one is given, and the subpass as passed |
| RenderGraph.SharedTextureAttachments | SuperNova/Engine/source/Renderer/RenderGraph.cpp:242-294 | a texture shared by two passes is cleared and kept by its creator, then loaded and discarded by its reader, which leaves it in the render layout |
| RenderGraph.OutputTextureAttachment | SuperNova/Engine/source/Renderer/RenderGraph.cpp:242-294 | the output texture is cleared, rendered and left in the render layout, its contents not kept |
| DXCommon.VertexFormatTableFollowsNames | SuperNova/Engine/source/Renderer/GpuApiCommon/DXCommon.cpp:25-86 | each entry of the vertex-format table is the DXGI format with the attribute's component width and kind and the requested number of components, except the missing three-component 8- and 16-bit formats |
| DXCommon.VertexAttributeFormat | SuperNova/Engine/source/Renderer/GpuApiCommon/DXCommon.cpp:23-93 | succeeds exactly for dimensions 1 to 4 without a missing three-component format, with the format of that width, kind and dimension; each failure trips its own assertion |
| DXCommon.WideFormatsAlwaysSupported | SuperNova/Engine/source/Renderer/GpuApiCommon/DXCommon.cpp:36-55 | the 32-bit formats are supported in every dimension |
| DXCommon.VertexInputAttribute | SuperNova/Engine/source/Renderer/GpuApiCommon/DXCommon.cpp:96-142 | an accepted semantic name names a semantic of the shader's layout (ImGui or engine); any other name trips an assertion |
| DXCommon.VertexInputAttributeAcceptsLayout | SuperNova/Engine/source/Renderer/GpuApiCommon/DXCommon.cpp:100-139 | every semantic of the layout is accepted under its own name |
| DXCommon.TriangleFrontFace | SuperNova/Engine/source/Renderer/GpuApiCommon/DXCommon.cpp:144-148 | ImGui triangles are never counter-clockwise-front; other shaders are exactly when their front face is counter-clockwise |
| DXCommon.TargetBlendOf | SuperNova/Engine/source/Renderer/DirectX12/DX12Backend.cpp:1203-1225 | blending is enabled exactly in blend-op mode, with the state's six factors and ops; the logic op exactly in logic-op mode; nothing when blending is off |
| DXCommon.TargetBlendKeepsEffectiveBlend | SuperNova/Engine/source/Renderer/DirectX12/DX12Backend.cpp:1203-1225 | two blend states give the same render-target description exactly when they agree on the mode and on the fields that mode uses |
| DXCommon.DepthStateOf | SuperNova/Engine/source/Renderer/DirectX12/DX12Backend.cpp:1192-1201 | depth test and depth write follow the state, the compare function is the state's, and stencil is off |
| DX12DescriptorHeap.NewDescriptorHeap | SuperNova/Engine/source/Renderer/DirectX12/DX12DescriptorHeap.cpp:25-63 | a new heap has handed out no descriptor of any kind |
| DX12DescriptorHeap.NextIsFresh | SuperNova/Engine/source/Renderer/DirectX12/DX12DescriptorHeap.cpp:66-76 | with a positive increment the next descriptor is one not yet handed out |
| DX12DescriptorHeap.AllocateRTV | SuperNova/Engine/source/Renderer/DirectX12/DX12DescriptorHeap.cpp:66-76 | succeeds exactly below the limit of 5 render-target views; the descriptor is the next slot after the start, and is new |
| DX12DescriptorHeap.AllocateDSV | SuperNova/Engine/source/Renderer/DirectX12/DX12DescriptorHeap.cpp:78-88 | succeeds exactly below the limit of 1 depth-stencil view; the descriptor is the next slot, and is new |
| DX12DescriptorHeap.AllocateSRV | SuperNova/Engine/source/Renderer/DirectX12/DX12DescriptorHeap.cpp:111-124 | succeeds exactly below the limit of 300 textures; the CPU and GPU descriptors lie at the same offset from their heap starts, and the CPU one is new |
| DX12DescriptorHeap.AllocateRTVs | SuperNova/Engine/source/Renderer/DirectX12/DX12DescriptorHeap.cpp:90-109 | a batch succeeds exactly when it fits under the limit as a whole, and hands out consecutive descriptors from the next free slot: what as many single allocations would |
| DX12DescriptorHeap.AllocateRTVTimesMatchesBatch | SuperNova/Engine/source/Renderer/DirectX12/DX12DescriptorHeap.cpp:66-109 | within the limit, `n` single allocations succeed exactly when the batch does, with the same descriptors and counter |
| DX12DescriptorHeap.AllocateRTVTimesWithinLimit | SuperNova/Engine/source/Renderer/DirectX12/DX12DescriptorHeap.cpp:66-76 | `n` single allocations, `n` at least one, succeed exactly when they fit under the limit |
| DX12DescriptorHeap.AllocatorsAreIndependent | SuperNova/Engine/source/Renderer/DirectX12/DX12DescriptorHeap.cpp:66-124 | allocating one kind of descriptor never changes the counters of the others |
| DX12Backend.AttachmentState | SuperNova/Engine/source/Renderer/DirectX12/DX12Backend.cpp:169-183 | rendering is the render-target state for a colour texture and the depth-write state otherwise; sampling and presenting are one state each |
| DX12Backend.BeginningAccessFor | SuperNova/Engine/source/Renderer/DirectX12/DX12Backend.cpp:185-194 | the load action `Load` preserves the contents and `Clear` clears them |
| DX12Backend.EndingAccessFor | SuperNova/Engine/source/Renderer/DirectX12/DX12Backend.cpp:196-204 | exactly the store action `Store` preserves the contents |
| DX12Backend.CreateRenderTexture | SuperNova/Engine/source/Renderer/DirectX12/DX12Backend.cpp:623-767 | a colour texture gets a new render-target view and starts as a render target, any other a depth-stencil view and starts depth-writable; only a texture some pass samples gets a shader view, the others deny shader access; the handle is new |
| DX12Backend.Transition | SuperNova/Engine/source/Renderer/DirectX12/DX12Backend.cpp:778-843 | an attachment gets a barrier at the start exactly when its initial layout is not rendering, from that layout's state into rendering, and one at the end exactly when its final layout is not rendering; a barrier always changes the state |
| DX12Backend.TransitionsCount | SuperNova/Engine/source/Renderer/DirectX12/DX12Backend.cpp:778-843 | there is one barrier per attachment that leaves or returns to a non-render layout, and no more |
| DX12Backend.TransitionsChangeState | SuperNova/Engine/source/Renderer/DirectX12/DX12Backend.cpp:778-843 | no barrier is issued for an attachment that stays in the render layout |
| DX12Backend.TransitionsOfConcatenation | SuperNova/Engine/source/Renderer/DirectX12/DX12Backend.cpp:778-843 | the barriers keep the order of the attachments |
| DX12Backend.CreateRenderPass | SuperNova/Engine/source/Renderer/DirectX12/DX12Backend.cpp:769-891 | the barriers are the colour attachments' then the depth attachment's; the subpass has one target per colour attachment, in order, and a depth target exactly when a depth attachment is given; the handle is new; an unregistered texture is undefined |
| DX12Backend.SharedTextureBarriersChain | SuperNova/Engine/source/Renderer/DirectX12/DX12Backend.cpp:778-843 | for a texture one pass creates and the next samples, the creator's end barrier leaves it in the sampling state the reader's start barrier expects |
| DX12Backend.SwapchainFrames | SuperNova/Engine/source/Renderer/DirectX12/DX12Backend.cpp:1401-1446 | each iteration of the swapchain loop registers one render texture and one render pass |
| DX12Backend.SwapchainFramesRegisters | SuperNova/Engine/source/Renderer/DirectX12/DX12Backend.cpp:1401-1446 | back buffer `j` gets the render texture and the render pass `j` places past the counters, its own view and a pass over it |
| DX12Backend.SwapchainStepCreatesPass | SuperNova/Engine/source/Renderer/DirectX12/DX12Backend.cpp:1420-1445 | an iteration does what registering the back buffer's texture and calling `CreateRenderPass` with the present-to-present description does |
| DX12Backend.SwapchainFramesKeeps | SuperNova/Engine/source/Renderer/DirectX12/DX12Backend.cpp:1401-1446 | the loop keeps every registered handle below the handle counters |
| DX12Backend.CreateSwapchain | SuperNova/Engine/source/Renderer/DirectX12/DX12Backend.cpp:1395-1446 | the swapchain handles are the next texture and pass handles; one texture and one pass per back buffer; the views come from one batch, which trips the RTV limit assertion when it does not fit |
| DX12Backend.BeginRenderPass | SuperNova/Engine/source/Renderer/DirectX12/DX12Backend.cpp:497-532 | the swapchain handle selects the current back buffer's pass; the initial barriers are recorded, then the pass over its targets; an unknown handle begins an empty pass |
| DX12Backend.EndRenderPass | SuperNova/Engine/source/Renderer/DirectX12/DX12Backend.cpp:552-563 | the pass is closed, then its final barriers are recorded |
| DX12Backend.SwapchainPassPerBackBuffer | SuperNova/Engine/source/Renderer/DirectX12/DX12Backend.cpp:497-563 | while back buffer `frame` is current, beginning and ending the swapchain pass moves that buffer from presenting to rendering and back, around a pass that clears and keeps it |
| DX12Backend.SwapchainRegistersFrame | SuperNova/Engine/source/Renderer/DirectX12/DX12Backend.cpp:1395-1446 | after `CreateSwapchain`, back buffer `frame` has the texture and pass `frame` places past the swapchain handles, and the `frame`-th view of the batch |
| DX12Backend.CreatedPassIsBegunAsCreated | SuperNova/Engine/source/Renderer/DirectX12/DX12Backend.cpp:497-563 | a pass created after the swapchain is begun as created, with exactly its barriers around its targets |
| DX12Backend.CreateTexture | SuperNova/Engine/source/Renderer/DirectX12/DX12Backend.cpp:999-1148 | a texture gets a new shader-resource view and the next texture handle; past the limit the SRV assertion trips |
| DX12Backend.CreateShader | SuperNova/Engine/source/Renderer/DirectX12/DX12Backend.cpp:1150-1276 | the pipeline's front face, depth state and blend targets follow the description, every one of the simultaneous render targets gets the same blend, independent blending is off, and the handle is new |
| DX11Backend.ClearFlagsFor | SuperNova/Engine/source/Renderer/Directx11/DX11Backend.cpp:28-38 | a colour texture has no depth-stencil clear flags; the depth bit is set for the depth types and the stencil bit for the stencil types |
| DX11Backend.ClearFlagsDetermineType | SuperNova/Engine/source/Renderer/Directx11/DX11Backend.cpp:28-38 | the clear flags tell the four texture types apart |
| DX11Backend.TriangleFrontFace | SuperNova/Engine/source/Renderer/Directx11/DX11Backend.cpp:115-118 | a front face is counter-clockwise for DirectX exactly when it is not clockwise |
| DX11Backend.TriangleFrontFaceAgreesWithCommon | SuperNova/Engine/source/Renderer/Directx11/DX11Backend.cpp:115-118 | outside ImGui, the backend's own front-face helper agrees with the shared one |
| DX11Backend.LookupRenderTexture | SuperNova/Engine/source/Renderer/Directx11/DX11Backend.cpp:494 | looking a handle up inserts a null texture for an unknown handle, and changes what no handle reads as |
| DX11Backend.CreateRenderTexture | SuperNova/Engine/source/Renderer/Directx11/DX11Backend.cpp:393-486 | a colour texture is bound and viewed as a render target, any other as a depth stencil; it is bound and viewed as a shader resource exactly when some pass samples it; the handle is new |
| DX11Backend.CreatedBindMask | SuperNova/Engine/source/Renderer/Directx11/DX11Backend.cpp:393-486 | the bind mask has exactly one of the render-target and depth-stencil bits, plus the shader-resource bit exactly for sampled textures |
| DX11Backend.NativeRenderTexture | SuperNova/Engine/source/Renderer/Directx11/DX11Backend.cpp:277-282 | the texture's shader view; a missing one trips the assertion |
| DX11Backend.NativeRenderTextureOfCreated | SuperNova/Engine/source/Renderer/Directx11/DX11Backend.cpp:277-282 | a render texture can be handed out as a shader view exactly when it was created for sampling |
| DX11Backend.AppendColorAttachmentsInOrder | SuperNova/Engine/source/Renderer/Directx11/DX11Backend.cpp:492-497 | the loop appends every named texture and its render-target view, in the order named |
| DX11Backend.AppendColorAttachmentsKeepsTextures | SuperNova/Engine/source/Renderer/Directx11/DX11Backend.cpp:492-497 | the loop changes what no handle reads as |
| DX11Backend.CreateRenderPass | SuperNova/Engine/source/Renderer/Directx11/DX11Backend.cpp:488-514 | colour textures and their views in the order named; the depth texture and clear flags that follow its type, or no depth-stencil flags without one; the handle is new |
| DX11Backend.CreateSwapchainRenderPass | SuperNova/Engine/source/Renderer/Directx11/DX11Backend.cpp:875-891 | the swapchain pass is registered under the next render-pass handle, over the back buffer, with no depth-stencil flags |
| DX11Backend.ColorClears | SuperNova/Engine/source/Renderer/Directx11/DX11Backend.cpp:317-324 | the colour clears are clears of render-target views, at most one per attachment |
| DX11Backend.ColorClearsMatchAttachments | SuperNova/Engine/source/Renderer/Directx11/DX11Backend.cpp:317-324 | exactly one clear per attachment that loads with `Clear`, and a view is cleared only if such an attachment has it |
| DX11Backend.BeginRenderPass | SuperNova/Engine/source/Renderer/Directx11/DX11Backend.cpp:303-336 | the colour views are bound, and the depth view exactly when the pass has clear flags; the clearing colour attachments are cleared; the depth view is cleared when bound and loaded with `Clear`; an unknown handle begins an empty pass |
| DX11Backend.DepthBindingOfCreatedPass | SuperNova/Engine/source/Renderer/Directx11/DX11Backend.cpp:303-336 | a depth-type texture in the depth slot is bound with its view and cleared with depth flags exactly when it loads with `Clear`; a colour texture in the depth slot binds no depth view |
| DX11Backend.SwapchainPassClearsBackBuffer | SuperNova/Engine/source/Renderer/Directx11/DX11Backend.cpp:303-336 | beginning the swapchain pass binds the back buffer without a depth view and clears it |
| DX11Backend.CreateShader | SuperNova/Engine/source/Renderer/Directx11/DX11Backend.cpp:631-768 | only ImGui's shader has clockwise front faces and the scissor test; depth writes and the blend or logic op of render target 0 follow the description; independent blending is off; the handle is new |
| DXAgreement.ShaderStatesAgree | SuperNova/Engine/source/Renderer/Directx11/DX11Backend.cpp:640-720 | the two DirectX backends build the same depth state and the same blend for render target 0; their front faces agree exactly for ImGui's shader and for counter-clockwise descriptions, since DirectX 11 ignores the description's front face |
| GLBackend.DepthStencilAttachmentPoint | SuperNova/Engine/source/Renderer/OpenGL/GLBackend.cpp:29-34 | a colour texture has no depth-stencil attachment point; every other type has one |
| GLBackend.DepthStencilTypeFor | SuperNova/Engine/source/Renderer/OpenGL/GLBackend.cpp:414-419 | the switch sets a depth-stencil type exactly for the depth, stencil and depth-stencil attachment points |
| GLBackend.DepthStencilTypeFollowsTextureType | SuperNova/Engine/source/Renderer/OpenGL/GLBackend.cpp:29-41 | through the attachment point each depth-stencil texture type gives its own pass type, one to one; a colour texture leaves the type indeterminate |
| GLBackend.Construct | SuperNova/Engine/source/Renderer/OpenGL/GLBackend.cpp:126-176 | the swapchain pass, over the default framebuffer with one colour attachment and no depth-stencil, is registered under the next render-pass handle; there is no engine shader yet |
| GLBackend.Touch | SuperNova/Engine/source/Renderer/OpenGL/GLBackend.cpp:382 | indexing the texture table inserts missing handles as null textures and changes no existing entry |
| GLBackend.CreateRenderTexture | SuperNova/Engine/source/Renderer/OpenGL/GLBackend.cpp:340-370 | the driver object is a renderbuffer exactly when the texture is never sampled; its attachment point follows its type; the handle is new |
| GLBackend.NativeRenderTextureOfCreated | SuperNova/Engine/source/Renderer/OpenGL/GLBackend.cpp:179-182 | the native object of a created render texture is the driver object it was created with |
| GLBackend.NativeRenderTexture | SuperNova/Engine/source/Renderer/OpenGL/GLBackend.cpp:179-182 | the driver object behind a handle; an unknown handle is inserted as the null texture, whose object name is 0 |
| GLBackend.OnePerAttachmentBindsEach | SuperNova/Engine/source/Renderer/OpenGL/GLBackend.cpp:380-394 | with one attachment point per colour attachment, every colour attachment is bound at its own point and nowhere else |
| GLBackend.AllToFirstKeepsOnlyLast | SuperNova/Engine/source/Renderer/OpenGL/GLBackend.cpp:380-394 | as written, every colour attachment is bound at `GL_COLOR_ATTACHMENT0`, so only the last one stays bound |
| GLBackend.AllToFirstDropsFirstTarget | SuperNova/Engine/source/Renderer/OpenGL/GLBackend.cpp:380-394 | as written, with two colour attachments the first is bound nowhere; with one point per attachment both are |
| GLBackend.TexturesAt | SuperNova/Engine/source/Renderer/OpenGL/GLBackend.cpp:380-394 | the colour attachments a pass records are the textures its handles name, in order |
| GLBackend.CreateRenderPass | SuperNova/Engine/source/Renderer/OpenGL/GLBackend.cpp:372-430 | the pass records its framebuffer, its colour attachments in order and its depth-stencil attachment bound at that texture's point, with the type the switch derives; the handle is new; missing handles are inserted as null textures |
| GLBackend.ColorClearsExactly | SuperNova/Engine/source/Renderer/OpenGL/GLBackend.cpp:258-269 | exactly the colour attachments that load by clearing are cleared, in ascending draw-buffer order |
| GLBackend.BeginRenderPass | SuperNova/Engine/source/Renderer/OpenGL/GLBackend.cpp:250-300 | binds the pass's framebuffer, clears the clearing colour attachments, then clears the depth-stencil attachment by its type; an indeterminate type is undefined and an unknown one trips the assertion; an unknown handle begins the null pass |
| GLBackend.CreatedPassBegins | SuperNova/Engine/source/Renderer/OpenGL/GLBackend.cpp:250-300 | a pass created by `CreateRenderPass` begins without fault exactly when it has no depth-stencil attachment or that attachment is not a colour texture |
| GLBackend.SwapchainPassBegins | SuperNova/Engine/source/Renderer/OpenGL/GLBackend.cpp:163-175 | beginning the swapchain pass binds the default framebuffer and clears its colour buffer |
| GLBackend.CreateShader | SuperNova/Engine/source/Renderer/OpenGL/GLBackend.cpp:455-466 | the shader is registered under the next handle, and becomes the engine shader exactly when it is named "Engine/Main" |
| GLBackend.EngineShaderIsLastNamed | SuperNova/Engine/source/Renderer/OpenGL/GLBackend.cpp:455-466 | after a sequence of creations the engine shader is the last one created under the engine shader's name, or unchanged when there was none |
| GLBackend.LastNamedIsLast | SuperNova/Engine/source/Renderer/OpenGL/GLBackend.cpp:460-463 | the search for the engine shader finds exactly the last description with its name |
| GLBackend.BindShader | SuperNova/Engine/source/Renderer/OpenGL/GLBackend.cpp:314-318 | binding a registered shader makes that shader's calls, with `GLShader.Bind` as written; an unknown handle inserts a default shader whose states are indeterminate |
| GLBackend.CreatedShaderTakesEffect | SuperNova/Engine/source/Renderer/OpenGL/GLBackend.cpp:314-318 | binding a shader just created makes the context's effective state exactly that shader's unless the shader blends and an earlier bind left the colour logic op enabled |
| GLShader.PolygonModeToGL | SuperNova/Engine/source/Renderer/OpenGL/GLShader.cpp:18-27 | fill becomes `GL_FILL` and wireframe `GL_LINE`, and nothing else does |
| GLShader.FrontFaceToGL | SuperNova/Engine/source/Renderer/OpenGL/GLShader.cpp:29-32 | clockwise becomes `GL_CW` and counter-clockwise `GL_CCW`, and nothing else does |
| GLShader.CompareFunctionToGLKeepsMeaning | SuperNova/Engine/source/Renderer/OpenGL/GLShader.cpp:35-49 | every engine comparison becomes the OpenGL comparison that passes on the same depth values |
| GLShader.BlendTranslationsAreInjective | SuperNova/Engine/source/Renderer/OpenGL/GLShader.cpp:52-86 | no two blend operations, and no two blend factors, share an OpenGL enumerant; only `Zero` and `One` become 0 and 1 |
| GLShader.LogicOpToGLKeepsMeaning | SuperNova/Engine/source/Renderer/OpenGL/GLShader.cpp:88-110 | every engine logic op becomes the OpenGL logic op with the same truth table |
| GLShader.RasterizerStateOf | SuperNova/Engine/source/Renderer/OpenGL/GLShader.cpp:132-147 | face culling is on exactly when the cull mode is not off, culling front faces exactly for `Front` and back faces exactly for `Back` |
| GLShader.BlendStateOf | SuperNova/Engine/source/Renderer/OpenGL/GLShader.cpp:158-185 | blending is on exactly in blend-op mode, with the translated equations and factors; the logic op exactly in logic-op mode; never both; everything zero when blending is off |
| GLShader.FromDesc | SuperNova/Engine/source/Renderer/OpenGL/GLShader.cpp:117-186 | the shader holds the linked program and the description's states, translated |
| GLShader.MoveConstruct | SuperNova/Engine/source/Renderer/OpenGL/GLShader.cpp:188-193 | the new shader takes the program and the states; the source is left with the invalid program and value-initialised states |
| GLShader.MoveAssign | SuperNova/Engine/source/Renderer/OpenGL/GLShader.cpp:195-203 | the target takes the source's program and states; the source is emptied as by the move constructor |
| GLShader.MoveRoundTrip | SuperNova/Engine/source/Renderer/OpenGL/GLShader.cpp:188-203 | moving a shader into a temporary and back restores it and leaves the temporary moved-from |
| GLShader.ExecuteConcatenation | SuperNova/Engine/source/Renderer/OpenGL/GLShader.cpp:206-257 | running two call lists one after the other is running their concatenation |
| GLShader.Bind | SuperNova/Engine/source/Renderer/OpenGL/GLShader.cpp:206-257 | binding starts with `glUseProgram` of the shader's program; a default-constructed shader's states are indeterminate, so binding it is undefined |
| GLShader.ExecuteRasterizerCalls | SuperNova/Engine/source/Renderer/OpenGL/GLShader.cpp:210-221 | the rasterizer calls set the polygon mode, the face-culling switch, the culled face when culling is on, and the front face |
| GLShader.ExecuteDepthStencilCalls | SuperNova/Engine/source/Renderer/OpenGL/GLShader.cpp:223-233 | with depth testing on, the depth test, mask and function are set; otherwise only the test is switched off |
| GLShader.ExecuteBlendCalls | SuperNova/Engine/source/Renderer/OpenGL/GLShader.cpp:235-256 | the blend calls touch only the blend and logic-op state; with blending on, the colour logic op stays as it was unless switched off exclusively; with a logic op it is enabled; with neither both are off |
| GLShader.ExecuteBlendEnabled | SuperNova/Engine/source/Renderer/OpenGL/GLShader.cpp:236-246 | with blending on, the context afterwards has blending enabled with the shader's equations and factors, and the logic op turned off only by the exclusive rule |
| GLShader.ExecuteBind | SuperNova/Engine/source/Renderer/OpenGL/GLShader.cpp:206-257 | the context after a bind is the program, then the rasterizer and depth calls, then the blend calls applied in order |
| GLShader.BindEffect | SuperNova/Engine/source/Renderer/OpenGL/GLShader.cpp:206-257 | a bind sets every part of what a draw does to the shader's states, except that an as-written bind of a blending shader keeps a colour logic op left enabled |
| GLShader.ExclusiveBindTakesEffect | SuperNova/Engine/source/Renderer/OpenGL/GLShader.cpp:235-256 | when blending and the logic op are switched exclusively, a draw after a bind does what the bound shader says, whatever earlier binds left |
| GLShader.AsWrittenBindTakesEffect | SuperNova/Engine/source/Renderer/OpenGL/GLShader.cpp:235-256 | as written, a bind takes effect exactly unless it binds a blending shader over a colour logic op an earlier shader left enabled |
| GLShader.AsWrittenLogicOpLeaksIntoBlending | SuperNova/Engine/source/Renderer/OpenGL/GLShader.cpp:236-251 | as written, binding an XOR logic-op shader and then an alpha-blending shader leaves the XOR in force for the second draw |
| VulkanBackend.FindMemoryTypeIndex | SuperNova/Engine/source/Renderer/Vulkan/VulkanBackend.cpp:2240-2253 | the index of the first memory type allowed by the resource's type bits whose property flags include all required flags; no earlier type qualifies; the assertion exactly when no type qualifies |
| VulkanBackend.SuitableQueueFamily | SuperNova/Engine/source/Renderer/Vulkan/VulkanBackend.cpp:2121-2170 | a device is suitable only when it is a discrete GPU with a queue family that supports both graphics and presentation; the first such family is picked; not suitable exactly when the device is not discrete or no family qualifies |
| VulkanBackend.ChoosePresentMode | SuperNova/Engine/source/Renderer/Vulkan/VulkanBackend.cpp:1269-1285 | the present mode is MAILBOX exactly when the surface lists MAILBOX, and FIFO otherwise |
| VulkanBackend.CreateSwapchain | SuperNova/Engine/source/Renderer/Vulkan/VulkanBackend.cpp:1226-1313 | swapchain creation succeeds exactly when the surface accepts `k_BackBufferFrames` images, its current width is not the 0xFFFFFFFF sentinel and the driver created exactly `k_BackBufferFrames` images; each failure raises its own assertion; on success the settings are that image count, the current extent and the chosen present mode |
| VulkanBackend.NextFrame | SuperNova/Engine/source/Renderer/Vulkan/VulkanBackend.cpp:508 | the frame index advances by one and wraps from the last back-buffer frame to frame 0, staying below `k_BackBufferFrames` |
| VulkanBackend.FrameAfterCycles | SuperNova/Engine/source/Renderer/Vulkan/VulkanBackend.cpp:236-508 | starting from frame 0, after n frames the current frame is n modulo `k_BackBufferFrames` |
| VulkanBackend.VertexSlices | SuperNova/Engine/source/Renderer/Vulkan/VulkanBackend.cpp:590-596 | each attribute's staging buffer holds the vertex bytes from its offset to the next attribute's offset, the last one to the end of the data; more than three attributes or a range running backwards or past the data is undefined behaviour |
| VulkanBackend.VertexSlicesTile | SuperNova/Engine/source/Renderer/Vulkan/VulkanBackend.cpp:590-596 | the attribute slices, concatenated in order, are exactly the vertex data from the first attribute's offset to the end |
| VulkanBackend.SlotsBelow | SuperNova/Engine/source/Renderer/Vulkan/VulkanBackend.cpp:563-564 | the staging slots below n are exactly the numbers 0 to n - 1, and there are n of them |
| VulkanBackend.DestroyAllFourTouchesUncreated | SuperNova/Engine/source/Renderer/Vulkan/VulkanBackend.cpp:764-768 | as written, the cleanup destroys only created staging buffers exactly when the layout has three attributes; with fewer it destroys buffers never created |
| VulkanBackend.DestroyCreatedMatches | SuperNova/Engine/source/Renderer/Vulkan/VulkanBackend.cpp:764-768 | destroying the attribute slots that were created plus the index slot destroys exactly the created staging buffers, one more than the number of attributes |
| VulkanBackend.TextureStagingSize | SuperNova/Engine/source/Renderer/Vulkan/VulkanBackend.cpp:786 | the staging size is Width * Height * 4 when the 32-bit product Width * Height does not wrap, and below 4 * 2^32 in any case |
| VulkanBackend.CreateTexture | SuperNova/Engine/source/Renderer/Vulkan/VulkanBackend.cpp:1001-1040 | the new texture's handle and descriptor-set index are the counter's value, and the counter moves on by one; a counter at `k_MaxTextureDescriptors` writes past the descriptor-set array, which is undefined behaviour |
| VulkanBackend.CreateTextureKeepsDescriptorsValid | SuperNova/Engine/source/Renderer/Vulkan/VulkanBackend.cpp:1001-1040 | creating a texture keeps every descriptor-set index inside the array and distinct from every other texture's |
| VulkanBackend.DescriptorsAreDistinct | SuperNova/Engine/source/Renderer/Vulkan/VulkanBackend.cpp:1001-1040 | under that invariant no two textures share a descriptor set, and every descriptor set lies inside the array |
| VulkanBackend.CreateTexturesWithinArray | SuperNova/Engine/source/Renderer/Vulkan/VulkanBackend.cpp:1898-1922 | creating textures one after another succeeds exactly when there are at most `k_MaxTextureDescriptors` of them, and then the handles are 0 to n - 1, each with a valid descriptor set of its own |
| AssetDatabase.Init | SuperNova/Engine/source/Assets/AssetDatabase.cpp:76-87 | the model directory and the three shader directories are the asset directory followed by `models/`, `shaders/gl/`, `shaders/vk/` and `shaders/dx/` |
| AssetDatabase.DirectoriesAreDistinct | SuperNova/Engine/source/Assets/AssetDatabase.cpp:76-87 | whatever the asset directory, the four derived directories are pairwise different |
| AssetDatabase.ShaderFilePaths | SuperNova/Engine/source/Assets/AssetDatabase.cpp:300-333 | the vertex and fragment stage files of a shader are different files |
| AssetDatabase.ShaderFilesIdentifyRequest | SuperNova/Engine/source/Assets/AssetDatabase.cpp:304-327 | a stage file names exactly one shader and one stage: two requests that read the same file asked for the same shader and stage, with the same graphics API or both DirectX ones |
| AssetDatabase.LoadAsset | SuperNova/Engine/source/Assets/AssetDatabase.cpp:93-115 | a cached path returns its asset without loading; otherwise the loader runs once, the result is cached under the path, and every other cache entry stays as it was |
| AssetDatabase.LoadAllOncePerPath | SuperNova/Engine/source/Assets/AssetDatabase.cpp:93-115 | from an empty cache, the loader runs once per distinct path, in the order of first request, and every request returns the one asset cached for its path |
| AssetDatabase.RepeatedPathSameAsset | SuperNova/Engine/source/Assets/AssetDatabase.cpp:93-115 | two requests for the same path return the same asset |
| AssetDatabase.LoadShaderOnce | SuperNova/Engine/source/Assets/AssetDatabase.cpp:117-126 | the first shader request loads the shader for its path and keeps it; every later request returns the kept shader |
| AssetDatabase.FirstShaderWins | SuperNova/Engine/source/Assets/AssetDatabase.cpp:117-126 | over any sequence of shader requests, every request returns the shader loaded for the first request's path |
| AssetDatabase.LoadTexture | SuperNova/Engine/source/Assets/AssetDatabase.cpp:261-295 | loading succeeds exactly for an image of 3 or 4 channels whose pixels load and fit; any other channel count raises the channel assertion; the texture is RGBA8 with Repeat wrapping, of the image's size, with Width * Height * 4 bytes |
| AssetDatabase.MaterialTexturePath | SuperNova/Engine/source/Assets/AssetDatabase.cpp:60-67 | the texture path of a slot is the first path of the slot actually read (as written always the diffuse slot); an empty slot raises the importer-lookup assertion |
| AssetDatabase.MaterialMap | SuperNova/Engine/source/Assets/AssetDatabase.cpp:356-389 | a slot without textures gives the fallback texture and leaves the cache as it was; a slot with textures gives a texture from a file, loaded through the cache |
| AssetDatabase.LoadMaterial | SuperNova/Engine/source/Assets/AssetDatabase.cpp:349-391 | a material keeps the importer's name and gets its first diffuse texture or the black fallback; with slot-correct lookups its normal map is its first normal texture or the default-normal fallback; as written a material with normal textures gets its diffuse texture as normal map, and one with normal but no diffuse textures aborts |
| AssetDatabase.GetAssimpMaterials | SuperNova/Engine/source/Assets/AssetDatabase.cpp:342-344 | a scene without materials raises the assertion |
| AssetDatabase.LoadMaterialsAsIntended | SuperNova/Engine/source/Assets/AssetDatabase.cpp:349-394 | with slot-correct lookups the materials come out in scene order, each with its own name, base-colour map and normal map as intended |
| AssetDatabase.AlwaysDiffuseUsesBaseColorAsNormalMap | SuperNova/Engine/source/Assets/AssetDatabase.cpp:60-67 | as written, a material with an albedo and a normal texture gets the albedo texture as its normal map |
| AssetDatabase.FlattenFaces | SuperNova/Engine/source/Assets/AssetDatabase.cpp:174-181 | the flattened index list has as many entries as all faces together |
| AssetDatabase.IndexBuffer | SuperNova/Engine/source/Assets/AssetDatabase.cpp:167-181 | the index buffer has room for three indices per face and holds the faces' indices in order; `indexCount` is their total; more indices than room, or a total beyond the `i32` range, is undefined behaviour |
| AssetDatabase.FlattenTriangles | SuperNova/Engine/source/Assets/AssetDatabase.cpp:174-181 | for triangle faces index 3f + k of the flattened list is corner k of face f |
| AssetDatabase.TriangulatedIndexBuffer | SuperNova/Engine/source/Assets/AssetDatabase.cpp:167-181 | for triangulated faces without overflow, `indexCount` is three per face and the buffer holds each face's three corners in order |
| AssetDatabase.VertexLayout | SuperNova/Engine/source/Assets/AssetDatabase.cpp:183-224 | the layout is Position, Normal and, when present, TexCoord0, each a three-component Float32 stream; without `ui32` wrap-around each offset is the bytes of the streams before it and the size is 12 bytes per vertex per stream |
| AssetDatabase.VertexData | SuperNova/Engine/source/Assets/AssetDatabase.cpp:227-248 | the vertex data has exactly the size the layout computed |
| AssetDatabase.VertexDataPacksStreams | SuperNova/Engine/source/Assets/AssetDatabase.cpp:183-248 | without wrap-around, the vertex data is the position, normal and texture-coordinate arrays back to back |
| AssetDatabase.LoadMesh | SuperNova/Engine/source/Assets/AssetDatabase.cpp:157-253 | a mesh without faces, positions or normals raises the assertion; a loaded mesh has the material at its index, `indexCount` equal to its face indices, and its vertex count converted to `i32` |
| AssetDatabase.LoadMeshes | SuperNova/Engine/source/Assets/AssetDatabase.cpp:157-256 | the model's meshes load exactly when each of them does, and then one renderer per mesh in order |
| AssetDatabase.LoadModel | SuperNova/Engine/source/Assets/AssetDatabase.cpp:129-259 | a path the importer cannot read raises the assertion; a loaded model has one renderer per mesh of the scene |
| AssetDatabase.InitDatabase | SuperNova/Engine/source/Assets/AssetDatabase.cpp:76-87 | a new database has consistent empty caches, the derived directories and no shader yet |
| AssetDatabase.LoadModelAsset | SuperNova/Engine/source/Assets/AssetDatabase.cpp:93-103 | a cached model path returns the cached model; a load keeps the database consistent and caches the model under its path, leaving the directories and the shader alone |
| AssetDatabase.LoadTextureAsset | SuperNova/Engine/source/Assets/AssetDatabase.cpp:105-115 | a cached texture path returns the cached texture; a load caches the texture under its path and leaves the models and the shader alone |
| AssetDatabase.LoadShaderAsset | SuperNova/Engine/source/Assets/AssetDatabase.cpp:117-126 | the database keeps the shader it returns; a kept shader is returned as it is, otherwise the shader files for the graphics API are read |
| Meshes.ToI32 | SuperNova/Engine/source/Assets/Mesh.cpp:21-25 | converting to `i32` gives a value in the `i32` range that is congruent to the input modulo 2^32, and leaves values already in range unchanged |
| Meshes.ToI32OfSum | SuperNova/Engine/source/Assets/Mesh.cpp:21-25 | converting an operand to `i32` before adding changes nothing once the sum is converted as well |
| Meshes.VertexDataElements | SuperNova/Engine/source/Assets/Mesh.cpp:21-25 | the running `i32` total of `vertexCount * Dimension * 4` over the layout is `vertexCount * 4 * ΣDimension` reduced to the `i32` range |
| Meshes.VertexDataElementsExact | SuperNova/Engine/source/Assets/Mesh.cpp:21-25 | when the byte count fits in an `i32`, the total is exactly `vertexCount * 4 * ΣDimension` |
| Meshes.Upload | SuperNova/Engine/source/Assets/Mesh.cpp:27-31 | the renderer is handed the first `indexCount` indices and the first `vertexDataElements` vertex bytes with the layout; a negative count or one beyond the data is undefined behaviour |
| Meshes.Construct | SuperNova/Engine/source/Assets/Mesh.cpp:11-32 | a constructed mesh owns the given data and counts and the buffer handle the renderer returns for that upload; it fails exactly when the upload does |
| Meshes.UploadedVertexBytes | SuperNova/Engine/source/Assets/Mesh.cpp:21-31 | when the byte count fits and the vertex data has exactly that many bytes, the whole vertex data is uploaded |
| Meshes.MoveConstruct | SuperNova/Engine/source/Assets/Mesh.cpp:34-40 | the new mesh holds everything the source held; the source is left with no data, counts of -1 and the invalid buffer handle |
| Meshes.MoveAssign | SuperNova/Engine/source/Assets/Mesh.cpp:42-51 | the target takes everything the source held; the source is left with no data, counts of -1 and the invalid buffer handle |
| Meshes.MoveRoundTrip | SuperNova/Engine/source/Assets/Mesh.cpp:34-51 | moving a mesh into a temporary and assigning it back restores it and leaves the temporary moved-from |
| ModelUpload.DimensionSumOfVectors | SuperNova/Engine/source/Assets/AssetDatabase.cpp:183-224 | a layout of three-component attributes has three components per attribute in total |
| ModelUpload.MeshByteCountMatchesVertexBufferSize | SuperNova/Engine/source/Assets/Mesh.cpp:21-25 | for any mesh the model loader accepts, the mesh's vertex byte count equals the `vertexBufferSize` the loader allocated |
| ModelUpload.ConcatSlice | SuperNova/Engine/source/Assets/AssetDatabase.cpp:227-248 | in streams of equal length packed back to back, stream i sits at offset i times the length |
| ModelUpload.VulkanSlicesAreImportedStreams | SuperNova/Engine/source/Renderer/Vulkan/VulkanBackend.cpp:590-596 | the Vulkan backend splits a loaded mesh's vertex bytes back into exactly the position, normal and texture-coordinate arrays the importer delivered |
| ModelUpload.LoadMeshUploadsImportedData | SuperNova/Engine/source/Assets/AssetDatabase.cpp:157-253 | a mesh whose streams and indices fit loads, with the material at its index and a GPU buffer created from the faces' indices in order and the attribute streams back to back |
| Input.InitialTable | source/Input/Keyboard.cpp:7 | a static action table starts with every entry `Release` |
| Input.PressedIffNotReleased | source/Input/Keyboard.cpp:17-25 | an entry is pressed exactly when it is not released |
| Input.ToI8 | source/Input/Keyboard.cpp:30 | `static_cast<InputAction>` keeps an action modulo 2^8 in the `i8` range, so an action already in that range is unchanged |
| Input.Store | source/Input/Keyboard.cpp:28-31 | storing an action sets that entry to the action wrapped to `i8` and leaves every other entry alone; an index outside the table is undefined behaviour |
| Input.StoredActionDecidesPressed | source/Input/Keyboard.cpp:17-31 | after storing a press, repeat or release, the entry is pressed exactly when the action was a press or a repeat |
| Input.StoreAllKeepsLastAction | source/Input/Keyboard.cpp:28-31 | a sequence of stores succeeds exactly when every event's index is inside the table, and then each entry holds the wrapped action of its last event, or its initial action |
| Keyboard.Initial | source/Input/Keyboard.cpp:7 | the key table starts with all 349 keys released |
| Keyboard.KeyCallback | source/Input/Keyboard.cpp:28-31 | as written, the key event stores its action, wrapped to `i8`, at the key code and leaves every other key alone; a code outside the 349-entry table is undefined behaviour; the scan code and the modifiers are ignored |
| Keyboard.KeyEventDecidesState | source/Input/Keyboard.cpp:10-31 | after a key event the key is pressed exactly for a press or repeat, released exactly for a release, and never both |
| Keyboard.UnknownKeyWritesOutsideTable | source/Input/Keyboard.cpp:28-31 | as written, a direct call of the callback with GLFW's unknown key (code -1) writes in front of the table |
| Keyboard.KeyCallbackChecked | source/Input/Keyboard.cpp:28-31 | with the key code checked, a code inside the table behaves as written and any other code leaves the table unchanged |
| Keyboard.CheckedCallbacks | source/Input/Keyboard.cpp:28-31 | delivering key events in order through the checked callback keeps a table of 349 keys |
| Keyboard.CheckedCallbacksKeepLastAction | source/Input/Keyboard.cpp:10-31 | with the check, every event the window library reports is handled, and each key holds the action of its last event, or `Release` if it never had one |
| Mouse.Initial | source/Input/Mouse.cpp:7-22 | the mouse starts with every button released |
| Mouse.ButtonCallback | source/Input/Mouse.cpp:25-28 | the button event stores its action, wrapped to `i8`, at the button code and leaves every other button, the position and the wheel offset alone; a code outside the 8-entry table is undefined behaviour |
| Mouse.ButtonEventDecidesState | source/Input/Mouse.cpp:7-28 | for a button the engine names and a window action, the event is handled, and the button is pressed exactly for a press or repeat and released exactly when not pressed |
| Mouse.PositionCallback | source/Input/Mouse.cpp:30-33 | the position event sets the position and leaves the buttons and the wheel offset alone |
| Mouse.WheelCallback | source/Input/Mouse.cpp:35-38 | the wheel event sets the vertical offset and leaves the buttons and the position alone |
| Mouse.LatestReportWins | source/Input/Mouse.cpp:30-38 | two position events, or two wheel events, in a row leave only the second |
| Cursor.SetCursorMode | SuperNova/Engine/source/Input/Cursor.cpp:10-21 | the requested mode becomes current; the window is told the mode exactly when it differs from the current one, and only once |
| Cursor.SetTwiceCallsWindowAtMostOnce | SuperNova/Engine/source/Input/Cursor.cpp:10-21 | setting the same mode twice in a row tells the window at most once |
| Cursor.WindowFollowsRequests | SuperNova/Engine/source/Input/Cursor.cpp:10-21 | over any sequence of requests the window is told exactly the mode changes, and ends in the remembered mode, which is the last request |
| EventAction.Invoke | source/Library/EventAction.h:20-25 | invoking calls every handler once, in subscription order, with the arguments; an empty handler throws `std::bad_function_call`, which nothing catches, and that is the only failure |
| EventAction.Subscribe | source/Library/EventAction.h:27-31 | `+=` appends the handler after the existing subscriptions |
| EventAction.SubscribedHandlerCalledLast | source/Library/EventAction.h:20-31 | a newly subscribed handler is called after every earlier subscription, and the earlier calls are unchanged |
| EventAction.GetAddress | source/Library/EventAction.h:58-63 | the address of a plain function; any other callable has no such target and dereferencing it is undefined behaviour |
| EventAction.WithoutAddress | source/Library/EventAction.h:33-43 | what is kept holds only plain functions with other addresses, all from the subscriptions, and is no longer |
| EventAction.Unsubscribe | source/Library/EventAction.h:33-43 | `-=` keeps exactly the subscriptions with a different address, in order; undefined behaviour unless the handler and every subscription are plain functions |
| EventAction.UnsubscribeKeepsOthers | source/Library/EventAction.h:33-43 | unsubscribing keeps every handler with another address as often as before and no handler with the removed address |
| EventAction.SubscribeThenUnsubscribe | source/Library/EventAction.h:27-43 | subscribing a new plain function and unsubscribing it restores the subscriptions |
| EventAction.WithoutAppended | source/Library/EventAction.h:33-43 | removing an address from the subscriptions with one new function of that address appended gives back the subscriptions |
| EventAction.Destroy | source/Library/EventAction.h:45-56 | the destructor leaves no subscription |
| EventAction.UnsubscribingEachDestroys | source/Library/EventAction.h:33-56 | clearing the subscriptions, as the destructor's `UnsubscribeAll` does, leaves the same as applying `-=` with every subscribed plain function in turn |
| EventAction.UnsubscribeCovered | source/Library/EventAction.h:33-43 | applying `-=` in turn with plain functions that include every subscription succeeds and leaves no subscription |

## Left out

- EventAction.Destroy: object lifetimes are not modelled. The destructor's effect is the cleared list, and a use of an `EventAction` after its destructor, which is undefined behaviour, has no counterpart in the model.
- Device, driver and window calls: creating D3D, OpenGL and Vulkan objects, command lists, synchronisation, presenting. The model keeps the decisions that choose their arguments; the calls themselves have no observable logic here.
- Floating-point values: clear colours and depth, mouse position and wheel offset (modelled as `real`), and blend constants. Nothing in the core computes with them.
- The numeric values of DXGI and Vulkan enumerants, and of the D3D enumerants other than the clear and bind flags. Those translations are modelled as maps between named cases, and only their injectivity and meaning are stated. The OpenGL translations do use the OpenGL enumerant values (`GL_FILL` is 0x1B02, `GL_NEVER` 0x0200, and so on).
- `ui32` wrap-around of the static handle counters (`buffer_handle_workaround`, `texture_handle_workaround`, the render-graph IDs). Reaching 2^32 handles is out of scope, and the counters are unbounded `nat`s.
- The `ui8` casts of render-graph pass and texture IDs. Graphs with more than 255 passes or textures are out of scope.
- `InvalidID`: its numeric value is not visible in the repository, so it is modelled as `None`.
- The render-graph `Build` walk carries a fuel bound of one more than the number of passes. Running out of fuel is reported as divergence, which is exactly the case of a cycle (`RenderGraph.TwoPassCycleDiverges`).
- The DirectX 11 shader compiler and its copy of the format tables. Compilation is a parameter.
- `currentBackBufferIndex` of the DirectX backends is supplied by the caller, because it comes from the swap chain.
- DX12DescriptorHeap.AllocateRTVTimesMatchesBatch: requires the heap to be within its limit. Every heap the allocators produce is, and an over-full heap fails even an empty batch.
- OpenGL uniform uploads and `DrawBuffer`, and the `GLBuffer`/`GLTexture` wrappers. They are driver calls with no decisions.
- Vulkan `CreateShader`, pipeline and descriptor-set-layout creation, and synchronisation objects. They fill driver structures with constants.
- Assimp, stb_image and the file system. These are parameters: the importer's scene, the image decoder's result, and the file reader.
- The material's shader pointer. It is shared and never inspected.
- The `aiReturn_OUTOFMEMORY` branch of the importer's texture lookup. Every failed lookup is modelled with one assertion message.
- Missing shader files: `std::filesystem::file_size` throws, and the file reader parameter is total.
- The `Shader` constructor. It only stores the two stage sources.
- Meshes.Construct: a negative vertex count is carried through the `i32` arithmetic as written, but its meaning as a `size_t` span length is only modelled as undefined behaviour, not as the huge value it becomes.
- The renderer's `CreateBuffer` as seen by `Mesh` is a parameter, so the handle a mesh gets is whatever that function returns.
- `ShaderState::Default()` and `RenderDefaults::ImGuiShaderName`. The first is modelled as a constant, and the second as a fixed but unspecified string, because neither definition is visible.
- The string constants of the `FromString` tables. They are assumed to be the identifier spellings of the enum cases, because their definitions are not visible.
- GetAssimpMaterials: its contract states only the assertion for a scene without materials. What each material holds is stated by `AssetDatabase.LoadMaterial` and `AssetDatabase.LoadMaterialsAsIntended`.
- The log messages (`LOG_WARN`, `LOG_ERROR`) and the `std::cout` line of `EventAction::Invoke`. They have no effect on state.
- ShaderParser.MatchBraces: only soundness is proved (what it returns is the one balanced run the lexer reads) and not completeness (that it succeeds whenever such a run follows), because unfolding the lexer along a whole run is too costly for the verifier.
- Keyboard and mouse codes the enumerations do not name. The tables are indexed by any integer, and only the bounds matter.

## Findings

| source | as written | input that shows it | evidently intended | confidence | as-written member | corrected member |
|---|---|---|---|---|---|---|
| SuperNova/Engine/source/Assets/ShaderParser/Lexer.cpp:184-190 | after any whitespace character, a following end-of-line character is consumed without counting a line | the text `" \n"` leaves the lexer on line 1; `"\n\n"` leaves it on line 2 | only the `\n` of a `\r\n` pair is swallowed, so every line break counts once | high; not executed | Lexer.SkipWhitespaceAsWrittenLosesLines | Lexer.SkipWhitespaceCountsLineBreaks |
| SuperNova/Engine/source/Renderer/OpenGL/GLBackend.cpp:380-394 | every colour attachment of a pass is bound to `GL_COLOR_ATTACHMENT0` | a pass with two colour attachments: the first is bound nowhere | attachment i is bound to `GL_COLOR_ATTACHMENT0 + i` | high; not executed | GLBackend.AllToFirstKeepsOnlyLast | GLBackend.OnePerAttachmentBindsEach |
| SuperNova/Engine/source/Renderer/OpenGL/GLShader.cpp:236-256 | binding a blending shader enables blending but never disables a colour logic op an earlier shader enabled | bind a shader with logic op Xor, then one with alpha blending: the second draw XORs | each bind leaves only its own shader's blend or logic-op state in force | medium; not executed | GLShader.AsWrittenLogicOpLeaksIntoBlending | GLShader.ExclusiveBindTakesEffect |
| SuperNova/Engine/source/Renderer/Vulkan/VulkanBackend.cpp:764-768 | the staging-buffer cleanup destroys all four slots whatever the number of attributes | a mesh without texture coordinates (two attributes): slot 2 was never created | destroy the attribute slots that were created plus the index slot | high; not executed | VulkanBackend.DestroyAllFourTouchesUncreated | VulkanBackend.DestroyCreatedMatches |
| SuperNova/Engine/source/Assets/AssetDatabase.cpp:60-67 | the texture path lookup always reads the diffuse slot, ignoring the requested texture type | a material with `brick_albedo.png` as diffuse and `brick_normal.png` as normal texture gets the albedo as normal map | read the slot of the requested type | high; not executed | AssetDatabase.AlwaysDiffuseUsesBaseColorAsNormalMap | AssetDatabase.LoadMaterialsAsIntended |
| source/Input/Keyboard.cpp:28-31 | the key callback stores the action at the key code without checking it | a direct call of the public `KeyCallback` with code -1 (the window library's unknown key) writes in front of the table; the window itself asserts that the key is known before forwarding, so only a direct caller reaches this | ignore key codes outside the table | low; not executed | Keyboard.UnknownKeyWritesOutsideTable | Keyboard.CheckedCallbacksKeepLastAction |

=== FILE: asset_database.dfy ===
/** The asset database: directory layout, the memoising model and texture caches, the single
    shader slot, and the conversion of imported scenes, images and shader files into engine
    assets. File reading and the third-party importers are parameters: `image` gives what the
    image decoder reports for a path, `importer` the scene the model importer produces (None
    when it fails), `readFile` a file's bytes as text, and `createBuffer` the handle the
    renderer returns for an upload. */
module AssetDatabase {
  import opened Wrappers
  import opened Faults
  import opened RenderTypes
  import Meshes

  //- Directories

  /** The directories `Init` derives. The asset directory is expected to end in '/'. */
  datatype Directories = Directories(
    assetDir: string,
    modelDir: string,
    glShaderDir: string,
    vkShaderDir: string,
    dxShaderDir: string)

  predicate Extends(base: string, dir: string) {
    |base| < |dir| && dir[..|base|] == base && dir[|dir| - 1] == '/'
  }

  function Init(assetDirectory: string): (d: Directories)
    ensures d.assetDir == assetDirectory
    ensures Extends(assetDirectory, d.modelDir)
    ensures Extends(assetDirectory, d.glShaderDir)
    ensures Extends(assetDirectory, d.vkShaderDir)
    ensures Extends(assetDirectory, d.dxShaderDir)
    ensures d.modelDir[|assetDirectory|..] == "models/"
    ensures d.glShaderDir[|assetDirectory|..] == "shaders/gl/"
    ensures d.vkShaderDir[|assetDirectory|..] == "shaders/vk/"
    ensures d.dxShaderDir[|assetDirectory|..] == "shaders/dx/"
  {
    var shaderDir := assetDirectory + "shaders/";
    Directories(assetDirectory, assetDirectory + "models/", shaderDir + "gl/", shaderDir + "vk/", shaderDir + "dx/")
  }

  /** The four derived directories are distinct from one another. */
  lemma DirectoriesAreDistinct(assetDirectory: string)
    ensures var d := Init(assetDirectory);
            d.modelDir != d.glShaderDir && d.modelDir != d.vkShaderDir && d.modelDir != d.dxShaderDir
            && d.glShaderDir != d.vkShaderDir && d.glShaderDir != d.dxShaderDir && d.vkShaderDir != d.dxShaderDir
  {
    var d := Init(assetDirectory);
    var n := |assetDirectory|;
    assert |d.modelDir| == n + 7 && |d.glShaderDir| == n + 11;
    assert d.glShaderDir[n + 8] == 'g' && d.vkShaderDir[n + 8] == 'v' && d.dxShaderDir[n + 8] == 'd';
  }

  //- Shader files

  datatype GraphicsApi = OpenGL | Vulkan | DirectX11 | DirectX12

  predicate IsDirectX(api: GraphicsApi) {
    api == DirectX11 || api == DirectX12
  }

  /** Both DirectX backends read HLSL from the dx directory; OpenGL and Vulkan read GLSL from
      their own directories. */
  function ShaderDirectory(d: Directories, api: GraphicsApi): string {
    match api
    case DirectX11 => d.dxShaderDir
    case DirectX12 => d.dxShaderDir
    case OpenGL => d.glShaderDir
    case Vulkan => d.vkShaderDir
  }

  function ShaderExtension(api: GraphicsApi): string {
    if IsDirectX(api) then ".hlsl" else ".glsl"
  }

  datatype ShaderFiles = ShaderFiles(vertexPath: string, fragmentPath: string)

  /** The two stage files `LoadShader` reads for a shader name. */
  function ShaderFilePaths(d: Directories, api: GraphicsApi, name: string): (r: ShaderFiles)
    ensures r.vertexPath != r.fragmentPath
  {
    var path := ShaderDirectory(d, api) + name;
    var ext := ShaderExtension(api);
    var r := ShaderFiles(path + "_vs" + ext, path + "_fs" + ext);
    assert r.vertexPath[|path| + 1] == 'v' && r.fragmentPath[|path| + 1] == 'f';
    r
  }

  /** A stage file names exactly one shader, one stage and one directory: two requests that
      read the same file asked for the same name and stage, and either the same graphics API
      or both DirectX ones. */
  lemma ShaderFilesIdentifyRequest(assetDirectory: string, api1: GraphicsApi, name1: string,
                                   api2: GraphicsApi, name2: string, vertex1: bool, vertex2: bool)
    requires var d := Init(assetDirectory);
             var f1 := ShaderFilePaths(d, api1, name1);
             var f2 := ShaderFilePaths(d, api2, name2);
             (if vertex1 then f1.vertexPath else f1.fragmentPath) == (if vertex2 then f2.vertexPath else f2.fragmentPath)
    ensures name1 == name2 && vertex1 == vertex2
    ensures api1 == api2 || (IsDirectX(api1) && IsDirectX(api2))
  {
    var d := Init(assetDirectory);
    var n := |assetDirectory|;
    var dir1, dir2 := ShaderDirectory(d, api1), ShaderDirectory(d, api2);
    var stage1 := if vertex1 then "_vs" else "_fs";
    var stage2 := if vertex2 then "_vs" else "_fs";
    var ext1, ext2 := ShaderExtension(api1), ShaderExtension(api2);
    assert |dir1| == n + 11 && |dir2| == n + 11;
    assert dir1[n + 8] == (if IsDirectX(api1) then 'd' else if api1 == OpenGL then 'g' else 'v');
    assert dir2[n + 8] == (if IsDirectX(api2) then 'd' else if api2 == OpenGL then 'g' else 'v');
    SplitEqual(dir1 + name1 + stage1, ext1, dir2 + name2 + stage2, ext2);
    SplitEqual(dir1 + name1, stage1, dir2 + name2, stage2);
    SplitEqual(dir1, name1, dir2, name2);
    assert stage1[1] == stage2[1];
  }

  /** Equal concatenations with equally long heads have equal heads and equal tails. */
  lemma SplitEqual(a: string, b: string, c: string, e: string)
    requires a + b == c + e && |b| == |e|
    ensures a == c && b == e
  {
    assert a == (a + b)[..|a|];
    assert c == (c + e)[..|c|];
    assert b == (a + b)[|a|..];
    assert e == (c + e)[|c|..];
  }

  /** The two stage sources of a shader asset. */
  datatype ShaderSources = ShaderSources(vertex: string, fragment: string)

  function LoadShader(d: Directories, api: GraphicsApi, name: string, readFile: string -> string): ShaderSources {
    var files := ShaderFilePaths(d, api, name);
    ShaderSources(readFile(files.vertexPath), readFile(files.fragmentPath))
  }

  //- Memoising caches

  predicate Distinct(s: seq<string>) {
    forall i, j :: 0 <= i < j < |s| ==> s[i] != s[j]
  }

  /** A path-keyed cache, with the log of the paths the loader has run for. */
  datatype Cache<T> = Cache(entries: map<string, T>, loads: seq<string>) {
    /** The loader has run once for each cached path and for nothing else. */
    predicate Valid() {
      Distinct(loads)
      && (forall p :: p in entries ==> p in loads)
      && (forall i :: 0 <= i < |loads| ==> loads[i] in entries)
    }
  }

  function EmptyCache<T>(): (c: Cache<T>)
    ensures c.Valid()
  {
    Cache(map[], [])
  }

  /** `LoadAsset` for models and textures: a cached path returns its asset without running the
      loader; otherwise the loader runs, may change the state it threads (a model's loader
      loads textures), and its asset is cached. A loader that fails aborts. */
  function LoadAsset<S, T>(c: Cache<T>, state: S, path: string, load: (S, string) -> Result<(S, T), Fault>)
    : (r: Result<(Cache<T>, S, T), Fault>)
    ensures path in c.entries ==> r == Ok((c, state, c.entries[path]))
    ensures path !in c.entries ==> (r.Ok? <==> load(state, path).Ok?)
    ensures path !in c.entries && r.Ok? ==> (r.value.0.loads == c.loads + [path]
                                             && (r.value.1, r.value.2) == load(state, path).value)
    ensures r.Ok? ==> path in r.value.0.entries && r.value.0.entries[path] == r.value.2
    ensures r.Ok? ==> forall p :: p in c.entries ==> p in r.value.0.entries && r.value.0.entries[p] == c.entries[p]
    ensures r.Ok? && c.Valid() ==> r.value.0.Valid()
  {
    if path in c.entries then Ok((c, state, c.entries[path]))
    else
      var loaded :- load(state, path);
      var c2 := Cache(c.entries[path := loaded.1], c.loads + [path]);
      assert forall p :: p in c2.loads <==> p in c.loads || p == path;
      Ok((c2, loaded.0, loaded.1))
  }

  /** The paths of a request sequence in the order they first appear. */
  function FirstOccurrences(paths: seq<string>): (r: seq<string>)
    ensures Distinct(r)
    ensures forall p :: p in r <==> p in paths
  {
    if paths == [] then []
    else
      var prefix := paths[..|paths| - 1];
      var last := paths[|paths| - 1];
      assert paths == prefix + [last];
      var d := FirstOccurrences(prefix);
      if last in d then d else d + [last]
  }

  /** A sequence of `LoadAsset` requests, with the asset each returns. */
  function LoadAll<S, T>(c: Cache<T>, state: S, paths: seq<string>, load: (S, string) -> Result<(S, T), Fault>)
    : Result<(Cache<T>, S, seq<T>), Fault>
    decreases |paths|
  {
    if paths == [] then Ok((c, state, []))
    else
      var before :- LoadAll(c, state, paths[..|paths| - 1], load);
      var after :- LoadAsset(before.0, before.1, paths[|paths| - 1], load);
      Ok((after.0, after.1, before.2 + [after.2]))
  }

  /** Starting from an empty cache, the loader runs exactly once per distinct path, in order of
      first request, and every request for a path returns the one asset cached for it. */
  lemma {:induction false} LoadAllOncePerPath<S, T>(state: S, paths: seq<string>, load: (S, string) -> Result<(S, T), Fault>)
    requires LoadAll(EmptyCache<T>(), state, paths, load).Ok?
    ensures var (c, _, results) := LoadAll(EmptyCache<T>(), state, paths, load).value;
            c.Valid() && c.loads == FirstOccurrences(paths) && |results| == |paths|
            && (forall i :: 0 <= i < |paths| ==> paths[i] in c.entries && results[i] == c.entries[paths[i]])
    decreases |paths|
  {
    if paths != [] {
      var prefix := paths[..|paths| - 1];
      var last := paths[|paths| - 1];
      assert paths == prefix + [last];
      LoadAllOncePerPath(state, prefix, load);
      var before := LoadAll(EmptyCache<T>(), state, prefix, load).value;
      var after := LoadAsset(before.0, before.1, last, load).value;
      var results := before.2 + [after.2];
      assert LoadAll(EmptyCache<T>(), state, paths, load).value == (after.0, after.1, results);
      if last in before.0.entries {
        assert last in FirstOccurrences(prefix);
      } else {
        assert last !in FirstOccurrences(prefix);
      }
      forall i | 0 <= i < |paths|
        ensures paths[i] in after.0.entries && results[i] == after.0.entries[paths[i]]
      {
        if i < |prefix| {
          assert paths[i] == prefix[i];
        }
      }
    }
  }

  /** A repeated request returns the same asset as the first one. */
  lemma RepeatedPathSameAsset<S, T>(state: S, paths: seq<string>, load: (S, string) -> Result<(S, T), Fault>, i: nat, j: nat)
    requires LoadAll(EmptyCache<T>(), state, paths, load).Ok?
    requires i < |paths| && j < |paths| && paths[i] == paths[j]
    ensures var results := LoadAll(EmptyCache<T>(), state, paths, load).value.2;
            |results| == |paths| && results[i] == results[j]
  {
    LoadAllOncePerPath(state, paths, load);
  }

  /** `LoadAsset` for shaders: the first request loads the one shader the database holds;
      every later request returns it, whatever path it names. */
  function LoadShaderOnce<T>(slot: Option<T>, path: string, load: string -> T): (r: (Option<T>, T))
    ensures r.0 == Some(r.1)
    ensures slot.Some? ==> r.1 == slot.value
    ensures slot.None? ==> r.1 == load(path)
  {
    match slot
    case Some(shader) => (slot, shader)
    case None => var shader := load(path); (Some(shader), shader)
  }

  function LoadShaderAll<T>(slot: Option<T>, paths: seq<string>, load: string -> T): (Option<T>, seq<T>)
    decreases |paths|
  {
    if paths == [] then (slot, [])
    else
      var before := LoadShaderAll(slot, paths[..|paths| - 1], load);
      var after := LoadShaderOnce(before.0, paths[|paths| - 1], load);
      (after.0, before.1 + [after.1])
  }

  /** Every shader request returns the shader loaded for the first request's path. */
  lemma {:induction false} FirstShaderWins<T>(paths: seq<string>, load: string -> T)
    requires |paths| > 0
    ensures var (slot, results) := LoadShaderAll(None, paths, load);
            slot == Some(load(paths[0])) && |results| == |paths|
            && forall i :: 0 <= i < |results| ==> results[i] == load(paths[0])
    decreases |paths|
  {
    var prefix := paths[..|paths| - 1];
    if prefix == [] {
      assert LoadShaderAll(None, prefix, load) == (None, []);
    } else {
      FirstShaderWins(prefix, load);
      assert prefix[0] == paths[0];
    }
  }

  //- Textures

  /** Textures are looked up relative to the one model directory the engine ships. */
  const TextureRoot := "../../assets/models/Sponza/"

  const ChannelsMessage := "Right now only Textures with 3 or 4 channels are supported"

  /** What the image decoder reports for a file: its header (None when it cannot be read, which
      leaves the outputs uninitialised), the decoded pixels for the requested channel count
      (None when decoding fails) and the decoder's failure reason. */
  datatype ImageInfo = ImageInfo(width: nat, height: nat, channels: int)
  datatype ImageFile = ImageFile(info: Option<ImageInfo>, pixels: Option<seq<bv8>>, failureReason: string)

  datatype TextureAsset = TextureAsset(desc: TextureDesc, data: seq<bv8>)

  /** Bytes per texel of each texture format. */
  function BytesPerPixel(format: TextureFormat): nat {
    match format
    case R8 => 1 case R16 => 2 case R16F => 2 case R32F => 4
    case RG8 => 2 case RG16 => 4 case RGBA8 => 4 case RGBA16F => 8
    case DEPTH16 => 2 case DEPTH32 => 4 case DEPTH32F => 4
  }

  /** Three-channel images are expanded to four; four-channel images are kept. */
  function DesiredChannels(channels: int): int {
    if channels == 3 then 4 else channels
  }

  /** The texture byte count is an `i32` product; one that does not fit overflows. */
  predicate FitsI32(x: int) {
    0 <= x < 0x8000_0000
  }

  function LoadTexture(texturePath: string, image: string -> ImageFile): (r: Result<TextureAsset, Fault>)
    ensures r.Ok? <==> (var file := image(TextureRoot + texturePath);
                        file.info.Some? && (file.info.value.channels == 3 || file.info.value.channels == 4)
                        && file.pixels.Some?
                        && FitsI32(file.info.value.width * file.info.value.height * 4)
                        && file.info.value.width * file.info.value.height * 4 <= |file.pixels.value|)
    ensures (var file := image(TextureRoot + texturePath);
             file.info.Some? && file.info.value.channels != 3 && file.info.value.channels != 4)
            ==> r == Err(AssertionFailed(ChannelsMessage))
    ensures r.Ok? ==> (var info := image(TextureRoot + texturePath).info.value;
                       r.value.desc == TextureDesc(info.width, info.height, RGBA8, Repeat))
    ensures r.Ok? ==> |r.value.data| == r.value.desc.width * r.value.desc.height * BytesPerPixel(r.value.desc.format)
  {
    var file := image(TextureRoot + texturePath);
    match file.info
    case None => Err(Undefined)
    case Some(info) =>
      if info.channels != 3 && info.channels != 4 then Err(AssertionFailed(ChannelsMessage))
      else
        var desired := DesiredChannels(info.channels);
        match file.pixels
        case None => Err(AssertionFailed(file.failureReason))
        case Some(pixels) =>
          var size := info.width * info.height * desired;
          if !FitsI32(size) || size > |pixels| then Err(Undefined)
          else Ok(TextureAsset(TextureDesc(info.width, info.height, RGBA8, Repeat), pixels[..size]))
  }

  /** `LoadTexture` as the texture cache's loader; it threads no state. */
  function TextureLoader(image: string -> ImageFile): ((), string) -> Result<((), TextureAsset), Fault> {
    (u: (), path: string) =>
      match LoadTexture(path, image)
      case Ok(t) => Ok(((), t))
      case Err(e) => Err(e)
  }

  //- Materials

  /** An imported material: its name and the texture paths of its diffuse and normal slots. */
  datatype AssimpMaterial = AssimpMaterial(name: string, diffuse: seq<string>, normals: seq<string>)

  datatype TextureSlot = DiffuseSlot | NormalsSlot

  function SlotPaths(m: AssimpMaterial, slot: TextureSlot): seq<string> {
    match slot
    case DiffuseSlot => m.diffuse
    case NormalsSlot => m.normals
  }

  /** Which slot the material texture path helper reads: always the diffuse one, as the code
      does, or the one it is asked for. */
  datatype PathLookup = AlwaysDiffuse | RequestedSlot

  const LookupFailureMessage := "aiReturn_FAILURE"

  /** The first texture path of a slot; a slot without textures fails the importer's lookup,
      which the assertion turns into an abort. */
  function MaterialTexturePath(m: AssimpMaterial, slot: TextureSlot, lookup: PathLookup): (r: Result<string, Fault>)
    ensures var read := if lookup == RequestedSlot then slot else DiffuseSlot;
            (r.Ok? <==> |SlotPaths(m, read)| > 0)
            && (r.Ok? ==> r.value == SlotPaths(m, read)[0])
            && (r.Err? ==> r.error == AssertionFailed(LookupFailureMessage))
  {
    var read := match lookup case AlwaysDiffuse => DiffuseSlot case RequestedSlot => slot;
    var paths := SlotPaths(m, read);
    if |paths| == 0 then Err(AssertionFailed(LookupFailureMessage)) else Ok(paths[0])
  }

  /** The texture a material refers to: the one cached under a path, or a built-in fallback. */
  datatype TextureRef = FromFile(path: string) | BlackTexture | DefaultNormalTexture

  datatype Material = Material(name: string, baseColorMap: TextureRef, normalMap: TextureRef)

  /** The maps a material is meant to get: the first texture of each slot, or the fallback. */
  function IntendedMap(m: AssimpMaterial, slot: TextureSlot): TextureRef {
    var paths := SlotPaths(m, slot);
    if |paths| > 0 then FromFile(paths[0])
    else match slot case DiffuseSlot => BlackTexture case NormalsSlot => DefaultNormalTexture
  }

  /** One map of a material: a slot with textures loads (through the cache) the path the lookup
      yields; an empty slot takes the fallback. */
  function MaterialMap(c: Cache<TextureAsset>, m: AssimpMaterial, slot: TextureSlot, fallback: TextureRef,
                       lookup: PathLookup, image: string -> ImageFile): (r: Result<(Cache<TextureAsset>, TextureRef), Fault>)
    ensures |SlotPaths(m, slot)| == 0 ==> r == Ok((c, fallback))
    ensures |SlotPaths(m, slot)| > 0 && r.Ok? ==> r.value.1.FromFile? && r.value.1.path in r.value.0.entries
    ensures r.Ok? && c.Valid() ==> r.value.0.Valid()
  {
    if |SlotPaths(m, slot)| > 0 then
      var path :- MaterialTexturePath(m, slot, lookup);
      var loaded :- LoadAsset(c, (), path, TextureLoader(image));
      Ok((loaded.0, FromFile(path)))
    else Ok((c, fallback))
  }

  function LoadMaterial(c: Cache<TextureAsset>, m: AssimpMaterial, lookup: PathLookup, image: string -> ImageFile)
    : (r: Result<(Cache<TextureAsset>, Material), Fault>)
    ensures r.Ok? ==> r.value.1.name == m.name && r.value.1.baseColorMap == IntendedMap(m, DiffuseSlot)
    ensures r.Ok? && lookup == RequestedSlot ==> r.value.1.normalMap == IntendedMap(m, NormalsSlot)
    ensures r.Ok? && lookup == AlwaysDiffuse && |m.normals| > 0 ==> r.value.1.normalMap == r.value.1.baseColorMap
    ensures lookup == AlwaysDiffuse && |m.diffuse| == 0 && |m.normals| > 0
            ==> r == Err(AssertionFailed(LookupFailureMessage))
    ensures r.Ok? && c.Valid() ==> r.value.0.Valid()
  {
    var base :- MaterialMap(c, m, DiffuseSlot, BlackTexture, lookup, image);
    var normal :- MaterialMap(base.0, m, NormalsSlot, DefaultNormalTexture, lookup, image);
    Ok((normal.0, Material(m.name, base.1, normal.1)))
  }

  const NoMaterialsMessage := "LOL"

  /** The scene's materials in order; a scene without materials fails its assertion. */
  function GetAssimpMaterials(c: Cache<TextureAsset>, materials: seq<AssimpMaterial>, lookup: PathLookup,
                              image: string -> ImageFile): (r: Result<(Cache<TextureAsset>, seq<Material>), Fault>)
    ensures |materials| == 0 ==> r == Err(AssertionFailed(NoMaterialsMessage))
  {
    if |materials| == 0 then Err(AssertionFailed(NoMaterialsMessage))
    else LoadMaterials(c, materials, lookup, image)
  }

  function LoadMaterials(c: Cache<TextureAsset>, materials: seq<AssimpMaterial>, lookup: PathLookup,
                         image: string -> ImageFile): Result<(Cache<TextureAsset>, seq<Material>), Fault>
    decreases |materials|
  {
    if materials == [] then Ok((c, []))
    else
      var before :- LoadMaterials(c, materials[..|materials| - 1], lookup, image);
      var last :- LoadMaterial(before.0, materials[|materials| - 1], lookup, image);
      Ok((last.0, before.1 + [last.1]))
  }

  /** With each slot read as requested, every material gets its own first diffuse and normal
      texture or the matching fallback, in scene order. */
  lemma {:induction false} LoadMaterialsAsIntended(c: Cache<TextureAsset>, materials: seq<AssimpMaterial>, image: string -> ImageFile)
    requires LoadMaterials(c, materials, RequestedSlot, image).Ok?
    ensures var loaded := LoadMaterials(c, materials, RequestedSlot, image).value.1;
            |loaded| == |materials|
            && forall i :: 0 <= i < |materials| ==>
                 loaded[i] == Material(materials[i].name, IntendedMap(materials[i], DiffuseSlot), IntendedMap(materials[i], NormalsSlot))
    decreases |materials|
  {
    if materials != [] {
      var prefix := materials[..|materials| - 1];
      var m := materials[|materials| - 1];
      LoadMaterialsAsIntended(c, prefix, image);
      var loaded := LoadMaterialsLast(c, materials, image);
      var intended := (x: AssimpMaterial) => Material(x.name, IntendedMap(x, DiffuseSlot), IntendedMap(x, NormalsSlot));
      assert forall i :: 0 <= i < |prefix| ==> loaded[i] == intended(prefix[i]);
      assert loaded[|prefix|] == intended(m);
      forall i | 0 <= i < |materials|
        ensures loaded[i] == intended(materials[i])
      {
        if i < |prefix| {
          assert materials[i] == prefix[i];
        }
      }
    }
  }

  /** One step of `LoadMaterials`: the materials so far, then the last one as intended. */
  lemma LoadMaterialsLast(c: Cache<TextureAsset>, materials: seq<AssimpMaterial>, image: string -> ImageFile)
    returns (loaded: seq<Material>)
    requires materials != [] && LoadMaterials(c, materials, RequestedSlot, image).Ok?
    ensures var prefix := materials[..|materials| - 1];
            var m := materials[|materials| - 1];
            LoadMaterials(c, prefix, RequestedSlot, image).Ok?
            && loaded == LoadMaterials(c, materials, RequestedSlot, image).value.1
            && loaded == LoadMaterials(c, prefix, RequestedSlot, image).value.1
                         + [Material(m.name, IntendedMap(m, DiffuseSlot), IntendedMap(m, NormalsSlot))]
  {
    var prefix := materials[..|materials| - 1];
    var m := materials[|materials| - 1];
    var before := LoadMaterials(c, prefix, RequestedSlot, image);
    assert before.Ok?;
    var last := LoadMaterial(before.value.0, m, RequestedSlot, image);
    assert last.Ok?;
    loaded := before.value.1 + [last.value.1];
    assert LoadMaterials(c, materials, RequestedSlot, image).value.1 == loaded;
  }

  /** As written, a material with both a diffuse and a normal texture gets its diffuse texture
      as normal map too. */
  lemma AlwaysDiffuseUsesBaseColorAsNormalMap()
    ensures var m := AssimpMaterial("brick", ["brick_albedo.png"], ["brick_normal.png"]);
            var image := (p: string) => ImageFile(Some(ImageInfo(1, 1, 4)), Some([0, 0, 0, 0]), "");
            var r := LoadMaterial(EmptyCache(), m, AlwaysDiffuse, image);
            r.Ok? && r.value.1.normalMap == FromFile("brick_albedo.png")
            && r.value.1.normalMap != IntendedMap(m, NormalsSlot)
  {
    var m := AssimpMaterial("brick", ["brick_albedo.png"], ["brick_normal.png"]);
    var image := (p: string) => ImageFile(Some(ImageInfo(1, 1, 4)), Some([0, 0, 0, 0]), "");
    assert LoadTexture("brick_albedo.png", image).Ok?;
    assert IntendedMap(m, NormalsSlot) == FromFile("brick_normal.png");
  }

  //- Meshes

  /** `sizeof(aiVector3D)`: the size of one position, normal or texture coordinate. */
  const Vector3Size: nat := 12
  const VectorDimension: nat := 3

  /** An imported mesh: its faces (index lists), its vertex count, the raw bytes of its
      position, normal and first texture-coordinate arrays (None for a missing array) and
      its material index. */
  datatype AssimpMesh = AssimpMesh(
    faces: seq<seq<nat>>,
    numVertices: nat,
    positions: Option<seq<bv8>>,
    normals: Option<seq<bv8>>,
    texCoords0: Option<seq<bv8>>,
    materialIndex: nat)

  predicate HasFaces(m: AssimpMesh) { |m.faces| > 0 }
  predicate HasPositions(m: AssimpMesh) { m.positions.Some? && m.numVertices > 0 }
  predicate HasNormals(m: AssimpMesh) { m.normals.Some? && m.numVertices > 0 }
  predicate HasTextureCoords(m: AssimpMesh) { m.texCoords0.Some? && m.numVertices > 0 }

  const TwoTo32: int := 0x1_0000_0000

  /** All face indices, face after face. */
  function FlattenFaces(faces: seq<seq<nat>>): (r: seq<nat>)
    ensures |r| == IndexTotal(faces)
  {
    if faces == [] then []
    else
      IndexTotalFront(faces);
      faces[0] + FlattenFaces(faces[1..])
  }

  /** The sum of the per-face index counts. */
  function IndexTotal(faces: seq<seq<nat>>): nat {
    if faces == [] then 0 else IndexTotal(faces[..|faces| - 1]) + |faces[|faces| - 1]|
  }

  lemma {:induction false} IndexTotalFront(faces: seq<seq<nat>>)
    requires faces != []
    ensures IndexTotal(faces) == |faces[0]| + IndexTotal(faces[1..])
    decreases |faces|
  {
    if |faces| > 1 {
      var prefix := faces[..|faces| - 1];
      IndexTotalFront(prefix);
      assert prefix[1..] == faces[1..][..|faces[1..]| - 1];
    } else {
      assert faces[1..] == [];
    }
  }

  /** `indexCount` and the index buffer: room for three indices per face, value-initialised,
      filled with the faces' indices in order. More indices than room write past the buffer,
      and a count beyond `i32` overflows `indexCount`. */
  function IndexBuffer(faces: seq<seq<nat>>): (r: Result<(int, seq<nat>), Fault>)
    ensures r.Ok? <==> IndexTotal(faces) <= (|faces| * 3) % TwoTo32 && IndexTotal(faces) < 0x8000_0000
    ensures r.Err? ==> r.error == Undefined
    ensures r.Ok? ==> r.value.0 == IndexTotal(faces) && |r.value.1| == (|faces| * 3) % TwoTo32
                      && r.value.1[..r.value.0] == FlattenFaces(faces)
  {
    var capacity := (|faces| * 3) % TwoTo32;
    var flat := FlattenFaces(faces);
    if |flat| > capacity || |flat| >= 0x8000_0000 then Err(Undefined)
    else
      var data := flat + seq(capacity - |flat|, _ => 0);
      assert data[..|flat|] == flat;
      Ok((|flat|, data))
  }

  predicate Triangulated(faces: seq<seq<nat>>) {
    forall f :: 0 <= f < |faces| ==> |faces[f]| == 3
  }

  /** For triangle faces the flattened indices are the faces' corners, three per face. */
  lemma {:induction false} FlattenTriangles(faces: seq<seq<nat>>)
    requires Triangulated(faces)
    ensures |FlattenFaces(faces)| == 3 * |faces|
    ensures forall f, k :: 0 <= f < |faces| && 0 <= k < 3 ==> FlattenFaces(faces)[3 * f + k] == faces[f][k]
    decreases |faces|
  {
    if faces != [] {
      FlattenTriangles(faces[1..]);
      var rest := FlattenFaces(faces[1..]);
      assert FlattenFaces(faces) == faces[0] + rest;
      forall f, k | 0 <= f < |faces| && 0 <= k < 3
        ensures FlattenFaces(faces)[3 * f + k] == faces[f][k]
      {
        if f > 0 {
          assert faces[1..][f - 1] == faces[f];
          assert FlattenFaces(faces)[3 * f + k] == rest[3 * (f - 1) + k];
        }
      }
    }
  }

  /** With triangulated faces and no overflow, `indexCount` is three per face and the buffer
      holds each face's corners in order. */
  lemma TriangulatedIndexBuffer(faces: seq<seq<nat>>)
    requires Triangulated(faces) && 3 * |faces| < 0x8000_0000
    ensures IndexBuffer(faces).Ok?
    ensures IndexBuffer(faces).value.0 == 3 * |faces|
    ensures forall f, k :: 0 <= f < |faces| && 0 <= k < 3 ==> IndexBuffer(faces).value.1[3 * f + k] == faces[f][k]
  {
    FlattenTriangles(faces);
    var data := IndexBuffer(faces).value.1;
    forall f, k | 0 <= f < |faces| && 0 <= k < 3
      ensures data[3 * f + k] == faces[f][k]
    {
      assert data[..3 * |faces|][3 * f + k] == data[3 * f + k];
    }
  }

  /** The vertex layout and `vertexBufferSize`: Position, then Normal, then TexCoord0 when
      present, each a three-component `Float32` stream packed after the previous one. The
      offsets and the size are `ui32`, so the arithmetic wraps modulo 2^32. */
  function VertexLayout(numVertices: nat, hasTexCoords: bool): (r: (seq<VertexAttributeDesc>, nat))
    ensures |r.0| == (if hasTexCoords then 3 else 2)
    ensures r.0[0].attribute == Position && r.0[1].attribute == Normal
    ensures hasTexCoords ==> r.0[2].attribute == TexCoord0
    ensures forall i :: 0 <= i < |r.0| ==> r.0[i].format == Float32 && r.0[i].dimension == VectorDimension
    ensures numVertices * Vector3Size * |r.0| < TwoTo32 ==>
              r.1 == numVertices * Vector3Size * |r.0|
              && forall i :: 0 <= i < |r.0| ==> r.0[i].offset == numVertices * Vector3Size * i
  {
    var stride := (numVertices * Vector3Size) % TwoTo32;
    var normalOffset := stride;
    var texOffset := (normalOffset + stride) % TwoTo32;
    var position := VertexAttributeDesc(Position, Float32, VectorDimension, 0);
    var normal := VertexAttributeDesc(Normal, Float32, VectorDimension, normalOffset);
    if hasTexCoords then
      ([position, normal, VertexAttributeDesc(TexCoord0, Float32, VectorDimension, texOffset)], (texOffset + stride) % TwoTo32)
    else
      ([position, normal], texOffset)
  }

  /** The vertex data: a value-initialised buffer of `vertexBufferSize` bytes into which the
      position, normal and (when present) texture-coordinate arrays are copied back to back,
      `numVertices * 12` bytes each (a `ui32` product). Reading past an array or writing past
      the buffer is undefined behaviour. */
  function VertexData(m: AssimpMesh, size: nat): (r: Result<seq<bv8>, Fault>)
    requires HasPositions(m) && HasNormals(m)
    ensures r.Ok? ==> |r.value| == size
  {
    var bytes := (m.numVertices * Vector3Size) % TwoTo32;
    var streams := [m.positions.value, m.normals.value] + (if HasTextureCoords(m) then [m.texCoords0.value] else []);
    if exists i :: 0 <= i < |streams| && |streams[i]| < bytes then Err(Undefined)
    else
      var copied := Concat(seq(|streams|, i requires 0 <= i < |streams| => streams[i][..bytes]));
      if |copied| > size then Err(Undefined)
      else Ok(copied + seq(size - |copied|, _ => 0 as bv8))
  }

  function Concat(parts: seq<seq<bv8>>): seq<bv8> {
    if parts == [] then [] else parts[0] + Concat(parts[1..])
  }

  /** The vertex arrays as assimp delivers them: each holds `numVertices` three-float vectors. */
  predicate StreamsSized(m: AssimpMesh) {
    (m.positions.Some? ==> |m.positions.value| == m.numVertices * Vector3Size)
    && (m.normals.Some? ==> |m.normals.value| == m.numVertices * Vector3Size)
    && (m.texCoords0.Some? ==> |m.texCoords0.value| == m.numVertices * Vector3Size)
  }

  /** The streams the vertex data is meant to hold, in layout order. */
  function AttributeStreams(m: AssimpMesh): seq<seq<bv8>>
    requires m.positions.Some? && m.normals.Some?
  {
    [m.positions.value, m.normals.value] + (if HasTextureCoords(m) then [m.texCoords0.value] else [])
  }

  /** Without wrap-around, the vertex data is exactly the streams back to back and fills the
      buffer `VertexLayout` sized. */
  lemma VertexDataPacksStreams(m: AssimpMesh)
    requires HasPositions(m) && HasNormals(m) && StreamsSized(m)
    requires m.numVertices * Vector3Size * 3 < TwoTo32
    ensures var (layout, size) := VertexLayout(m.numVertices, HasTextureCoords(m));
            VertexData(m, size) == Ok(Concat(AttributeStreams(m)))
  {
    var (layout, size) := VertexLayout(m.numVertices, HasTextureCoords(m));
    var bytes := m.numVertices * Vector3Size;
    var streams := AttributeStreams(m);
    assert bytes % TwoTo32 == bytes;
    var parts := seq(|streams|, i requires 0 <= i < |streams| => streams[i][..bytes % TwoTo32]);
    assert parts == streams by {
      forall i | 0 <= i < |streams| ensures parts[i] == streams[i] {
        assert streams[i][..bytes] == streams[i];
      }
    }
    assert |layout| == |streams|;
    ConcatLength(streams, bytes);
    assert size == bytes * |layout|;
    var copied := Concat(parts);
    assert copied + seq(size - |copied|, _ => 0 as bv8) == copied;
  }

  lemma {:induction false} ConcatLength(parts: seq<seq<bv8>>, n: nat)
    requires forall i :: 0 <= i < |parts| ==> |parts[i]| == n
    ensures |Concat(parts)| == n * |parts|
    decreases |parts|
  {
    if parts != [] {
      ConcatLength(parts[1..], n);
    }
  }

  const MeshAssertMessage := "LOL"

  /** A mesh together with the material it is drawn with. */
  datatype MeshRenderer = MeshRenderer(material: Material, mesh: Meshes.Mesh)

  /** One mesh of a model: the importer's guarantees are asserted, the index and vertex data
      built, the GPU buffer created, and the material looked up by index (an index past the
      materials reads outside the vector). `numVertices` is handed over as the mesh's `i32`
      vertex count. */
  function LoadMesh(m: AssimpMesh, materials: seq<Material>, createBuffer: Meshes.BufferUpload -> nat)
    : (r: Result<MeshRenderer, Fault>)
    ensures !HasFaces(m) || !HasPositions(m) || !HasNormals(m) ==> r == Err(AssertionFailed(MeshAssertMessage))
    ensures r.Ok? ==> m.materialIndex < |materials| && r.value.material == materials[m.materialIndex]
    ensures r.Ok? ==> r.value.mesh.indexCount == IndexTotal(m.faces)
                      && r.value.mesh.vertexCount == Meshes.ToI32(m.numVertices)
  {
    if !HasFaces(m) || !HasPositions(m) || !HasNormals(m) then Err(AssertionFailed(MeshAssertMessage))
    else
      var indices :- IndexBuffer(m.faces);
      var (layout, size) := VertexLayout(m.numVertices, HasTextureCoords(m));
      var vertexData :- VertexData(m, size);
      var mesh :- Meshes.Construct(indices.0, indices.1, Meshes.ToI32(m.numVertices), vertexData, layout, createBuffer);
      if m.materialIndex >= |materials| then Err(Undefined)
      else Ok(MeshRenderer(materials[m.materialIndex], mesh))
  }

  function LoadMeshes(meshes: seq<AssimpMesh>, materials: seq<Material>, createBuffer: Meshes.BufferUpload -> nat)
    : (r: Result<seq<MeshRenderer>, Fault>)
    ensures r.Ok? <==> forall i :: 0 <= i < |meshes| ==> LoadMesh(meshes[i], materials, createBuffer).Ok?
    ensures r.Ok? ==> |r.value| == |meshes|
                      && forall i :: 0 <= i < |meshes| ==> r.value[i] == LoadMesh(meshes[i], materials, createBuffer).value
    decreases |meshes|
  {
    if meshes == [] then Ok([])
    else
      var first :- LoadMesh(meshes[0], materials, createBuffer);
      var rest :- LoadMeshes(meshes[1..], materials, createBuffer);
      assert forall i :: 1 <= i < |meshes| ==> meshes[i] == meshes[1..][i - 1];
      Ok([first] + rest)
  }

  //- Models

  datatype Scene = Scene(materials: seq<AssimpMaterial>, meshes: seq<AssimpMesh>)

  datatype ModelAsset = ModelAsset(renderers: seq<MeshRenderer>)

  const NoSceneMessage := "REMOVE THIS SOMEHOW"

  /** Everything the loaders consult outside the database: the graphics API, the importers, the
      file reader and the renderer's buffer creation. */
  datatype Environment = Environment(
    api: GraphicsApi,
    importer: string -> Option<Scene>,
    image: string -> ImageFile,
    readFile: string -> string,
    createBuffer: Meshes.BufferUpload -> nat)

  /** `LoadModel`: import the file under the model directory, load the scene's materials (and
      through them textures), then every mesh. */
  function LoadModel(d: Directories, textures: Cache<TextureAsset>, modelName: string, env: Environment, lookup: PathLookup)
    : (r: Result<(Cache<TextureAsset>, ModelAsset), Fault>)
    ensures env.importer(d.modelDir + modelName).None? ==> r == Err(AssertionFailed(NoSceneMessage))
    ensures r.Ok? ==> |r.value.1.renderers| == |env.importer(d.modelDir + modelName).value.meshes|
    ensures r.Ok? && textures.Valid() ==> r.value.0.Valid()
  {
    match env.importer(d.modelDir + modelName)
    case None => Err(AssertionFailed(NoSceneMessage))
    case Some(scene) =>
      var materials :- GetAssimpMaterials(textures, scene.materials, lookup, env.image);
      LoadMaterialsValid(textures, scene.materials, lookup, env.image);
      var renderers :- LoadMeshes(scene.meshes, materials.1, env.createBuffer);
      Ok((materials.0, ModelAsset(renderers)))
  }

  lemma {:induction false} LoadMaterialsValid(c: Cache<TextureAsset>, materials: seq<AssimpMaterial>, lookup: PathLookup,
                                              image: string -> ImageFile)
    ensures c.Valid() && LoadMaterials(c, materials, lookup, image).Ok? ==> LoadMaterials(c, materials, lookup, image).value.0.Valid()
    decreases |materials|
  {
    if materials != [] {
      LoadMaterialsValid(c, materials[..|materials| - 1], lookup, image);
    }
  }

  //- The database

  /** The database's state after `Init`: directories, the two caches and the shader slot. */
  datatype Database = Database(
    dirs: Directories,
    models: Cache<ModelAsset>,
    textures: Cache<TextureAsset>,
    shader: Option<ShaderSources>)
  {
    predicate Valid() {
      models.Valid() && textures.Valid()
    }
  }

  function InitDatabase(assetDirectory: string): (db: Database)
    ensures db.Valid() && db.dirs == Init(assetDirectory) && db.shader.None?
  {
    Database(Init(assetDirectory), EmptyCache(), EmptyCache(), None)
  }

  /** `LoadAsset<Model>`: the model loader loads textures through the texture cache, reading
      every material slot's path from the diffuse slot as the source does. */
  function LoadModelAsset(db: Database, path: string, env: Environment): (r: Result<(Database, ModelAsset), Fault>)
    requires db.Valid()
    ensures path in db.models.entries ==> r == Ok((db, db.models.entries[path]))
    ensures r.Ok? ==> r.value.0.Valid() && r.value.0.dirs == db.dirs && r.value.0.shader == db.shader
    ensures r.Ok? ==> path in r.value.0.models.entries && r.value.0.models.entries[path] == r.value.1
  {
    var load := (textures: Cache<TextureAsset>, p: string) => LoadModel(db.dirs, textures, p, env, AlwaysDiffuse);
    var loaded :- LoadAsset(db.models, db.textures, path, load);
    assert loaded.1.Valid() by {
      if path !in db.models.entries {
        assert (loaded.1, loaded.2) == load(db.textures, path).value;
      }
    }
    Ok((db.(models := loaded.0, textures := loaded.1), loaded.2))
  }

  /** `LoadAsset<Texture>`. */
  function LoadTextureAsset(db: Database, path: string, env: Environment): (r: Result<(Database, TextureAsset), Fault>)
    requires db.Valid()
    ensures path in db.textures.entries ==> r == Ok((db, db.textures.entries[path]))
    ensures r.Ok? ==> r.value.0.Valid() && r.value.0.models == db.models && r.value.0.shader == db.shader
    ensures r.Ok? ==> path in r.value.0.textures.entries && r.value.0.textures.entries[path] == r.value.1
  {
    var loaded :- LoadAsset(db.textures, (), path, TextureLoader(env.image));
    Ok((db.(textures := loaded.0), loaded.2))
  }

  /** `LoadAsset<Shader>`: the shader files are looked up for the environment's graphics API. */
  function LoadShaderAsset(db: Database, path: string, env: Environment): (r: (Database, ShaderSources))
    ensures r.0.shader == Some(r.1) && r.0.models == db.models && r.0.textures == db.textures
    ensures db.shader.Some? ==> r.1 == db.shader.value
    ensures db.shader.None? ==> r.1 == LoadShader(db.dirs, env.api, path, env.readFile)
  {
    var loaded := LoadShaderOnce(db.shader, path, (p: string) => LoadShader(db.dirs, env.api, p, env.readFile));
    (db.(shader := loaded.0), loaded.1)
  }
}

=== FILE: attachments.dfy ===
/** Render-pass attachment descriptions as the render graph and the DirectX 12 backend use them:
    each attachment names a render texture by handle and says how the pass loads, stores and
    transitions it. The enum declarations are not part of this model; the constant order used
    here is the order in which the DirectX 12 backend's lookup tables are indexed. */
module Attachments {
  import opened Wrappers

  /** The layout a render texture is in before or after a pass. */
  datatype AttachmentLayout = Render | ShaderSample | Present

  /** What a pass does with an attachment's contents when it begins: keep, clear or discard. */
  datatype AttachmentLoadAction = Load | Clear | LoadDontCare

  /** What a pass does with an attachment's contents when it ends: keep or discard. */
  datatype AttachmentStoreAction = Store | StoreDontCare

  datatype AttachmentDesc = AttachmentDesc(
    handle: nat,
    loadAction: AttachmentLoadAction,
    storeAction: AttachmentStoreAction,
    initialLayout: AttachmentLayout,
    finalLayout: AttachmentLayout)

  /** The single subpass of a render pass: which colour attachments, and whether the depth
      attachment, it writes, by position in the render pass. */
  datatype SubpassDesc = SubpassDesc(colorIndices: seq<nat>, depthStencilIndex: Option<nat>)

  datatype RenderPassDesc = RenderPassDesc(
    colorAttachments: seq<AttachmentDesc>,
    depthStencilAttachment: Option<AttachmentDesc>,
    subpass: SubpassDesc)
}

=== FILE: cursor.dfy ===
/** The cursor mode: the input system remembers the mode it last set and only asks the window
    to change it when a different mode is requested. The window call is recorded, not made. */
module Cursor {

  /** `CursorMode`, an enumeration over `ui8`; `Normal` is zero. */
  datatype CursorMode = Normal | Hidden | Locked

  /** The remembered mode starts zero-initialised, that is `Normal`. */
  const InitialMode := Normal

  /** `SetCursorMode`: the new current mode, and the modes passed to the window (none when the
      mode is already current). */
  function SetCursorMode(current: CursorMode, mode: CursorMode): (r: (CursorMode, seq<CursorMode>))
    ensures r.0 == mode
    ensures |r.1| <= 1
    ensures r.1 == [] <==> mode == current
    ensures r.1 != [] ==> r.1 == [mode]
  {
    if current == mode then (current, []) else (mode, [mode])
  }

  /** Setting the same mode twice in a row calls the window at most once. */
  lemma SetTwiceCallsWindowAtMostOnce(current: CursorMode, mode: CursorMode)
    ensures var (afterFirst, calls1) := SetCursorMode(current, mode);
            var (afterSecond, calls2) := SetCursorMode(afterFirst, mode);
            afterSecond == afterFirst && calls2 == [] && |calls1 + calls2| <= 1
  {
  }

  /** A sequence of requests: the final current mode and every window call in order. */
  function SetAll(current: CursorMode, requests: seq<CursorMode>): (CursorMode, seq<CursorMode>)
    decreases |requests|
  {
    if requests == [] then (current, [])
    else
      var (before, calls) := SetAll(current, requests[..|requests| - 1]);
      var (after, more) := SetCursorMode(before, requests[|requests| - 1]);
      (after, calls + more)
  }

  /** The mode the window is in after it has been told `calls`, starting from `initial`. */
  function WindowMode(initial: CursorMode, calls: seq<CursorMode>): CursorMode {
    if calls == [] then initial else calls[|calls| - 1]
  }

  /** The requests with every one that repeats the mode in force before it dropped. */
  function Changes(initial: CursorMode, requests: seq<CursorMode>): seq<CursorMode>
    decreases |requests|
  {
    if requests == [] then []
    else
      var prefix := requests[..|requests| - 1];
      var before := if prefix == [] then initial else prefix[|prefix| - 1];
      var last := requests[|requests| - 1];
      Changes(initial, prefix) + (if last == before then [] else [last])
  }

  /** The window is told exactly the mode changes, so it always ends in the remembered mode,
      which is the last request. */
  lemma {:induction false} WindowFollowsRequests(initial: CursorMode, requests: seq<CursorMode>)
    ensures var (current, calls) := SetAll(initial, requests);
            calls == Changes(initial, requests)
            && current == WindowMode(initial, calls)
            && current == (if requests == [] then initial else requests[|requests| - 1])
    decreases |requests|
  {
    if requests != [] {
      var prefix := requests[..|requests| - 1];
      WindowFollowsRequests(initial, prefix);
      var (before, calls) := SetAll(initial, prefix);
      var last := requests[|requests| - 1];
      if last != before {
        assert WindowMode(initial, calls + [last]) == last;
      }
    }
  }
}

=== FILE: dx11_backend.dfy ===
/** The decision logic of the DirectX 11 backend (DX11Backend.cpp): bind flags and views of
    render textures, render passes as lists of render-target views plus depth-stencil clear
    flags, the clears a pass performs when it begins, and the rasterizer, depth and blend state
    of a shader. Device objects are opaque: a view is identified by what it views. This backend
    describes a render pass by texture handles, unlike the attachment descriptions the
    DirectX 12 backend receives. The backend's header describes an older render-pass record;
    the model follows the source file. */
module DX11Backend {
  import opened Wrappers
  import opened Faults
  import opened RenderTypes
  import DXCommon

  //- Clear flags

  /** `D3D11_CLEAR_DEPTH`, `D3D11_CLEAR_STENCIL`, and `DX11_NO_DEPTH_STENCIL`. */
  const ClearDepth: nat := 0x1
  const ClearStencil: nat := 0x2
  const NoDepthStencil: nat := 0

  /** `dx11_RenderTextureTypeToClearFlags`: a table indexed by the texture type's ordinal whose
      colour entry is padding. */
  function ClearFlagsFor(textureType: RenderTextureType): (flags: nat)
    ensures flags == NoDepthStencil <==> textureType == ColorType
    ensures flags % 2 == 1 <==> textureType == DepthType || textureType == DepthStencilType
    ensures flags / 2 == 1 <==> textureType == StencilType || textureType == DepthStencilType
  {
    [NoDepthStencil, ClearDepth, ClearStencil, ClearDepth + ClearStencil][
      match textureType case ColorType => 0 case DepthType => 1 case StencilType => 2 case DepthStencilType => 3]
  }

  /** The clear flags tell the texture type apart, so a pass's flags say what it clears. */
  lemma ClearFlagsDetermineType(x: RenderTextureType, y: RenderTextureType)
    ensures ClearFlagsFor(x) == ClearFlagsFor(y) <==> x == y
  {
  }

  /** `dx11_TriangleFrontFace`: DirectX's `FrontCounterClockwise`. */
  function TriangleFrontFace(face: TriangleFrontFace): (frontCounterClockwise: bool)
    ensures frontCounterClockwise <==> face != Clockwise
  {
    if face == Clockwise then false else true
  }

  /** Outside ImGui the backend's own front-face helper agrees with the shared one. */
  lemma TriangleFrontFaceAgreesWithCommon(face: TriangleFrontFace)
    ensures TriangleFrontFace(face) == DXCommon.TriangleFrontFace(face, false)
  {
  }

  //- Render textures

  /** What a view belongs to: a render texture or the swapchain's back buffer. */
  datatype View = RenderTextureView(handle: nat) | BackBufferView

  datatype BindFlags = BindFlags(renderTarget: bool, depthStencil: bool, shaderResource: bool)

  /** `D3D11_BIND_SHADER_RESOURCE`, `D3D11_BIND_RENDER_TARGET`, `D3D11_BIND_DEPTH_STENCIL`. */
  const BindShaderResource: nat := 0x8
  const BindRenderTarget: nat := 0x20
  const BindDepthStencil: nat := 0x40

  /** The flags as the bit mask handed to the device; the three bits are distinct. */
  function BindFlagsMask(f: BindFlags): nat {
    (if f.renderTarget then BindRenderTarget else 0)
    + (if f.depthStencil then BindDepthStencil else 0)
    + (if f.shaderResource then BindShaderResource else 0)
  }

  /** A render texture: its render-target, depth-stencil and shader-resource views (absent
      when null), the load action and clear value of its description, and its type. A missing
      key reads as the value-initialised texture: no views, `Clear`, `Color`. */
  datatype RenderTexture = RenderTexture(
    rtv: Option<View>,
    dsv: Option<View>,
    srv: Option<View>,
    loadAction: RenderTextureLoadAction,
    textureType: RenderTextureType)

  const NullRenderTexture := RenderTexture(None, None, None, LoadClear, ColorType)

  /** A render pass: copies of its colour textures, their render-target views in the same order,
      the depth-stencil texture (null when absent) and the flags its depth clear uses. */
  datatype RenderPass = RenderPass(
    colorAttachments: seq<RenderTexture>,
    colorRTVs: seq<Option<View>>,
    depthStencilAttachment: RenderTexture,
    depthStencilClearFlags: nat)

  const EmptyRenderPass := RenderPass([], [], NullRenderTexture, NoDepthStencil)

  datatype HandleCounters = HandleCounters(renderPass: nat, renderTexture: nat, shader: nat)

  datatype Backend = Backend(
    renderTextures: map<nat, RenderTexture>,
    renderPasses: map<nat, RenderPass>,
    shaders: map<nat, Pipeline>,
    counters: HandleCounters,
    swapchainRenderPass: nat)

  predicate HandlesBelowCounters(b: Backend) {
    && (forall h :: h in b.renderTextures ==> h < b.counters.renderTexture)
    && (forall h :: h in b.renderPasses ==> h < b.counters.renderPass)
    && (forall h :: h in b.shaders ==> h < b.counters.shader)
  }

  /** What `m_renderTextures[handle]` reads: the registered texture, or the value-initialised
      one it inserts when the handle is unknown. */
  function TextureAt(b: Backend, handle: nat): RenderTexture {
    if handle in b.renderTextures then b.renderTextures[handle] else NullRenderTexture
  }

  /** `m_renderTextures[handle]` with its insertion: no handle reads differently afterwards. */
  function LookupRenderTexture(b: Backend, handle: nat): (r: (Backend, RenderTexture))
    ensures r.1 == TextureAt(b, handle)
    ensures handle in r.0.renderTextures
    ensures r.0.renderTextures.Keys == b.renderTextures.Keys + {handle}
    ensures forall h :: TextureAt(r.0, h) == TextureAt(b, h)
    ensures r.0 == b.(renderTextures := r.0.renderTextures)
  {
    if handle in b.renderTextures then (b, b.renderTextures[handle])
    else (b.(renderTextures := b.renderTextures[handle := NullRenderTexture]), NullRenderTexture)
  }

  /** `CreateRenderTexture`: a colour texture is bound and viewed as a render target, any other
      as a depth stencil; it is also bound and viewed as a shader resource exactly when some
      pass samples it. The handle is the next render-texture handle. */
  function CreateRenderTexture(b: Backend, desc: RenderTextureDesc): (r: (Backend, nat, BindFlags))
    ensures r.1 == b.counters.renderTexture && r.1 in r.0.renderTextures
    ensures var (b2, handle, bind) := r;
            var isColor := TypeOfRenderTexture(desc) == ColorType;
            var t := b2.renderTextures[handle];
            && b2.counters == b.counters.(renderTexture := handle + 1)
            && b2.renderTextures == b.renderTextures[handle := t]
            && (bind.renderTarget <==> isColor)
            && (bind.depthStencil <==> !isColor)
            && (bind.shaderResource <==> desc.usage == ShaderRead)
            && (t.rtv.Some? <==> isColor)
            && (t.dsv.Some? <==> !isColor)
            && (t.srv.Some? <==> desc.usage == ShaderRead)
            && (t.rtv.Some? ==> t.rtv.value == RenderTextureView(handle))
            && (t.dsv.Some? ==> t.dsv.value == RenderTextureView(handle))
            && t.textureType == TypeOfRenderTexture(desc)
            && t.loadAction == desc.loadAction
    ensures HandlesBelowCounters(b) ==> r.1 !in b.renderTextures && HandlesBelowCounters(r.0)
  {
    var textureType := TypeOfRenderTexture(desc);
    var isColor := textureType == ColorType;
    var isUsageShaderRead := desc.usage == ShaderRead;
    var bind := BindFlags(isColor, !isColor, isUsageShaderRead);
    var handle := b.counters.renderTexture;
    var view := RenderTextureView(handle);
    var texture := RenderTexture(
      if isColor then Some(view) else None,
      if isColor then None else Some(view),
      if isUsageShaderRead then Some(view) else None,
      desc.loadAction,
      textureType);
    (b.(renderTextures := b.renderTextures[handle := texture], counters := b.counters.(renderTexture := handle + 1)), handle, bind)
  }

  /** The bind mask always has exactly one of the render-target and depth-stencil bits, plus the
      shader-resource bit exactly for sampled textures. */
  lemma CreatedBindMask(b: Backend, desc: RenderTextureDesc)
    ensures var mask := BindFlagsMask(CreateRenderTexture(b, desc).2);
            mask == (if TypeOfRenderTexture(desc) == ColorType then BindRenderTarget else BindDepthStencil)
                    + (if desc.usage == ShaderRead then BindShaderResource else 0)
  {
  }

  /** `GetNativeRenderTexture`: the texture's shader-resource view, which must exist. */
  function NativeRenderTexture(b: Backend, handle: nat): (r: Result<(Backend, View), Fault>)
    ensures r.Ok? <==> handle in b.renderTextures && b.renderTextures[handle].srv.Some?
    ensures r.Err? ==> r.error == AssertionFailed("Trying to access nullptr DX11RenderTexture.SRV")
    ensures r.Ok? ==> r.value == (b, b.renderTextures[handle].srv.value)
  {
    var (b2, texture) := LookupRenderTexture(b, handle);
    if texture.srv.None? then Err(AssertionFailed("Trying to access nullptr DX11RenderTexture.SRV"))
    else Ok((b2, texture.srv.value))
  }

  /** A texture created for sampling can be handed to ImGui; any other cannot. */
  lemma NativeRenderTextureOfCreated(b: Backend, desc: RenderTextureDesc)
    ensures var (b2, handle, _) := CreateRenderTexture(b, desc);
            NativeRenderTexture(b2, handle).Ok? <==> desc.usage == ShaderRead
  {
  }

  //- Render passes

  /** What the textures named by `handles` read as, in order. */
  function TexturesAt(b: Backend, handles: seq<nat>): (r: seq<RenderTexture>)
    ensures |r| == |handles|
  {
    seq(|handles|, k requires 0 <= k < |handles| => TextureAt(b, handles[k]))
  }

  function RTVsOf(textures: seq<RenderTexture>): (r: seq<Option<View>>)
    ensures |r| == |textures|
  {
    seq(|textures|, k requires 0 <= k < |textures| => textures[k].rtv)
  }

  /** The colour-attachment loop of `CreateRenderPass` from attachment `i` on. */
  function AppendColorAttachments(b: Backend, handles: seq<nat>, i: nat, pass: RenderPass): (r: (Backend, RenderPass))
    requires i <= |handles|
    ensures r.1.depthStencilAttachment == pass.depthStencilAttachment
    ensures r.1.depthStencilClearFlags == pass.depthStencilClearFlags
    ensures r.0 == b.(renderTextures := r.0.renderTextures)
    decreases |handles| - i
  {
    if i == |handles| then (b, pass)
    else
      var (b2, texture) := LookupRenderTexture(b, handles[i]);
      AppendColorAttachments(b2, handles, i + 1,
        pass.(colorAttachments := pass.colorAttachments + [texture], colorRTVs := pass.colorRTVs + [texture.rtv]))
  }

  /** The loop leaves what every handle reads as unchanged. */
  lemma {:induction false} AppendColorAttachmentsKeepsTextures(b: Backend, handles: seq<nat>, i: nat, pass: RenderPass)
    requires i <= |handles|
    ensures forall h :: TextureAt(AppendColorAttachments(b, handles, i, pass).0, h) == TextureAt(b, h)
    decreases |handles| - i
  {
    if i < |handles| {
      var (b2, texture) := LookupRenderTexture(b, handles[i]);
      var pass2 := pass.(colorAttachments := pass.colorAttachments + [texture], colorRTVs := pass.colorRTVs + [texture.rtv]);
      AppendColorAttachmentsKeepsTextures(b2, handles, i + 1, pass2);
    }
  }

  /** The loop appends every named texture and its render-target view, in order. */
  lemma {:induction false} AppendColorAttachmentsInOrder(b: Backend, handles: seq<nat>, i: nat, pass: RenderPass)
    requires i <= |handles|
    ensures var r := AppendColorAttachments(b, handles, i, pass);
            && r.1.colorAttachments == pass.colorAttachments + TexturesAt(b, handles[i..])
            && r.1.colorRTVs == pass.colorRTVs + RTVsOf(TexturesAt(b, handles[i..]))
    decreases |handles| - i
  {
    if i == |handles| {
      assert TexturesAt(b, handles[i..]) == [];
      assert RTVsOf([]) == [];
    } else {
      var (b2, texture) := LookupRenderTexture(b, handles[i]);
      var pass2 := pass.(colorAttachments := pass.colorAttachments + [texture], colorRTVs := pass.colorRTVs + [texture.rtv]);
      AppendColorAttachmentsInOrder(b2, handles, i + 1, pass2);
      var rest := TexturesAt(b, handles[i + 1..]);
      TexturesAtSameReads(b, b2, handles[i + 1..]);
      TexturesAtCons(b, handles, i);
      RTVsOfCons(texture, rest);
      assert pass2.colorAttachments + rest == pass.colorAttachments + ([texture] + rest);
      assert pass2.colorRTVs + RTVsOf(rest) == pass.colorRTVs + ([texture.rtv] + RTVsOf(rest));
    }
  }

  lemma TexturesAtSameReads(b: Backend, b2: Backend, handles: seq<nat>)
    requires forall h :: TextureAt(b2, h) == TextureAt(b, h)
    ensures TexturesAt(b2, handles) == TexturesAt(b, handles)
  {
  }

  lemma TexturesAtCons(b: Backend, handles: seq<nat>, i: nat)
    requires i < |handles|
    ensures TexturesAt(b, handles[i..]) == [TextureAt(b, handles[i])] + TexturesAt(b, handles[i + 1..])
  {
  }

  lemma RTVsOfCons(texture: RenderTexture, rest: seq<RenderTexture>)
    ensures RTVsOf([texture] + rest) == [texture.rtv] + RTVsOf(rest)
  {
  }

  /** `CreateRenderPass`: colour textures and their render-target views in the order named; the
      depth texture's copy, and clear flags that follow its type and are `NoDepthStencil`
      without one. Unknown handles read as null textures and are inserted. The handle is the next
      render-pass handle. */
  function CreateRenderPass(b: Backend, desc: HandleRenderPassDesc): (r: (Backend, nat))
    ensures var (b2, handle) := r;
            && handle == b.counters.renderPass
            && b2.counters == b.counters.(renderPass := handle + 1)
            && handle in b2.renderPasses
            && b2.renderPasses == b.renderPasses[handle := b2.renderPasses[handle]]
            && (forall h :: TextureAt(b2, h) == TextureAt(b, h))
            && var pass := b2.renderPasses[handle];
               && pass.colorAttachments == TexturesAt(b, desc.colorAttachments)
               && pass.colorRTVs == RTVsOf(pass.colorAttachments)
               && (desc.depthStencilAttachment.Some? ==>
                     && pass.depthStencilAttachment == TextureAt(b, desc.depthStencilAttachment.value)
                     && pass.depthStencilClearFlags == ClearFlagsFor(pass.depthStencilAttachment.textureType))
               && (desc.depthStencilAttachment.None? ==>
                     pass.depthStencilAttachment == NullRenderTexture && pass.depthStencilClearFlags == NoDepthStencil)
    ensures HandlesBelowCounters(b) ==> r.1 !in b.renderPasses
  {
    AppendColorAttachmentsInOrder(b, desc.colorAttachments, 0, EmptyRenderPass);
    AppendColorAttachmentsKeepsTextures(b, desc.colorAttachments, 0, EmptyRenderPass);
    assert desc.colorAttachments[0..] == desc.colorAttachments;
    var (b1, pass) := AppendColorAttachments(b, desc.colorAttachments, 0, EmptyRenderPass);
    var (b2, pass2) :=
      if desc.depthStencilAttachment.Some? then
        var (b2, texture) := LookupRenderTexture(b1, desc.depthStencilAttachment.value);
        (b2, pass.(depthStencilAttachment := texture, depthStencilClearFlags := ClearFlagsFor(texture.textureType)))
      else (b1, pass.(depthStencilClearFlags := NoDepthStencil));
    var handle := b2.counters.renderPass;
    (b2.(renderPasses := b2.renderPasses[handle := pass2], counters := b2.counters.(renderPass := handle + 1)), handle)
  }

  /** The render pass the constructor registers over the swapchain's back buffer: one colour
      attachment that is cleared, no depth. */
  function SwapchainRenderPass(): RenderPass {
    var backBuffer := RenderTexture(Some(BackBufferView), None, None, LoadClear, ColorType);
    RenderPass([backBuffer], [backBuffer.rtv], NullRenderTexture, NoDepthStencil)
  }

  /** The constructor's swapchain pass, under the next render-pass handle. */
  function CreateSwapchainRenderPass(b: Backend): (r: Backend)
    ensures r.swapchainRenderPass == b.counters.renderPass
    ensures r.counters == b.counters.(renderPass := b.counters.renderPass + 1)
    ensures r.renderPasses == b.renderPasses[r.swapchainRenderPass := SwapchainRenderPass()]
    ensures HandlesBelowCounters(b) ==> r.swapchainRenderPass !in b.renderPasses && HandlesBelowCounters(r)
  {
    var handle := b.counters.renderPass;
    b.(swapchainRenderPass := handle,
       renderPasses := b.renderPasses[handle := SwapchainRenderPass()],
       counters := b.counters.(renderPass := handle + 1))
  }

  //- Beginning a pass

  datatype Command =
    | SetRenderTargets(rtvs: seq<Option<View>>, dsv: Option<View>)
    | ClearRenderTargetView(rtv: Option<View>)
    | ClearDepthStencilView(dsv: Option<View>, flags: nat)

  /** The colour clears of a pass: one per colour attachment whose load action is `Clear`, in
      attachment order. */
  function ColorClears(attachments: seq<RenderTexture>): (r: seq<Command>)
    ensures |r| <= |attachments|
    ensures forall c :: c in r ==> c.ClearRenderTargetView?
    decreases |attachments|
  {
    if |attachments| == 0 then []
    else
      (if attachments[0].loadAction == LoadClear then [ClearRenderTargetView(attachments[0].rtv)] else [])
      + ColorClears(attachments[1..])
  }

  function CountClearing(attachments: seq<RenderTexture>): nat
    decreases |attachments|
  {
    if |attachments| == 0 then 0
    else (if attachments[0].loadAction == LoadClear then 1 else 0) + CountClearing(attachments[1..])
  }

  /** One clear per clearing attachment, and a view is cleared only if a clearing attachment
      has it. */
  lemma {:induction false} ColorClearsMatchAttachments(attachments: seq<RenderTexture>)
    ensures |ColorClears(attachments)| == CountClearing(attachments)
    ensures forall c :: c in ColorClears(attachments) ==>
              exists k :: 0 <= k < |attachments| && attachments[k].loadAction == LoadClear && attachments[k].rtv == c.rtv
    ensures forall k :: 0 <= k < |attachments| && attachments[k].loadAction == LoadClear ==>
              ClearRenderTargetView(attachments[k].rtv) in ColorClears(attachments)
    decreases |attachments|
  {
    if |attachments| > 0 {
      ColorClearsMatchAttachments(attachments[1..]);
      var first := if attachments[0].loadAction == LoadClear then [ClearRenderTargetView(attachments[0].rtv)] else [];
      assert ColorClears(attachments) == first + ColorClears(attachments[1..]);
      forall c | c in ColorClears(attachments)
        ensures exists k :: 0 <= k < |attachments| && attachments[k].loadAction == LoadClear && attachments[k].rtv == c.rtv
      {
        if c in first {
          assert attachments[0].loadAction == LoadClear && attachments[0].rtv == c.rtv;
        } else {
          var k :| 0 <= k < |attachments[1..]| && attachments[1..][k].loadAction == LoadClear && attachments[1..][k].rtv == c.rtv;
          assert attachments[k + 1] == attachments[1..][k];
        }
      }
      forall k | 0 <= k < |attachments| && attachments[k].loadAction == LoadClear
        ensures ClearRenderTargetView(attachments[k].rtv) in ColorClears(attachments)
      {
        if k > 0 {
          assert attachments[1..][k - 1] == attachments[k];
        }
      }
    }
  }

  /** `BeginRenderPass`: bind the colour views and, when the pass has clear flags, the depth
      view; clear the colour attachments that load with `Clear`; clear the depth view when it is
      bound and its texture loads with `Clear`. An unknown handle inserts an empty pass. */
  function BeginRenderPass(b: Backend, handle: nat): (r: (Backend, seq<Command>))
    ensures var pass := if handle in b.renderPasses then b.renderPasses[handle] else EmptyRenderPass;
            var depth := pass.depthStencilAttachment;
            var dsv := if pass.depthStencilClearFlags != NoDepthStencil then depth.dsv else None;
            && handle in r.0.renderPasses
            && r.0.renderPasses[handle] == pass
            && r.1 == [SetRenderTargets(pass.colorRTVs, dsv)]
                      + ColorClears(pass.colorAttachments)
                      + (if dsv.Some? && depth.loadAction == LoadClear
                         then [ClearDepthStencilView(dsv, pass.depthStencilClearFlags)] else [])
  {
    var b2 := if handle in b.renderPasses then b else b.(renderPasses := b.renderPasses[handle := EmptyRenderPass]);
    var pass := b2.renderPasses[handle];
    var depth := pass.depthStencilAttachment;
    var dsv := if pass.depthStencilClearFlags != NoDepthStencil then depth.dsv else None;
    var depthClear := if dsv.Some? && depth.loadAction == LoadClear then [ClearDepthStencilView(dsv, pass.depthStencilClearFlags)] else [];
    (b2, [SetRenderTargets(pass.colorRTVs, dsv)] + ColorClears(pass.colorAttachments) + depthClear)
  }

  /** A pass over registered textures binds and clears what they say: a depth texture of
      depth type is bound with its view, and cleared with depth flags exactly when its
      description loads with `Clear`; a colour texture in the depth slot is not bound at all. */
  lemma DepthBindingOfCreatedPass(b: Backend, color: seq<nat>, depth: nat)
    requires depth in b.renderTextures
    ensures var (b2, handle) := CreateRenderPass(b, HandleRenderPassDesc(color, Some(depth)));
            var t := b.renderTextures[depth];
            var commands := BeginRenderPass(b2, handle).1;
            && commands[0] == SetRenderTargets(RTVsOf(TexturesAt(b, color)), if t.textureType == ColorType then None else t.dsv)
            && (t.textureType == DepthType && t.dsv.Some? ==>
                  (ClearDepthStencilView(t.dsv, ClearDepth) in commands <==> t.loadAction == LoadClear))
  {
    var (b2, handle) := CreateRenderPass(b, HandleRenderPassDesc(color, Some(depth)));
    var commands := BeginRenderPass(b2, handle).1;
    ColorClearsMatchAttachments(b2.renderPasses[handle].colorAttachments);
  }

  /** The swapchain pass binds the back buffer with no depth view and clears it. */
  lemma SwapchainPassClearsBackBuffer(b: Backend)
    ensures var s := CreateSwapchainRenderPass(b);
            BeginRenderPass(s, s.swapchainRenderPass).1 ==
              [SetRenderTargets([Some(BackBufferView)], None), ClearRenderTargetView(Some(BackBufferView))]
  {
    var s := CreateSwapchainRenderPass(b);
    assert ColorClears(SwapchainRenderPass().colorAttachments) == [ClearRenderTargetView(Some(BackBufferView))];
  }

  //- Shaders

  /** The state objects `CreateShader` creates: rasterizer (with the scissor test), depth and
      the blend description of render target 0; the other targets are unused since independent
      blending is off. */
  datatype Pipeline = Pipeline(
    fillMode: PolygonMode,
    cullMode: CullMode,
    frontCounterClockwise: bool,
    scissorEnable: bool,
    depth: DXCommon.DepthState,
    independentBlendEnable: bool,
    target0: DXCommon.TargetBlend)

  /** `CreateShader`: only ImGui's shader has clockwise front faces and the scissor test; the
      description's front face is not consulted. */
  function CreateShader(b: Backend, desc: ShaderDesc): (r: (Backend, nat))
    ensures var (b2, handle) := r;
            && handle == b.counters.shader
            && b2.counters == b.counters.(shader := handle + 1)
            && handle in b2.shaders
            && b2.shaders == b.shaders[handle := b2.shaders[handle]]
            && var p := b2.shaders[handle];
               && (p.frontCounterClockwise <==> !IsImGuiShader(desc))
               && (p.scissorEnable <==> IsImGuiShader(desc))
               && (p.depth.writeMaskAll <==> desc.depthStencil.depthWriteEnable)
               && (p.target0.blendEnable <==> desc.blend.blendMode == BlendOpMode)
               && (p.target0.logicOpEnable <==> desc.blend.blendMode == LogicOpMode)
               && !p.independentBlendEnable
    ensures HandlesBelowCounters(b) ==> r.1 !in b.shaders && HandlesBelowCounters(r.0)
  {
    var isImGuiShader := desc.name == ImGuiShaderName;
    var pipeline := Pipeline(
      desc.rasterizer.polygonMode,
      desc.rasterizer.cullMode,
      !isImGuiShader,
      isImGuiShader,
      DXCommon.DepthStateOf(desc.depthStencil),
      IndependentBlendEnable,
      DXCommon.TargetBlendOf(desc.blend));
    var handle := b.counters.shader;
    (b.(shaders := b.shaders[handle := pipeline], counters := b.counters.(shader := handle + 1)), handle)
  }
}

=== FILE: dx12_backend.dfy ===
/** The decision logic of the DirectX 12 backend (DX12Backend.cpp), over opaque handles: which
    resource states attachments are in, which barriers a render pass issues around itself, how
    render textures are created and flagged, how the swapchain's per-frame passes are registered
    and picked, and how a shader's pipeline state is derived from its description.
    Device calls are not modelled: a created D3D object is represented by the parameters the
    backend hands to the device, and a texture is identified by its render-texture handle. The
    backend's header describes an older render-pass record; the model follows the source file. */
module DX12Backend {
  import opened Wrappers
  import opened Faults
  import opened RenderTypes
  import opened Attachments
  import DXCommon
  import opened DX12DescriptorHeap

  /** `k_BackBufferFrames`. */
  const BackBufferFrames: nat := 3

  /** `D3D12_SIMULTANEOUS_RENDER_TARGET_COUNT`. */
  const SimultaneousRenderTargets: nat := 8

  datatype ResourceState = RenderTargetState | DepthWriteState | PixelShaderResourceState | PresentState

  /** `dx12_AttachmentLayout`: rendering into a colour texture and into a depth texture are
      different states; sampling and presenting are one state each. */
  function AttachmentState(layout: AttachmentLayout, textureType: RenderTextureType): (r: ResourceState)
    ensures r == RenderTargetState <==> layout.Render? && textureType == ColorType
    ensures r == DepthWriteState <==> layout.Render? && textureType != ColorType
    ensures r == PixelShaderResourceState <==> layout.ShaderSample?
    ensures r == PresentState <==> layout.Present?
  {
    if layout == Render then
      if textureType == ColorType then RenderTargetState else DepthWriteState
    else if layout == ShaderSample then PixelShaderResourceState
    else PresentState
  }

  datatype BeginningAccess = PreserveBeginning | ClearBeginning | DiscardBeginning

  datatype EndingAccess = PreserveEnding | DiscardEnding

  /** `dx12_AttachmentLoadAction`: a table indexed by the load action's ordinal. */
  function BeginningAccessFor(load: AttachmentLoadAction): (r: BeginningAccess)
    ensures r == PreserveBeginning <==> load == Load
    ensures r == ClearBeginning <==> load == AttachmentLoadAction.Clear
  {
    [PreserveBeginning, ClearBeginning, DiscardBeginning][match load case Load => 0 case Clear => 1 case LoadDontCare => 2]
  }

  /** `dx12_AttachmentStoreAction`: a table indexed by the store action's ordinal. */
  function EndingAccessFor(store: AttachmentStoreAction): (r: EndingAccess)
    ensures r == PreserveEnding <==> store == Store
  {
    [PreserveEnding, DiscardEnding][match store case Store => 0 case StoreDontCare => 1]
  }

  //- Backend state

  /** A render texture: its RTV or DSV descriptor, its shader-resource descriptors (CPU, GPU) if
      it may be sampled, and its type. */
  datatype RenderTexture = RenderTexture(descriptor: nat, srv: Option<(nat, nat)>, textureType: RenderTextureType)

  /** A resource transition of the texture behind a render-texture handle. */
  datatype Barrier = Barrier(texture: nat, before: ResourceState, after: ResourceState)

  /** One attachment of the subpass: its descriptor and what the pass does with it at the
      beginning and at the end. */
  datatype RenderTarget = RenderTarget(descriptor: nat, beginning: BeginningAccess, ending: EndingAccess)

  datatype RenderPass = RenderPass(
    initialBarriers: seq<Barrier>,
    finalBarriers: seq<Barrier>,
    colorTargets: seq<RenderTarget>,
    depthTarget: Option<RenderTarget>)

  const EmptyRenderPass := RenderPass([], [], [], None)

  /** The `g_*HandleWorkaround` counters: the next handle of each kind. */
  datatype HandleCounters = HandleCounters(buffer: nat, renderPass: nat, renderTexture: nat, shader: nat, texture: nat)

  datatype Backend = Backend(
    heap: DescriptorHeap,
    renderTextures: map<nat, RenderTexture>,
    renderPasses: map<nat, RenderPass>,
    textures: map<nat, (nat, nat)>,
    shaders: map<nat, Pipeline>,
    counters: HandleCounters,
    swapchainRenderTexture: nat,
    swapchainRenderPass: nat,
    currentBackBufferIndex: nat)

  /** Every registered handle is below its counter, so the counters only ever hand out new ones. */
  predicate HandlesBelowCounters(b: Backend) {
    && (forall h :: h in b.renderTextures ==> h < b.counters.renderTexture)
    && (forall h :: h in b.renderPasses ==> h < b.counters.renderPass)
    && (forall h :: h in b.textures ==> h < b.counters.texture)
    && (forall h :: h in b.shaders ==> h < b.counters.shader)
  }

  //- Render textures

  datatype ResourceFlags = ResourceFlags(allowRenderTarget: bool, allowDepthStencil: bool, denyShaderResource: bool)

  /** What `CreateCommittedResource2` is asked for: the resource flags and the initial state. */
  datatype ResourceCreation = ResourceCreation(flags: ResourceFlags, initialState: ResourceState)

  /** `CreateRenderTexture`: a colour texture gets a render-target view and starts as a render
      target; any other gets a depth-stencil view and starts depth-writable. Only a texture some
      pass samples gets a shader-resource view; every other one is created with shader access
      denied. The handle is the next render-texture handle. */
  function CreateRenderTexture(b: Backend, desc: RenderTextureDesc): (r: Result<(Backend, nat, ResourceCreation), Fault>)
    ensures var isColor := TypeOfRenderTexture(desc) == ColorType;
            r.Ok? <==>
              && (if isColor then b.heap.countRTV + 1 <= MaxRTV else b.heap.countDSV + 1 <= MaxDSV)
              && (desc.usage == ShaderRead ==> b.heap.countSRV + 1 <= MaxTextures)
    ensures r.Ok? ==>
              var (b2, handle, creation) := r.value;
              var isColor := TypeOfRenderTexture(desc) == ColorType;
              && handle == b.counters.renderTexture
              && b2.counters == b.counters.(renderTexture := handle + 1)
              && handle in b2.renderTextures
              && b2.renderTextures == b.renderTextures[handle := b2.renderTextures[handle]]
              && b2.renderTextures[handle].textureType == TypeOfRenderTexture(desc)
              && (b2.renderTextures[handle].srv.Some? <==> desc.usage == ShaderRead)
              && (isColor ==> b2.renderTextures[handle].descriptor !in IssuedRTV(b.heap) || b.heap.sizeRTV == 0)
              && (creation.flags.allowRenderTarget <==> isColor)
              && (creation.flags.allowDepthStencil <==> !isColor)
              && (creation.flags.denyShaderResource <==> desc.usage != ShaderRead)
              && creation.initialState == AttachmentState(Render, TypeOfRenderTexture(desc))
    ensures r.Ok? && HandlesBelowCounters(b) ==>
              && r.value.1 !in b.renderTextures
              && HandlesBelowCounters(r.value.0)
              && b.renderTextures == r.value.0.renderTextures - {r.value.1}
  {
    var textureType := TypeOfRenderTexture(desc);
    var isColor := textureType == ColorType;
    var isUsageShaderRead := desc.usage == ShaderRead;
    var view :- if isColor then AllocateRTV(b.heap) else AllocateDSV(b.heap);
    var flags := ResourceFlags(isColor, !isColor, !isUsageShaderRead);
    var initialState := if isColor then RenderTargetState else DepthWriteState;
    var srv :- if isUsageShaderRead then
                 var s :- AllocateSRV(view.0);
                 Ok((s.0, Some((s.1, s.2))))
               else Ok((view.0, None));
    var handle := b.counters.renderTexture;
    var b2 := b.(heap := srv.0,
                 renderTextures := b.renderTextures[handle := RenderTexture(view.1, srv.1, textureType)],
                 counters := b.counters.(renderTexture := handle + 1));
    Ok((b2, handle, ResourceCreation(flags, initialState)))
  }

  //- Render passes

  /** The barrier around one attachment: at the start of the pass it moves the texture from its
      initial layout's state into the render state, at the end from the render state into its
      final layout's state, and there is none when that layout is `Render` already. The texture
      type is the one of the attachment's slot, not of the texture. */
  function Transition(a: AttachmentDesc, slotType: RenderTextureType, atStart: bool): (r: Option<Barrier>)
    ensures var layout := if atStart then a.initialLayout else a.finalLayout;
            r.Some? <==> layout != Render
    ensures r.Some? ==> r.value.texture == a.handle && r.value.before != r.value.after
    ensures r.Some? && atStart ==>
              r.value.before == AttachmentState(a.initialLayout, slotType) && r.value.after == AttachmentState(Render, slotType)
    ensures r.Some? && !atStart ==>
              r.value.before == AttachmentState(Render, slotType) && r.value.after == AttachmentState(a.finalLayout, slotType)
  {
    if atStart then
      if a.initialLayout == Render then None
      else Some(Barrier(a.handle, AttachmentState(a.initialLayout, slotType), AttachmentState(Render, slotType)))
    else
      if a.finalLayout == Render then None
      else Some(Barrier(a.handle, AttachmentState(Render, slotType), AttachmentState(a.finalLayout, slotType)))
  }

  /** The barriers of a list of attachments, in attachment order. */
  function Transitions(attachments: seq<AttachmentDesc>, slotType: RenderTextureType, atStart: bool): (r: seq<Barrier>)
    ensures |r| <= |attachments|
    decreases |attachments|
  {
    if |attachments| == 0 then []
    else
      var first := Transition(attachments[0], slotType, atStart);
      (if first.Some? then [first.value] else []) + Transitions(attachments[1..], slotType, atStart)
  }

  /** Attachments staying in the render layout at one end of the pass. */
  function CountStaying(attachments: seq<AttachmentDesc>, atStart: bool): nat
    decreases |attachments|
  {
    if |attachments| == 0 then 0
    else
      var layout := if atStart then attachments[0].initialLayout else attachments[0].finalLayout;
      (if layout == Render then 1 else 0) + CountStaying(attachments[1..], atStart)
  }

  /** One barrier per attachment that leaves or returns to a non-render layout, no more. */
  lemma {:induction false} TransitionsCount(attachments: seq<AttachmentDesc>, slotType: RenderTextureType, atStart: bool)
    ensures |Transitions(attachments, slotType, atStart)| == |attachments| - CountStaying(attachments, atStart)
    decreases |attachments|
  {
    if |attachments| > 0 {
      TransitionsCount(attachments[1..], slotType, atStart);
    }
  }

  /** Every barrier changes the state of its texture: no barrier is issued for an attachment
      that stays in the render layout. */
  lemma {:induction false} TransitionsChangeState(attachments: seq<AttachmentDesc>, slotType: RenderTextureType, atStart: bool)
    ensures forall k :: 0 <= k < |Transitions(attachments, slotType, atStart)| ==>
              Transitions(attachments, slotType, atStart)[k].before != Transitions(attachments, slotType, atStart)[k].after
    decreases |attachments|
  {
    if |attachments| > 0 {
      TransitionsChangeState(attachments[1..], slotType, atStart);
      var first := Transition(attachments[0], slotType, atStart);
      var head: seq<Barrier> := if first.Some? then [first.value] else [];
      var rest := Transitions(attachments[1..], slotType, atStart);
      assert Transitions(attachments, slotType, atStart) == head + rest;
      forall k | 0 <= k < |head + rest|
        ensures (head + rest)[k].before != (head + rest)[k].after
      {
        if k >= |head| {
          assert (head + rest)[k] == rest[k - |head|];
          assert rest[k - |head|].before != rest[k - |head|].after;
        } else {
          assert (head + rest)[k] == first.value;
        }
      }
    }
  }

  /** Barriers of consecutive lists follow one another: the order of attachments is kept. */
  lemma {:induction false} TransitionsOfConcatenation(xs: seq<AttachmentDesc>, ys: seq<AttachmentDesc>, slotType: RenderTextureType, atStart: bool)
    ensures Transitions(xs + ys, slotType, atStart) == Transitions(xs, slotType, atStart) + Transitions(ys, slotType, atStart)
    decreases |xs|
  {
    if |xs| > 0 {
      TransitionsOfConcatenation(xs[1..], ys, slotType, atStart);
      var head := TransitionsUnfold(xs + ys, slotType, atStart);
      var head2 := TransitionsUnfold(xs, slotType, atStart);
      assert (xs + ys)[0] == xs[0] && (xs + ys)[1..] == xs[1..] + ys;
      var rest, tail := Transitions(xs[1..], slotType, atStart), Transitions(ys, slotType, atStart);
      assert head + (rest + tail) == (head + rest) + tail;
    } else {
      assert xs + ys == ys;
    }
  }

  /** The barrier list of a non-empty list: the first attachment's barrier, if any, then the rest's. */
  lemma TransitionsUnfold(attachments: seq<AttachmentDesc>, slotType: RenderTextureType, atStart: bool)
    returns (head: seq<Barrier>)
    requires |attachments| > 0
    ensures head == OptionToSeq(Transition(attachments[0], slotType, atStart))
    ensures Transitions(attachments, slotType, atStart) == head + Transitions(attachments[1..], slotType, atStart)
  {
    head := OptionToSeq(Transition(attachments[0], slotType, atStart));
  }

  function OptionToSeq<T>(o: Option<T>): seq<T> {
    if o.Some? then [o.value] else []
  }

  /** Every texture the description names is registered. Looking up an unregistered handle
      dereferences the null pointer the lookup inserts. */
  predicate AttachmentsRegistered(b: Backend, desc: RenderPassDesc) {
    && (forall k :: 0 <= k < |desc.colorAttachments| ==> desc.colorAttachments[k].handle in b.renderTextures)
    && (desc.depthStencilAttachment.Some? ==> desc.depthStencilAttachment.value.handle in b.renderTextures)
  }

  function TargetOf(b: Backend, a: AttachmentDesc): RenderTarget
    requires a.handle in b.renderTextures
  {
    RenderTarget(b.renderTextures[a.handle].descriptor, BeginningAccessFor(a.loadAction), EndingAccessFor(a.storeAction))
  }

  /** `CreateRenderPass`: the barriers are the colour attachments' then the depth attachment's;
      the subpass has one render target per colour attachment, in order, and a depth target
      exactly when there is a depth attachment. The handle is the next render-pass handle. */
  function CreateRenderPass(b: Backend, desc: RenderPassDesc): (r: Result<(Backend, nat), Fault>)
    ensures r.Ok? <==> AttachmentsRegistered(b, desc)
    ensures r.Err? ==> r.error == Undefined
    ensures r.Ok? ==>
              var (b2, handle) := r.value;
              && handle == b.counters.renderPass
              && b2.counters == b.counters.(renderPass := handle + 1)
              && b2 == b.(renderPasses := b2.renderPasses, counters := b2.counters)
              && handle in b2.renderPasses
              && b2.renderPasses == b.renderPasses[handle := b2.renderPasses[handle]]
              && var pass := b2.renderPasses[handle];
                 && pass.initialBarriers ==
                      Transitions(desc.colorAttachments, ColorType, true)
                      + Transitions(OptionToSeq(desc.depthStencilAttachment), DepthType, true)
                 && pass.finalBarriers ==
                      Transitions(desc.colorAttachments, ColorType, false)
                      + Transitions(OptionToSeq(desc.depthStencilAttachment), DepthType, false)
                 && |pass.colorTargets| == |desc.colorAttachments|
                 && (forall k :: 0 <= k < |desc.colorAttachments| ==>
                       pass.colorTargets[k] == TargetOf(b, desc.colorAttachments[k]))
                 && (pass.depthTarget.Some? <==> desc.depthStencilAttachment.Some?)
                 && (pass.depthTarget.Some? ==> pass.depthTarget.value == TargetOf(b, desc.depthStencilAttachment.value))
    ensures r.Ok? && HandlesBelowCounters(b) ==>
              && r.value.1 !in b.renderPasses
              && HandlesBelowCounters(r.value.0)
              && b.renderPasses == r.value.0.renderPasses - {r.value.1}
  {
    if !AttachmentsRegistered(b, desc) then Err(Undefined)
    else
      var depth := OptionToSeq(desc.depthStencilAttachment);
      var colorTargets := seq(|desc.colorAttachments|, k requires 0 <= k < |desc.colorAttachments| => TargetOf(b, desc.colorAttachments[k]));
      var depthTarget := if desc.depthStencilAttachment.Some? then Some(TargetOf(b, desc.depthStencilAttachment.value)) else None;
      var pass := RenderPass(
        Transitions(desc.colorAttachments, ColorType, true) + Transitions(depth, DepthType, true),
        Transitions(desc.colorAttachments, ColorType, false) + Transitions(depth, DepthType, false),
        colorTargets,
        depthTarget);
      var handle := b.counters.renderPass;
      Ok((b.(renderPasses := b.renderPasses[handle := pass], counters := b.counters.(renderPass := handle + 1)), handle))
  }

  /** The render graph's plan for a texture one pass creates and the next samples: the creating
      pass leaves it in the sampling state and the reading pass starts from that same state, so
      the two barriers chain; neither pass needs a barrier at its other end. */
  lemma SharedTextureBarriersChain(handle: nat)
    ensures var creator := AttachmentDesc(handle, AttachmentLoadAction.Clear, Store, Render, ShaderSample);
            var reader := AttachmentDesc(handle, Load, StoreDontCare, ShaderSample, Render);
            && Transition(creator, ColorType, true).None?
            && Transition(reader, ColorType, false).None?
            && Transition(creator, ColorType, false) == Some(Barrier(handle, RenderTargetState, PixelShaderResourceState))
            && Transition(reader, ColorType, true) == Some(Barrier(handle, PixelShaderResourceState, RenderTargetState))
  {
  }

  //- Swapchain

  /** The attachment every swapchain pass has: cleared, kept, presented before and after. */
  function SwapchainAttachment(handle: nat): AttachmentDesc {
    AttachmentDesc(handle, AttachmentLoadAction.Clear, Store, Present, Present)
  }

  function SwapchainPassDesc(handle: nat): RenderPassDesc {
    RenderPassDesc([SwapchainAttachment(handle)], None, SubpassDesc([0], None))
  }

  /** The pass a swapchain buffer gets: from presenting to rendering and back, clearing the
      buffer and keeping what was drawn. */
  function SwapchainPass(handle: nat, rtv: nat): RenderPass {
    RenderPass([Barrier(handle, PresentState, RenderTargetState)],
               [Barrier(handle, RenderTargetState, PresentState)],
               [RenderTarget(rtv, ClearBeginning, PreserveEnding)],
               None)
  }

  /** The loop of `CreateSwapchain` from back buffer `i` on: register the buffer's render texture
      with its render-target view, then create a pass over it. */
  function SwapchainFrames(b: Backend, rtvs: seq<nat>, i: nat): (r: Backend)
    requires i <= |rtvs|
    ensures LoopKeeps(b, r)
    ensures r.counters.renderTexture == b.counters.renderTexture + (|rtvs| - i)
    ensures r.counters.renderPass == b.counters.renderPass + (|rtvs| - i)
    decreases |rtvs| - i
  {
    if i == |rtvs| then b
    else SwapchainFrames(SwapchainStep(b, rtvs[i]), rtvs, i + 1)
  }

  /** What the swapchain loop leaves alone: everything but the render textures, the render
      passes and those two counters. */
  predicate LoopKeeps(b: Backend, r: Backend) {
    && r.heap == b.heap && r.textures == b.textures && r.shaders == b.shaders
    && r.counters.buffer == b.counters.buffer && r.counters.shader == b.counters.shader
    && r.counters.texture == b.counters.texture
    && r.swapchainRenderTexture == b.swapchainRenderTexture && r.swapchainRenderPass == b.swapchainRenderPass
    && r.currentBackBufferIndex == b.currentBackBufferIndex
  }

  /** The render texture `texture` is a swapchain buffer with view `rtv`, and `pass` its pass. */
  predicate FrameRegistered(r: Backend, texture: nat, pass: nat, rtv: nat) {
    && texture in r.renderTextures
    && r.renderTextures[texture] == RenderTexture(rtv, None, ColorType)
    && pass in r.renderPasses
    && r.renderPasses[pass] == SwapchainPass(texture, rtv)
  }

  /** Back buffer `j` gets the render-texture handle and the render-pass handle `j - i` places
      past the counters, its view and its swapchain pass. */
  lemma SwapchainFramesRegisters(b: Backend, rtvs: seq<nat>, i: nat)
    requires i <= |rtvs|
    ensures var r := SwapchainFrames(b, rtvs, i);
            forall j :: i <= j < |rtvs| ==>
              FrameRegistered(r, b.counters.renderTexture + (j - i), b.counters.renderPass + (j - i), rtvs[j])
  {
    forall j | i <= j < |rtvs|
      ensures FrameRegistered(SwapchainFrames(b, rtvs, i), b.counters.renderTexture + (j - i),
                              b.counters.renderPass + (j - i), rtvs[j])
    {
      SwapchainFramesRegistersAt(b, rtvs, i, j);
    }
  }

  /** Back buffer `j` in particular, by induction on the buffers before it. */
  lemma {:induction false} SwapchainFramesRegistersAt(b: Backend, rtvs: seq<nat>, i: nat, j: nat)
    requires i <= j < |rtvs|
    ensures FrameRegistered(SwapchainFrames(b, rtvs, i), b.counters.renderTexture + (j - i),
                            b.counters.renderPass + (j - i), rtvs[j])
    decreases j - i
  {
    if j == i {
      SwapchainFramesRegistersFirst(b, rtvs, i);
    } else {
      var b2 := SwapchainStep(b, rtvs[i]);
      assert SwapchainFrames(b, rtvs, i) == SwapchainFrames(b2, rtvs, i + 1);
      SwapchainFramesRegistersAt(b2, rtvs, i + 1, j);
      assert b2.counters.renderTexture + (j - (i + 1)) == b.counters.renderTexture + (j - i);
      assert b2.counters.renderPass + (j - (i + 1)) == b.counters.renderPass + (j - i);
    }
  }

  /** The first buffer of the loop is registered once the loop is over. */
  lemma SwapchainFramesRegistersFirst(b: Backend, rtvs: seq<nat>, i: nat)
    requires i < |rtvs|
    ensures FrameRegistered(SwapchainFrames(b, rtvs, i), b.counters.renderTexture, b.counters.renderPass, rtvs[i])
  {
    SwapchainFramesKeepFrame(SwapchainStep(b, rtvs[i]), rtvs, i + 1, b.counters.renderTexture, b.counters.renderPass, rtvs[i]);
  }

  /** A buffer registered below the counters stays registered through the rest of the loop. */
  lemma {:induction false} SwapchainFramesKeepFrame(b: Backend, rtvs: seq<nat>, i: nat, texture: nat, pass: nat, rtv: nat)
    requires i <= |rtvs|
    requires FrameRegistered(b, texture, pass, rtv)
    requires texture < b.counters.renderTexture && pass < b.counters.renderPass
    ensures FrameRegistered(SwapchainFrames(b, rtvs, i), texture, pass, rtv)
    decreases |rtvs| - i
  {
    if i < |rtvs| {
      SwapchainFramesKeepFrame(SwapchainStep(b, rtvs[i]), rtvs, i + 1, texture, pass, rtv);
    }
  }

  /** One iteration of the swapchain loop: the buffer's render texture with its view under the
      next render-texture handle, and its swapchain pass under the next render-pass handle. */
  function SwapchainStep(b: Backend, rtv: nat): Backend
  {
    var handle := b.counters.renderTexture;
    b.(renderTextures := b.renderTextures[handle := RenderTexture(rtv, None, ColorType)],
       renderPasses := b.renderPasses[b.counters.renderPass := SwapchainPass(handle, rtv)],
       counters := b.counters.(renderTexture := handle + 1, renderPass := b.counters.renderPass + 1))
  }

  /** The iteration is what registering the render texture and then calling `CreateRenderPass`
      with the swapchain pass description does. */
  lemma SwapchainStepCreatesPass(b: Backend, rtv: nat)
    ensures var handle := b.counters.renderTexture;
            var b1 := b.(renderTextures := b.renderTextures[handle := RenderTexture(rtv, None, ColorType)],
                         counters := b.counters.(renderTexture := handle + 1));
            CreateRenderPass(b1, SwapchainPassDesc(handle)) == Ok((SwapchainStep(b, rtv), b.counters.renderPass))
  {
    var handle := b.counters.renderTexture;
    var b1 := b.(renderTextures := b.renderTextures[handle := RenderTexture(rtv, None, ColorType)],
                 counters := b.counters.(renderTexture := handle + 1));
    var created := CreateRenderPass(b1, SwapchainPassDesc(handle));
    assert created.Ok?;
    assert Transitions([SwapchainAttachment(handle)], ColorType, true) == [Barrier(handle, PresentState, RenderTargetState)];
    assert Transitions([SwapchainAttachment(handle)], ColorType, false) == [Barrier(handle, RenderTargetState, PresentState)];
    var pass := created.value.0.renderPasses[b.counters.renderPass];
    assert pass.colorTargets == [RenderTarget(rtv, ClearBeginning, PreserveEnding)];
    assert pass == SwapchainPass(handle, rtv);
  }

  /** The swapchain loop keeps every handle it registers below the counters. */
  lemma {:induction false} SwapchainFramesKeeps(b: Backend, rtvs: seq<nat>, i: nat)
    requires i <= |rtvs|
    ensures HandlesBelowCounters(b) ==> HandlesBelowCounters(SwapchainFrames(b, rtvs, i))
    decreases |rtvs| - i
  {
    if i < |rtvs| {
      var b2 := SwapchainStep(b, rtvs[i]);
      SwapchainFramesKeeps(b2, rtvs, i + 1);
    }
  }

  /** `CreateSwapchain`'s bookkeeping: the swapchain handles are the next render-texture and
      render-pass handles, and one texture and one pass are registered per back buffer, each
      buffer with one of a batch of consecutive render-target views. */
  function CreateSwapchain(b: Backend): (r: Result<Backend, Fault>)
    ensures r.Ok? <==> b.heap.countRTV + BackBufferFrames <= MaxRTV
    ensures r.Err? ==> r.error == AssertionFailed("Exceeded RTV descriptors limit")
    ensures r.Ok? ==>
              && r.value.swapchainRenderTexture == b.counters.renderTexture
              && r.value.swapchainRenderPass == b.counters.renderPass
              && r.value.counters == b.counters.(renderTexture := b.counters.renderTexture + BackBufferFrames,
                                                  renderPass := b.counters.renderPass + BackBufferFrames)
              && r.value.heap == b.heap.(countRTV := b.heap.countRTV + BackBufferFrames)
  {
    AllocateRTVTimesWithinLimit(b.heap, BackBufferFrames);
    var views :- AllocateRTVTimes(b.heap, BackBufferFrames);
    var b1 := b.(heap := views.0, swapchainRenderTexture := b.counters.renderTexture, swapchainRenderPass := b.counters.renderPass);
    Ok(SwapchainFrames(b1, views.1, 0))
  }

  //- Recording

  datatype Command =
    | ResourceBarrier(barriers: seq<Barrier>)
    | BeginPass(colorTargets: seq<RenderTarget>, depthTarget: Option<RenderTarget>)
    | EndPass

  /** The command list being recorded and the pass currently open. */
  datatype Recorder = Recorder(backend: Backend, current: RenderPass, commands: seq<Command>)

  /** The pass a handle stands for: the swapchain handle means the current back buffer's pass. */
  function ResolveRenderPass(b: Backend, handle: nat): nat {
    if handle == b.swapchainRenderPass then b.swapchainRenderPass + b.currentBackBufferIndex else handle
  }

  /** The barriers, issued only when there are any. */
  function BarrierCommands(barriers: seq<Barrier>): seq<Command> {
    if |barriers| == 0 then [] else [ResourceBarrier(barriers)]
  }

  /** `BeginRenderPass`: the initial barriers, then the pass over its targets. Looking up an
      unknown handle inserts an empty pass and begins that. */
  function BeginRenderPass(rec: Recorder, handle: nat): (r: Recorder)
    ensures var actual := ResolveRenderPass(rec.backend, handle);
            && actual in r.backend.renderPasses
            && r.current == r.backend.renderPasses[actual]
            && r.commands == rec.commands + BarrierCommands(r.current.initialBarriers)
                             + [BeginPass(r.current.colorTargets, r.current.depthTarget)]
            && (actual in rec.backend.renderPasses ==> r.backend == rec.backend)
            && (actual !in rec.backend.renderPasses ==> r.current == EmptyRenderPass)
  {
    var actual := ResolveRenderPass(rec.backend, handle);
    var b := if actual in rec.backend.renderPasses then rec.backend
             else rec.backend.(renderPasses := rec.backend.renderPasses[actual := EmptyRenderPass]);
    var pass := b.renderPasses[actual];
    Recorder(b, pass, rec.commands + BarrierCommands(pass.initialBarriers) + [BeginPass(pass.colorTargets, pass.depthTarget)])
  }

  /** `EndRenderPass`: close the pass, then its final barriers. */
  function EndRenderPass(rec: Recorder): (r: Recorder)
    ensures r.backend == rec.backend && r.current == rec.current
    ensures r.commands == rec.commands + [EndPass] + BarrierCommands(rec.current.finalBarriers)
  {
    rec.(commands := rec.commands + [EndPass] + BarrierCommands(rec.current.finalBarriers))
  }

  /** Every back buffer has its own pass: while back buffer `frame` is current, beginning the
      swapchain pass begins the pass over that buffer's texture and view, which moves the buffer
      from presenting to rendering, and ending it moves it back. */
  lemma SwapchainPassPerBackBuffer(b: Backend, frame: nat, commands: seq<Command>)
    requires CreateSwapchain(b).Ok?
    requires frame < BackBufferFrames
    ensures var s := CreateSwapchain(b).value.(currentBackBufferIndex := frame);
            var texture := s.swapchainRenderTexture + frame;
            var rtv := b.heap.cpuStartRTV + b.heap.sizeRTV * (b.heap.countRTV + frame);
            var rec := BeginRenderPass(Recorder(s, EmptyRenderPass, commands), s.swapchainRenderPass);
            && texture in s.renderTextures
            && s.renderTextures[texture] == RenderTexture(rtv, None, ColorType)
            && rec.backend == s
            && rec.current == SwapchainPass(texture, rtv)
            && EndRenderPass(rec).commands == commands + [
                 ResourceBarrier([Barrier(texture, PresentState, RenderTargetState)]),
                 BeginPass([RenderTarget(rtv, ClearBeginning, PreserveEnding)], None),
                 EndPass,
                 ResourceBarrier([Barrier(texture, RenderTargetState, PresentState)])]
  {
    var s0 := CreateSwapchain(b).value;
    var rtv := b.heap.cpuStartRTV + b.heap.sizeRTV * (b.heap.countRTV + frame);
    SwapchainRegistersFrame(b, frame);
    SwapchainPassRecorded(s0.(currentBackBufferIndex := frame), s0.swapchainRenderTexture + frame,
                          s0.swapchainRenderPass + frame, rtv, commands);
  }

  /** After `CreateSwapchain`, back buffer `frame` has its texture and pass `frame` places past
      the swapchain handles, with the `frame`-th view of the batch. */
  lemma SwapchainRegistersFrame(b: Backend, frame: nat)
    requires CreateSwapchain(b).Ok?
    requires frame < BackBufferFrames
    ensures var s := CreateSwapchain(b).value;
            FrameRegistered(s, s.swapchainRenderTexture + frame, s.swapchainRenderPass + frame,
                            b.heap.cpuStartRTV + b.heap.sizeRTV * (b.heap.countRTV + frame))
  {
    AllocateRTVTimesWithinLimit(b.heap, BackBufferFrames);
    var views := AllocateRTVTimes(b.heap, BackBufferFrames).value;
    var b1 := b.(heap := views.0, swapchainRenderTexture := b.counters.renderTexture, swapchainRenderPass := b.counters.renderPass);
    assert CreateSwapchain(b).value == SwapchainFrames(b1, views.1, 0);
    SwapchainFramesRegistersAt(b1, views.1, 0, frame);
  }

  /** Beginning and ending the swapchain pass while the registered frame is current records the
      frame's barriers around its target. */
  lemma SwapchainPassRecorded(s: Backend, texture: nat, pass: nat, rtv: nat, commands: seq<Command>)
    requires FrameRegistered(s, texture, pass, rtv)
    requires pass == s.swapchainRenderPass + s.currentBackBufferIndex
    ensures var rec := BeginRenderPass(Recorder(s, EmptyRenderPass, commands), s.swapchainRenderPass);
            && rec.backend == s
            && rec.current == SwapchainPass(texture, rtv)
            && EndRenderPass(rec).commands == commands + [
                 ResourceBarrier([Barrier(texture, PresentState, RenderTargetState)]),
                 BeginPass([RenderTarget(rtv, ClearBeginning, PreserveEnding)], None),
                 EndPass,
                 ResourceBarrier([Barrier(texture, RenderTargetState, PresentState)])]
  {
    var rec := BeginRenderPass(Recorder(s, EmptyRenderPass, commands), s.swapchainRenderPass);
    assert ResolveRenderPass(s, s.swapchainRenderPass) == pass;
    assert rec.commands == commands + [ResourceBarrier([Barrier(texture, PresentState, RenderTargetState)])]
                           + [BeginPass([RenderTarget(rtv, ClearBeginning, PreserveEnding)], None)];
  }

  /** A pass created after the swapchain is begun as created, and between its barriers the
      command list holds exactly that pass's targets. */
  lemma CreatedPassIsBegunAsCreated(b: Backend, desc: RenderPassDesc, commands: seq<Command>)
    requires b.swapchainRenderPass < b.counters.renderPass
    requires CreateRenderPass(b, desc).Ok?
    ensures var (b2, handle) := CreateRenderPass(b, desc).value;
            var pass := b2.renderPasses[handle];
            var rec := BeginRenderPass(Recorder(b2, EmptyRenderPass, commands), handle);
            && rec.backend == b2
            && rec.current == pass
            && EndRenderPass(rec).commands == commands + BarrierCommands(pass.initialBarriers)
                 + [BeginPass(pass.colorTargets, pass.depthTarget), EndPass] + BarrierCommands(pass.finalBarriers)
  {
    var (b2, handle) := CreateRenderPass(b, desc).value;
    var rec := BeginRenderPass(Recorder(b2, EmptyRenderPass, commands), handle);
    assert ResolveRenderPass(b2, handle) == handle;
    assert EndRenderPass(rec).commands == commands + BarrierCommands(b2.renderPasses[handle].initialBarriers)
             + [BeginPass(rec.current.colorTargets, rec.current.depthTarget)] + [EndPass] + BarrierCommands(rec.current.finalBarriers);
  }

  //- Textures and shaders

  /** `CreateTexture`'s bookkeeping: a shader-resource view pair and the next texture handle. */
  function CreateTexture(b: Backend): (r: Result<(Backend, nat), Fault>)
    ensures r.Ok? <==> b.heap.countSRV + 1 <= MaxTextures
    ensures r.Err? ==> r.error == AssertionFailed("Exceeded SRV descriptors limit")
    ensures r.Ok? ==>
              var (b2, handle) := r.value;
              && handle == b.counters.texture
              && b2.counters == b.counters.(texture := handle + 1)
              && handle in b2.textures
              && b2.textures == b.textures[handle := b2.textures[handle]]
              && b2.heap == b.heap.(countSRV := b.heap.countSRV + 1)
              && (b.heap.sizeSRV > 0 ==> b2.textures[handle].0 !in IssuedSRV(b.heap))
    ensures r.Ok? && HandlesBelowCounters(b) ==> r.value.1 !in b.textures && HandlesBelowCounters(r.value.0)
  {
    var srv :- AllocateSRV(b.heap);
    var handle := b.counters.texture;
    Ok((b.(heap := srv.0, textures := b.textures[handle := (srv.1, srv.2)], counters := b.counters.(texture := handle + 1)), handle))
  }

  /** The graphics pipeline handed to the device: rasterizer, depth and blend state, with the
      same blend description for every simultaneous render target. */
  datatype Pipeline = Pipeline(
    fillMode: PolygonMode,
    cullMode: CullMode,
    frontCounterClockwise: bool,
    depth: DXCommon.DepthState,
    independentBlendEnable: bool,
    targets: seq<DXCommon.TargetBlend>,
    numRenderTargets: nat)

  /** `CreateShader`'s pipeline state and the next shader handle. */
  function CreateShader(b: Backend, desc: ShaderDesc): (r: (Backend, nat))
    ensures var (b2, handle) := r;
            && handle == b.counters.shader
            && b2.counters == b.counters.(shader := handle + 1)
            && handle in b2.shaders
            && b2.shaders == b.shaders[handle := b2.shaders[handle]]
            && var p := b2.shaders[handle];
               && p.frontCounterClockwise == (!IsImGuiShader(desc) && desc.rasterizer.frontFace == CounterClockwise)
               && (p.depth.writeMaskAll <==> desc.depthStencil.depthWriteEnable)
               && |p.targets| == SimultaneousRenderTargets
               && (forall k :: 0 <= k < |p.targets| ==> p.targets[k] == DXCommon.TargetBlendOf(desc.blend))
               && !p.independentBlendEnable
               && p.numRenderTargets == 1
    ensures HandlesBelowCounters(b) ==> r.1 !in b.shaders && HandlesBelowCounters(r.0)
  {
    var rasterizer := desc.rasterizer;
    var pipeline := Pipeline(
      rasterizer.polygonMode,
      rasterizer.cullMode,
      DXCommon.TriangleFrontFace(rasterizer.frontFace, IsImGuiShader(desc)),
      DXCommon.DepthStateOf(desc.depthStencil),
      IndependentBlendEnable,
      seq(SimultaneousRenderTargets, _ => DXCommon.TargetBlendOf(desc.blend)),
      1);
    var handle := b.counters.shader;
    (b.(shaders := b.shaders[handle := pipeline], counters := b.counters.(shader := handle + 1)), handle)
  }
}

=== FILE: dx12_descriptor_heap.dfy ===
/** The DirectX 12 descriptor heaps (DX12DescriptorHeap.cpp): three bump allocators, for render
    target views, depth-stencil views and shader resource views. Each hands out the descriptor
    `count` increments past its heap's start and then counts it; nothing is ever freed. Heap
    starts and increment sizes come from the device and are parameters here; descriptor
    addresses are unbounded numbers (the 64-bit address arithmetic never wraps in practice). */
module DX12DescriptorHeap {
  import opened Wrappers
  import opened Faults

  /** `MaxDescriptors`: the capacity of each heap. */
  const MaxDSV: nat := 1
  const MaxRTV: nat := 5
  const MaxTextures: nat := 300

  datatype DescriptorHeap = DescriptorHeap(
    cpuStartDSV: nat,
    cpuStartRTV: nat,
    cpuStartSRV: nat,
    gpuStartSRV: nat,
    countDSV: nat,
    countRTV: nat,
    countSRV: nat,
    sizeDSV: nat,
    sizeRTV: nat,
    sizeSRV: nat)

  /** The constructor: every counter starts at zero. */
  function NewDescriptorHeap(cpuStartDSV: nat, cpuStartRTV: nat, cpuStartSRV: nat, gpuStartSRV: nat,
                             sizeDSV: nat, sizeRTV: nat, sizeSRV: nat): (h: DescriptorHeap)
    ensures h.countDSV == 0 && h.countRTV == 0 && h.countSRV == 0
    ensures IssuedRTV(h) == {} && IssuedDSV(h) == {} && IssuedSRV(h) == {}
  {
    DescriptorHeap(cpuStartDSV, cpuStartRTV, cpuStartSRV, gpuStartSRV, 0, 0, 0, sizeDSV, sizeRTV, sizeSRV)
  }

  /** The descriptors a heap has handed out so far. */
  function Issued(start: nat, size: nat, count: nat): set<nat> {
    set k | 0 <= k < count :: start + size * k
  }

  function IssuedRTV(h: DescriptorHeap): set<nat> { Issued(h.cpuStartRTV, h.sizeRTV, h.countRTV) }
  function IssuedDSV(h: DescriptorHeap): set<nat> { Issued(h.cpuStartDSV, h.sizeDSV, h.countDSV) }
  function IssuedSRV(h: DescriptorHeap): set<nat> { Issued(h.cpuStartSRV, h.sizeSRV, h.countSRV) }

  /** With a positive increment the next descriptor is new, and counting it adds just it. */
  lemma NextIsFresh(start: nat, size: nat, count: nat)
    ensures size > 0 ==> start + size * count !in Issued(start, size, count)
    ensures Issued(start, size, count + 1) == Issued(start, size, count) + {start + size * count}
  {
    forall k | 0 <= k < count && size > 0
      ensures start + size * k < start + size * count
    {
      MultiplyStrictlyMonotonic(size, k, count);
    }
  }

  lemma MultiplyStrictlyMonotonic(size: nat, a: nat, b: nat)
    requires size > 0 && a < b
    ensures size * a < size * b
  {
    assert size * b == size * a + size * (b - a);
  }

  /** `AllocateRTV()`. */
  function AllocateRTV(h: DescriptorHeap): (r: Result<(DescriptorHeap, nat), Fault>)
    ensures r.Ok? <==> h.countRTV + 1 <= MaxRTV
    ensures r.Err? ==> r.error == AssertionFailed("Exceeded RTV descriptors limit")
    ensures r.Ok? ==>
              var (h2, d) := r.value;
              && d == h.cpuStartRTV + h.sizeRTV * h.countRTV
              && h2 == h.(countRTV := h.countRTV + 1)
              && (h.sizeRTV > 0 ==> d !in IssuedRTV(h) && IssuedRTV(h2) == IssuedRTV(h) + {d})
  {
    if h.countRTV + 1 > MaxRTV then Err(AssertionFailed("Exceeded RTV descriptors limit"))
    else
      var d := h.cpuStartRTV + h.sizeRTV * h.countRTV;
      NextIsFresh(h.cpuStartRTV, h.sizeRTV, h.countRTV);
      Ok((h.(countRTV := h.countRTV + 1), d))
  }

  /** `AllocateDSV()`. */
  function AllocateDSV(h: DescriptorHeap): (r: Result<(DescriptorHeap, nat), Fault>)
    ensures r.Ok? <==> h.countDSV + 1 <= MaxDSV
    ensures r.Err? ==> r.error == AssertionFailed("Exceeded DSV descriptors limit")
    ensures r.Ok? ==>
              var (h2, d) := r.value;
              && d == h.cpuStartDSV + h.sizeDSV * h.countDSV
              && h2 == h.(countDSV := h.countDSV + 1)
              && (h.sizeDSV > 0 ==> d !in IssuedDSV(h) && IssuedDSV(h2) == IssuedDSV(h) + {d})
  {
    if h.countDSV + 1 > MaxDSV then Err(AssertionFailed("Exceeded DSV descriptors limit"))
    else
      var d := h.cpuStartDSV + h.sizeDSV * h.countDSV;
      NextIsFresh(h.cpuStartDSV, h.sizeDSV, h.countDSV);
      Ok((h.(countDSV := h.countDSV + 1), d))
  }

  /** `AllocateSRV()`: a CPU and a GPU descriptor at the same offset from their starts. */
  function AllocateSRV(h: DescriptorHeap): (r: Result<(DescriptorHeap, nat, nat), Fault>)
    ensures r.Ok? <==> h.countSRV + 1 <= MaxTextures
    ensures r.Err? ==> r.error == AssertionFailed("Exceeded SRV descriptors limit")
    ensures r.Ok? ==>
              var (h2, cpu, gpu) := r.value;
              && cpu - h.cpuStartSRV == gpu - h.gpuStartSRV == h.sizeSRV * h.countSRV
              && h2 == h.(countSRV := h.countSRV + 1)
              && (h.sizeSRV > 0 ==> cpu !in IssuedSRV(h) && IssuedSRV(h2) == IssuedSRV(h) + {cpu})
  {
    if h.countSRV + 1 > MaxTextures then Err(AssertionFailed("Exceeded SRV descriptors limit"))
    else
      var offset := h.sizeSRV * h.countSRV;
      NextIsFresh(h.cpuStartSRV, h.sizeSRV, h.countSRV);
      Ok((h.(countSRV := h.countSRV + 1), h.cpuStartSRV + offset, h.gpuStartSRV + offset))
  }

  /** `n` single render-target allocations in a row: the reference for `AllocateRTVs`. */
  function AllocateRTVTimes(h: DescriptorHeap, n: nat): (r: Result<(DescriptorHeap, seq<nat>), Fault>)
    ensures r.Err? ==> r.error == AssertionFailed("Exceeded RTV descriptors limit")
    decreases n
  {
    if n == 0 then Ok((h, []))
    else
      var first :- AllocateRTV(h);
      var rest :- AllocateRTVTimes(first.0, n - 1);
      Ok((rest.0, [first.1] + rest.1))
  }

  /** `AllocateRTV(numDescriptors)`: checks the whole request against the limit once, then hands
      out consecutive descriptors. */
  method AllocateRTVs(h: DescriptorHeap, n: nat) returns (r: Result<(DescriptorHeap, seq<nat>), Fault>)
    ensures r.Ok? <==> h.countRTV + n <= MaxRTV
    ensures r.Err? ==> r.error == AssertionFailed("Exceeded RTV descriptors limit")
    ensures r.Ok? ==>
              var (h2, ds) := r.value;
              && |ds| == n
              && (forall k :: 0 <= k < n ==> ds[k] == h.cpuStartRTV + h.sizeRTV * (h.countRTV + k))
              && h2 == h.(countRTV := h.countRTV + n)
    ensures h.countRTV <= MaxRTV ==> r == AllocateRTVTimes(h, n)
  {
    if h.countRTV + n > MaxRTV {
      if h.countRTV <= MaxRTV {
        AllocateRTVTimesMatchesBatch(h, n);
      }
      return Err(AssertionFailed("Exceeded RTV descriptors limit"));
    }
    var ds: seq<nat> := [];
    var next := h.cpuStartRTV + h.sizeRTV * h.countRTV;
    var i := 0;
    while i < n
      invariant 0 <= i <= n
      invariant |ds| == i
      invariant next == h.cpuStartRTV + h.sizeRTV * (h.countRTV + i)
      invariant forall k :: 0 <= k < i ==> ds[k] == h.cpuStartRTV + h.sizeRTV * (h.countRTV + k)
    {
      ds := ds + [next];
      NextSlot(h.sizeRTV, h.countRTV + i);
      next := next + h.sizeRTV;
      i := i + 1;
    }
    AllocateRTVTimesMatchesBatch(h, n);
    var batch := AllocateRTVTimes(h, n).value.1;
    assert forall k :: 0 <= k < n ==> ds[k] == batch[k];
    assert ds == batch;
    return Ok((h.(countRTV := h.countRTV + n), ds));
  }

  lemma NextSlot(size: nat, index: nat)
    ensures size * index + size == size * (index + 1)
  {
  }

  /** The batch allocation hands out what as many single allocations would, and fails exactly
      when one of them would. Every heap the allocators produce is within its limit, as assumed
      here: an over-full heap fails even a batch of zero. */
  lemma {:induction false} AllocateRTVTimesMatchesBatch(h: DescriptorHeap, n: nat)
    requires h.countRTV <= MaxRTV
    ensures AllocateRTVTimes(h, n).Ok? <==> h.countRTV + n <= MaxRTV
    ensures AllocateRTVTimes(h, n).Ok? ==>
              var (h2, ds) := AllocateRTVTimes(h, n).value;
              && |ds| == n
              && (forall k :: 0 <= k < n ==> ds[k] == h.cpuStartRTV + h.sizeRTV * (h.countRTV + k))
              && h2 == h.(countRTV := h.countRTV + n)
    decreases n
  {
    if n > 0 && h.countRTV + 1 <= MaxRTV {
      var h1 := h.(countRTV := h.countRTV + 1);
      assert AllocateRTV(h) == Ok((h1, h.cpuStartRTV + h.sizeRTV * h.countRTV));
      AllocateRTVTimesMatchesBatch(h1, n - 1);
      if AllocateRTVTimes(h1, n - 1).Ok? {
        var rest := AllocateRTVTimes(h1, n - 1).value;
        var ds := [h.cpuStartRTV + h.sizeRTV * h.countRTV] + rest.1;
        assert AllocateRTVTimes(h, n) == Ok((rest.0, ds));
        forall k | 0 <= k < n
          ensures ds[k] == h.cpuStartRTV + h.sizeRTV * (h.countRTV + k)
        {
          if k > 0 {
            assert ds[k] == rest.1[k - 1];
            assert h1.countRTV + (k - 1) == h.countRTV + k;
          }
        }
      }
    }
  }

  /** A batch of at least one allocation fails exactly past the limit, whatever the heap. */
  lemma AllocateRTVTimesWithinLimit(h: DescriptorHeap, n: nat)
    requires n > 0
    ensures AllocateRTVTimes(h, n).Ok? <==> h.countRTV + n <= MaxRTV
    ensures AllocateRTVTimes(h, n).Ok? ==>
              var (h2, ds) := AllocateRTVTimes(h, n).value;
              && |ds| == n
              && (forall k :: 0 <= k < n ==> ds[k] == h.cpuStartRTV + h.sizeRTV * (h.countRTV + k))
              && h2 == h.(countRTV := h.countRTV + n)
  {
    if h.countRTV <= MaxRTV {
      AllocateRTVTimesMatchesBatch(h, n);
    } else {
      assert AllocateRTV(h).Err?;
    }
  }

  /** Allocations from different heaps never disturb each other's counters. */
  lemma AllocatorsAreIndependent(h: DescriptorHeap)
    ensures AllocateRTV(h).Ok? ==>
              var h2 := AllocateRTV(h).value.0;
              h2.countDSV == h.countDSV && h2.countSRV == h.countSRV
    ensures AllocateDSV(h).Ok? ==>
              var h2 := AllocateDSV(h).value.0;
              h2.countRTV == h.countRTV && h2.countSRV == h.countSRV
    ensures AllocateSRV(h).Ok? ==>
              var h2 := AllocateSRV(h).value.0;
              h2.countRTV == h.countRTV && h2.countDSV == h.countDSV
  {
  }
}

=== FILE: dx_agreement.dfy ===
/** How the two DirectX backends' pipeline states for the same shader description compare. */
module DXAgreement {
  import opened RenderTypes
  import DXCommon
  import DX11 = DX11Backend
  import DX12 = DX12Backend

  /** Both backends build the same depth state and the same blend description for render
      target 0. Their front faces agree exactly for ImGui's shader and for counter-clockwise
      descriptions: DirectX 11 does not consult the description's front face. */
  lemma ShaderStatesAgree(b11: DX11.Backend, b12: DX12.Backend, desc: ShaderDesc)
    ensures var (c11, h11) := DX11.CreateShader(b11, desc);
            var (c12, h12) := DX12.CreateShader(b12, desc);
            var p11 := c11.shaders[h11];
            var p12 := c12.shaders[h12];
            && p11.depth == p12.depth
            && p11.target0 == p12.targets[0]
            && p11.independentBlendEnable == p12.independentBlendEnable
            && ((p11.frontCounterClockwise == p12.frontCounterClockwise) <==>
                  (IsImGuiShader(desc) || desc.rasterizer.frontFace == CounterClockwise))
  {
  }
}

=== FILE: dx_common.dfy ===
/** The translations shared by the DirectX 11 and DirectX 12 backends (DXCommon.cpp): vertex
    attribute formats to DXGI formats, shader input semantics to vertex-layout entries, and the
    front-face convention. */
module DXCommon {
  import opened Wrappers
  import opened Faults
  import opened RenderTypes

  datatype ComponentKind = SInt | UInt | SNorm | UNorm | Float

  /** A DXGI format `R<bits>[G<bits>[B<bits>[A<bits>]]]_<kind>` with `count` components, or
      `DXGI_FORMAT_UNKNOWN`. */
  datatype DxgiFormat = Unknown | Channels(bits: nat, count: nat, kind: ComponentKind)

  /** The vertex-format table, one row of four entries (by dimension) per
      `VertexAttributeFormat`; the flat table's index `format * 4 + dimension - 1` picks entry
      `dimension - 1` of row `format`. DXGI has no three-component 8- or 16-bit format. */
  function VertexFormatRow(format: VertexAttributeFormat): (row: seq<DxgiFormat>)
    ensures |row| == 4
  {
    match format
    case SInt8 => [Channels(8, 1, SInt), Channels(8, 2, SInt), Unknown, Channels(8, 4, SInt)]
    case SInt16 => [Channels(16, 1, SInt), Channels(16, 2, SInt), Unknown, Channels(16, 4, SInt)]
    case SInt32 => [Channels(32, 1, SInt), Channels(32, 2, SInt), Channels(32, 3, SInt), Channels(32, 4, SInt)]
    case UInt8 => [Channels(8, 1, UInt), Channels(8, 2, UInt), Unknown, Channels(8, 4, UInt)]
    case UInt16 => [Channels(16, 1, UInt), Channels(16, 2, UInt), Unknown, Channels(16, 4, UInt)]
    case UInt32 => [Channels(32, 1, UInt), Channels(32, 2, UInt), Channels(32, 3, UInt), Channels(32, 4, UInt)]
    case SNorm8 => [Channels(8, 1, SNorm), Channels(8, 2, SNorm), Unknown, Channels(8, 4, SNorm)]
    case SNorm16 => [Channels(16, 1, SNorm), Channels(16, 2, SNorm), Unknown, Channels(16, 4, SNorm)]
    case UNorm8 => [Channels(8, 1, UNorm), Channels(8, 2, UNorm), Unknown, Channels(8, 4, UNorm)]
    case UNorm16 => [Channels(16, 1, UNorm), Channels(16, 2, UNorm), Unknown, Channels(16, 4, UNorm)]
    case Float16 => [Channels(16, 1, Float), Channels(16, 2, Float), Unknown, Channels(16, 4, Float)]
    case Float32 => [Channels(32, 1, Float), Channels(32, 2, Float), Channels(32, 3, Float), Channels(32, 4, Float)]
  }

  /** The component width a vertex attribute format names. */
  function ComponentBits(format: VertexAttributeFormat): nat {
    match format
    case SInt8 | UInt8 | SNorm8 | UNorm8 => 8
    case SInt16 | UInt16 | SNorm16 | UNorm16 | Float16 => 16
    case SInt32 | UInt32 | Float32 => 32
  }

  /** The component interpretation a vertex attribute format names. */
  function ComponentKindOf(format: VertexAttributeFormat): ComponentKind {
    match format
    case SInt8 | SInt16 | SInt32 => SInt
    case UInt8 | UInt16 | UInt32 => UInt
    case SNorm8 | SNorm16 => SNorm
    case UNorm8 | UNorm16 => UNorm
    case Float16 | Float32 => Float
  }

  /** Every table entry is the DXGI format with the attribute format's width and kind and the
      requested number of components, except the missing three-component narrow formats. */
  lemma VertexFormatTableFollowsNames(format: VertexAttributeFormat, dimension: nat)
    requires 1 <= dimension <= 4
    ensures VertexFormatRow(format)[dimension - 1] ==
              if dimension == 3 && ComponentBits(format) < 32 then Unknown
              else Channels(ComponentBits(format), dimension, ComponentKindOf(format))
  {
    if dimension == 1 {
    } else if dimension == 2 {
    } else if dimension == 3 {
    } else {
    }
  }

  /** `dx_VertexAttributeFormat`: a table lookup guarded by two assertions, one on the dimension
      and one against the unknown entries. */
  function VertexAttributeFormat(format: VertexAttributeFormat, dimension: nat): (r: Result<DxgiFormat, Fault>)
    ensures r.Ok? <==> 1 <= dimension <= 4 && !(dimension == 3 && ComponentBits(format) < 32)
    ensures r.Ok? ==> r.value == Channels(ComponentBits(format), dimension, ComponentKindOf(format))
    ensures !(1 <= dimension <= 4) ==> r == Err(AssertionFailed("Vertex attribute dimension must be in [1,4] range"))
    ensures 1 <= dimension <= 4 && r.Err? ==> r == Err(AssertionFailed("Unsupported vertex format/dimension combination"))
  {
    if !(1 <= dimension <= 4) then Err(AssertionFailed("Vertex attribute dimension must be in [1,4] range"))
    else
      VertexFormatTableFollowsNames(format, dimension);
      var dxgi := VertexFormatRow(format)[dimension - 1];
      if dxgi == Unknown then Err(AssertionFailed("Unsupported vertex format/dimension combination"))
      else Ok(dxgi)
  }

  /** The 32-bit formats are supported in every dimension. */
  lemma WideFormatsAlwaysSupported(format: VertexAttributeFormat, dimension: nat)
    requires format == SInt32 || format == UInt32 || format == Float32
    requires 1 <= dimension <= 4
    ensures VertexAttributeFormat(format, dimension).Ok?
    ensures VertexAttributeFormat(format, dimension).value.bits == 32
  {
  }

  //- Input semantics

  datatype Semantic = PositionSemantic | NormalSemantic | TexCoordSemantic | ColorSemantic

  /** The HLSL semantic name of each input. */
  function SemanticName(s: Semantic): string {
    match s
    case PositionSemantic => "POSITION"
    case NormalSemantic => "NORMAL"
    case TexCoordSemantic => "TEXCOORD"
    case ColorSemantic => "COLOR"
  }

  /** An entry of the ImGui vertex layout or of the engine's vertex layout. The layouts' offsets
      and formats are not part of this model. */
  datatype InputLayoutEntry = InputLayoutEntry(imGui: bool, semantic: Semantic)

  /** Which semantics each layout has: ImGui vertices have a colour, engine vertices a normal. */
  predicate InLayout(imGui: bool, s: Semantic) {
    if imGui then s != NormalSemantic else s != ColorSemantic
  }

  /** `dx_VertexInputAttribute`: the layout entry for a reflected semantic name; a name the
      shader's layout lacks trips an assertion. */
  function VertexInputAttribute(semanticName: string, isImGuiShader: bool): (r: Result<InputLayoutEntry, Fault>)
    ensures r.Ok? ==> r.value.imGui == isImGuiShader && InLayout(isImGuiShader, r.value.semantic)
    ensures r.Ok? ==> SemanticName(r.value.semantic) == semanticName
    ensures r.Err? ==> r.error.AssertionFailed?
  {
    if isImGuiShader then
      if semanticName == "POSITION" then Ok(InputLayoutEntry(true, PositionSemantic))
      else if semanticName == "TEXCOORD" then Ok(InputLayoutEntry(true, TexCoordSemantic))
      else if semanticName == "COLOR" then Ok(InputLayoutEntry(true, ColorSemantic))
      else Err(AssertionFailed("Unexpected '{}' SemanticName in the ImGui shader"))
    else
      if semanticName == "POSITION" then Ok(InputLayoutEntry(false, PositionSemantic))
      else if semanticName == "NORMAL" then Ok(InputLayoutEntry(false, NormalSemantic))
      else if semanticName == "TEXCOORD" then Ok(InputLayoutEntry(false, TexCoordSemantic))
      else Err(AssertionFailed("Unsupported '{}' SemanticName in the shader"))
  }

  /** Every semantic of a layout is accepted under its own name: the lookup inverts
      `SemanticName` on the layout, so together with the contract above a name is accepted
      exactly when it names a semantic of the layout. */
  lemma VertexInputAttributeAcceptsLayout(s: Semantic, isImGuiShader: bool)
    requires InLayout(isImGuiShader, s)
    ensures VertexInputAttribute(SemanticName(s), isImGuiShader) == Ok(InputLayoutEntry(isImGuiShader, s))
  {
  }

  /** `dx_TriangleFrontFace`: DirectX's `FrontCounterClockwise`. ImGui's vertices are always
      treated as clockwise-front. */
  function TriangleFrontFace(face: TriangleFrontFace, isImGuiShader: bool): (frontCounterClockwise: bool)
    ensures isImGuiShader ==> !frontCounterClockwise
    ensures !isImGuiShader ==> (frontCounterClockwise <==> face == CounterClockwise)
  {
    if isImGuiShader then false else face == CounterClockwise
  }

  //- Pipeline state shared by both backends' `CreateShader`

  /** The blend equation of a render target, before translation into the API's constants. */
  datatype BlendEquation = BlendEquation(
    colorSrc: BlendFactor, colorDst: BlendFactor, colorOp: BlendOp,
    alphaSrc: BlendFactor, alphaDst: BlendFactor, alphaOp: BlendOp)

  /** One render target's blend description. `None` marks fields the backend leaves at zero. */
  datatype TargetBlend = TargetBlend(
    blendEnable: bool,
    equation: Option<BlendEquation>,
    logicOpEnable: bool,
    logicOp: Option<BlendLogicOp>)

  /** Both backends fill a render target's blend description the same way: the blend equation
      only in blend-op mode, the logic op only in logic-op mode, nothing when blending is off. */
  function TargetBlendOf(blend: BlendStateDesc): (r: TargetBlend)
    ensures r.blendEnable <==> blend.blendMode == BlendOpMode
    ensures r.logicOpEnable <==> blend.blendMode == LogicOpMode
    ensures r.equation.Some? <==> r.blendEnable
    ensures r.logicOp.Some? <==> r.logicOpEnable
    ensures r.equation.Some? ==>
              r.equation.value == BlendEquation(blend.colorSrcBlendFactor, blend.colorDstBlendFactor, blend.colorBlendOp,
                                                blend.alphaSrcBlendFactor, blend.alphaDstBlendFactor, blend.alphaBlendOp)
    ensures r.logicOp.Some? ==> r.logicOp.value == blend.logicOp
  {
    if blend.blendMode == BlendOpMode then
      TargetBlend(true, Some(BlendEquation(blend.colorSrcBlendFactor, blend.colorDstBlendFactor, blend.colorBlendOp,
                                           blend.alphaSrcBlendFactor, blend.alphaDstBlendFactor, blend.alphaBlendOp)),
                  false, None)
    else if blend.blendMode == LogicOpMode then
      TargetBlend(false, None, true, Some(blend.logicOp))
    else
      TargetBlend(false, None, false, None)
  }

  /** The parts of a blend state its mode uses. */
  predicate SameEffectiveBlend(x: BlendStateDesc, y: BlendStateDesc) {
    && x.blendMode == y.blendMode
    && (x.blendMode == BlendOpMode ==>
          && x.colorSrcBlendFactor == y.colorSrcBlendFactor && x.colorDstBlendFactor == y.colorDstBlendFactor
          && x.colorBlendOp == y.colorBlendOp
          && x.alphaSrcBlendFactor == y.alphaSrcBlendFactor && x.alphaDstBlendFactor == y.alphaDstBlendFactor
          && x.alphaBlendOp == y.alphaBlendOp)
    && (x.blendMode == LogicOpMode ==> x.logicOp == y.logicOp)
  }

  /** Two blend states give the same render-target description exactly when they agree on the
      mode and on the fields that mode uses: nothing the mode uses is lost, nothing else leaks. */
  lemma TargetBlendKeepsEffectiveBlend(x: BlendStateDesc, y: BlendStateDesc)
    ensures TargetBlendOf(x) == TargetBlendOf(y) <==> SameEffectiveBlend(x, y)
  {
    if TargetBlendOf(x) == TargetBlendOf(y) {
      assert TargetBlendOf(x).blendEnable == TargetBlendOf(y).blendEnable;
      assert TargetBlendOf(x).logicOpEnable == TargetBlendOf(y).logicOpEnable;
    }
  }

  /** The depth part of a pipeline: the test, whether writes are on (all bits or none), and the
      comparison; the stencil test is always off. */
  datatype DepthState = DepthState(depthEnable: bool, writeMaskAll: bool, depthFunc: CompareFunction, stencilEnable: bool)

  function DepthStateOf(ds: DepthStencilStateDesc): (r: DepthState)
    ensures r.depthEnable <==> ds.depthTestEnable
    ensures r.writeMaskAll <==> ds.depthWriteEnable
    ensures r.depthFunc == ds.depthCompareFunction
    ensures !r.stencilEnable
  {
    DepthState(ds.depthTestEnable, ds.depthWriteEnable, ds.depthCompareFunction, false)
  }
}

=== FILE: enum_utils.dfy ===
/** Name tables of the engine's enums (EnumUtils.cpp, EnumStrings.hpp).
    `ToString` is a lookup by declaration ordinal; `FromString<CullMode>` is total with `Back` as the
    fall-back, the other `FromString`s are hash-map lookups that are undefined on a miss, modelled as
    `None`. Name constants that the engine declares elsewhere are taken to be spelled like the
    enum constants they name. */
module EnumUtils {
  import opened Wrappers
  import opened Tokens
  import opened RenderTypes

  //- TokenType

  /** The 24-entry `tokenTypeToString` table. It was written against a longer `TokenType` than the
      21-constant one the lexer declares, and it is indexed with the lexer's ordinals. */
  const TokenTypeNames: seq<string> := [
    "Identifier", "Shader", "State", "Cull", "DepthWrite", "DepthTest", "DepthCompare",
    "BlendOp", "Blend", "Vertex", "Fragment", "Value_Number", "Value_String", "Value_On",
    "Value_Off", "Value_CullMode", "Value_CompareFunction", "Value_BlendOp",
    "Value_BlendFactor", "{", "}", ",", "EndOfFile", "Undefined"
  ]

  /** `EnumUtils::ToString(TokenType)`: the table entry at the token type's ordinal. */
  function TokenTypeToString(t: TokenType): (r: string)
    ensures t.Ordinal() < |TokenTypeNames| && r == TokenTypeNames[t.Ordinal()]
  {
    TokenTypeNames[t.Ordinal()]
  }

  /** The lexer's own spelling of each token type (`TokenString`, EnumStrings.hpp). */
  function TokenSpelling(t: TokenType): string
  {
    match t
    case Identifier => "Identifier"
    case Shader => "Shader"
    case State => "State"
    case Blend => "Blend"
    case Cull => "Cull"
    case DepthTest => "DepthTest"
    case DepthCompareFunction => "DepthCompareFunction"
    case Vertex => "Vertex"
    case Fragment => "Fragment"
    case ValueNumber => "Value_Number"
    case ValueString => "Value_String"
    case ValueOn => "Value_On"
    case ValueOff => "Value_Off"
    case ValueBlendMode => "Value_BlendMode"
    case ValueCullMode => "Value_CullMode"
    case ValueDepthCompareFunction => "Value_DepthCompareFunction"
    case OpenBrace => "{"
    case CloseBrace => "}"
    case Comma => ","
    case EndOfFile => "EndOfFile"
    case Undefined => "Undefined"
  }

  /** Because of the longer table, `ToString` names a token type by its own spelling only for
      `Identifier`, `Shader`, `State` and `DepthTest`; e.g. `{` is reported as
      `Value_CompareFunction` and end of file as `{`. */
  lemma TokenTypeNamesMatchOnlyFour(t: TokenType)
    ensures TokenTypeToString(t) == TokenSpelling(t)
            <==> t == Identifier || t == Shader || t == State || t == DepthTest
    ensures TokenTypeToString(OpenBrace) == "Value_CompareFunction"
    ensures TokenTypeToString(EndOfFile) == "{"
  {
    assert TokenTypeNames[16] == "Value_CompareFunction" && TokenTypeNames[19] == "{";
    match t {
      case Identifier => assert TokenTypeToString(t) == "Identifier";
      case Shader => assert TokenTypeToString(t) == "Shader";
      case State => assert TokenTypeToString(t) == "State";
      case Blend => assert TokenTypeToString(t) == "Cull";
      case Cull => assert TokenTypeToString(t) == "DepthWrite";
      case DepthTest => assert TokenTypeToString(t) == "DepthTest";
      case DepthCompareFunction => assert TokenTypeToString(t) == "DepthCompare";
      case Vertex => assert TokenTypeToString(t) == "BlendOp";
      case Fragment => assert TokenTypeToString(t) == "Blend";
      case ValueNumber => assert TokenTypeToString(t) == "Vertex";
      case ValueString => assert TokenTypeToString(t) == "Fragment";
      case ValueOn => assert TokenTypeToString(t) == "Value_Number";
      case ValueOff => assert TokenTypeToString(t) == "Value_String";
      case ValueBlendMode => assert TokenTypeToString(t) == "Value_On";
      case ValueCullMode => assert TokenTypeToString(t) == "Value_Off";
      case ValueDepthCompareFunction => assert TokenTypeToString(t) == "Value_CullMode";
      case OpenBrace => assert TokenTypeToString(t) == "Value_CompareFunction";
      case CloseBrace => assert TokenTypeToString(t) == "Value_BlendOp";
      case Comma => assert TokenTypeToString(t) == "Value_BlendFactor";
      case EndOfFile => assert TokenTypeToString(t) == "{";
      case Undefined => assert TokenTypeToString(t) == "}";
    }
  }

  //- CullMode

  const CullModeNames: seq<string> := ["Off", "Front", "Back"]

  function CullModeOrdinal(c: CullMode): (r: nat)
    ensures r < |CullModeNames|
  {
    match c
    case CullOff => 0
    case CullFront => 1
    case CullBack => 2
  }

  /** `FromString<CullMode>`: total; every string other than "Off" and "Front" reads as `Back`. */
  function CullModeFromString(s: string): (r: CullMode)
    ensures r == CullOff <==> s == "Off"
    ensures r == CullFront <==> s == "Front"
    ensures r == CullBack <==> s != "Off" && s != "Front"
  {
    if s == "Off" then CullOff
    else if s == "Front" then CullFront
    else CullBack
  }

  /** `ToString(CullMode)`: lookup by ordinal; reading the name back yields the same mode. */
  function CullModeToString(c: CullMode): (r: string)
    ensures r == CullModeNames[CullModeOrdinal(c)]
    ensures CullModeFromString(r) == c
  {
    CullModeNames[CullModeOrdinal(c)]
  }

  //- CompareFunction

  const CompareFunctionNames: seq<string> :=
    ["Never", "Less", "Equal", "LessEqual", "Greater", "NotEqual", "GreaterEqual", "Always"]

  const CompareFunctionByName: map<string, CompareFunction> := map[
    "Never" := Never, "Less" := Less, "Equal" := Equal, "LessEqual" := LessEqual,
    "Greater" := Greater, "NotEqual" := NotEqual, "GreaterEqual" := GreaterEqual,
    "Always" := Always
  ]

  function CompareFunctionOrdinal(c: CompareFunction): (r: nat)
    ensures r < |CompareFunctionNames|
  {
    match c
    case Never => 0 case Less => 1 case Equal => 2 case LessEqual => 3
    case Greater => 4 case NotEqual => 5 case GreaterEqual => 6 case Always => 7
  }

  /** `FromString<CompareFunction>`: defined exactly on the eight names. */
  function CompareFunctionFromString(s: string): (r: Option<CompareFunction>)
    ensures r.Some? <==> s in CompareFunctionNames
  {
    if s in CompareFunctionByName then Some(CompareFunctionByName[s]) else None
  }

  /** `ToString(CompareFunction)`: lookup by ordinal, inverted by `FromString`. */
  function CompareFunctionToString(c: CompareFunction): (r: string)
    ensures r == CompareFunctionNames[CompareFunctionOrdinal(c)]
    ensures CompareFunctionFromString(r) == Some(c)
  {
    CompareFunctionNames[CompareFunctionOrdinal(c)]
  }

  /** Conversely, every name `FromString` accepts is the `ToString` of what it returns. */
  lemma CompareFunctionNameRoundTrip(s: string)
    requires CompareFunctionFromString(s).Some?
    ensures CompareFunctionToString(CompareFunctionFromString(s).value) == s
  {
  }

  //- BlendOp

  const BlendOpNames: seq<string> := ["Add", "Subtract", "ReverseSubtract", "Min", "Max"]

  const BlendOpByName: map<string, BlendOp> := map[
    "Add" := Add, "Subtract" := Subtract, "ReverseSubtract" := ReverseSubtract,
    "Min" := Min, "Max" := Max
  ]

  function BlendOpOrdinal(b: BlendOp): (r: nat)
    ensures r < |BlendOpNames|
  {
    match b
    case Add => 0 case Subtract => 1 case ReverseSubtract => 2 case Min => 3 case Max => 4
  }

  /** `FromString<BlendOp>`: defined exactly on the five names. */
  function BlendOpFromString(s: string): (r: Option<BlendOp>)
    ensures r.Some? <==> s in BlendOpNames
  {
    if s in BlendOpByName then Some(BlendOpByName[s]) else None
  }

  /** `ToString(BlendOp)`: lookup by ordinal, inverted by `FromString`. */
  function BlendOpToString(b: BlendOp): (r: string)
    ensures r == BlendOpNames[BlendOpOrdinal(b)]
    ensures BlendOpFromString(r) == Some(b)
  {
    BlendOpNames[BlendOpOrdinal(b)]
  }

  lemma BlendOpNameRoundTrip(s: string)
    requires BlendOpFromString(s).Some?
    ensures BlendOpToString(BlendOpFromString(s).value) == s
  {
  }

  //- BlendFactor

  const BlendFactorNames: seq<string> := [
    "Zero", "One", "SrcColor", "OneMinusSrcColor", "DstColor", "OneMinusDstColor",
    "SrcAlpha", "OneMinusSrcAlpha", "DstAlpha", "OneMinusDstAlpha", "ScrAlphaSaturate",
    "Src1Color", "OneMinusSrc1Color", "Src1Alpha", "OneMinusSrc1Alpha"
  ]

  const BlendFactorByName: map<string, BlendFactor> := map[
    "Zero" := Zero, "One" := One, "SrcColor" := SrcColor,
    "OneMinusSrcColor" := OneMinusSrcColor, "DstColor" := DstColor,
    "OneMinusDstColor" := OneMinusDstColor, "SrcAlpha" := SrcAlpha,
    "OneMinusSrcAlpha" := OneMinusSrcAlpha, "DstAlpha" := DstAlpha,
    "OneMinusDstAlpha" := OneMinusDstAlpha, "ScrAlphaSaturate" := ScrAlphaSaturate,
    "Src1Color" := Src1Color, "OneMinusSrc1Color" := OneMinusSrc1Color,
    "Src1Alpha" := Src1Alpha, "OneMinusSrc1Alpha" := OneMinusSrc1Alpha
  ]

  function BlendFactorOrdinal(b: BlendFactor): (r: nat)
    ensures r < |BlendFactorNames|
  {
    match b
    case Zero => 0 case One => 1 case SrcColor => 2 case OneMinusSrcColor => 3
    case DstColor => 4 case OneMinusDstColor => 5 case SrcAlpha => 6
    case OneMinusSrcAlpha => 7 case DstAlpha => 8 case OneMinusDstAlpha => 9
    case ScrAlphaSaturate => 10 case Src1Color => 11 case OneMinusSrc1Color => 12
    case Src1Alpha => 13 case OneMinusSrc1Alpha => 14
  }

  /** `FromString<BlendFactor>`: defined exactly on the fifteen names. */
  function BlendFactorFromString(s: string): (r: Option<BlendFactor>)
    ensures r.Some? <==> s in BlendFactorNames
  {
    if s in BlendFactorByName then Some(BlendFactorByName[s]) else None
  }

  /** `ToString(BlendFactor)`: lookup by ordinal, inverted by `FromString`. */
  function BlendFactorToString(b: BlendFactor): (r: string)
    ensures r == BlendFactorNames[BlendFactorOrdinal(b)]
    ensures BlendFactorFromString(r) == Some(b)
  {
    BlendFactorNames[BlendFactorOrdinal(b)]
  }

  lemma BlendFactorNameRoundTrip(s: string)
    requires BlendFactorFromString(s).Some?
    ensures BlendFactorToString(BlendFactorFromString(s).value) == s
  {
  }
}

=== FILE: event_action.dfy ===
/** `EventAction`: an ordered list of subscribed handlers that `Invoke` calls with the same
    arguments. Handlers are identified the way the class identifies them, by the address of
    the plain function they wrap. */
module EventAction {
  import opened Wrappers
  import opened Faults

  /** What a subscribed `std::function` holds: a plain function (identified by its address),
      some other callable (a lambda, a bound member), or nothing. */
  datatype Handler = FunctionPointer(address: nat) | OtherCallable(id: nat) | EmptyFunction

  /** One call a handler receives. */
  datatype Call<A> = Call(handler: Handler, args: A)

  /** `Invoke`: every handler in subscription order, each once, with the arguments. Calling an
      empty function throws `std::bad_function_call`, which nothing catches. */
  function Invoke<A>(subscriptions: seq<Handler>, args: A): (r: Result<seq<Call<A>>, Fault>)
    ensures r.Ok? <==> EmptyFunction !in subscriptions
    ensures r.Err? ==> r.error == Uncaught("std::bad_function_call")
    ensures r.Ok? ==> |r.value| == |subscriptions|
                      && forall i :: 0 <= i < |r.value| ==> r.value[i] == Call(subscriptions[i], args)
    decreases |subscriptions|
  {
    if subscriptions == [] then Ok([])
    else if subscriptions[0] == EmptyFunction then Err(Uncaught("std::bad_function_call"))
    else
      var rest :- Invoke(subscriptions[1..], args);
      assert forall i :: 1 <= i < |subscriptions| ==> subscriptions[i] == subscriptions[1..][i - 1];
      Ok([Call(subscriptions[0], args)] + rest)
  }

  /** `+=`: the handler is appended. */
  function Subscribe(subscriptions: seq<Handler>, handler: Handler): (r: seq<Handler>)
    ensures |r| == |subscriptions| + 1 && r[|subscriptions|] == handler
    ensures forall i :: 0 <= i < |subscriptions| ==> r[i] == subscriptions[i]
  {
    subscriptions + [handler]
  }

  /** A subscribed handler is called last, after every earlier subscription. */
  lemma SubscribedHandlerCalledLast<A>(subscriptions: seq<Handler>, handler: Handler, args: A)
    requires Invoke(subscriptions, args).Ok? && handler != EmptyFunction
    ensures Invoke(Subscribe(subscriptions, handler), args) == Ok(Invoke(subscriptions, args).value + [Call(handler, args)])
  {
    var after := Invoke(Subscribe(subscriptions, handler), args);
    assert after.Ok?;
    assert after.value == Invoke(subscriptions, args).value + [Call(handler, args)];
  }

  /** `GetAddress`: the wrapped function's address. `target` is null for anything but a plain
      function, and dereferencing it is undefined behaviour. */
  function GetAddress(handler: Handler): (r: Result<nat, Fault>)
    ensures r.Ok? <==> handler.FunctionPointer?
    ensures r.Ok? ==> r.value == handler.address
  {
    match handler
    case FunctionPointer(address) => Ok(address)
    case _ => Err(Undefined)
  }

  predicate AllFunctionPointers(subscriptions: seq<Handler>) {
    forall i :: 0 <= i < |subscriptions| ==> subscriptions[i].FunctionPointer?
  }

  /** The subscriptions whose address differs from `address`, in order. */
  function WithoutAddress(subscriptions: seq<Handler>, address: nat): (r: seq<Handler>)
    requires AllFunctionPointers(subscriptions)
    ensures AllFunctionPointers(r)
    ensures forall i :: 0 <= i < |r| ==> r[i].address != address && r[i] in subscriptions
    ensures |r| <= |subscriptions|
    decreases |subscriptions|
  {
    if subscriptions == [] then []
    else
      var rest := WithoutAddress(subscriptions[1..], address);
      if subscriptions[0].address == address then rest else [subscriptions[0]] + rest
  }

  /** `-=`: every subscription whose address equals the handler's is erased, the rest keep their
      order. The address of the argument and of every subscription is taken, so a handler that
      is not a plain function, on either side, is undefined behaviour. */
  function Unsubscribe(subscriptions: seq<Handler>, handler: Handler): (r: Result<seq<Handler>, Fault>)
    ensures r.Ok? <==> handler.FunctionPointer? && AllFunctionPointers(subscriptions)
    ensures r.Ok? ==> r.value == WithoutAddress(subscriptions, handler.address)
  {
    var address :- GetAddress(handler);
    if AllFunctionPointers(subscriptions) then Ok(WithoutAddress(subscriptions, address))
    else Err(Undefined)
  }

  /** Unsubscribing keeps exactly the handlers with other addresses: each of them as often as
      before, and none with the removed address. */
  lemma {:induction false} UnsubscribeKeepsOthers(subscriptions: seq<Handler>, address: nat)
    requires AllFunctionPointers(subscriptions)
    ensures forall h: Handler :: h.FunctionPointer? && h.address != address ==>
              multiset(WithoutAddress(subscriptions, address))[h] == multiset(subscriptions)[h]
    ensures forall h: Handler :: h.FunctionPointer? && h.address == address ==> h !in WithoutAddress(subscriptions, address)
    decreases |subscriptions|
  {
    if subscriptions != [] {
      UnsubscribeKeepsOthers(subscriptions[1..], address);
      assert subscriptions == [subscriptions[0]] + subscriptions[1..];
    }
  }

  /** Subscribing a new function and unsubscribing it restores the subscriptions. */
  lemma {:induction false} SubscribeThenUnsubscribe(subscriptions: seq<Handler>, address: nat)
    requires AllFunctionPointers(subscriptions)
    requires FunctionPointer(address) !in subscriptions
    ensures Unsubscribe(Subscribe(subscriptions, FunctionPointer(address)), FunctionPointer(address)) == Ok(subscriptions)
    decreases |subscriptions|
  {
    var extended := Subscribe(subscriptions, FunctionPointer(address));
    assert AllFunctionPointers(extended);
    WithoutAppended(subscriptions, address);
  }

  lemma {:induction false} WithoutAppended(subscriptions: seq<Handler>, address: nat)
    requires AllFunctionPointers(subscriptions)
    requires FunctionPointer(address) !in subscriptions
    ensures AllFunctionPointers(subscriptions + [FunctionPointer(address)])
    ensures WithoutAddress(subscriptions + [FunctionPointer(address)], address) == subscriptions
    decreases |subscriptions|
  {
    var extended := subscriptions + [FunctionPointer(address)];
    if subscriptions == [] {
      assert extended[1..] == [];
    } else {
      assert extended[1..] == subscriptions[1..] + [FunctionPointer(address)];
      assert subscriptions[0] != FunctionPointer(address);
      WithoutAppended(subscriptions[1..], address);
    }
  }

  /** The destructor unsubscribes everything. */
  function Destroy(subscriptions: seq<Handler>): (r: seq<Handler>)
    ensures r == []
  {
    []
  }

  /** `-=` applied with each handler in turn, stopping at the first that is undefined. */
  function UnsubscribeEach(subscriptions: seq<Handler>, handlers: seq<Handler>): (r: Result<seq<Handler>, Fault>)
    ensures r.Ok? ==> |r.value| <= |subscriptions|
    decreases |handlers|
  {
    if handlers == [] then Ok(subscriptions)
    else
      var rest :- Unsubscribe(subscriptions, handlers[0]);
      UnsubscribeEach(rest, handlers[1..])
  }

  /** The destructor leaves what unsubscribing every subscribed function one by one leaves. */
  lemma UnsubscribingEachDestroys(subscriptions: seq<Handler>)
    requires AllFunctionPointers(subscriptions)
    ensures UnsubscribeEach(subscriptions, subscriptions) == Ok(Destroy(subscriptions))
  {
    UnsubscribeCovered(subscriptions, subscriptions);
  }

  /** Unsubscribing a list of plain functions that covers every subscription leaves none. */
  lemma {:induction false} UnsubscribeCovered(subscriptions: seq<Handler>, handlers: seq<Handler>)
    requires AllFunctionPointers(subscriptions) && AllFunctionPointers(handlers)
    requires forall i :: 0 <= i < |subscriptions| ==> subscriptions[i] in handlers
    ensures UnsubscribeEach(subscriptions, handlers) == Ok([])
    decreases |handlers|
  {
    if handlers != [] {
      var h := handlers[0];
      var rest := WithoutAddress(subscriptions, h.address);
      assert Unsubscribe(subscriptions, h) == Ok(rest);
      forall i | 0 <= i < |rest|
        ensures rest[i] in handlers[1..]
      {
        assert rest[i] in handlers && rest[i] != h;
        var k :| 0 <= k < |handlers| && handlers[k] == rest[i];
        assert handlers[1..][k - 1] == rest[i];
      }
      assert AllFunctionPointers(handlers[1..]) by {
        forall i | 0 <= i < |handlers[1..]| ensures handlers[1..][i].FunctionPointer? {
          assert handlers[1..][i] == handlers[i + 1];
        }
      }
      UnsubscribeCovered(rest, handlers[1..]);
    }
  }
}

=== FILE: faults.dfy ===
/** How a backend or asset operation fails: an `SNV_ASSERT` that fires (which aborts when asserts
    are compiled in), an exception that nothing catches (so `std::terminate` ends the program),
    or undefined behaviour such as dereferencing the null entry a map's `operator[]` has just
    inserted, which the model reports rather than guesses at. */
module Faults {

  datatype Fault = AssertionFailed(message: string) | Uncaught(exception: string) | Undefined
}

=== FILE: gl_backend.dfy ===
/** The OpenGL backend's bookkeeping (GLBackend.cpp): render textures as renderbuffers or
    textures, framebuffers built from render-pass descriptions, the clears issued when a pass
    begins, and the shader registry. OpenGL object names come from the driver and are
    parameters; handles come from counters that are global to the backend. Enumerant values
    are those of the OpenGL 4.6 core profile. The backend's header declares an older
    `GLFramebuffer` struct; this model follows the records GLBackend.cpp itself uses. */
module GLBackend {
  import opened Wrappers
  import opened Faults
  import opened RenderTypes
  import GLShader

  //- OpenGL enumerants

  /** `OPENGL_NO_DEPTH_STENCIL`. */
  const NoDepthStencil: nat := 0
  const GlDepthAttachment: nat := 0x8D00
  const GlStencilAttachment: nat := 0x8D20
  const GlDepthStencilAttachment: nat := 0x821A
  const GlDepth: nat := 0x1801
  const GlStencil: nat := 0x1802
  const GlDepthStencil: nat := 0x84F9
  const GlColorAttachment0: nat := 0x8CE0

  /** `gl_DepthStencilAttachment`, indexed by the render texture's type: the framebuffer
      attachment point a depth-stencil render texture is bound to. */
  function DepthStencilAttachmentPoint(t: RenderTextureType): (point: nat)
    ensures point == NoDepthStencil <==> t == ColorType
  {
    [NoDepthStencil, GlDepthAttachment, GlStencilAttachment, GlDepthStencilAttachment][
      match t case ColorType => 0 case DepthType => 1 case StencilType => 2 case DepthStencilType => 3]
  }

  /** The `switch` in `CreateRenderPass` that derives the pass's depth-stencil type from the
      attachment point. It has no default case: for any other point the type is left
      indeterminate (`None`). */
  function DepthStencilTypeFor(point: nat): (r: Option<nat>)
    ensures r.Some? <==> point in {GlDepthAttachment, GlStencilAttachment, GlDepthStencilAttachment}
  {
    if point == GlDepthAttachment then Some(GlDepth)
    else if point == GlStencilAttachment then Some(GlStencil)
    else if point == GlDepthStencilAttachment then Some(GlDepthStencil)
    else None
  }

  /** Through the attachment point, a depth-stencil render texture's type determines the pass's
      depth-stencil type one to one; a colour texture leaves it indeterminate. */
  lemma DepthStencilTypeFollowsTextureType(t: RenderTextureType, u: RenderTextureType)
    ensures DepthStencilTypeFor(DepthStencilAttachmentPoint(t)).None? <==> t == ColorType
    ensures t == DepthType ==> DepthStencilTypeFor(DepthStencilAttachmentPoint(t)) == Some(GlDepth)
    ensures t == StencilType ==> DepthStencilTypeFor(DepthStencilAttachmentPoint(t)) == Some(GlStencil)
    ensures t == DepthStencilType ==> DepthStencilTypeFor(DepthStencilAttachmentPoint(t)) == Some(GlDepthStencil)
    ensures t != ColorType && DepthStencilTypeFor(DepthStencilAttachmentPoint(t)) == DepthStencilTypeFor(DepthStencilAttachmentPoint(u))
            ==> t == u
  {
  }

  //- Backend state

  /** `GLRenderTexture`; the clear value (floating point) is not modelled. */
  datatype RenderTexture = RenderTexture(
    id: nat,
    depthStencilAttachmentType: nat,
    loadAction: RenderTextureLoadAction,
    isRenderbuffer: bool)

  /** The value-initialised render texture that indexing a missing handle inserts. */
  const NullRenderTexture := RenderTexture(0, NoDepthStencil, LoadClear, false)

  /** `GLRenderPass`. A pass created without a depth-stencil attachment leaves that member
      default-initialised (`None`); a depth-stencil type left indeterminate is `None` too. */
  datatype RenderPass = RenderPass(
    framebufferID: nat,
    colorAttachments: seq<RenderTexture>,
    depthStencilAttachment: Option<RenderTexture>,
    depthStencilType: Option<nat>)

  /** The value-initialised render pass that indexing a missing handle inserts. */
  const NullRenderPass := RenderPass(0, [], Some(NullRenderTexture), Some(NoDepthStencil))

  /** The global handle counters (`g_*HandleWorkaround`). */
  datatype HandleCounters = HandleCounters(renderPass: nat, renderTexture: nat, shader: nat)

  datatype Backend = Backend(
    renderTextures: map<nat, RenderTexture>,
    renderPasses: map<nat, RenderPass>,
    shaders: map<nat, GLShader.Shader>,
    counters: HandleCounters,
    swapchainRenderPass: nat,
    engineShader: nat)

  /** Every registered handle was issued by its counter, so the next one issued is fresh. */
  predicate HandlesBelowCounters(b: Backend) {
    && (forall h :: h in b.renderTextures ==> h < b.counters.renderTexture)
    && (forall h :: h in b.renderPasses ==> h < b.counters.renderPass)
    && (forall h :: h in b.shaders ==> h < b.counters.shader)
  }

  /** Every registered render texture's depth-stencil attachment point is either none or one
      the render-pass derivation recognises. */
  predicate KnownPoints(b: Backend) {
    forall h :: h in b.renderTextures ==>
      var point := b.renderTextures[h].depthStencilAttachmentType;
      point == NoDepthStencil || DepthStencilTypeFor(point).Some?
  }

  //- Construction

  /** The swapchain's colour attachment: the default framebuffer's, cleared on load, with the
      invalid handle as its name. */
  const SwapchainColorAttachment := RenderTexture(InvalidHandle, NoDepthStencil, LoadClear, false)

  /** `GLBackend()`: registers the swapchain render pass (the default framebuffer 0, one colour
      attachment, no depth-stencil) under the next render-pass handle; no engine shader yet. */
  function Construct(counters: HandleCounters): (b: Backend)
    ensures b.swapchainRenderPass == counters.renderPass
    ensures b.counters == counters.(renderPass := counters.renderPass + 1)
    ensures b.renderPasses.Keys == {b.swapchainRenderPass}
    ensures var pass := b.renderPasses[b.swapchainRenderPass];
            && pass.framebufferID == 0
            && pass.colorAttachments == [SwapchainColorAttachment]
            && pass.depthStencilType == Some(NoDepthStencil)
    ensures b.renderTextures == map[] && b.shaders == map[]
    ensures b.engineShader == InvalidHandle
    ensures HandlesBelowCounters(b)
  {
    var pass := RenderPass(0, [SwapchainColorAttachment], Some(NullRenderTexture), Some(NoDepthStencil));
    Backend(map[], map[counters.renderPass := pass], map[],
            counters.(renderPass := counters.renderPass + 1), counters.renderPass, InvalidHandle)
  }

  //- Render textures

  /** What `m_renderTextures[h]` reads: the registered texture, or the null texture it inserts. */
  function TextureAt(b: Backend, h: nat): RenderTexture {
    if h in b.renderTextures then b.renderTextures[h] else NullRenderTexture
  }

  /** The render textures after indexing every handle in `hs`: missing ones are inserted as
      null textures. */
  function Touch(textures: map<nat, RenderTexture>, hs: seq<nat>): (r: map<nat, RenderTexture>)
    ensures r.Keys == textures.Keys + (set h | h in hs)
    ensures forall h :: h in textures ==> r[h] == textures[h]
    ensures forall h :: h in r && h !in textures ==> r[h] == NullRenderTexture
  {
    map h | h in textures.Keys + (set h | h in hs) :: if h in textures then textures[h] else NullRenderTexture
  }

  /** `CreateRenderTexture`: the driver object `objectID` is a renderbuffer exactly when the
      texture is never sampled, and a texture otherwise. */
  function CreateRenderTexture(b: Backend, desc: RenderTextureDesc, objectID: nat): (r: (Backend, nat))
    ensures var (b2, handle) := r;
            && handle == b.counters.renderTexture && handle in b2.renderTextures
            && b2 == b.(renderTextures := b.renderTextures[handle := b2.renderTextures[handle]],
                        counters := b.counters.(renderTexture := handle + 1))
    ensures var t := r.0.renderTextures[r.1];
            && (t.isRenderbuffer <==> desc.usage == UsageDefault)
            && t.id == objectID
            && t.loadAction == desc.loadAction
            && t.depthStencilAttachmentType == DepthStencilAttachmentPoint(TypeOfRenderTexture(desc))
    ensures HandlesBelowCounters(b) ==> r.1 !in b.renderTextures && HandlesBelowCounters(r.0)
    ensures KnownPoints(b) ==> KnownPoints(r.0)
  {
    var handle := b.counters.renderTexture;
    var t := RenderTexture(objectID, DepthStencilAttachmentPoint(TypeOfRenderTexture(desc)), desc.loadAction,
                           desc.usage == UsageDefault);
    (b.(renderTextures := b.renderTextures[handle := t], counters := b.counters.(renderTexture := handle + 1)), handle)
  }

  /** `GetNativeRenderTexture`: the driver object behind a handle; a missing handle is
      inserted as the null texture, whose name is 0. */
  function NativeRenderTexture(b: Backend, h: nat): (r: (Backend, nat))
    ensures r.1 == TextureAt(b, h).id
    ensures r.0 == b.(renderTextures := Touch(b.renderTextures, [h]))
  {
    (b.(renderTextures := Touch(b.renderTextures, [h])), TextureAt(b, h).id)
  }

  lemma NativeRenderTextureOfCreated(b: Backend, desc: RenderTextureDesc, objectID: nat)
    ensures var (b2, handle) := CreateRenderTexture(b, desc, objectID);
            NativeRenderTexture(b2, handle) == (b2, objectID)
  {
    var (b2, handle) := CreateRenderTexture(b, desc, objectID);
    assert Touch(b2.renderTextures, [handle]) == b2.renderTextures;
  }

  //- Framebuffers

  /** The attachments of a framebuffer object: attachment point to (object name, is it a
      renderbuffer). Attaching to a point replaces what was attached there. */
  type Framebuffer = map<nat, (nat, bool)>

  function Attach(fb: Framebuffer, point: nat, t: RenderTexture): Framebuffer {
    fb[point := (t.id, t.isRenderbuffer)]
  }

  /** Which attachment point colour attachment `i` is bound to: as written every one goes to
      `GL_COLOR_ATTACHMENT0`; one per attachment gives attachment `i` its own point. */
  datatype ColorBinding = AllToFirst | OnePerAttachment

  function ColorPoint(rule: ColorBinding, i: nat): nat {
    if rule == AllToFirst then GlColorAttachment0 else GlColorAttachment0 + i
  }

  /** The points of the first `n` colour attachments, one each. */
  function ColorPoints(n: nat): set<nat> {
    set i | 0 <= i < n :: ColorPoint(OnePerAttachment, i)
  }

  /** The framebuffer after binding `colors` in order. */
  function BindColors(colors: seq<RenderTexture>, rule: ColorBinding): Framebuffer
    decreases |colors|
  {
    if colors == [] then map[]
    else Attach(BindColors(colors[..|colors| - 1], rule), ColorPoint(rule, |colors| - 1), colors[|colors| - 1])
  }

  /** With one point per attachment, every colour attachment ends up bound, each at its own
      point and nowhere else. */
  lemma {:induction false} OnePerAttachmentBindsEach(colors: seq<RenderTexture>)
    ensures var fb := BindColors(colors, OnePerAttachment);
            && fb.Keys == ColorPoints(|colors|)
            && forall i :: 0 <= i < |colors| ==>
                 fb[ColorPoint(OnePerAttachment, i)] == (colors[i].id, colors[i].isRenderbuffer)
    decreases |colors|
  {
    if colors != [] {
      var init := colors[..|colors| - 1];
      OnePerAttachmentBindsEach(init);
      var fb := BindColors(colors, OnePerAttachment);
      forall i | 0 <= i < |colors|
        ensures fb[ColorPoint(OnePerAttachment, i)] == (colors[i].id, colors[i].isRenderbuffer)
      {
        if i < |colors| - 1 {
          assert colors[i] == init[i];
        }
      }
      assert fb.Keys == ColorPoints(|colors|) by {
        forall p | p in fb.Keys ensures p in ColorPoints(|colors|) {
          if p != ColorPoint(OnePerAttachment, |colors| - 1) {
            assert p in ColorPoints(|init|);
            var i :| 0 <= i < |init| && p == ColorPoint(OnePerAttachment, i);
          }
        }
        forall i | 0 <= i < |colors| ensures ColorPoint(OnePerAttachment, i) in fb.Keys {
          if i < |colors| - 1 {
            assert ColorPoint(OnePerAttachment, i) in ColorPoints(|init|);
          }
        }
      }
    }
  }

  /** As written, only the last colour attachment stays bound: each binding replaces the
      previous one at `GL_COLOR_ATTACHMENT0`. */
  lemma {:induction false} AllToFirstKeepsOnlyLast(colors: seq<RenderTexture>)
    requires colors != []
    ensures var fb := BindColors(colors, AllToFirst);
            fb == map[GlColorAttachment0 := (colors[|colors| - 1].id, colors[|colors| - 1].isRenderbuffer)]
    decreases |colors|
  {
    var init := colors[..|colors| - 1];
    if init != [] {
      AllToFirstKeepsOnlyLast(init);
    }
  }

  /** Two colour attachments, as written: the first is bound nowhere, so a pass meant to
      render to two targets renders to one. With one point per attachment both are bound. */
  lemma AllToFirstDropsFirstTarget(first: RenderTexture, second: RenderTexture)
    requires first.id != second.id
    ensures var fb := BindColors([first, second], AllToFirst);
            forall p :: p in fb ==> fb[p].0 != first.id
    ensures var fb := BindColors([first, second], OnePerAttachment);
            && ColorPoint(OnePerAttachment, 0) in fb && fb[ColorPoint(OnePerAttachment, 0)].0 == first.id
            && ColorPoint(OnePerAttachment, 1) in fb && fb[ColorPoint(OnePerAttachment, 1)].0 == second.id
  {
    AllToFirstKeepsOnlyLast([first, second]);
    OnePerAttachmentBindsEach([first, second]);
    assert ColorPoint(OnePerAttachment, 0) in ColorPoints(2);
    assert ColorPoint(OnePerAttachment, 1) in ColorPoints(2);
  }

  //- Render passes

  /** The colour attachments a pass records: the textures its handles name, in order. */
  function TexturesAt(b: Backend, hs: seq<nat>): (r: seq<RenderTexture>)
    ensures |r| == |hs| && forall i :: 0 <= i < |hs| ==> r[i] == TextureAt(b, hs[i])
  {
    seq(|hs|, i requires 0 <= i < |hs| => TextureAt(b, hs[i]))
  }

  /** `CreateRenderPass` with the driver's framebuffer name `framebufferID`: binds the colour
      attachments (by `rule`) and the depth-stencil attachment at its texture's attachment
      point, records them, derives the depth-stencil type, and registers the pass under the
      next handle. Returns the framebuffer's attachments too. */
  function CreateRenderPass(b: Backend, desc: HandleRenderPassDesc, framebufferID: nat, rule: ColorBinding)
    : (r: (Backend, nat, Framebuffer))
    ensures var (b2, handle, _) := r;
            && handle == b.counters.renderPass
            && handle in b2.renderPasses
            && b2.renderPasses == b.renderPasses[handle := b2.renderPasses[handle]]
            && b2.counters == b.counters.(renderPass := handle + 1)
            && b2.shaders == b.shaders && b2.engineShader == b.engineShader
            && b2.swapchainRenderPass == b.swapchainRenderPass
    ensures r.0.renderTextures == Touch(b.renderTextures, desc.colorAttachments + OptionToSeq(desc.depthStencilAttachment))
    ensures var pass := r.0.renderPasses[r.1];
            && pass.framebufferID == framebufferID
            && pass.colorAttachments == TexturesAt(b, desc.colorAttachments)
            && (desc.depthStencilAttachment.None? ==>
                  && pass.depthStencilType == Some(NoDepthStencil)
                  && r.2 == BindColors(pass.colorAttachments, rule))
            && (desc.depthStencilAttachment.Some? ==>
                  var t := TextureAt(b, desc.depthStencilAttachment.value);
                  && pass.depthStencilAttachment == Some(t)
                  && pass.depthStencilType == DepthStencilTypeFor(t.depthStencilAttachmentType)
                  && r.2 == Attach(BindColors(pass.colorAttachments, rule), t.depthStencilAttachmentType, t))
    ensures HandlesBelowCounters(b) ==> r.1 !in b.renderPasses
  {
    var handle := b.counters.renderPass;
    var colors := TexturesAt(b, desc.colorAttachments);
    var textures := Touch(b.renderTextures, desc.colorAttachments + OptionToSeq(desc.depthStencilAttachment));
    var (pass, fb) :=
      match desc.depthStencilAttachment
      case None => (RenderPass(framebufferID, colors, None, Some(NoDepthStencil)), BindColors(colors, rule))
      case Some(h) =>
        var t := TextureAt(b, h);
        (RenderPass(framebufferID, colors, Some(t), DepthStencilTypeFor(t.depthStencilAttachmentType)),
         Attach(BindColors(colors, rule), t.depthStencilAttachmentType, t));
    (b.(renderTextures := textures, renderPasses := b.renderPasses[handle := pass],
        counters := b.counters.(renderPass := handle + 1)), handle, fb)
  }

  function OptionToSeq(o: Option<nat>): seq<nat> {
    if o.Some? then [o.value] else []
  }

  //- Beginning a pass

  /** The OpenGL calls `BeginRenderPass` makes; `ClearColor(fb, i)` clears draw buffer `i`. */
  datatype Command =
    | BindFramebuffer(framebuffer: nat)
    | ClearColor(framebuffer: nat, drawBuffer: nat)
    | ClearDepth(framebuffer: nat)
    | ClearStencil(framebuffer: nat)
    | ClearDepthStencil(framebuffer: nat)

  /** The colour clears, for the attachments from position `from` on. */
  function ColorClears(fb: nat, colors: seq<RenderTexture>, from: nat): seq<Command>
    decreases |colors| - from
  {
    if from >= |colors| then []
    else (if colors[from].loadAction == LoadClear then [ClearColor(fb, from)] else []) + ColorClears(fb, colors, from + 1)
  }

  /** The colour clears are exactly the attachments that load by clearing, in ascending order,
      and nothing else. */
  lemma {:induction false} ColorClearsExactly(fb: nat, colors: seq<RenderTexture>, from: nat)
    ensures forall c :: c in ColorClears(fb, colors, from) ==> c.ClearColor? && c.framebuffer == fb
    ensures forall i: nat :: (ClearColor(fb, i) in ColorClears(fb, colors, from)) <==>
                          (from <= i < |colors| && colors[i].loadAction == LoadClear)
    ensures forall j, k :: 0 <= j < k < |ColorClears(fb, colors, from)| ==>
              ColorClears(fb, colors, from)[j].drawBuffer < ColorClears(fb, colors, from)[k].drawBuffer
    ensures forall j :: 0 <= j < |ColorClears(fb, colors, from)| ==> from <= ColorClears(fb, colors, from)[j].drawBuffer
    decreases |colors| - from
  {
    if from < |colors| {
      ColorClearsExactly(fb, colors, from + 1);
    }
  }

  /** The depth-stencil clear of a pass whose depth-stencil type has been read as `t`. */
  function DepthStencilClear(fb: nat, t: nat): Result<seq<Command>, Fault> {
    if t == GlDepth then Ok([ClearDepth(fb)])
    else if t == GlStencil then Ok([ClearStencil(fb)])
    else if t == GlDepthStencil then Ok([ClearDepthStencil(fb)])
    else Err(AssertionFailed("DepthStencil GLRenderTexture::Type holds an invalid value"))
  }

  /** `BeginRenderPass`: binds the pass's framebuffer, clears every colour attachment that loads
      by clearing, then clears the depth-stencil attachment by its type when there is one and
      it loads by clearing. A missing handle is inserted as the null pass (framebuffer 0,
      nothing to clear). Reading an indeterminate depth-stencil type, or the depth-stencil
      attachment of a pass that left it unset, is undefined behaviour. */
  function BeginRenderPass(b: Backend, handle: nat): (r: (Backend, Result<seq<Command>, Fault>))
    ensures r.0.renderPasses == (if handle in b.renderPasses then b.renderPasses else b.renderPasses[handle := NullRenderPass])
    ensures r.0 == b.(renderPasses := r.0.renderPasses)
    ensures var pass := if handle in b.renderPasses then b.renderPasses[handle] else NullRenderPass;
            && (r.1.Err? <==>
                  || pass.depthStencilType.None?
                  || (pass.depthStencilType != Some(NoDepthStencil)
                        && (pass.depthStencilAttachment.None?
                              || (pass.depthStencilAttachment.value.loadAction == LoadClear
                                    && pass.depthStencilType.value !in {GlDepth, GlStencil, GlDepthStencil}))))
            && (r.1.Err? ==> r.1.error == Undefined || r.1.error.AssertionFailed?)
            && (r.1.Ok? ==>
                  && |r.1.value| >= 1 + |ColorClears(pass.framebufferID, pass.colorAttachments, 0)|
                  && r.1.value[..1 + |ColorClears(pass.framebufferID, pass.colorAttachments, 0)|]
                     == [BindFramebuffer(pass.framebufferID)] + ColorClears(pass.framebufferID, pass.colorAttachments, 0)
                  && |r.1.value| <= 2 + |ColorClears(pass.framebufferID, pass.colorAttachments, 0)|)
  {
    var passes := if handle in b.renderPasses then b.renderPasses else b.renderPasses[handle := NullRenderPass];
    var pass := passes[handle];
    var fb := pass.framebufferID;
    var colorCalls := [BindFramebuffer(fb)] + ColorClears(fb, pass.colorAttachments, 0);
    var result :=
      match pass.depthStencilType
      case None => Err(Undefined)
      case Some(t) =>
        if t == NoDepthStencil then Ok(colorCalls)
        else match pass.depthStencilAttachment
          case None => Err(Undefined)
          case Some(ds) =>
            if ds.loadAction != LoadClear then Ok(colorCalls)
            else match DepthStencilClear(fb, t)
              case Err(e) => Err(e)
              case Ok(calls) => Ok(colorCalls + calls);
    (b.(renderPasses := passes), result)
  }

  /** A pass `CreateRenderPass` registered begins without fault exactly when it has no
      depth-stencil attachment or that attachment is not a colour texture. */
  lemma CreatedPassBegins(b: Backend, desc: HandleRenderPassDesc, framebufferID: nat, rule: ColorBinding)
    requires KnownPoints(b)
    ensures var (b2, handle, _) := CreateRenderPass(b, desc, framebufferID, rule);
            (BeginRenderPass(b2, handle).1.Ok?)
            <==> (desc.depthStencilAttachment.None?
                      || TextureAt(b, desc.depthStencilAttachment.value).depthStencilAttachmentType != NoDepthStencil)
  {
    var (b2, handle, _) := CreateRenderPass(b, desc, framebufferID, rule);
    if desc.depthStencilAttachment.Some? {
      var t := TextureAt(b, desc.depthStencilAttachment.value);
      if t.depthStencilAttachmentType != NoDepthStencil && DepthStencilTypeFor(t.depthStencilAttachmentType).Some? {
        assert DepthStencilTypeFor(t.depthStencilAttachmentType).value in {GlDepth, GlStencil, GlDepthStencil};
      }
    }
  }

  /** Beginning the swapchain pass binds the default framebuffer and clears its one colour
      buffer. */
  lemma SwapchainPassBegins(counters: HandleCounters)
    ensures var b := Construct(counters);
            BeginRenderPass(b, b.swapchainRenderPass).1 == Ok([BindFramebuffer(0), ClearColor(0, 0)])
  {
    var b := Construct(counters);
    assert ColorClears(0, [SwapchainColorAttachment], 1) == [];
    assert ColorClears(0, [SwapchainColorAttachment], 0) == [ClearColor(0, 0)];
    var pass := b.renderPasses[b.swapchainRenderPass];
    assert pass.colorAttachments == [SwapchainColorAttachment] && pass.depthStencilType == Some(NoDepthStencil);
    assert [BindFramebuffer(0)] + [ClearColor(0, 0)] == [BindFramebuffer(0), ClearColor(0, 0)];
  }

  //- Shaders

  /** The name of the shader the backend uses for its per-frame uniforms. */
  const EngineShaderName := "Engine/Main"

  /** `CreateShader` with the driver's program name `programID`: registers the shader under
      the next handle and makes it the engine shader when it carries the engine shader's
      name. */
  function CreateShader(b: Backend, desc: ShaderDesc, programID: nat): (r: (Backend, nat))
    ensures var (b2, handle) := r;
            && handle == b.counters.shader
            && b2.shaders == b.shaders[handle := GLShader.FromDesc(desc, programID)]
            && b2.counters == b.counters.(shader := handle + 1)
            && b2.renderTextures == b.renderTextures && b2.renderPasses == b.renderPasses
            && b2.swapchainRenderPass == b.swapchainRenderPass
            && (desc.name == EngineShaderName ==> b2.engineShader == handle)
            && (desc.name != EngineShaderName ==> b2.engineShader == b.engineShader)
    ensures HandlesBelowCounters(b) ==> r.1 !in b.shaders && HandlesBelowCounters(r.0)
  {
    var handle := b.counters.shader;
    (b.(shaders := b.shaders[handle := GLShader.FromDesc(desc, programID)],
        counters := b.counters.(shader := handle + 1),
        engineShader := if desc.name == EngineShaderName then handle else b.engineShader), handle)
  }

  /** Creating shaders one after another, with program names `programs`. */
  function CreateShaders(b: Backend, descs: seq<ShaderDesc>, programs: seq<nat>): Backend
    requires |programs| == |descs|
    decreases |descs|
  {
    if descs == [] then b
    else CreateShader(CreateShaders(b, descs[..|descs| - 1], programs[..|descs| - 1]), descs[|descs| - 1], programs[|descs| - 1]).0
  }

  /** After a sequence of creations the engine shader is the one created last under the engine
      shader's name, or unchanged when there was none. */
  lemma EngineShaderIsLastNamed(b: Backend, descs: seq<ShaderDesc>, programs: seq<nat>)
    requires |programs| == |descs|
    ensures var b2 := CreateShaders(b, descs, programs);
            && b2.counters.shader == b.counters.shader + |descs|
            && ((forall i :: 0 <= i < |descs| ==> descs[i].name != EngineShaderName) ==> b2.engineShader == b.engineShader)
    ensures forall i :: 0 <= i < |descs| && descs[i].name == EngineShaderName
                        && (forall j :: i < j < |descs| ==> descs[j].name != EngineShaderName)
                        ==> CreateShaders(b, descs, programs).engineShader == b.counters.shader + i
  {
    EngineShaderFollowsLastNamed(b, descs, programs);
    LastNamedIsLast(descs);
  }

  /** The index of the last description with the engine shader's name, if any. */
  function LastNamed(descs: seq<ShaderDesc>): Option<nat>
    decreases |descs|
  {
    if descs == [] then None
    else if descs[|descs| - 1].name == EngineShaderName then Some(|descs| - 1)
    else LastNamed(descs[..|descs| - 1])
  }

  lemma {:induction false} EngineShaderFollowsLastNamed(b: Backend, descs: seq<ShaderDesc>, programs: seq<nat>)
    requires |programs| == |descs|
    ensures var b2 := CreateShaders(b, descs, programs);
            && b2.counters.shader == b.counters.shader + |descs|
            && b2.engineShader == (match LastNamed(descs)
                                   case Some(i) => b.counters.shader + i
                                   case None => b.engineShader)
    decreases |descs|
  {
    if descs != [] {
      var n := |descs| - 1;
      EngineShaderFollowsLastNamed(b, descs[..n], programs[..n]);
      var prev := CreateShaders(b, descs[..n], programs[..n]);
      assert CreateShaders(b, descs, programs) == CreateShader(prev, descs[n], programs[n]).0;
    }
  }

  /** `LastNamed` finds exactly the last description with the engine shader's name. */
  lemma {:induction false} LastNamedIsLast(descs: seq<ShaderDesc>)
    ensures LastNamed(descs).None? <==> forall i :: 0 <= i < |descs| ==> descs[i].name != EngineShaderName
    ensures forall i :: 0 <= i < |descs| && descs[i].name == EngineShaderName
                        && (forall j :: i < j < |descs| ==> descs[j].name != EngineShaderName)
                        ==> LastNamed(descs) == Some(i)
    decreases |descs|
  {
    if descs != [] {
      var n := |descs| - 1;
      var init := descs[..n];
      LastNamedIsLast(init);
      assert forall i :: 0 <= i < n ==> init[i] == descs[i];
    }
  }

  /** `BindShader`: the calls binding the registered shader makes, with `GLShader.Bind` as
      written. `m_shaders[h]` on a missing handle inserts a default-constructed shader, whose
      states are indeterminate. */
  function BindShader(b: Backend, handle: nat): (r: (Backend, Result<seq<GLShader.Call>, Fault>))
    ensures handle in b.shaders ==> r.0 == b && r.1 == GLShader.Bind(b.shaders[handle], GLShader.AsWritten)
    ensures handle !in b.shaders ==> r.0 == b.(shaders := b.shaders[handle := GLShader.DefaultShader]) && r.1 == Err(Undefined)
  {
    if handle in b.shaders then (b, GLShader.Bind(b.shaders[handle], GLShader.AsWritten))
    else (b.(shaders := b.shaders[handle := GLShader.DefaultShader]), Err(Undefined))
  }

  /** Binding a shader just created makes later draws use exactly its states unless it blends
      and an earlier bind left the colour logic op enabled, in which case the logic op wins. */
  lemma CreatedShaderTakesEffect(b: Backend, desc: ShaderDesc, programID: nat, ctx: GLShader.Context)
    ensures var (b2, handle) := CreateShader(b, desc, programID);
            var calls := BindShader(b2, handle).1;
            && calls.Ok?
            && (GLShader.EffectOf(GLShader.Execute(ctx, calls.value))
                  == GLShader.IntendedEffect(programID, GLShader.FromDesc(desc, programID).states.value)
                <==> !(desc.blend.blendMode == BlendOpMode && ctx.colorLogicOpEnabled))
  {
    var (b2, handle) := CreateShader(b, desc, programID);
    GLShader.AsWrittenBindTakesEffect(ctx, GLShader.FromDesc(desc, programID));
  }
}

=== FILE: gl_shader.dfy ===
/** An OpenGL shader program's fixed-function state (GLShader.cpp): the translation of the
    engine's state enums into OpenGL enumerants, the state records a shader builds from its
    description, the OpenGL calls `Bind` issues, and the move operations. Program and shader
    objects come from the driver and are parameters here; the enumerant values are those of
    the OpenGL 4.6 core profile. */
module GLShader {
  import opened Wrappers
  import opened Faults
  import opened RenderTypes

  //- OpenGL enumerants

  const GlFill: nat := 0x1B02
  const GlLine: nat := 0x1B01
  const GlCw: nat := 0x0900
  const GlCcw: nat := 0x0901
  const GlFront: nat := 0x0404
  const GlBack: nat := 0x0405

  /** `GL_NEVER`; the eight comparison enumerants are consecutive from it. */
  const GlNever: nat := 0x0200

  /** `gl_PolygonMode`. */
  function PolygonModeToGL(mode: PolygonMode): (r: nat)
    ensures r == GlFill <==> mode == Fill
    ensures r == GlLine <==> mode == Wireframe
  {
    [GlFill, GlLine][match mode case Fill => 0 case Wireframe => 1]
  }

  /** `gl_TriangleFrontFace`. */
  function FrontFaceToGL(face: TriangleFrontFace): (r: nat)
    ensures r == GlCw <==> face == Clockwise
    ensures r == GlCcw <==> face == CounterClockwise
  {
    match face
    case Clockwise => GlCw
    case CounterClockwise => GlCcw
  }

  /** `gl_CompareFunction`: a table indexed by the function's ordinal. */
  function CompareFunctionToGL(f: CompareFunction): (r: nat)
    ensures GlNever <= r < GlNever + 8
  {
    [0x0200, 0x0201, 0x0202, 0x0203, 0x0204, 0x0205, 0x0206, 0x0207][
      match f
      case Never => 0 case Less => 1 case Equal => 2 case LessEqual => 3
      case Greater => 4 case NotEqual => 5 case GreaterEqual => 6 case Always => 7]
  }

  /** What the engine's comparison means: does an incoming value pass against a stored one. */
  predicate Passes(f: CompareFunction, incoming: int, stored: int) {
    match f
    case Never => false
    case Less => incoming < stored
    case Equal => incoming == stored
    case LessEqual => incoming <= stored
    case Greater => incoming > stored
    case NotEqual => incoming != stored
    case GreaterEqual => incoming >= stored
    case Always => true
  }

  /** What an OpenGL comparison enumerant means: its offset from `GL_NEVER` has bit 0 for
      "less", bit 1 for "equal" and bit 2 for "greater". */
  predicate GLPasses(code: nat, incoming: int, stored: int)
    requires GlNever <= code < GlNever + 8
  {
    var bits := code - GlNever;
    if incoming < stored then bits % 2 == 1
    else if incoming == stored then (bits / 2) % 2 == 1
    else (bits / 4) % 2 == 1
  }

  /** The comparison table is right: every engine comparison becomes the OpenGL comparison
      with the same meaning. */
  lemma CompareFunctionToGLKeepsMeaning(f: CompareFunction, incoming: int, stored: int)
    ensures GLPasses(CompareFunctionToGL(f), incoming, stored) <==> Passes(f, incoming, stored)
  {
  }

  /** `gl_BlendOp`. */
  function BlendOpToGL(op: BlendOp): (r: nat)
    ensures r in {0x8006, 0x800A, 0x800B, 0x8007, 0x8008}
  {
    [0x8006, 0x800A, 0x800B, 0x8007, 0x8008][
      match op case Add => 0 case Subtract => 1 case ReverseSubtract => 2 case Min => 3 case Max => 4]
  }

  /** `gl_BlendFactor`. */
  function BlendFactorToGL(factor: BlendFactor): (r: nat)
    ensures factor == Zero <==> r == 0
    ensures factor == One <==> r == 1
  {
    [0, 1, 0x0300, 0x0301, 0x0306, 0x0307, 0x0302, 0x0303, 0x0304, 0x0305, 0x0308,
     0x88F9, 0x88FA, 0x8589, 0x88FB][
      match factor
      case Zero => 0 case One => 1 case SrcColor => 2 case OneMinusSrcColor => 3
      case DstColor => 4 case OneMinusDstColor => 5 case SrcAlpha => 6 case OneMinusSrcAlpha => 7
      case DstAlpha => 8 case OneMinusDstAlpha => 9 case ScrAlphaSaturate => 10
      case Src1Color => 11 case OneMinusSrc1Color => 12 case Src1Alpha => 13 case OneMinusSrc1Alpha => 14]
  }

  /** No two blend operations or blend factors share an enumerant. */
  lemma BlendTranslationsAreInjective(x: BlendOp, y: BlendOp, f: BlendFactor, g: BlendFactor)
    ensures BlendOpToGL(x) == BlendOpToGL(y) ==> x == y
    ensures BlendFactorToGL(f) == BlendFactorToGL(g) ==> f == g
  {
  }

  /** `gl_BlendLogicOp`. */
  function LogicOpToGL(op: BlendLogicOp): (r: nat)
    ensures 0x1500 <= r < 0x1510
  {
    [0x1500, 0x150F, 0x1503, 0x150C, 0x1505, 0x150A, 0x1501, 0x150E,
     0x1507, 0x1508, 0x1506, 0x1509, 0x1502, 0x1504, 0x150B, 0x150D][
      match op
      case Clear => 0 case Set => 1 case Copy => 2 case CopyInversed => 3
      case Noop => 4 case Invert => 5 case And => 6 case Nand => 7
      case Or => 8 case Nor => 9 case Xor => 10 case Equivalent => 11
      case AndReverse => 12 case AndInverted => 13 case OrReverse => 14 case OrInverted => 15]
  }

  /** What the engine's logic op computes from a source and a destination bit. */
  function LogicOpResult(op: BlendLogicOp, s: bool, d: bool): bool {
    match op
    case Clear => false
    case Set => true
    case Copy => s
    case CopyInversed => !s
    case Noop => d
    case Invert => !d
    case And => s && d
    case Nand => !(s && d)
    case Or => s || d
    case Nor => !(s || d)
    case Xor => s != d
    case Equivalent => s == d
    case AndReverse => s && !d
    case AndInverted => !s && d
    case OrReverse => s || !d
    case OrInverted => !s || d
  }

  /** What an OpenGL logic-op enumerant computes: its offset from `GL_CLEAR` is the truth
      table, the bit for (s, d) being bit `2 * (1 - s) + (1 - d)`. */
  function GLLogicOpResult(code: nat, s: bool, d: bool): bool
    requires 0x1500 <= code < 0x1510
  {
    var table := code - 0x1500;
    var bit := (if s then 0 else 2) + (if d then 0 else 1);
    var shifted := if bit == 0 then table else if bit == 1 then table / 2 else if bit == 2 then table / 4 else table / 8;
    shifted % 2 == 1
  }

  /** The logic-op table is right: every engine logic op becomes the OpenGL logic op with the
      same truth table. */
  lemma LogicOpToGLKeepsMeaning(op: BlendLogicOp, s: bool, d: bool)
    ensures GLLogicOpResult(LogicOpToGL(op), s, d) == LogicOpResult(op, s, d)
  {
  }

  //- Shader state

  datatype RasterizerState = RasterizerState(polygonMode: nat, facetCullingEnable: bool, cullFace: nat, frontFace: nat)

  datatype DepthStencilState = DepthStencilState(depthTestEnable: bool, depthWriteEnable: bool, depthCompareFunction: nat)

  datatype BlendState = BlendState(
    blendEnable: bool,
    logicOpEnable: bool,
    colorBlendOp: nat,
    alphaBlendOp: nat,
    colorSrcBlendFactor: nat,
    colorDstBlendFactor: nat,
    alphaSrcBlendFactor: nat,
    alphaDstBlendFactor: nat,
    logicOp: nat)

  /** The value-initialised (`{}`) states. */
  const ZeroRasterizerState := RasterizerState(0, false, 0, 0)
  const ZeroDepthStencilState := DepthStencilState(false, false, 0)
  const ZeroBlendState := BlendState(false, false, 0, 0, 0, 0, 0, 0, 0)

  datatype ShaderStates = ShaderStates(rasterizer: RasterizerState, depthStencil: DepthStencilState, blend: BlendState)

  const ZeroStates := ShaderStates(ZeroRasterizerState, ZeroDepthStencilState, ZeroBlendState)

  /** A shader object: its program and its states. The default constructor leaves the states
      indeterminate (`None`). */
  datatype Shader = Shader(programID: nat, states: Option<ShaderStates>)

  /** The default constructor. */
  const DefaultShader := Shader(InvalidHandle, None)

  function RasterizerStateOf(desc: RasterizerStateDesc): (r: RasterizerState)
    ensures r.facetCullingEnable <==> desc.cullMode != CullOff
    ensures r.facetCullingEnable ==> (r.cullFace == GlFront <==> desc.cullMode == CullFront)
    ensures r.facetCullingEnable ==> (r.cullFace == GlBack <==> desc.cullMode == CullBack)
  {
    var base := RasterizerState(PolygonModeToGL(desc.polygonMode), false, 0, FrontFaceToGL(desc.frontFace));
    match desc.cullMode
    case CullOff => base
    case CullFront => base.(facetCullingEnable := true, cullFace := GlFront)
    case CullBack => base.(facetCullingEnable := true, cullFace := GlBack)
  }

  function BlendStateOf(desc: BlendStateDesc): (r: BlendState)
    ensures !(r.blendEnable && r.logicOpEnable)
    ensures r.blendEnable <==> desc.blendMode == BlendOpMode
    ensures r.logicOpEnable <==> desc.blendMode == LogicOpMode
    ensures desc.blendMode == BlendOff ==> r == ZeroBlendState
    ensures r.blendEnable ==>
              && r.colorBlendOp == BlendOpToGL(desc.colorBlendOp) && r.alphaBlendOp == BlendOpToGL(desc.alphaBlendOp)
              && r.colorSrcBlendFactor == BlendFactorToGL(desc.colorSrcBlendFactor)
              && r.colorDstBlendFactor == BlendFactorToGL(desc.colorDstBlendFactor)
              && r.alphaSrcBlendFactor == BlendFactorToGL(desc.alphaSrcBlendFactor)
              && r.alphaDstBlendFactor == BlendFactorToGL(desc.alphaDstBlendFactor)
    ensures r.logicOpEnable ==> r.logicOp == LogicOpToGL(desc.logicOp)
  {
    match desc.blendMode
    case BlendOff => ZeroBlendState
    case BlendOpMode =>
      ZeroBlendState.(blendEnable := true,
                      colorBlendOp := BlendOpToGL(desc.colorBlendOp),
                      alphaBlendOp := BlendOpToGL(desc.alphaBlendOp),
                      colorSrcBlendFactor := BlendFactorToGL(desc.colorSrcBlendFactor),
                      colorDstBlendFactor := BlendFactorToGL(desc.colorDstBlendFactor),
                      alphaSrcBlendFactor := BlendFactorToGL(desc.alphaSrcBlendFactor),
                      alphaDstBlendFactor := BlendFactorToGL(desc.alphaDstBlendFactor))
    case LogicOpMode =>
      ZeroBlendState.(logicOpEnable := true, logicOp := LogicOpToGL(desc.logicOp))
  }

  /** `GLShader(const ShaderDesc&)`: the program the driver linked, and the states translated
      from the description. */
  function FromDesc(desc: ShaderDesc, programID: nat): (r: Shader)
    ensures r.programID == programID && r.states.Some?
    ensures r.states.value.rasterizer == RasterizerStateOf(desc.rasterizer)
    ensures r.states.value.depthStencil.depthTestEnable == desc.depthStencil.depthTestEnable
    ensures r.states.value.depthStencil.depthWriteEnable == desc.depthStencil.depthWriteEnable
    ensures r.states.value.depthStencil.depthCompareFunction == CompareFunctionToGL(desc.depthStencil.depthCompareFunction)
    ensures r.states.value.blend == BlendStateOf(desc.blend)
  {
    var depth := DepthStencilState(desc.depthStencil.depthTestEnable, desc.depthStencil.depthWriteEnable,
                                   CompareFunctionToGL(desc.depthStencil.depthCompareFunction));
    Shader(programID, Some(ShaderStates(RasterizerStateOf(desc.rasterizer), depth, BlendStateOf(desc.blend))))
  }

  //- Moves

  /** The state a moved-from shader is left in: no program, value-initialised states. */
  const MovedFrom := Shader(InvalidHandle, Some(ZeroStates))

  /** The move constructor: the new shader takes the program and the states, the source is
      left with no program and value-initialised states. */
  function MoveConstruct(other: Shader): (r: (Shader, Shader))
    ensures r.0.programID == other.programID && r.0.states == other.states
    ensures r.1.programID == InvalidHandle && r.1.states == Some(ZeroStates)
  {
    (other, MovedFrom)
  }

  /** Move assignment: the target's own program and states are dropped and replaced by the
      source's, and the source is emptied as by the move constructor. */
  function MoveAssign(target: Shader, other: Shader): (r: (Shader, Shader))
    ensures r.0.programID == other.programID && r.0.states == other.states
    ensures r.1.programID == InvalidHandle && r.1.states == Some(ZeroStates)
  {
    (other, MovedFrom)
  }

  /** Moving a shader out into a temporary and back restores it and leaves the temporary
      as a moved-from shader. */
  lemma MoveRoundTrip(s: Shader, t: Shader)
    ensures var (temp, s1) := MoveConstruct(s);
            var (s2, temp2) := MoveAssign(s1, temp);
            s2 == s && temp2 == MovedFrom
  {
  }

  //- Binding

  /** The OpenGL capabilities `Bind` switches. */
  datatype Capability = CullFaceCap | DepthTestCap | BlendCap | ColorLogicOpCap

  /** The OpenGL calls `Bind` makes. */
  datatype Call =
    | UseProgram(program: nat)
    | PolygonMode(mode: nat)
    | Enable(cap: Capability)
    | Disable(cap: Capability)
    | CullFace(face: nat)
    | FrontFace(face: nat)
    | DepthMask(flag: bool)
    | DepthFunc(func: nat)
    | BlendEquationSeparate(colorOp: nat, alphaOp: nat)
    | BlendFuncSeparate(colorSrc: nat, colorDst: nat, alphaSrc: nat, alphaDst: nat)
    | LogicOp(op: nat)

  /** The part of an OpenGL context's state that these calls set. */
  datatype Context = Context(
    program: nat,
    polygonMode: nat,
    cullFaceEnabled: bool,
    cullFace: nat,
    frontFace: nat,
    depthTestEnabled: bool,
    depthMask: bool,
    depthFunc: nat,
    blendEnabled: bool,
    blendOps: (nat, nat),
    blendFactors: (nat, nat, nat, nat),
    colorLogicOpEnabled: bool,
    logicOp: nat)

  function Apply(ctx: Context, call: Call): Context {
    match call
    case UseProgram(p) => ctx.(program := p)
    case PolygonMode(m) => ctx.(polygonMode := m)
    case Enable(cap) => SetCapability(ctx, cap, true)
    case Disable(cap) => SetCapability(ctx, cap, false)
    case CullFace(f) => ctx.(cullFace := f)
    case FrontFace(f) => ctx.(frontFace := f)
    case DepthMask(flag) => ctx.(depthMask := flag)
    case DepthFunc(f) => ctx.(depthFunc := f)
    case BlendEquationSeparate(c, a) => ctx.(blendOps := (c, a))
    case BlendFuncSeparate(cs, cd, as_, ad) => ctx.(blendFactors := (cs, cd, as_, ad))
    case LogicOp(op) => ctx.(logicOp := op)
  }

  function SetCapability(ctx: Context, cap: Capability, on: bool): Context {
    match cap
    case CullFaceCap => ctx.(cullFaceEnabled := on)
    case DepthTestCap => ctx.(depthTestEnabled := on)
    case BlendCap => ctx.(blendEnabled := on)
    case ColorLogicOpCap => ctx.(colorLogicOpEnabled := on)
  }

  /** The context after the calls, made in order. */
  function Execute(ctx: Context, calls: seq<Call>): Context
    decreases |calls|
  {
    if calls == [] then ctx else Execute(Apply(ctx, calls[0]), calls[1..])
  }

  lemma {:induction false} ExecuteConcatenation(ctx: Context, xs: seq<Call>, ys: seq<Call>)
    ensures Execute(ctx, xs + ys) == Execute(Execute(ctx, xs), ys)
    decreases |xs|
  {
    if xs == [] {
      assert xs + ys == ys;
    } else {
      assert (xs + ys)[1..] == xs[1..] + ys;
      ExecuteConcatenation(Apply(ctx, xs[0]), xs[1..], ys);
    }
  }

  lemma ExecuteShort(ctx: Context, a: Call, b: Call, c: Call)
    ensures Execute(ctx, []) == ctx
    ensures Execute(ctx, [a]) == Apply(ctx, a)
    ensures Execute(ctx, [a, b]) == Apply(Apply(ctx, a), b)
    ensures Execute(ctx, [a, b, c]) == Apply(Apply(Apply(ctx, a), b), c)
  {
    ExecuteSingle(ctx, a);
    ExecuteSingle(Apply(ctx, a), b);
    ExecuteSingle(Apply(Apply(ctx, a), b), c);
    assert [a, b][1..] == [b];
    assert [a, b, c][1..] == [b, c];
    assert [b, c][1..] == [c];
    assert Execute(Apply(ctx, a), [b, c]) == Execute(Apply(Apply(ctx, a), b), [c]);
  }

  lemma ExecuteSingle(ctx: Context, a: Call)
    ensures Execute(ctx, [a]) == Apply(ctx, a)
  {
    assert [a][1..] == [];
  }

  /** How the colour a fragment shader outputs reaches the render target. In OpenGL an
      enabled colour logic op takes precedence over blending. */
  datatype ColorOutput =
    | Replace
    | Blended(ops: (nat, nat), factors: (nat, nat, nat, nat))
    | Logic(op: nat)

  /** What a draw actually does under a context: the state that takes effect, leaving out
      values that no enabled capability reads. */
  datatype Effect = Effect(
    program: nat,
    polygonMode: nat,
    culling: Option<nat>,
    frontFace: nat,
    depth: Option<(bool, nat)>,
    output: ColorOutput)

  function EffectOf(ctx: Context): Effect {
    Effect(
      ctx.program,
      ctx.polygonMode,
      if ctx.cullFaceEnabled then Some(ctx.cullFace) else None,
      ctx.frontFace,
      if ctx.depthTestEnabled then Some((ctx.depthMask, ctx.depthFunc)) else None,
      if ctx.colorLogicOpEnabled then Logic(ctx.logicOp)
      else if ctx.blendEnabled then Blended(ctx.blendOps, ctx.blendFactors)
      else Replace)
  }

  /** What a draw with a shader bound is meant to do, read off the shader's states alone. */
  function IntendedEffect(programID: nat, s: ShaderStates): Effect {
    Effect(
      programID,
      s.rasterizer.polygonMode,
      if s.rasterizer.facetCullingEnable then Some(s.rasterizer.cullFace) else None,
      s.rasterizer.frontFace,
      if s.depthStencil.depthTestEnable then Some((s.depthStencil.depthWriteEnable, s.depthStencil.depthCompareFunction)) else None,
      if s.blend.blendEnable then
        Blended((s.blend.colorBlendOp, s.blend.alphaBlendOp),
                (s.blend.colorSrcBlendFactor, s.blend.colorDstBlendFactor, s.blend.alphaSrcBlendFactor, s.blend.alphaDstBlendFactor))
      else if s.blend.logicOpEnable then Logic(s.blend.logicOp)
      else Replace)
  }

  function RasterizerCalls(r: RasterizerState): seq<Call> {
    [PolygonMode(r.polygonMode)]
    + (if r.facetCullingEnable then [Enable(CullFaceCap), CullFace(r.cullFace)] else [Disable(CullFaceCap)])
    + [FrontFace(r.frontFace)]
  }

  function DepthStencilCalls(d: DepthStencilState): seq<Call> {
    if d.depthTestEnable then [Enable(DepthTestCap), DepthMask(d.depthWriteEnable), DepthFunc(d.depthCompareFunction)]
    else [Disable(DepthTestCap)]
  }

  /** Which blend-state calls `Bind` makes: as written, the blend branch leaves the colour
      logic op as the previous shader set it and the logic-op branch leaves blending as it
      was; exclusive turns the other one off. */
  datatype BlendSwitching = AsWritten | Exclusive

  function BlendCalls(b: BlendState, rule: BlendSwitching): seq<Call> {
    var others := if rule == Exclusive then [Disable(ColorLogicOpCap)] else [];
    if b.blendEnable then
      [Enable(BlendCap)] + others
      + [BlendEquationSeparate(b.colorBlendOp, b.alphaBlendOp),
         BlendFuncSeparate(b.colorSrcBlendFactor, b.colorDstBlendFactor, b.alphaSrcBlendFactor, b.alphaDstBlendFactor)]
    else if b.logicOpEnable then
      [Enable(ColorLogicOpCap)] + (if rule == Exclusive then [Disable(BlendCap)] else []) + [LogicOp(b.logicOp)]
    else [Disable(BlendCap), Disable(ColorLogicOpCap)]
  }

  /** `GLShader::Bind`: the calls it makes. A shader made by the default constructor has
      indeterminate states, and reading them is undefined behaviour. */
  function Bind(s: Shader, rule: BlendSwitching): (r: Result<seq<Call>, Fault>)
    ensures r.Ok? <==> s.states.Some?
    ensures r.Err? ==> r.error == Undefined
    ensures r.Ok? ==> |r.value| > 0 && r.value[0] == UseProgram(s.programID)
  {
    match s.states
    case None => Err(Undefined)
    case Some(st) => Ok([UseProgram(s.programID)] + RasterizerCalls(st.rasterizer)
                        + DepthStencilCalls(st.depthStencil) + BlendCalls(st.blend, rule))
  }

  lemma ExecuteRasterizerCalls(ctx: Context, r: RasterizerState)
    ensures Execute(ctx, RasterizerCalls(r))
         == ctx.(polygonMode := r.polygonMode,
                 cullFaceEnabled := r.facetCullingEnable,
                 cullFace := if r.facetCullingEnable then r.cullFace else ctx.cullFace,
                 frontFace := r.frontFace)
  {
    var first := [PolygonMode(r.polygonMode)];
    var middle := if r.facetCullingEnable then [Enable(CullFaceCap), CullFace(r.cullFace)] else [Disable(CullFaceCap)];
    var last := [FrontFace(r.frontFace)];
    ExecuteConcatenation(ctx, first + middle, last);
    ExecuteConcatenation(ctx, first, middle);
    ExecuteSingle(ctx, first[0]);
    var c1 := Apply(ctx, first[0]);
    ExecuteShort(c1, middle[0], if |middle| > 1 then middle[1] else middle[0], middle[0]);
    ExecuteSingle(Execute(c1, middle), last[0]);
  }

  lemma ExecuteDepthStencilCalls(ctx: Context, d: DepthStencilState)
    ensures Execute(ctx, DepthStencilCalls(d))
         == if d.depthTestEnable then ctx.(depthTestEnabled := true, depthMask := d.depthWriteEnable, depthFunc := d.depthCompareFunction)
            else ctx.(depthTestEnabled := false)
  {
    var calls := DepthStencilCalls(d);
    ExecuteShort(ctx, calls[0], if |calls| > 1 then calls[1] else calls[0], if |calls| > 2 then calls[2] else calls[0]);
  }

  lemma ExecuteBlendCalls(ctx: Context, b: BlendState, rule: BlendSwitching)
    ensures var c := Execute(ctx, BlendCalls(b, rule));
            && c.(blendEnabled := ctx.blendEnabled, blendOps := ctx.blendOps, blendFactors := ctx.blendFactors,
                  colorLogicOpEnabled := ctx.colorLogicOpEnabled, logicOp := ctx.logicOp) == ctx
            && (b.blendEnable ==>
                  && c.blendEnabled
                  && c.logicOp == ctx.logicOp
                  && c.blendOps == (b.colorBlendOp, b.alphaBlendOp)
                  && c.blendFactors == (b.colorSrcBlendFactor, b.colorDstBlendFactor, b.alphaSrcBlendFactor, b.alphaDstBlendFactor)
                  && c.colorLogicOpEnabled == (ctx.colorLogicOpEnabled && rule == AsWritten))
            && (!b.blendEnable && b.logicOpEnable ==>
                  && c.colorLogicOpEnabled && c.logicOp == b.logicOp
                  && (rule == Exclusive ==> !c.blendEnabled))
            && (!b.blendEnable && !b.logicOpEnable ==> !c.blendEnabled && !c.colorLogicOpEnabled)
  {
    if b.blendEnable {
      ExecuteBlendEnabled(ctx, b, rule);
    } else if b.logicOpEnable && rule == Exclusive {
      ExecuteShort(ctx, Enable(ColorLogicOpCap), Disable(BlendCap), LogicOp(b.logicOp));
    } else if b.logicOpEnable {
      assert BlendCalls(b, rule) == [Enable(ColorLogicOpCap), LogicOp(b.logicOp)];
      ExecuteShort(ctx, Enable(ColorLogicOpCap), LogicOp(b.logicOp), LogicOp(b.logicOp));
    } else {
      ExecuteShort(ctx, Disable(BlendCap), Disable(ColorLogicOpCap), Disable(BlendCap));
    }
  }

  /** With blending on: blending enabled with the state's equations and factors, and the logic
      operation switched off only by the exclusive rule. */
  lemma ExecuteBlendEnabled(ctx: Context, b: BlendState, rule: BlendSwitching)
    requires b.blendEnable
    ensures Execute(ctx, BlendCalls(b, rule))
            == ctx.(blendEnabled := true,
                    blendOps := (b.colorBlendOp, b.alphaBlendOp),
                    blendFactors := (b.colorSrcBlendFactor, b.colorDstBlendFactor, b.alphaSrcBlendFactor, b.alphaDstBlendFactor),
                    colorLogicOpEnabled := ctx.colorLogicOpEnabled && rule == AsWritten)
  {
    var head := [Enable(BlendCap)] + (if rule == Exclusive then [Disable(ColorLogicOpCap)] else []);
    var setup := [BlendEquationSeparate(b.colorBlendOp, b.alphaBlendOp),
                  BlendFuncSeparate(b.colorSrcBlendFactor, b.colorDstBlendFactor, b.alphaSrcBlendFactor, b.alphaDstBlendFactor)];
    assert BlendCalls(b, rule) == head + setup;
    ExecuteConcatenation(ctx, head, setup);
    ExecuteShort(ctx, head[0], if |head| > 1 then head[1] else head[0], head[0]);
    ExecuteShort(Execute(ctx, head), setup[0], setup[1], setup[0]);
  }

  /** The context after binding a shader, section by section. */
  lemma ExecuteBind(ctx: Context, s: Shader, rule: BlendSwitching)
    requires s.states.Some?
    ensures var st := s.states.value;
            var c := Execute(ctx, Bind(s, rule).value);
            c == Execute(Execute(ctx.(program := s.programID),
                                 RasterizerCalls(st.rasterizer) + DepthStencilCalls(st.depthStencil)),
                         BlendCalls(st.blend, rule))
  {
    var st := s.states.value;
    var r := RasterizerCalls(st.rasterizer);
    var d := DepthStencilCalls(st.depthStencil);
    var b := BlendCalls(st.blend, rule);
    assert Bind(s, rule).value == [UseProgram(s.programID)] + (r + d) + b;
    ExecuteConcatenation(ctx, [UseProgram(s.programID)] + (r + d), b);
    ExecuteConcatenation(ctx, [UseProgram(s.programID)], r + d);
  }

  lemma {:induction false} BindEffect(ctx: Context, s: Shader, rule: BlendSwitching)
    requires s.states.Some?
    ensures var st := s.states.value;
            var e := EffectOf(Execute(ctx, Bind(s, rule).value));
            var intended := IntendedEffect(s.programID, st);
            && e.(output := Replace) == intended.(output := Replace)
            && (st.blend.blendEnable && ctx.colorLogicOpEnabled && rule == AsWritten ==> e.output == Logic(ctx.logicOp))
            && (!(st.blend.blendEnable && ctx.colorLogicOpEnabled && rule == AsWritten) ==> e.output == intended.output)
  {
    var st := s.states.value;
    var c0 := ctx.(program := s.programID);
    ExecuteBind(ctx, s, rule);
    ExecuteConcatenation(c0, RasterizerCalls(st.rasterizer), DepthStencilCalls(st.depthStencil));
    ExecuteRasterizerCalls(c0, st.rasterizer);
    var c1 := Execute(c0, RasterizerCalls(st.rasterizer));
    ExecuteDepthStencilCalls(c1, st.depthStencil);
    var c2 := Execute(c1, DepthStencilCalls(st.depthStencil));
    ExecuteBlendCalls(c2, st.blend, rule);
  }

  /** With exclusive switching, what a draw does after `Bind` depends on the bound shader
      alone, whatever earlier binds left in the context. */
  lemma ExclusiveBindTakesEffect(ctx: Context, s: Shader)
    requires s.states.Some?
    ensures EffectOf(Execute(ctx, Bind(s, Exclusive).value)) == IntendedEffect(s.programID, s.states.value)
  {
    BindEffect(ctx, s, Exclusive);
  }

  /** As written, `Bind` takes effect exactly when it does not bind a blending shader over a
      context whose colour logic op an earlier shader left enabled. */
  lemma AsWrittenBindTakesEffect(ctx: Context, s: Shader)
    requires s.states.Some?
    ensures (EffectOf(Execute(ctx, Bind(s, AsWritten).value)) == IntendedEffect(s.programID, s.states.value))
        <==> !(s.states.value.blend.blendEnable && ctx.colorLogicOpEnabled)
  {
    BindEffect(ctx, s, AsWritten);
  }

  /** A shader description using a logic op and one using blending. */
  const LogicOpBlend := BlendStateDesc(LogicOpMode, One, Zero, Add, One, Zero, Add, Xor)
  const AlphaBlend := BlendStateDesc(BlendOpMode, SrcAlpha, OneMinusSrcAlpha, Add, One, Zero, Add, Noop)

  /** Binding a logic-op shader and then a blending shader, as written, leaves the logic op in
      force: the second draw XORs instead of blending. */
  lemma AsWrittenLogicOpLeaksIntoBlending(ctx: Context, vertex: string, fragment: string, p1: nat, p2: nat)
    ensures var first := FromDesc(ShaderDesc("LogicOp", DefaultRasterizerState, DefaultDepthStencilState, LogicOpBlend, vertex, fragment), p1);
            var second := FromDesc(ShaderDesc("Blend", DefaultRasterizerState, DefaultDepthStencilState, AlphaBlend, vertex, fragment), p2);
            var after := Execute(Execute(ctx, Bind(first, AsWritten).value), Bind(second, AsWritten).value);
            && EffectOf(after).output == Logic(LogicOpToGL(Xor))
            && EffectOf(after) != IntendedEffect(p2, second.states.value)
  {
    var first := FromDesc(ShaderDesc("LogicOp", DefaultRasterizerState, DefaultDepthStencilState, LogicOpBlend, vertex, fragment), p1);
    var second := FromDesc(ShaderDesc("Blend", DefaultRasterizerState, DefaultDepthStencilState, AlphaBlend, vertex, fragment), p2);
    var mid := Execute(ctx, Bind(first, AsWritten).value);
    BindEffect(ctx, first, AsWritten);
    ExecuteBind(ctx, first, AsWritten);
    assert mid.colorLogicOpEnabled by {
      var st := first.states.value;
      var c0 := ctx.(program := p1);
      var c1 := Execute(c0, RasterizerCalls(st.rasterizer) + DepthStencilCalls(st.depthStencil));
      ExecuteBlendCalls(c1, st.blend, AsWritten);
    }
    BindEffect(mid, second, AsWritten);
  }
}

=== FILE: input.dfy ===
/** Input actions and the statically allocated action tables the keyboard and the mouse keep:
    one `InputAction` per key or button, overwritten by the window's callbacks. */
module Input {
  import opened Wrappers
  import opened Faults

  /** `InputAction`, an enumeration over `i8`; any `i8` value can be stored in it. */
  type InputAction = a: int | -128 <= a < 128

  const Release: InputAction := 0
  const Press: InputAction := 1
  const Repeat: InputAction := 2

  /** The actions the window library reports. */
  predicate IsWindowAction(a: int) {
    a == Release || a == Press || a == Repeat
  }

  /** A static table is zero-initialised, and zero is `Release`. */
  function InitialTable(size: nat): (t: seq<InputAction>)
    ensures |t| == size
    ensures forall i :: 0 <= i < size ==> t[i] == Release
  {
    seq(size, _ => Release)
  }

  /** `IsKeyPressed`/`IsButtonPressed`: any action other than `Release` counts, so a repeat is
      a press. */
  predicate Pressed(t: seq<InputAction>, i: int)
    requires 0 <= i < |t|
  {
    t[i] != Release
  }

  /** `IsKeyReleased`/`IsButtonReleased`. */
  predicate Released(t: seq<InputAction>, i: int)
    requires 0 <= i < |t|
  {
    t[i] == Release
  }

  /** Exactly one of pressed and released holds for every entry. */
  lemma PressedIffNotReleased(t: seq<InputAction>, i: int)
    requires 0 <= i < |t|
    ensures Pressed(t, i) <==> !Released(t, i)
  {
  }

  /** `static_cast<InputAction>(action)`: converting an `int` to the enumeration's underlying
      `i8` keeps the value modulo 2^8, in [-128, 128). */
  function ToI8(action: int): (r: InputAction)
    ensures (r - action) % 256 == 0
    ensures -128 <= action < 128 ==> r == action
  {
    (action + 128) % 256 - 128
  }

  /** The callbacks' store `table[index] = static_cast<InputAction>(action)`. An index outside
      the table writes outside the static array, which is undefined behaviour; any action is
      stored, wrapped to `i8`. */
  function Store(t: seq<InputAction>, index: int, action: int): (r: Result<seq<InputAction>, Fault>)
    ensures r.Ok? <==> 0 <= index < |t|
    ensures r.Err? ==> r.error == Undefined
    ensures r.Ok? ==> |r.value| == |t| && r.value[index] == ToI8(action)
    ensures r.Ok? ==> forall i :: 0 <= i < |t| && i != index ==> r.value[i] == t[i]
  {
    if 0 <= index < |t| then Ok(t[index := ToI8(action)]) else Err(Undefined)
  }

  /** A press, repeat or release stored for an entry makes it pressed exactly when the action is
      not a release. */
  lemma StoredActionDecidesPressed(t: seq<InputAction>, index: int, action: int)
    requires 0 <= index < |t| && IsWindowAction(action)
    ensures Store(t, index, action).Ok?
    ensures Pressed(Store(t, index, action).value, index) <==> (action == Press || action == Repeat)
  {
  }

  /** One callback invocation. */
  datatype Event = Event(index: int, action: int)

  /** A sequence of callbacks, in order. */
  function StoreAll(t: seq<InputAction>, events: seq<Event>): Result<seq<InputAction>, Fault>
    decreases |events|
  {
    if events == [] then Ok(t)
    else
      var before :- StoreAll(t, events[..|events| - 1]);
      Store(before, events[|events| - 1].index, events[|events| - 1].action)
  }

  /** The action of the last event for an entry, wrapped to `i8`, or `initial` when there is
      none. */
  function LastAction(events: seq<Event>, index: int, initial: InputAction): InputAction
    decreases |events|
  {
    if events == [] then initial
    else if events[|events| - 1].index == index then ToI8(events[|events| - 1].action)
    else LastAction(events[..|events| - 1], index, initial)
  }

  predicate InRange(events: seq<Event>, size: nat) {
    forall e :: 0 <= e < |events| ==> 0 <= events[e].index < size
  }

  /** The callbacks succeed exactly when every event's index is inside the table, and then each
      entry holds the wrapped action of its last event, or its initial action. */
  lemma {:induction false} StoreAllKeepsLastAction(t: seq<InputAction>, events: seq<Event>)
    ensures StoreAll(t, events).Ok? <==> InRange(events, |t|)
    ensures StoreAll(t, events).Ok? ==>
              |StoreAll(t, events).value| == |t|
              && forall i :: 0 <= i < |t| ==> StoreAll(t, events).value[i] == LastAction(events, i, t[i])
    decreases |events|
  {
    if events != [] {
      var prefix := events[..|events| - 1];
      StoreAllKeepsLastAction(t, prefix);
      assert InRange(events, |t|) <==> InRange(prefix, |t|) && 0 <= events[|events| - 1].index < |t| by {
        assert forall e :: 0 <= e < |prefix| ==> prefix[e] == events[e];
      }
    }
  }
}

=== FILE: keyboard.dfy ===
/** The keyboard's key table: one `InputAction` per key code, written by the window's key
    callback and read by the key queries. */
module Keyboard {
  import opened Wrappers
  import opened Faults
  import opened Input

  /** The size of the static key table. */
  const KeyCount: nat := 349

  /** The key code the window library reports for a key it has no code for. */
  const UnknownKey: int := -1

  /** Every `KeyboardKey` constant is a key code below the table size. */
  predicate IsKeyboardKey(key: int) {
    0 <= key < KeyCount
  }

  /** The table before any callback: every key released. */
  function Initial(): (keys: seq<InputAction>)
    ensures |keys| == KeyCount
    ensures forall key :: 0 <= key < KeyCount ==> IsKeyReleased(keys, key)
  {
    InitialTable(KeyCount)
  }

  function GetKey(keys: seq<InputAction>, key: int): InputAction
    requires |keys| == KeyCount && IsKeyboardKey(key)
  {
    keys[key]
  }

  predicate IsKeyPressed(keys: seq<InputAction>, key: int)
    requires |keys| == KeyCount && IsKeyboardKey(key)
  {
    Pressed(keys, key)
  }

  predicate IsKeyReleased(keys: seq<InputAction>, key: int)
    requires |keys| == KeyCount && IsKeyboardKey(key)
  {
    Released(keys, key)
  }

  /** The key callback as written: the action, wrapped to `i8`, is stored at the key code
      unchecked. The scan code and the modifiers are ignored. */
  function KeyCallback(keys: seq<InputAction>, key: int, scancode: int, action: int, mods: int)
    : (r: Result<seq<InputAction>, Fault>)
    requires |keys| == KeyCount
    ensures r.Ok? <==> IsKeyboardKey(key)
    ensures r.Ok? ==> |r.value| == KeyCount && GetKey(r.value, key) == ToI8(action)
    ensures r.Ok? ==> forall other :: IsKeyboardKey(other) && other != key ==> GetKey(r.value, other) == GetKey(keys, other)
  {
    Store(keys, key, action)
  }

  /** After a key event the key is pressed exactly when the action was a press or a repeat,
      and released exactly when it was a release. */
  lemma KeyEventDecidesState(keys: seq<InputAction>, key: int, scancode: int, action: int, mods: int)
    requires |keys| == KeyCount && IsKeyboardKey(key) && IsWindowAction(action)
    ensures KeyCallback(keys, key, scancode, action, mods).Ok?
    ensures var after := KeyCallback(keys, key, scancode, action, mods).value;
            (IsKeyPressed(after, key) <==> action == Press || action == Repeat)
            && (IsKeyReleased(after, key) <==> action == Release)
            && (IsKeyPressed(after, key) <==> !IsKeyReleased(after, key))
  {
    StoredActionDecidesPressed(keys, key, action);
    PressedIffNotReleased(KeyCallback(keys, key, scancode, action, mods).value, key);
  }

  /** As written, an unknown key writes in front of the table. */
  lemma UnknownKeyWritesOutsideTable()
    ensures KeyCallback(Initial(), UnknownKey, 0, Press, 0) == Err(Undefined)
  {
  }

  /** The key callback with the key code checked: codes outside the table are ignored. */
  function KeyCallbackChecked(keys: seq<InputAction>, key: int, scancode: int, action: int, mods: int)
    : (r: Result<seq<InputAction>, Fault>)
    requires |keys| == KeyCount
    ensures IsKeyboardKey(key) ==> r == KeyCallback(keys, key, scancode, action, mods)
    ensures !IsKeyboardKey(key) ==> r == Ok(keys)
  {
    if IsKeyboardKey(key) then KeyCallback(keys, key, scancode, action, mods) else Ok(keys)
  }

  /** With the check, every event the window library can report is handled, and each key holds
      the action of its last event, or `Release` if it never had one. */
  lemma {:induction false} CheckedCallbacksKeepLastAction(events: seq<Event>)
    requires forall e :: 0 <= e < |events| ==> IsWindowAction(events[e].action)
    ensures CheckedCallbacks(Initial(), events).Ok?
    ensures forall key :: IsKeyboardKey(key) ==>
              GetKey(CheckedCallbacks(Initial(), events).value, key) == LastAction(events, key, Release)
    decreases |events|
  {
    if events != [] {
      var prefix := events[..|events| - 1];
      assert forall e :: 0 <= e < |prefix| ==> prefix[e] == events[e];
      CheckedCallbacksKeepLastAction(prefix);
    }
  }

  /** Key events delivered in order through the checked callback. */
  function CheckedCallbacks(keys: seq<InputAction>, events: seq<Event>): (r: Result<seq<InputAction>, Fault>)
    requires |keys| == KeyCount
    ensures r.Ok? ==> |r.value| == KeyCount
    decreases |events|
  {
    if events == [] then Ok(keys)
    else
      var before :- CheckedCallbacks(keys, events[..|events| - 1]);
      var last := events[|events| - 1];
      KeyCallbackChecked(before, last.index, 0, last.action, 0)
  }
}

=== FILE: lexer.dfy ===
/** The shader-description lexer (Lexer.cpp).
    The engine scans a `std::string` with an iterator; reading the position one past the last
    character yields the string's terminating '\0' (`At`), and any read beyond that is undefined
    behaviour, reported as `ReadPastEnd`. Lines start at 1 and so does the first column; after an
    end-of-line character the column is reset to 0 (the engine stores -1 in an unsigned counter and
    increments it). */
module Lexer {
  import opened Wrappers
  import opened Tokens
  import opened ShaderParserUtils
  import EnumUtils

  //- Character classes

  predicate IsEndOfLine(c: char) {
    c == '\n' || c == '\r'
  }

  predicate IsWhitespace(c: char) {
    c == ' ' || c == '\t' || c == '\U{000B}' || c == '\U{000C}' || IsEndOfLine(c)
  }

  predicate IsAlpha(c: char) {
    ('a' <= c <= 'z') || ('A' <= c <= 'Z')
  }

  predicate IsWordChar(c: char) {
    IsAlpha(c) || IsDigit(c) || c == '_'
  }

  predicate IsZero(c: char) {
    c == '0'
  }

  predicate IsNotEndOfLine(c: char) {
    !IsEndOfLine(c)
  }

  /** The character at `i`, where the position just past the end holds the terminator. */
  function At(text: string, i: nat): char
    requires i <= |text|
  {
    if i == |text| then '\0' else text[i]
  }

  /** `/` followed by `/` or `*` opens a comment. */
  predicate CommentStartsAt(text: string, i: nat)
    requires i < |text|
  {
    text[i] == '/' && (At(text, i + 1) == '/' || At(text, i + 1) == '*')
  }

  /** `*` followed by `/` closes a block comment. */
  predicate ClosesCommentAt(text: string, i: nat) {
    i + 1 < |text| && text[i] == '*' && text[i + 1] == '/'
  }

  //- Positions

  /** Where the scanner stands: the index of the next character and its line and column. */
  datatype Cursor = Cursor(pos: nat, line: nat, column: nat)

  /** Consuming one character: an end-of-line character starts a new line at column 0. */
  function Step(c: Cursor, ch: char): (r: Cursor)
    ensures r.pos == c.pos + 1
    ensures IsEndOfLine(ch) ==> r.line == c.line + 1 && r.column == 0
    ensures !IsEndOfLine(ch) ==> r.line == c.line && r.column == c.column + 1
  {
    if IsEndOfLine(ch) then Cursor(c.pos + 1, c.line + 1, 0) else Cursor(c.pos + 1, c.line, c.column + 1)
  }

  /** Moving along the current line to `pos`. */
  function Along(c: Cursor, pos: nat): (r: Cursor)
    requires c.pos <= pos
    ensures r.pos == pos && r.line == c.line && r.column - c.column == pos - c.pos
  {
    Cursor(pos, c.line, c.column + (pos - c.pos))
  }

  //- Runs of characters

  /** The end of the longest run of characters satisfying `inRun` that starts at `p`. The
      terminator never belongs to a run, which is how every scanning loop of the lexer stops. */
  function RunEnd(text: string, p: nat, inRun: char -> bool): (q: nat)
    requires p <= |text|
    ensures p <= q <= |text|
    ensures forall i {:trigger inRun(text[i])} :: p <= i < q ==> inRun(text[i])
    ensures q < |text| ==> !inRun(text[q])
    decreases |text| - p
  {
    if p == |text| || !inRun(text[p]) then p else RunEnd(text, p + 1, inRun)
  }

  /** Every character of a run satisfies the predicate that delimits it. */
  lemma RunEndInRun(text: string, p: nat, inRun: char -> bool)
    requires p <= |text|
    ensures forall i :: p <= i < RunEnd(text, p, inRun) ==> inRun(text[i])
  {
  }

  /** The number of end-of-line characters, each one counted as a line of its own. */
  function EndOfLineCount(s: string): nat
  {
    if |s| == 0 then 0 else EndOfLineCount(s[..|s| - 1]) + (if IsEndOfLine(s[|s| - 1]) then 1 else 0)
  }

  /** A line break at `i`: an end-of-line character, except the `\n` of a `\r\n` pair. */
  predicate BreakAt(s: string, i: nat)
    requires i < |s|
  {
    IsEndOfLine(s[i]) && !(s[i] == '\n' && i > 0 && s[i - 1] == '\r')
  }

  /** The number of line breaks in `s`, with `\r\n` counted once. */
  function LineBreaks(s: string): nat
  {
    if |s| == 0 then 0 else LineBreaks(s[..|s| - 1]) + (if BreakAt(s, |s| - 1) then 1 else 0)
  }

  //- Whitespace and comments

  /** A block comment whose body starts at `c`: Ok with the position after the closing `*` `/`
      when there is one, ReadPastEnd when the text ends first. Every end-of-line character of the
      body starts a new line. */
  function BlockCommentEnd(text: string, c: Cursor): (r: Result<Cursor, Failure>)
    requires c.pos <= |text|
    ensures r.Ok? ==> c.pos + 2 <= r.value.pos <= |text| && ClosesCommentAt(text, r.value.pos - 2)
    ensures r.Ok? ==> forall i :: c.pos <= i < r.value.pos - 2 ==> !ClosesCommentAt(text, i)
    ensures r.Ok? ==> r.value.line == c.line + EndOfLineCount(text[c.pos..r.value.pos - 2])
    ensures r.Err? <==> forall i :: c.pos <= i < |text| ==> !ClosesCommentAt(text, i)
    ensures r.Err? ==> r.error == ReadPastEnd(|text| + 1)
    decreases |text| - c.pos
  {
    if c.pos < |text| && text[c.pos] == '*' && At(text, c.pos + 1) == '/' then
      assert text[c.pos..c.pos] == [];
      assert ClosesCommentAt(text, c.pos);
      Ok(Along(c, c.pos + 2))
    else if c.pos == |text| then
      Err(ReadPastEnd(|text| + 1))
    else
      var r := BlockCommentEnd(text, Step(c, text[c.pos]));
      if r.Ok? then
        var body := text[c.pos..r.value.pos - 2];
        assert body[1..] == text[c.pos + 1..r.value.pos - 2];
        EndOfLineCountCons(body);
        r
      else
        r
  }

  /** Counting end-of-line characters from the front agrees with counting them from the back. */
  lemma {:induction false} EndOfLineCountCons(s: string)
    requires |s| > 0
    ensures EndOfLineCount(s) == (if IsEndOfLine(s[0]) then 1 else 0) + EndOfLineCount(s[1..])
    decreases |s|
  {
    if |s| > 1 {
      EndOfLineCountCons(s[..|s| - 1]);
      assert s[..|s| - 1][1..] == s[1..][..|s[1..]| - 1];
    } else {
      assert s[..|s| - 1] == [] && s[1..] == [];
    }
  }

  /** How a whitespace character followed by an end-of-line character is consumed. */
  datatype LineEndRule =
    /** Lexer.cpp:184-190: any end-of-line character after a whitespace character is swallowed
        without starting a new line. */
    | AsWritten
    /** Only the `\n` of a `\r\n` pair is swallowed, as the comment there says is meant. */
    | CrLfAsOne

  /** One whitespace character, and the end-of-line character the rule swallows after it. */
  function WhitespaceStep(text: string, c: Cursor, rule: LineEndRule): (r: Cursor)
    requires c.pos < |text| && IsWhitespace(text[c.pos])
    ensures c.pos < r.pos <= |text|
    ensures r == Step(c, text[c.pos]) || (r.pos == c.pos + 2 && r.line == Step(c, text[c.pos]).line && r.column == 0)
    ensures rule == CrLfAsOne ==>
              (r.pos == c.pos + 2 <==> text[c.pos] == '\r' && c.pos + 1 < |text| && text[c.pos + 1] == '\n')
    ensures rule == AsWritten ==>
              (r.pos == c.pos + 2 <==> c.pos + 1 < |text| && IsEndOfLine(text[c.pos + 1]))
  {
    var first := Step(c, text[c.pos]);
    var swallow := match rule
      case AsWritten => IsEndOfLine(At(text, first.pos))
      case CrLfAsOne => text[c.pos] == '\r' && At(text, first.pos) == '\n';
    if swallow then Cursor(first.pos + 1, first.line, 0) else first
  }

  /** `SkipWhitespace`: whitespace, `//` comments up to the end of the line and block comments,
      until the next significant character or the end of the text. */
  function SkipWhitespaceUsing(text: string, c: Cursor, rule: LineEndRule): (r: Result<Cursor, Failure>)
    requires c.pos <= |text|
    ensures r.Ok? ==> c.pos <= r.value.pos <= |text| && c.line <= r.value.line
    ensures r.Ok? && r.value.pos < |text| ==>
              !IsWhitespace(text[r.value.pos]) && !CommentStartsAt(text, r.value.pos)
    ensures r.Err? ==> r.error.ReadPastEnd?
    decreases |text| - c.pos
  {
    if c.pos == |text| then
      Ok(c)
    else if IsWhitespace(text[c.pos]) then
      SkipWhitespaceUsing(text, WhitespaceStep(text, c, rule), rule)
    else if text[c.pos] == '/' && At(text, c.pos + 1) == '/' then
      var q := RunEnd(text, c.pos + 2, IsNotEndOfLine);
      SkipWhitespaceUsing(text, Along(c, q), rule)
    else if text[c.pos] == '/' && At(text, c.pos + 1) == '*' then
      var body :- BlockCommentEnd(text, Along(c, c.pos + 2));
      SkipWhitespaceUsing(text, body, rule)
    else
      Ok(c)
  }

  /** The whitespace skipping `NextToken` performs: the end-of-line rule as written. */
  function SkipWhitespace(text: string, c: Cursor): Result<Cursor, Failure>
    requires c.pos <= |text|
  {
    SkipWhitespaceUsing(text, c, AsWritten)
  }

  /** As written, a space before a newline hides the newline: after " \n" the lexer is still on
      line 1 although the text has a line break, and after "\n\n" it is on line 2, not 3. */
  lemma SkipWhitespaceAsWrittenLosesLines()
    ensures SkipWhitespaceUsing(" \n", Cursor(0, 1, 1), AsWritten) == Ok(Cursor(2, 1, 0))
    ensures LineBreaks(" \n") == 1
    ensures SkipWhitespaceUsing("\n\n", Cursor(0, 1, 1), AsWritten) == Ok(Cursor(2, 2, 0))
    ensures LineBreaks("\n\n") == 2
  {
    assert " \n"[..1] == " ";
    assert "\n\n"[..1] == "\n";
    assert WhitespaceStep(" \n", Cursor(0, 1, 1), AsWritten) == Cursor(2, 1, 0);
    assert WhitespaceStep("\n\n", Cursor(0, 1, 1), AsWritten) == Cursor(2, 2, 0);
  }

  /** The lexer itself reports the keyword after " \n" on line 1, at column 0. */
  lemma TokenAfterSpaceNewlineStaysOnFirstLine()
    ensures Scan(" \nShader", Cursor(0, 1, 1)).Ok?
    ensures Scan(" \nShader", Cursor(0, 1, 1)).value.0 == Token(2, 8, 1, 0, Shader)
  {
    var text := " \nShader";
    SpaceNewlineSkipped();
    assert RunEnd(text, 3, IsWordChar) == 8;
    assert text[2..8] == "Shader";
  }

  lemma SpaceNewlineSkipped()
    ensures SkipWhitespace(" \nShader", Cursor(0, 1, 1)) == Ok(Cursor(2, 1, 0))
  {
    assert WhitespaceStep(" \nShader", Cursor(0, 1, 1), AsWritten) == Cursor(2, 1, 0);
  }

  /** With the corrected rule, skipping comment-free whitespace advances the line number by exactly
      the number of line breaks skipped, `\r\n` counting once. */
  lemma SkipWhitespaceCountsLineBreaks(text: string, c: Cursor)
    requires c.pos <= |text|
    requires forall i :: c.pos <= i < |text| ==> text[i] != '/'
    ensures SkipWhitespaceUsing(text, c, CrLfAsOne).Ok?
    ensures SkipWhitespaceUsing(text, c, CrLfAsOne).value.line
            == c.line + LineBreaks(text[c.pos..SkipWhitespaceUsing(text, c, CrLfAsOne).value.pos])
  {
    assert text[c.pos..c.pos] == [];
    SkipCountsFrom(text, c.pos, c.line, c);
  }

  /** Whether the last character of a slice is a line break only depends on the text there. */
  lemma BreakAtSlice(text: string, p0: nat, j: nat)
    requires p0 <= j < |text|
    ensures BreakAt(text[p0..j + 1], j - p0)
            <==> IsEndOfLine(text[j]) && !(text[j] == '\n' && j > p0 && text[j - 1] == '\r')
  {
    var s := text[p0..j + 1];
    assert s[j - p0] == text[j];
    if j > p0 {
      assert s[j - p0 - 1] == text[j - 1];
    }
  }

  /** Counting one more character of a slice. */
  lemma LineBreaksExtend(text: string, p0: nat, j: nat)
    requires p0 <= j < |text|
    ensures LineBreaks(text[p0..j + 1]) == LineBreaks(text[p0..j])
              + (if IsEndOfLine(text[j]) && !(text[j] == '\n' && j > p0 && text[j - 1] == '\r') then 1 else 0)
  {
    var s := text[p0..j + 1];
    assert s[..|s| - 1] == text[p0..j];
    BreakAtSlice(text, p0, j);
  }

  lemma {:induction false} SkipCountsFrom(text: string, p0: nat, line0: nat, c: Cursor)
    requires p0 <= c.pos <= |text|
    requires forall i :: p0 <= i < |text| ==> text[i] != '/'
    requires c.line == line0 + LineBreaks(text[p0..c.pos])
    requires c.pos == p0 || c.pos == |text| || !(text[c.pos - 1] == '\r' && text[c.pos] == '\n')
    ensures SkipWhitespaceUsing(text, c, CrLfAsOne).Ok?
    ensures SkipWhitespaceUsing(text, c, CrLfAsOne).value.line
            == line0 + LineBreaks(text[p0..SkipWhitespaceUsing(text, c, CrLfAsOne).value.pos])
    decreases |text| - c.pos
  {
    if c.pos < |text| && IsWhitespace(text[c.pos]) {
      var n := WhitespaceStep(text, c, CrLfAsOne);
      LineBreaksExtend(text, p0, c.pos);
      if n.pos == c.pos + 2 {
        LineBreaksExtend(text, p0, c.pos + 1);
      }
      assert n.line == line0 + LineBreaks(text[p0..n.pos]);
      SkipCountsFrom(text, p0, line0, n);
    }
  }

  //- Keywords

  /** The statement and shader-stage keywords of `StringToTokenType`'s table. */
  const StatementKeywords: map<string, TokenType> := map[
    "Shader" := Shader, "State" := State, "Blend" := Blend, "Cull" := Cull,
    "DepthTest" := DepthTest, "DepthCompareFunction" := DepthCompareFunction,
    "Vertex" := Vertex, "Fragment" := Fragment
  ]

  /** The eleven blend factor names the table classifies as `Value_BlendMode`. */
  const BlendModeWords: set<string> := {
    "Zero", "One", "DstColor", "SrcColor", "OneMinusDstColor", "SrcAlpha", "OneMinusSrcColor",
    "DstAlpha", "OneMinusDstAlpha", "ScrAlphaSaturate", "OneMinusSrcAlpha"
  }

  /** The cull mode names the table classifies as `Value_CullMode`; `Off` is `Value_Off`. */
  const CullModeWords: set<string> := {"Front", "Back"}

  /** The eight compare function names the table classifies as `Value_DepthCompareFunction`. */
  const CompareFunctionWords: set<string> := {
    "Never", "Less", "Equal", "LessEqual", "Greater", "NotEqual", "GreaterEqual", "Always"
  }

  /** Every word of the table. */
  const Keywords: set<string> :=
    StatementKeywords.Keys + {"On", "Off"} + BlendModeWords + CullModeWords + CompareFunctionWords

  /** `StringToTokenType`: the kind the table gives the word, `Identifier` for every other word.
      The table's groups are disjoint, so looking them up one after the other is the single
      table lookup of the engine. */
  function StringToTokenType(word: string): TokenType
  {
    if word in StatementKeywords then StatementKeywords[word]
    else if word == "On" then ValueOn
    else if word == "Off" then ValueOff
    else if word in BlendModeWords then ValueBlendMode
    else if word in CullModeWords then ValueCullMode
    else if word in CompareFunctionWords then ValueDepthCompareFunction
    else Identifier
  }

  /** A word is an identifier exactly when it is not in the table. */
  lemma IdentifierIffNotKeyword(word: string)
    ensures StringToTokenType(word) == Identifier <==> word !in Keywords
  {
  }

  /** A statement or stage keyword is spelled exactly like the name of its kind. */
  lemma StatementKeywordsAreSpelledLikeTheirKinds(word: string)
    ensures word in StatementKeywords <==>
              StringToTokenType(word) in {Shader, State, Blend, Cull, DepthTest, DepthCompareFunction, Vertex, Fragment}
    ensures word in StatementKeywords ==> EnumUtils.TokenSpelling(StringToTokenType(word)) == word
  {
  }

  /** A value keyword is a name the matching `FromString` accepts, so the parser's conversions of
      value tokens never miss; `Off` is the only cull mode name that is not `Value_CullMode`. */
  lemma ValueKeywordsAreEnumNames(word: string)
    ensures StringToTokenType(word) == ValueBlendMode ==> EnumUtils.BlendFactorFromString(word).Some?
    ensures StringToTokenType(word) == ValueDepthCompareFunction <==> EnumUtils.CompareFunctionFromString(word).Some?
    ensures StringToTokenType(word) == ValueCullMode <==> word in EnumUtils.CullModeNames && word != "Off"
    ensures StringToTokenType(word) == ValueOff <==> word == "Off"
    ensures StringToTokenType(word) == ValueOn <==> word == "On"
  {
    ValueKindsFollowGroups(word);
    if word in BlendModeWords {
      BlendModeWordsAreFactorNames(word);
    }
    CompareFunctionWordsAreNames(word);
    assert word in EnumUtils.CullModeNames <==> word == "Off" || word in CullModeWords;
  }

  /** Each value kind is handed out for exactly the words of its group of the table. */
  lemma ValueKindsFollowGroups(word: string)
    ensures StringToTokenType(word) == ValueBlendMode <==> word in BlendModeWords
    ensures StringToTokenType(word) == ValueDepthCompareFunction <==> word in CompareFunctionWords
    ensures StringToTokenType(word) == ValueCullMode <==> word in CullModeWords
    ensures StringToTokenType(word) == ValueOff <==> word == "Off"
    ensures StringToTokenType(word) == ValueOn <==> word == "On"
  {
    assert word in StatementKeywords ==>
             StatementKeywords[word] in {Shader, State, Blend, Cull, DepthTest, DepthCompareFunction, Vertex, Fragment};
  }

  lemma BlendModeWordsAreFactorNames(word: string)
    requires word in BlendModeWords
    ensures word in EnumUtils.BlendFactorNames
  {
  }

  lemma CompareFunctionWordsAreNames(word: string)
    ensures word in CompareFunctionWords <==> word in EnumUtils.CompareFunctionNames
  {
  }

  /** No word is classified as punctuation, a number, a string, end of file or undefined. */
  lemma WordsAreNeverPunctuation(word: string)
    ensures StringToTokenType(word) !in {ValueNumber, ValueString, OpenBrace, CloseBrace, Comma, EndOfFile, Undefined}
  {
  }

  /** The kinds `StringToTokenType` hands out: identifiers and every keyword kind. */
  predicate IsWordKind(k: TokenType) {
    k !in {ValueNumber, ValueString, OpenBrace, CloseBrace, Comma, EndOfFile, Undefined}
  }

  /** A word-kind token is what the table makes of its text, and a punctuation token is its one
      character. */
  predicate KindMatchesText(text: string, t: Token)
    requires t.Within(text)
  {
    && (IsWordKind(t.kind) ==> StringToTokenType(t.Text(text)) == t.kind)
    && (IsPunctuation(t.kind) ==>
          t.end == t.start + 1 && text[t.start] == PunctuationChar(t.kind))
  }

  //- Tokens

  /** `Atom`: the single character at the cursor. */
  function ScanAtom(text: string, c: Cursor, kind: TokenType): (r: (Token, Cursor))
    requires c.pos < |text|
    ensures r.0.Within(text) && r.0.Text(text) == [text[c.pos]] && r.0.kind == kind
    ensures r.0.line == c.line && r.0.column == c.column
    ensures r.1 == Along(c, c.pos + 1)
  {
    (Token(c.pos, c.pos + 1, c.line, c.column, kind), Along(c, c.pos + 1))
  }

  /** `Identifier`: the longest run of letters, digits and `_` starting with the letter at the
      cursor, classified by `StringToTokenType`. */
  function ScanIdentifier(text: string, c: Cursor): (r: (Token, Cursor))
    requires c.pos < |text| && IsAlpha(text[c.pos])
    ensures r.0.start == c.pos && r.0.start < r.0.end <= |text| && r.1 == Along(c, r.0.end)
    ensures forall i :: r.0.start <= i < r.0.end ==> IsWordChar(text[i])
    ensures r.0.end < |text| ==> !IsWordChar(text[r.0.end])
    ensures r.0.kind == StringToTokenType(text[r.0.start..r.0.end])
    ensures r.0.line == c.line && r.0.column == c.column
  {
    var e := RunEnd(text, c.pos + 1, IsWordChar);
    (Token(c.pos, e, c.line, c.column, StringToTokenType(text[c.pos..e])), Along(c, e))
  }

  /** The shape of a number token: an optional leading `-`, then digits with at most one `.`. */
  predicate NumberShaped(s: string) {
    && (forall i :: 0 <= i < |s| ==> IsDigit(s[i]) || s[i] == '.' || (i == 0 && s[i] == '-'))
    && (forall i, j :: 0 <= i < j < |s| && s[i] == '.' ==> s[j] != '.')
  }

  /** Where the integer digits of a number literal starting at `p` begin: after the sign and the
      leading zeros. */
  function IntegerDigitsStart(text: string, p: nat): (q: nat)
    requires p < |text| && (IsDigit(text[p]) || text[p] == '-')
    ensures p <= q <= |text|
  {
    RunEnd(text, if text[p] == '-' then p + 1 else p, IsZero)
  }

  /** The sign, leading zeros and integer digits of a number literal starting at `p`. */
  function IntegerEnd(text: string, p: nat): (q: nat)
    requires p < |text| && (IsDigit(text[p]) || text[p] == '-')
    ensures p < q <= |text| && IntegerDigitsStart(text, p) <= q
    ensures forall i :: p <= i < q ==> IsDigit(text[i]) || (i == p && text[i] == '-')
    ensures q < |text| ==> !IsDigit(text[q])
  {
    var afterZeros := IntegerDigitsStart(text, p);
    RunEndInRun(text, if text[p] == '-' then p + 1 else p, IsZero);
    if IsDigit(At(text, afterZeros)) then
      RunEndInRun(text, afterZeros + 1, IsDigit);
      RunEnd(text, afterZeros + 1, IsDigit)
    else afterZeros
  }

  /** The digits the loop of step 3 accumulates into `decimalPart`. */
  function IntegerDigits(text: string, p: nat): (d: string)
    requires p < |text| && (IsDigit(text[p]) || text[p] == '-')
    ensures AllDigits(d)
  {
    var q := IntegerEnd(text, p);
    assert forall i :: IntegerDigitsStart(text, p) <= i < q ==> IsDigit(text[i]);
    text[IntegerDigitsStart(text, p)..q]
  }

  /** The end of the fraction digits after the `.` at `dot`. */
  function FractionEnd(text: string, dot: nat): (q: nat)
    requires dot < |text|
    ensures dot < q <= |text|
  {
    RunEnd(text, dot + 1, IsDigit)
  }

  /** The digits the loop of step 4 accumulates into `fractionalPart`: those after the `.`, none
      without one. */
  function FractionDigits(text: string, p: nat): (d: string)
    requires p < |text| && (IsDigit(text[p]) || text[p] == '-')
    ensures AllDigits(d)
  {
    var dot := IntegerEnd(text, p);
    if At(text, dot) == '.' then text[dot + 1..FractionEnd(text, dot)] else []
  }

  /** The end of a number literal starting at `p`: its integer part and a fraction after a `.`. */
  function NumberEnd(text: string, p: nat): (q: nat)
    requires p < |text| && (IsDigit(text[p]) || text[p] == '-')
    ensures p < q <= |text|
    ensures NumberShaped(text[p..q])
    ensures q < |text| ==> !IsDigit(text[q]) && (text[q] == '.' ==> '.' in text[p..q])
  {
    var afterInteger := IntegerEnd(text, p);
    var q := if At(text, afterInteger) == '.' then FractionEnd(text, afterInteger) else afterInteger;
    FractionShaped(text, p, afterInteger, q);
    q
  }

  lemma FractionShaped(text: string, p: nat, dot: nat, q: nat)
    requires p < dot <= q <= |text|
    requires forall i :: p <= i < dot ==> IsDigit(text[i]) || (i == p && text[i] == '-')
    requires q > dot ==> text[dot] == '.'
    requires forall i :: dot < i < q ==> IsDigit(text[i])
    requires q < |text| && text[q] == '.' ==> q > dot
    ensures NumberShaped(text[p..q])
    ensures q < |text| && text[q] == '.' ==> '.' in text[p..q]
  {
    var s := text[p..q];
    assert forall i :: 0 <= i < |s| ==> s[i] == text[p + i];
    if q > dot {
      assert s[dot - p] == '.';
    }
  }

  //- The `i32` accumulators of `Number`

  const I32Max: int := 0x7FFF_FFFF

  /** The loop `part = part * 10 + *it - '0'` over `digits`, in an `i32`. The largest value a step
      computes is the intermediate `part * 10 + *it`; above `I32Max` it is a signed overflow,
      undefined behaviour (`None`). The first integer digit is stored as `*it - '0'`, which is the
      same step taken from 0. */
  function AccumulateDigits(digits: string): Option<int>
    requires AllDigits(digits)
    decreases |digits|
  {
    if |digits| == 0 then Some(0)
    else
      var part :- AccumulateDigits(digits[..|digits| - 1]);
      var x := part * 10 + digits[|digits| - 1] as int;
      if x > I32Max then None else Some(x - '0' as int)
  }

  /** The digit loop overflows exactly when the number the digits denote, plus the code of '0',
      exceeds `I32Max`; otherwise it computes that number. */
  lemma {:induction false} AccumulateDigitsValue(digits: string)
    requires AllDigits(digits)
    ensures AccumulateDigits(digits).Some? <==> DecimalValue(digits) + '0' as int <= I32Max
    ensures AccumulateDigits(digits).Some? ==> AccumulateDigits(digits).value == DecimalValue(digits)
    decreases |digits|
  {
    if |digits| > 0 {
      var prefix := digits[..|digits| - 1];
      AccumulateDigitsValue(prefix);
      assert DecimalValue(digits) == DecimalValue(prefix) * 10 + DigitValue(digits[|digits| - 1]);
    }
  }

  function Pow10(n: nat): nat
  {
    if n == 0 then 1 else 10 * Pow10(n - 1)
  }

  /** `fractionalDivisor *= 10`, once per fraction digit, in an `i32`; `None` on overflow. */
  function ScaleDivisor(n: nat): Option<int>
  {
    if n == 0 then Some(1)
    else
      var d :- ScaleDivisor(n - 1);
      if d * 10 > I32Max then None else Some(d * 10)
  }

  /** The divisor is `10^n` and overflows exactly from the tenth fraction digit on. */
  lemma {:induction false} ScaleDivisorValue(n: nat)
    ensures ScaleDivisor(n).Some? <==> n < 10
    ensures ScaleDivisor(n).Some? ==> ScaleDivisor(n).value == Pow10(n)
  {
    if n > 0 {
      ScaleDivisorValue(n - 1);
      if n < 10 {
        Pow10Monotone(n, 9);
      } else if n == 10 {
        assert Pow10(9) == 1000000000;
      }
    }
  }

  lemma Pow10Nine()
    ensures Pow10(9) == 1000000000
  {
  }

  lemma {:induction false} Pow10Monotone(a: nat, b: nat)
    requires a <= b
    ensures Pow10(a) <= Pow10(b)
    decreases b
  {
    if a < b {
      Pow10Monotone(a, b - 1);
    }
  }

  /** A number of `n` digits is below `10^n`. */
  lemma {:induction false} DecimalValueBelowPow10(digits: string)
    requires AllDigits(digits)
    ensures DecimalValue(digits) < Pow10(|digits|)
    decreases |digits|
  {
    if |digits| > 0 {
      DecimalValueBelowPow10(digits[..|digits| - 1]);
    }
  }

  /** The literal at `p` fits the accumulators: its integer digits denote at most `I32Max - '0'`
      and its fraction has at most nine digits (which also keeps `fractionalPart` in range). */
  predicate NumberFits(text: string, p: nat)
    requires p < |text| && (IsDigit(text[p]) || text[p] == '-')
  {
    DecimalValue(IntegerDigits(text, p)) + '0' as int <= I32Max && |FractionDigits(text, p)| < 10
  }

  /** The three accumulators stay in range exactly when the integer digits denote at most
      `I32Max - '0'` and the fraction has at most nine digits. */
  lemma AccumulatorsFit(integerDigits: string, fraction: string)
    requires AllDigits(integerDigits) && AllDigits(fraction)
    ensures (AccumulateDigits(integerDigits).Some? && AccumulateDigits(fraction).Some?
             && ScaleDivisor(|fraction|).Some?)
            <==> DecimalValue(integerDigits) + '0' as int <= I32Max && |fraction| < 10
  {
    AccumulateDigitsValue(integerDigits);
    AccumulateDigitsValue(fraction);
    ScaleDivisorValue(|fraction|);
    if |fraction| < 10 {
      DecimalValueBelowPow10(fraction);
      Pow10Monotone(|fraction|, 9);
      assert Pow10(9) == 1000000000;
    }
  }

  /** `Number`: sign, leading zeros, integer digits, and a fraction after a `.`, accumulated into
      the `i32`s `decimalPart`, `fractionalPart` and `fractionalDivisor`, whose overflow is
      `NumberOverflow`. An `e` or `E` right after the literal is consumed but left out of the token,
      and the exponent digits after it are not read. The engine gives number tokens the kind
      `Value_String`. */
  function ScanNumber(text: string, c: Cursor): (r: Result<(Token, Cursor), Failure>)
    requires c.pos < |text| && (IsDigit(text[c.pos]) || text[c.pos] == '-')
    ensures r.Ok? <==> NumberFits(text, c.pos)
    ensures r.Err? ==> r.error == NumberOverflow(c.pos)
    ensures r.Ok? ==> var (t, n) := r.value;
      && t.start == c.pos && t.start < t.end <= n.pos <= |text| && n == Along(c, n.pos)
      && t.kind == ValueString && t.line == c.line && t.column == c.column
      && NumberShaped(text[t.start..t.end])
      && (t.end < |text| ==> !IsDigit(text[t.end]) && (text[t.end] == '.' ==> '.' in text[t.start..t.end]))
      && (n.pos == t.end + 1 <==> t.end < |text| && (text[t.end] == 'e' || text[t.end] == 'E'))
  {
    var integerDigits := IntegerDigits(text, c.pos);
    var fraction := FractionDigits(text, c.pos);
    AccumulatorsFit(integerDigits, fraction);
    var decimalPart := AccumulateDigits(integerDigits);
    var fractionalPart := AccumulateDigits(fraction);
    var fractionalDivisor := ScaleDivisor(|fraction|);
    if decimalPart.None? || fractionalPart.None? || fractionalDivisor.None? then
      Err(NumberOverflow(c.pos))
    else
      var tokenEnd := NumberEnd(text, c.pos);
      var next := if At(text, tokenEnd) == 'e' || At(text, tokenEnd) == 'E' then tokenEnd + 1 else tokenEnd;
      Ok((Token(c.pos, tokenEnd, c.line, c.column, ValueString), Along(c, next)))
  }

  /** An integer part beyond the `i32` range cannot be scanned. */
  lemma IntegerOverflowExample()
    ensures ScanNumber("12345678901", Cursor(0, 1, 1)) == Err(NumberOverflow(0))
  {
    var t := "12345678901";
    ExampleIntegerDigits();
    assert DecimalValue(t) >= 10 * 1000000000 by {
      DecimalValueAtLeastPow10(t);
      Pow10Nine();
    }
    assert !NumberFits(t, 0);
  }

  lemma ExampleIntegerDigits()
    ensures IntegerDigits("12345678901", 0) == "12345678901"
  {
    var t := "12345678901";
    assert IntegerDigitsStart(t, 0) == 0;
    assert RunEnd(t, 1, IsDigit) == 11;
  }

  /** A number of `n` digits without a leading zero is at least `10^(n-1)`. */
  lemma {:induction false} DecimalValueAtLeastPow10(digits: string)
    requires AllDigits(digits) && |digits| > 0 && digits[0] != '0'
    ensures DecimalValue(digits) >= Pow10(|digits| - 1)
    decreases |digits|
  {
    if |digits| > 1 {
      DecimalValueAtLeastPow10(digits[..|digits| - 1]);
    }
  }

  /** Neither can a fraction of ten digits. */
  lemma FractionOverflowExample()
    ensures ScanNumber("0.0000000001", Cursor(0, 1, 1)) == Err(NumberOverflow(0))
  {
    var t := "0.0000000001";
    assert IntegerDigitsStart(t, 0) == 1;
    assert IntegerEnd(t, 0) == 1;
    assert RunEnd(t, 2, IsDigit) == 12;
    assert FractionDigits(t, 0) == t[2..12];
  }

  /** The body of a string literal from `q`: up to the next `"` or the end of the text. A
      backslash skips the following character only when that character is '\0'; a backslash that
      is the last character of the text makes the scanner step over the terminator. */
  function StringBodyEnd(text: string, q: nat): (r: Result<nat, Failure>)
    requires q <= |text|
    ensures r.Ok? ==> q <= r.value <= |text| && '"' !in text[q..r.value]
    ensures r.Ok? ==> r.value == |text| || text[r.value] == '"'
    ensures r.Err? ==> r.error == ReadPastEnd(|text| + 1) && |text| > 0 && text[|text| - 1] == '\\' && '"' !in text[q..]
    decreases |text| - q
  {
    if q == |text| || text[q] == '"' then
      Ok(q)
    else if text[q] == '\\' && At(text, q + 1) == '\0' then
      if q + 1 == |text| then Err(ReadPastEnd(|text| + 1)) else StringBodyEnd(text, q + 2)
    else
      StringBodyEnd(text, q + 1)
  }

  /** `String`: the token is the text between the opening quote at the cursor and the next quote
      (or the end of the text), its column is that of its first character; the closing quote is
      consumed when present. Line breaks inside the literal do not advance the line count. */
  function ScanString(text: string, c: Cursor): (r: Result<(Token, Cursor), Failure>)
    requires c.pos < |text| && text[c.pos] == '"'
    ensures r.Ok? ==> var (t, n) := r.value;
      && t.start == c.pos + 1 && t.Within(text) && '"' !in t.Text(text)
      && (t.end == |text| || text[t.end] == '"')
      && n == Along(c, if t.end < |text| then t.end + 1 else t.end)
      && t.kind == ValueString && t.line == c.line && t.column == c.column + 1
    ensures r.Err? ==> r.error.ReadPastEnd?
  {
    var e :- StringBodyEnd(text, c.pos + 1);
    var next := if e < |text| then e + 1 else e;
    Ok((Token(c.pos + 1, e, c.line, c.column + 1, ValueString), Along(c, next)))
  }

  /** The end-of-file token: empty, at the end of the text. */
  function EndOfFileToken(text: string, c: Cursor): (t: Token)
    requires c.pos == |text|
    ensures t.Within(text) && t.start == t.end == |text| && t.kind == EndOfFile
  {
    Token(c.pos, c.pos, c.line, c.column, EndOfFile)
  }

  /** The three punctuation kinds: `{`, `}` and `,`. */
  predicate IsPunctuation(k: TokenType) {
    k == OpenBrace || k == CloseBrace || k == Comma
  }

  /** The character a punctuation kind stands for. */
  function PunctuationChar(kind: TokenType): char
  {
    match kind
    case OpenBrace => '{'
    case CloseBrace => '}'
    case _ => ','
  }

  /** Which kind of token a significant character starts, stated kind by kind: the three
      punctuation characters their own kinds, a letter a word (an identifier or a keyword), a quote,
      a digit or a `-` a `Value_String`, and every other character `Undefined`. */
  predicate DispatchedKind(ch: char, kind: TokenType) {
    && (kind == OpenBrace <==> ch == '{')
    && (kind == CloseBrace <==> ch == '}')
    && (kind == Comma <==> ch == ',')
    && (IsWordKind(kind) <==> IsAlpha(ch))
    && (kind == ValueString <==> ch == '"' || IsDigit(ch) || ch == '-')
    && (kind == Undefined <==> !(ch in "{},\"-" || IsAlpha(ch) || IsDigit(ch)))
  }

  /** The dispatch of `NextToken` on the significant character at `s`. */
  function ScanSignificant(text: string, s: Cursor): (r: Result<(Token, Cursor), Failure>)
    requires s.pos < |text|
    ensures r.Ok? ==> var (t, n) := r.value;
      && t.Within(text) && s.pos <= t.start && t.end <= n.pos <= |text| && s.pos < n.pos
      && n.line == s.line && t.line == n.line && t.kind != EndOfFile
    ensures r.Ok? ==> DispatchedKind(text[s.pos], r.value.0.kind)
    ensures r.Ok? && (IsPunctuation(r.value.0.kind) || r.value.0.kind == Undefined) ==>
              r.value.0.start == s.pos && r.value.0.end == s.pos + 1 && r.value.1.pos == s.pos + 1
    ensures r.Ok? ==> KindMatchesText(text, r.value.0)
    ensures r.Err? ==> (text[s.pos] == '"' && r.error.ReadPastEnd?)
                       || ((IsDigit(text[s.pos]) || text[s.pos] == '-') && r.error == NumberOverflow(s.pos))
  {
    var ch := text[s.pos];
    if ch == '{' then Ok(ScanAtom(text, s, OpenBrace))
    else if ch == '}' then Ok(ScanAtom(text, s, CloseBrace))
    else if ch == ',' then Ok(ScanAtom(text, s, Comma))
    else if ch == '"' then ScanString(text, s)
    else if IsAlpha(ch) then
      var r := ScanIdentifier(text, s);
      WordsAreNeverPunctuation(text[r.0.start..r.0.end]);
      Ok(r)
    else if IsDigit(ch) || ch == '-' then ScanNumber(text, s)
    else Ok(ScanAtom(text, s, Undefined))
  }

  /** `NextToken` without a peeked token: skip whitespace and comments, then dispatch on the
      first significant character. */
  function Scan(text: string, c: Cursor): (r: Result<(Token, Cursor), Failure>)
    requires c.pos <= |text|
    ensures r.Ok? ==> var (t, n) := r.value;
      && t.Within(text) && c.pos <= t.start && t.end <= n.pos <= |text|
      && c.line <= n.line && t.line == n.line
      && (t.kind == EndOfFile ==> t.start == t.end == n.pos == |text|)
      && (t.kind != EndOfFile ==> c.pos < n.pos)
    ensures r.Ok? ==> KindMatchesText(text, r.value.0)
    ensures r.Ok? ==> SkipWhitespace(text, c).Ok?
    ensures r.Ok? ==> (r.value.0.kind == EndOfFile <==> SkipWhitespace(text, c).value.pos == |text|)
    ensures r.Ok? && r.value.0.kind != EndOfFile ==>
              SkipWhitespace(text, c).value.pos < |text|
              && DispatchedKind(text[SkipWhitespace(text, c).value.pos], r.value.0.kind)
    ensures r.Ok? && IsPunctuation(r.value.0.kind) ==>
              r.value.0.start == SkipWhitespace(text, c).value.pos && r.value.1.pos == r.value.0.end
    ensures r.Err? ==> !r.error.Raised?
  {
    var s :- SkipWhitespace(text, c);
    if s.pos == |text| then
      Ok((EndOfFileToken(text, s), s))
    else
      ScanSignificant(text, s)
  }

  /** Once only whitespace and comments remain, the next token is the end of the file, at the end
      of the text, and scanning again from there returns the same token and cursor. */
  lemma EndOfFileRepeats(text: string, c: Cursor)
    requires c.pos <= |text| && SkipWhitespace(text, c).Ok? && SkipWhitespace(text, c).value.pos == |text|
    ensures var s := SkipWhitespace(text, c).value;
            && Scan(text, c) == Ok((EndOfFileToken(text, s), s))
            && Scan(text, s) == Scan(text, c)
  {
  }

  //- The lexer object

  /** A lexer: the text, the cursor and the token `PeekNextToken` has looked ahead at, if any. */
  datatype LexerState = LexerState(text: string, cursor: Cursor, peeked: Option<Token>) {
    predicate Valid() {
      cursor.pos <= |text| && (peeked.Some? ==> peeked.value.Within(text) && KindMatchesText(text, peeked.value))
    }
  }

  /** How much is left to read: two per unread character, one for a peeked token. Taking a token
      other than the end of the file always makes it smaller. */
  function Remaining(lx: LexerState): nat
    requires lx.Valid()
  {
    2 * (|lx.text| - lx.cursor.pos) + (if lx.peeked.Some? then 1 else 0)
  }

  /** `Lexer::Lexer`: at the start of the text, on line 1, column 1, nothing peeked. */
  function NewLexer(text: string): (lx: LexerState)
    ensures lx.Valid() && lx.text == text && lx.peeked == None
    ensures lx.cursor == Cursor(0, 1, 1)
  {
    LexerState(text, Cursor(0, 1, 1), None)
  }

  /** `NextToken`: a peeked token is handed out (once) without scanning; otherwise the next token
      is scanned. */
  function NextToken(lx: LexerState): (r: Result<(Token, LexerState), Failure>)
    requires lx.Valid()
    ensures r.Ok? ==> r.value.1.Valid() && r.value.1.text == lx.text && r.value.1.peeked == None
    ensures r.Ok? ==> r.value.0.Within(lx.text) && KindMatchesText(lx.text, r.value.0)
    ensures r.Ok? ==> Remaining(r.value.1) <= Remaining(lx)
    ensures r.Ok? && r.value.0.kind != EndOfFile ==> Remaining(r.value.1) < Remaining(lx)
    ensures lx.peeked.Some? ==> r == Ok((lx.peeked.value, lx.(peeked := None)))
    ensures lx.peeked.None? && r.Ok? ==>
              lx.cursor.pos <= r.value.0.start && r.value.0.end <= r.value.1.cursor.pos
    ensures lx.peeked.None? && r.Ok? && IsPunctuation(r.value.0.kind) ==>
              r.value.1.cursor.pos == r.value.0.end
    ensures lx.peeked.None? && r.Ok? ==>
              r.value.0.kind != EndOfFile ==> lx.cursor.pos < r.value.1.cursor.pos
    ensures r.Err? ==> lx.peeked.None? && !r.error.Raised?
  {
    if lx.peeked.Some? then
      Ok((lx.peeked.value, lx.(peeked := None)))
    else
      var (t, c) :- Scan(lx.text, lx.cursor);
      Ok((t, LexerState(lx.text, c, None)))
  }

  /** Without a peeked token, `NextToken` fails exactly when scanning does, and otherwise hands out
      the scanned token and resumes where scanning stopped. */
  lemma NextTokenScans(lx: LexerState)
    requires lx.Valid() && lx.peeked == None
    ensures NextToken(lx).Ok? <==> Scan(lx.text, lx.cursor).Ok?
    ensures NextToken(lx).Ok? ==>
              && NextToken(lx).value.0 == Scan(lx.text, lx.cursor).value.0
              && NextToken(lx).value.1.cursor == Scan(lx.text, lx.cursor).value.1
  {
  }

  /** `PeekNextToken`: the token `NextToken` would return, remembered for the next call. */
  function PeekNextToken(lx: LexerState): (r: Result<(Token, LexerState), Failure>)
    requires lx.Valid()
    ensures r.Ok? ==> r.value.1.Valid() && r.value.1.text == lx.text && r.value.1.peeked == Some(r.value.0)
    ensures r.Ok? <==> NextToken(lx).Ok?
    ensures r.Ok? ==> r.value.0 == NextToken(lx).value.0
    ensures r.Ok? ==> Remaining(r.value.1) <= Remaining(lx) + 1
  {
    if lx.peeked.Some? then
      Ok((lx.peeked.value, lx))
    else
      var (t, next) :- NextToken(lx);
      Ok((t, next.(peeked := Some(t))))
  }

  /** `Advance`: drop the peeked token. */
  function Advance(lx: LexerState): (r: LexerState)
    requires lx.Valid()
    ensures r.Valid() && r.text == lx.text && r.cursor == lx.cursor && r.peeked == None
  {
    lx.(peeked := None)
  }

  /** Peeking twice is peeking once. */
  lemma PeekIsIdempotent(lx: LexerState)
    requires lx.Valid() && PeekNextToken(lx).Ok?
    ensures PeekNextToken(PeekNextToken(lx).value.1) == PeekNextToken(lx)
  {
  }

  /** Peeking does not change what the next token and the lexer after it are. */
  lemma NextAfterPeek(lx: LexerState)
    requires lx.Valid() && PeekNextToken(lx).Ok?
    ensures NextToken(PeekNextToken(lx).value.1) == NextToken(lx)
  {
  }

  /** Peeking and then advancing moves the lexer exactly as far as taking the next token. */
  lemma AdvanceAfterPeek(lx: LexerState)
    requires lx.Valid() && PeekNextToken(lx).Ok?
    ensures Advance(PeekNextToken(lx).value.1) == NextToken(lx).value.1
  {
  }

  /** `ExpectToken(tokenType)`: the next token, which must be of the expected kind. */
  function ExpectToken(lx: LexerState, kind: TokenType): (r: Result<(Token, LexerState), Failure>)
    requires lx.Valid()
    ensures r.Ok? ==> r.value.0.kind == kind && r == NextToken(lx)
    ensures NextToken(lx).Ok? && NextToken(lx).value.0.kind == kind ==> r == NextToken(lx)
    ensures NextToken(lx).Ok? && NextToken(lx).value.0.kind != kind ==>
              r == Err(Raised(UnexpectedTokenType(NextToken(lx).value.0, kind)))
    ensures NextToken(lx).Err? ==> r == NextToken(lx)
  {
    var (t, next) :- NextToken(lx);
    if t.kind != kind then Err(Raised(UnexpectedTokenType(t, kind))) else Ok((t, next))
  }

  /** `ExpectToken(tokenType1, tokenType2)`: the next token, which must be of either kind. */
  function ExpectEither(lx: LexerState, kind1: TokenType, kind2: TokenType): (r: Result<(Token, LexerState), Failure>)
    requires lx.Valid()
    ensures r.Ok? ==> (r.value.0.kind == kind1 || r.value.0.kind == kind2) && r == NextToken(lx)
    ensures NextToken(lx).Ok? && NextToken(lx).value.0.kind in {kind1, kind2} ==> r == NextToken(lx)
    ensures NextToken(lx).Ok? && NextToken(lx).value.0.kind !in {kind1, kind2} ==>
              r == Err(Raised(UnexpectedTokenType2(NextToken(lx).value.0, kind1, kind2)))
    ensures NextToken(lx).Err? ==> r == NextToken(lx)
  {
    var (t, next) :- NextToken(lx);
    if t.kind != kind1 && t.kind != kind2 then Err(Raised(UnexpectedTokenType2(t, kind1, kind2)))
    else Ok((t, next))
  }
}

=== FILE: mesh.dfy ===
/** A mesh asset: index and vertex data on the CPU side plus the handle of the GPU buffer the
    renderer creates from them. The renderer's `CreateBuffer` is a parameter: the model records
    exactly which bytes it is handed. */
module Meshes {
  import opened Wrappers
  import opened Faults
  import opened RenderTypes

  /** `sizeof(f32)`: every vertex component the engine produces is a 32-bit float. */
  const FloatSize: nat := 4

  const TwoTo32: int := 0x1_0000_0000
  const TwoTo31: int := 0x8000_0000

  /** The value an `i32` holds after an integer is converted to it: the residue modulo 2^32,
      read as two's complement. */
  function ToI32(x: int): (r: int)
    ensures -TwoTo31 <= r < TwoTo31
    ensures (r - x) % TwoTo32 == 0
    ensures 0 <= x < TwoTo31 ==> r == x
  {
    var m := x % TwoTo32;
    if m < TwoTo31 then m else m - TwoTo32
  }

  /** Conversion to `i32` only depends on the residue modulo 2^32, so converting an operand
      early changes nothing. */
  lemma ToI32OfSum(a: int, b: int)
    ensures ToI32(ToI32(a) + b) == ToI32(a + b)
  {
    var k := (ToI32(a) - a) / TwoTo32;
    assert ToI32(a) == a + k * TwoTo32;
    ShiftByMultiple(a + b, k);
  }

  lemma ShiftByMultiple(x: int, k: int)
    ensures (x + k * TwoTo32) % TwoTo32 == x % TwoTo32
  {
    var q := x / TwoTo32;
    var m := x % TwoTo32;
    assert x + k * TwoTo32 == (q + k) * TwoTo32 + m;
  }

  /** The sum of the layout's attribute dimensions. */
  function DimensionSum(layout: seq<VertexAttributeDesc>): nat
  {
    if layout == [] then 0 else DimensionSum(layout[..|layout| - 1]) + layout[|layout| - 1].dimension
  }

  /** The running `vertexDataElements` total of the constructor: one
      `vertexCount * Dimension * sizeof(f32)` term per attribute, accumulated in an `i32`.
      Each term is computed in `size_t` and the sum converted back to `i32`; only the residue
      modulo 2^32 survives that conversion, so the result is the closed form below. */
  function VertexDataElements(vertexCount: int, layout: seq<VertexAttributeDesc>): (r: int)
    ensures -TwoTo31 <= r < TwoTo31
    ensures r == ToI32(vertexCount * FloatSize * DimensionSum(layout))
  {
    if layout == [] then 0
    else
      var prefix := layout[..|layout| - 1];
      var d := layout[|layout| - 1].dimension;
      var acc := VertexDataElements(vertexCount, prefix);
      AccumulateTerm(vertexCount, DimensionSum(prefix), d);
      ToI32(acc + vertexCount * (d * FloatSize))
  }

  /** One accumulation step keeps the closed form. */
  lemma AccumulateTerm(vertexCount: int, before: nat, d: nat)
    ensures ToI32(ToI32(vertexCount * FloatSize * before) + vertexCount * (d * FloatSize))
         == ToI32(vertexCount * FloatSize * (before + d))
  {
    var x := vertexCount * FloatSize;
    var b := vertexCount * (d * FloatSize);
    assert b == x * d by {
      Reassociate(vertexCount, d);
    }
    ToI32OfSum(x * before, b);
    Distribute(x, before, d);
  }

  lemma Reassociate(v: int, d: int)
    ensures v * (d * FloatSize) == v * FloatSize * d
  {
  }

  lemma Distribute(x: int, a: int, b: int)
    ensures x * a + x * b == x * (a + b)
  {
  }

  /** When the byte count fits in an `i32` the running total is exactly
      `vertexCount * 4 * Σ Dimension`. */
  lemma VertexDataElementsExact(vertexCount: nat, layout: seq<VertexAttributeDesc>)
    requires vertexCount * FloatSize * DimensionSum(layout) < TwoTo31
    ensures VertexDataElements(vertexCount, layout) == vertexCount * FloatSize * DimensionSum(layout)
  {
  }

  /** What `Renderer::CreateBuffer` is handed: the first `indexCount` indices and the first
      `vertexDataElements` vertex bytes, with the layout. */
  datatype BufferUpload = BufferUpload(indices: seq<nat>, vertexBytes: seq<bv8>, layout: seq<VertexAttributeDesc>)

  /** A mesh. A moved-from mesh has no data (`None` stands for the null pointers). */
  datatype Mesh = Mesh(
    indexData: Option<seq<nat>>,
    vertexData: Option<seq<bv8>>,
    indexCount: int,
    vertexCount: int,
    bufferHandle: nat)

  /** The spans the constructor passes on. A negative count becomes a huge `size_t`, and a
      count beyond the allocation reads past it; both are undefined behaviour. */
  function Upload(indexCount: int, indexData: seq<nat>, vertexCount: int, vertexData: seq<bv8>,
                  layout: seq<VertexAttributeDesc>): (r: Result<BufferUpload, Fault>)
    ensures r.Ok? <==> (0 <= indexCount <= |indexData|
                        && 0 <= VertexDataElements(vertexCount, layout) <= |vertexData|)
    ensures r.Err? ==> r.error == Undefined
    ensures r.Ok? ==> |r.value.indices| == indexCount && r.value.layout == layout
    ensures r.Ok? ==> forall i :: 0 <= i < indexCount ==> r.value.indices[i] == indexData[i]
    ensures r.Ok? ==> |r.value.vertexBytes| <= |vertexData|
                      && vertexData == r.value.vertexBytes + vertexData[|r.value.vertexBytes|..]
  {
    var elements := VertexDataElements(vertexCount, layout);
    if indexCount < 0 || indexCount > |indexData| || elements < 0 || elements > |vertexData| then Err(Undefined)
    else Ok(BufferUpload(indexData[..indexCount], vertexData[..elements], layout))
  }

  /** The constructor: the mesh owns the data and the buffer the renderer creates for it. */
  function Construct(indexCount: int, indexData: seq<nat>, vertexCount: int, vertexData: seq<bv8>,
                     layout: seq<VertexAttributeDesc>, createBuffer: BufferUpload -> nat): (r: Result<Mesh, Fault>)
    ensures r.Ok? <==> Upload(indexCount, indexData, vertexCount, vertexData, layout).Ok?
    ensures r.Ok? ==> r.value.indexData == Some(indexData) && r.value.vertexData == Some(vertexData)
                      && r.value.indexCount == indexCount && r.value.vertexCount == vertexCount
                      && r.value.bufferHandle == createBuffer(Upload(indexCount, indexData, vertexCount, vertexData, layout).value)
  {
    var upload :- Upload(indexCount, indexData, vertexCount, vertexData, layout);
    Ok(Mesh(Some(indexData), Some(vertexData), indexCount, vertexCount, createBuffer(upload)))
  }

  /** When the byte count fits, the upload holds exactly `vertexCount * 4 * Σ Dimension` vertex
      bytes: the whole vertex data when that is how much was allocated. */
  lemma UploadedVertexBytes(indexCount: nat, indexData: seq<nat>, vertexCount: nat, vertexData: seq<bv8>,
                            layout: seq<VertexAttributeDesc>)
    requires indexCount <= |indexData|
    requires vertexCount * FloatSize * DimensionSum(layout) < TwoTo31
    requires |vertexData| == vertexCount * FloatSize * DimensionSum(layout)
    ensures Upload(indexCount, indexData, vertexCount, vertexData, layout).Ok?
    ensures Upload(indexCount, indexData, vertexCount, vertexData, layout).value.vertexBytes == vertexData
  {
    VertexDataElementsExact(vertexCount, layout);
    assert vertexData[..|vertexData|] == vertexData;
  }

  //- Moves

  /** What a moved-from mesh holds: null buffers, counts of -1 and the invalid buffer handle. */
  const MovedFrom := Mesh(None, None, -1, -1, InvalidHandle)

  /** The move constructor: the new mesh takes everything, the source is emptied. */
  function MoveConstruct(other: Mesh): (r: (Mesh, Mesh))
    ensures r.0 == other
    ensures r.1.indexData.None? && r.1.vertexData.None?
    ensures r.1.indexCount == -1 && r.1.vertexCount == -1 && r.1.bufferHandle == InvalidHandle
  {
    (other, MovedFrom)
  }

  /** Move assignment: the target's own data is released and replaced by the source's; its
      buffer handle is overwritten without destroying the buffer. The source is emptied. */
  function MoveAssign(target: Mesh, other: Mesh): (r: (Mesh, Mesh))
    ensures r.0 == other
    ensures r.1.indexData.None? && r.1.vertexData.None?
    ensures r.1.indexCount == -1 && r.1.vertexCount == -1 && r.1.bufferHandle == InvalidHandle
  {
    (other, MovedFrom)
  }

  /** Moving a mesh out into a temporary and back restores it, whatever the temporary held,
      and leaves the temporary moved-from. */
  lemma MoveRoundTrip(m: Mesh)
    ensures var (temp, m1) := MoveConstruct(m);
            var (m2, temp2) := MoveAssign(m1, temp);
            m2 == m && temp2 == MovedFrom
  {
  }
}

=== FILE: model_upload.dfy ===
/** How a loaded mesh reaches the GPU: the asset database builds the vertex layout and data, the
    mesh constructor counts the vertex bytes it hands to the renderer, and the Vulkan backend
    splits those bytes into one buffer per attribute. These lemmas connect the three. */
module ModelUpload {
  import opened Wrappers
  import opened RenderTypes
  import Meshes
  import AssetDatabase
  import VulkanBackend

  /** The streams of a mesh the way the importer delivers them. */
  predicate Importable(m: AssetDatabase.AssimpMesh) {
    AssetDatabase.HasPositions(m) && AssetDatabase.HasNormals(m) && AssetDatabase.StreamsSized(m)
    && m.numVertices * AssetDatabase.Vector3Size * 3 < Meshes.TwoTo31
  }

  /** A layout of three-component attributes has three components per attribute. */
  lemma {:induction false} DimensionSumOfVectors(layout: seq<VertexAttributeDesc>)
    requires forall i :: 0 <= i < |layout| ==> layout[i].dimension == 3
    ensures Meshes.DimensionSum(layout) == 3 * |layout|
    decreases |layout|
  {
    if layout != [] {
      DimensionSumOfVectors(layout[..|layout| - 1]);
    }
  }

  /** The mesh constructor's vertex byte count, `Σ vertexCount * Dimension * 4`, equals the
      `vertexBufferSize` the model loader allocated for the same layout. */
  lemma MeshByteCountMatchesVertexBufferSize(m: AssetDatabase.AssimpMesh)
    requires Importable(m)
    ensures var (layout, size) := AssetDatabase.VertexLayout(m.numVertices, AssetDatabase.HasTextureCoords(m));
            Meshes.VertexDataElements(Meshes.ToI32(m.numVertices), layout) == size
  {
    var (layout, size) := AssetDatabase.VertexLayout(m.numVertices, AssetDatabase.HasTextureCoords(m));
    DimensionSumOfVectors(layout);
    var n := m.numVertices;
    assert Meshes.ToI32(n) == n;
    assert n * Meshes.FloatSize * (3 * |layout|) == n * AssetDatabase.Vector3Size * |layout|;
    Meshes.VertexDataElementsExact(n, layout);
  }

  /** Each stream of a concatenation of equally long streams is found at its own offset. */
  lemma ConcatSlice(parts: seq<seq<bv8>>, len: nat, i: nat)
    requires forall k :: 0 <= k < |parts| ==> |parts[k]| == len
    requires i < |parts|
    ensures |AssetDatabase.Concat(parts)| == len * |parts|
    ensures AssetDatabase.Concat(parts)[len * i..len * (i + 1)] == parts[i]
  {
    AssetDatabase.ConcatLength(parts, len);
    ConcatAt(parts, i);
    UniformStart(parts, len, i);
    assert len * (i + 1) == len * i + len by {
      Meshes.Distribute(len, i, 1);
    }
  }

  /** The total length of the streams before stream `i`. */
  function Start(parts: seq<seq<bv8>>, i: nat): nat
    requires i <= |parts|
  {
    if i == 0 then 0 else Start(parts, i - 1) + |parts[i - 1]|
  }

  lemma {:induction false} UniformStart(parts: seq<seq<bv8>>, len: nat, i: nat)
    requires forall k :: 0 <= k < |parts| ==> |parts[k]| == len
    requires i <= |parts|
    ensures Start(parts, i) == len * i
  {
    if i > 0 {
      UniformStart(parts, len, i - 1);
      Meshes.Distribute(len, i - 1, 1);
    }
  }

  lemma {:induction false} StartOfTail(parts: seq<seq<bv8>>, i: nat)
    requires 0 < i <= |parts|
    ensures Start(parts, i) == |parts[0]| + Start(parts[1..], i - 1)
  {
    if i > 1 {
      StartOfTail(parts, i - 1);
      assert parts[1..][i - 2] == parts[i - 1];
    }
  }

  lemma {:induction false} ConcatAt(parts: seq<seq<bv8>>, i: nat)
    requires i < |parts|
    ensures Start(parts, i) + |parts[i]| <= |AssetDatabase.Concat(parts)|
    ensures AssetDatabase.Concat(parts)[Start(parts, i)..Start(parts, i) + |parts[i]|] == parts[i]
    decreases |parts|
  {
    var whole := AssetDatabase.Concat(parts);
    var rest := AssetDatabase.Concat(parts[1..]);
    assert whole == parts[0] + rest;
    if i > 0 {
      ConcatAt(parts[1..], i - 1);
      StartOfTail(parts, i);
      assert parts[1..][i - 1] == parts[i];
      var lo := Start(parts[1..], i - 1);
      assert whole[|parts[0]| + lo..|parts[0]| + lo + |parts[i]|] == rest[lo..lo + |parts[i]|];
    } else {
      assert whole[..|parts[0]|] == parts[0];
    }
  }

  /** The Vulkan backend splits the uploaded vertex bytes back into exactly the position,
      normal and texture-coordinate arrays the importer delivered. */
  lemma VulkanSlicesAreImportedStreams(m: AssetDatabase.AssimpMesh)
    requires Importable(m)
    ensures var layout := AssetDatabase.VertexLayout(m.numVertices, AssetDatabase.HasTextureCoords(m)).0;
            VulkanBackend.VertexSlices(AssetDatabase.Concat(AssetDatabase.AttributeStreams(m)), layout)
              == Ok(AssetDatabase.AttributeStreams(m))
  {
    var layout := AssetDatabase.VertexLayout(m.numVertices, AssetDatabase.HasTextureCoords(m)).0;
    var streams := AssetDatabase.AttributeStreams(m);
    var len := m.numVertices * AssetDatabase.Vector3Size;
    var data := AssetDatabase.Concat(streams);
    assert |streams| == |layout|;
    assert forall k :: 0 <= k < |streams| ==> |streams[k]| == len;
    AssetDatabase.ConcatLength(streams, len);
    forall i | 0 <= i < |layout|
      ensures layout[i].offset == len * i
      ensures VulkanBackend.AttributeEnd(layout, |data|, i) == len * (i + 1)
      ensures data[layout[i].offset..VulkanBackend.AttributeEnd(layout, |data|, i)] == streams[i]
    {
      ConcatSlice(streams, len, i);
    }
    assert VulkanBackend.RangesInBounds(layout, |data|);
    var slices := VulkanBackend.VertexSlices(data, layout);
    assert slices.Ok?;
    assert slices.value == streams;
  }

  /** End to end: a mesh whose streams and indices fit is loaded into a GPU buffer created from
      exactly the faces' indices in order and the attribute streams back to back. */
  lemma LoadMeshUploadsImportedData(m: AssetDatabase.AssimpMesh, materials: seq<AssetDatabase.Material>,
                                    createBuffer: Meshes.BufferUpload -> nat)
    requires Importable(m) && AssetDatabase.HasFaces(m)
    requires AssetDatabase.IndexBuffer(m.faces).Ok?
    requires m.materialIndex < |materials|
    ensures var r := AssetDatabase.LoadMesh(m, materials, createBuffer);
            var layout := AssetDatabase.VertexLayout(m.numVertices, AssetDatabase.HasTextureCoords(m)).0;
            r.Ok? && r.value.material == materials[m.materialIndex]
            && r.value.mesh.bufferHandle
               == createBuffer(Meshes.BufferUpload(AssetDatabase.FlattenFaces(m.faces), AssetDatabase.Concat(AssetDatabase.AttributeStreams(m)), layout))
  {
    var (layout, size) := AssetDatabase.VertexLayout(m.numVertices, AssetDatabase.HasTextureCoords(m));
    var indices := AssetDatabase.IndexBuffer(m.faces).value;
    var streams := AssetDatabase.AttributeStreams(m);
    AssetDatabase.VertexDataPacksStreams(m);
    var vertexData := AssetDatabase.VertexData(m, size).value;
    assert vertexData == AssetDatabase.Concat(streams);
    MeshByteCountMatchesVertexBufferSize(m);
    var vertexCount := Meshes.ToI32(m.numVertices);
    var upload := Meshes.Upload(indices.0, indices.1, vertexCount, vertexData, layout);
    assert upload.Ok?;
    assert upload.value.vertexBytes == vertexData by {
      assert vertexData[..|vertexData|] == vertexData;
    }
    assert upload.value.indices == AssetDatabase.FlattenFaces(m.faces);
    assert upload.value == Meshes.BufferUpload(AssetDatabase.FlattenFaces(m.faces), vertexData, layout);
  }
}

=== FILE: mouse.dfy ===
/** The mouse: the button table written by the button callback, and the last reported cursor
    position and wheel offset. Positions and offsets are double-precision values the model
    only stores, never computes with. */
module Mouse {
  import opened Wrappers
  import opened Faults
  import opened Input

  /** The size of the static button table. */
  const ButtonCount: nat := 8

  /** `MouseButton`: Left, Right and Middle are the codes 0, 1 and 2. */
  datatype MouseButton = Left | Right | Middle {
    function Code(): (c: nat)
      ensures c < 3
    {
      match this case Left => 0 case Right => 1 case Middle => 2
    }
  }

  datatype MouseState = MouseState(buttons: seq<InputAction>, position: (real, real), wheelOffsetY: real) {
    predicate Valid() {
      |buttons| == ButtonCount
    }
  }

  /** The state before any callback: every button released, position and offset zero. */
  function Initial(): (m: MouseState)
    ensures m.Valid()
    ensures forall b: MouseButton :: IsButtonReleased(m, b)
  {
    MouseState(InitialTable(ButtonCount), (0.0, 0.0), 0.0)
  }

  function GetButton(m: MouseState, button: MouseButton): InputAction
    requires m.Valid()
  {
    m.buttons[button.Code()]
  }

  predicate IsButtonPressed(m: MouseState, button: MouseButton)
    requires m.Valid()
  {
    Pressed(m.buttons, button.Code())
  }

  predicate IsButtonReleased(m: MouseState, button: MouseButton)
    requires m.Valid()
  {
    Released(m.buttons, button.Code())
  }

  /** The button callback stores the action, wrapped to `i8`, at the button code unchecked;
      the modifiers are ignored. Position and wheel offset are untouched. */
  function ButtonCallback(m: MouseState, button: int, action: int, mods: int): (r: Result<MouseState, Fault>)
    requires m.Valid()
    ensures r.Ok? <==> 0 <= button < ButtonCount
    ensures r.Ok? ==> r.value.Valid() && r.value.buttons[button] == ToI8(action)
                      && r.value.position == m.position && r.value.wheelOffsetY == m.wheelOffsetY
    ensures r.Ok? ==> forall b: MouseButton :: b.Code() != button ==> GetButton(r.value, b) == GetButton(m, b)
  {
    var buttons :- Store(m.buttons, button, action);
    Ok(m.(buttons := buttons))
  }

  /** The window library reports buttons 0 to 7, so its events always fit the table; the
      pressed and released queries then follow the action. */
  lemma ButtonEventDecidesState(m: MouseState, button: MouseButton, action: int, mods: int)
    requires m.Valid() && IsWindowAction(action)
    ensures ButtonCallback(m, button.Code(), action, mods).Ok?
    ensures var after := ButtonCallback(m, button.Code(), action, mods).value;
            (IsButtonPressed(after, button) <==> action == Press || action == Repeat)
            && (IsButtonReleased(after, button) <==> !IsButtonPressed(after, button))
  {
    StoredActionDecidesPressed(m.buttons, button.Code(), action);
  }

  /** The cursor-position callback keeps only the latest position. */
  function PositionCallback(m: MouseState, x: real, y: real): (r: MouseState)
    ensures r.position == (x, y) && r.buttons == m.buttons && r.wheelOffsetY == m.wheelOffsetY
  {
    m.(position := (x, y))
  }

  /** The wheel callback keeps only the latest vertical offset. */
  function WheelCallback(m: MouseState, yOffset: real): (r: MouseState)
    ensures r.wheelOffsetY == yOffset && r.buttons == m.buttons && r.position == m.position
  {
    m.(wheelOffsetY := yOffset)
  }

  /** Position and wheel reports overwrite: two in a row leave only the second. */
  lemma LatestReportWins(m: MouseState, x1: real, y1: real, x2: real, y2: real, w1: real, w2: real)
    ensures PositionCallback(PositionCallback(m, x1, y1), x2, y2) == PositionCallback(m, x2, y2)
    ensures WheelCallback(WheelCallback(m, w1), w2) == WheelCallback(m, w2)
  {
  }
}

=== FILE: render_graph.dfy ===
/** The render graph (RenderGraph.cpp): passes register, by name, the render textures they create
    and the one texture they may read; `Build` walks backwards from the output texture through
    creators and readers to find the passes to run, in order, and records for every texture the
    stack of uses the attachment descriptions are later derived from.

    Texture and pass IDs are table indices; `None` stands for `InvalidID`. An `SNV_ASSERT` aborts the
    program and is reported as `AssertionFailed`; indexing past a table or taking the top of an
    empty stack is undefined behaviour, reported as `Undefined`. The passes themselves are user
    code: what a pass asks for while being scheduled is a parameter, and what it does when created
    or rendered is not modelled. */
module RenderGraph {
  import opened Wrappers
  import opened RenderTypes
  import opened Attachments

  datatype GraphError = AssertionFailed(message: string) | Undefined | Diverges

  /** How a pass on the built path uses a render texture. */
  datatype AttachmentUsage = Create | Read

  /** Which pass creates and which pass reads a render texture. */
  datatype TextureAccess = TextureAccess(creator: Option<nat>, reader: Option<nat>)

  /** A registered pass: its name, the texture it reads and the textures it creates. */
  datatype Node = Node(name: string, read: Option<nat>, creates: seq<nat>)

  /** The state shared by the graph, its scheduler and its builder. Usage stacks have their top
      at the end; `passes` is the execution order, as pass IDs. */
  datatype Graph = Graph(
    textureIDs: map<string, nat>,
    access: seq<TextureAccess>,
    passIDs: map<string, nat>,
    nodes: seq<Node>,
    usages: map<nat, seq<AttachmentUsage>>,
    passes: seq<nat>,
    textureHandles: map<string, nat>,
    handleToID: map<nat, nat>)

  const EmptyGraph := Graph(map[], [], map[], [], map[], [], map[], map[])

  //- Invariants kept by scheduling

  predicate NoDuplicates(s: seq<nat>) {
    forall i, j :: 0 <= i < j < |s| ==> s[i] != s[j]
  }

  /** Each texture name has its own ID, and IDs index an access table of `count` entries. */
  predicate TexturesInterned(ids: map<string, nat>, count: nat) {
    && (forall n :: n in ids ==> ids[n] < count)
    && (forall n, m :: n in ids && m in ids && ids[n] == ids[m] ==> n == m)
  }

  /** Each pass name maps to the node of that name. */
  predicate PassesInterned(ids: map<string, nat>, nodes: seq<Node>) {
    forall n :: n in ids ==> ids[n] < |nodes| && nodes[ids[n]].name == n
  }

  /** A texture's creator lists it, exactly once, among the textures it creates, and no other
      pass does. */
  predicate CreatorsLinked(access: seq<TextureAccess>, nodes: seq<Node>) {
    && (forall t :: 0 <= t < |access| && access[t].creator.Some? ==>
          access[t].creator.value < |nodes| && t in nodes[access[t].creator.value].creates)
    && (forall p, t {:trigger t in nodes[p].creates} :: 0 <= p < |nodes| && t in nodes[p].creates ==>
          t < |access| && access[t].creator == Some(p))
    && (forall p :: 0 <= p < |nodes| ==> NoDuplicates(nodes[p].creates))
  }

  /** A texture's reader is the pass whose read texture it is, and conversely. */
  predicate ReadersLinked(access: seq<TextureAccess>, nodes: seq<Node>) {
    && (forall t :: 0 <= t < |access| && access[t].reader.Some? ==>
          access[t].reader.value < |nodes| && nodes[access[t].reader.value].read == Some(t))
    && (forall p :: 0 <= p < |nodes| && nodes[p].read.Some? ==>
          nodes[p].read.value < |access| && access[nodes[p].read.value].reader == Some(p))
  }

  predicate Valid(g: Graph) {
    && TexturesInterned(g.textureIDs, |g.access|)
    && PassesInterned(g.passIDs, g.nodes)
    && CreatorsLinked(g.access, g.nodes)
    && ReadersLinked(g.access, g.nodes)
  }

  lemma EmptyGraphIsValid()
    ensures Valid(EmptyGraph)
  {
  }

  /** A fresh access entry, with neither creator nor reader, keeps the links. */
  lemma FreshAccessKeepsLinks(access: seq<TextureAccess>, nodes: seq<Node>)
    requires CreatorsLinked(access, nodes) && ReadersLinked(access, nodes)
    ensures CreatorsLinked(access + [TextureAccess(None, None)], nodes)
    ensures ReadersLinked(access + [TextureAccess(None, None)], nodes)
  {
    var a := access + [TextureAccess(None, None)];
    forall p: nat, t: nat | p < |nodes| && t in nodes[p].creates
      ensures t < |a| && a[t].creator == Some(p)
    {
      assert a[t] == access[t];
    }
    forall t | 0 <= t < |a| && a[t].creator.Some?
      ensures a[t].creator.value < |nodes| && t in nodes[a[t].creator.value].creates
    {
      assert t < |access| && a[t] == access[t];
    }
    forall t | 0 <= t < |a| && a[t].reader.Some?
      ensures a[t].reader.value < |nodes| && nodes[a[t].reader.value].read == Some(t)
    {
      assert t < |access| && a[t] == access[t];
    }
    forall p | 0 <= p < |nodes| && nodes[p].read.Some?
      ensures nodes[p].read.value < |a| && a[nodes[p].read.value].reader == Some(p)
    {
      assert a[nodes[p].read.value] == access[nodes[p].read.value];
    }
  }

  /** A new node that reads and creates nothing keeps the links. */
  lemma NewNodeKeepsLinks(access: seq<TextureAccess>, nodes: seq<Node>, name: string)
    requires CreatorsLinked(access, nodes) && ReadersLinked(access, nodes)
    ensures CreatorsLinked(access, nodes + [Node(name, None, [])])
    ensures ReadersLinked(access, nodes + [Node(name, None, [])])
  {
    var ns := nodes + [Node(name, None, [])];
    assert forall p :: 0 <= p < |nodes| ==> ns[p] == nodes[p];
    assert ns[|nodes|] == Node(name, None, []);
  }

  /** Recording an uncreated texture as created by `pass` keeps the links. */
  lemma SetCreatorKeepsLinks(access: seq<TextureAccess>, nodes: seq<Node>, id: nat, pass: nat)
    requires CreatorsLinked(access, nodes) && ReadersLinked(access, nodes)
    requires id < |access| && pass < |nodes| && access[id].creator.None?
    ensures var a := access[id := access[id].(creator := Some(pass))];
            var ns := nodes[pass := nodes[pass].(creates := nodes[pass].creates + [id])];
            CreatorsLinked(a, ns) && ReadersLinked(a, ns)
  {
    var a := access[id := access[id].(creator := Some(pass))];
    var ns := nodes[pass := nodes[pass].(creates := nodes[pass].creates + [id])];
    assert id !in nodes[pass].creates;
    forall p | 0 <= p < |ns|
      ensures NoDuplicates(ns[p].creates)
    {
      if p != pass {
        assert ns[p] == nodes[p];
      } else {
        var old_ := nodes[pass].creates;
        var cs := ns[p].creates;
        assert cs == old_ + [id];
        forall i, j | 0 <= i < j < |cs|
          ensures cs[i] != cs[j]
        {
          assert cs[i] == old_[i];
          if j == |cs| - 1 {
            assert cs[i] in old_;
          } else {
            assert cs[j] == old_[j];
          }
        }
      }
    }
    forall p: nat, t: nat | p < |ns| && t in ns[p].creates
      ensures t < |a| && a[t].creator == Some(p)
    {
      if p == pass {
        var cs := ns[p].creates;
        assert cs == nodes[pass].creates + [id];
        var k :| 0 <= k < |cs| && cs[k] == t;
        if k < |cs| - 1 {
          assert t == nodes[pass].creates[k];
          assert t != id;
          assert a[t] == access[t];
        }
      } else {
        assert ns[p] == nodes[p];
        assert t in nodes[p].creates;
        assert t < |access| && t != id;
        assert a[t] == access[t];
      }
    }
    forall t | 0 <= t < |a| && a[t].creator.Some?
      ensures a[t].creator.value < |ns| && t in ns[a[t].creator.value].creates
    {
      if t != id {
        assert a[t] == access[t];
        assert t in nodes[a[t].creator.value].creates;
      }
    }
    forall t | 0 <= t < |a| && a[t].reader.Some?
      ensures a[t].reader.value < |ns| && ns[a[t].reader.value].read == Some(t)
    {
      assert a[t].reader == access[t].reader;
      assert ns[a[t].reader.value].read == nodes[a[t].reader.value].read;
    }
    forall p | 0 <= p < |ns| && ns[p].read.Some?
      ensures ns[p].read.value < |a| && a[ns[p].read.value].reader == Some(p)
    {
      assert ns[p].read == nodes[p].read;
      assert a[ns[p].read.value].reader == access[ns[p].read.value].reader;
    }
  }

  /** Recording an unread texture as read by a pass that reads nothing keeps the links. */
  lemma SetReaderKeepsLinks(access: seq<TextureAccess>, nodes: seq<Node>, id: nat, pass: nat)
    requires CreatorsLinked(access, nodes) && ReadersLinked(access, nodes)
    requires id < |access| && pass < |nodes| && access[id].reader.None? && nodes[pass].read.None?
    ensures var a := access[id := access[id].(reader := Some(pass))];
            var ns := nodes[pass := nodes[pass].(read := Some(id))];
            CreatorsLinked(a, ns) && ReadersLinked(a, ns)
  {
    var a := access[id := access[id].(reader := Some(pass))];
    var ns := nodes[pass := nodes[pass].(read := Some(id))];
    forall p: nat, t: nat | p < |ns| && t in ns[p].creates
      ensures t < |a| && a[t].creator == Some(p)
    {
      assert ns[p].creates == nodes[p].creates;
      assert t in nodes[p].creates;
      assert t < |access|;
      assert a[t].creator == access[t].creator;
    }
    forall t | 0 <= t < |a| && a[t].creator.Some?
      ensures a[t].creator.value < |ns| && t in ns[a[t].creator.value].creates
    {
      assert a[t].creator == access[t].creator;
      assert ns[a[t].creator.value].creates == nodes[a[t].creator.value].creates;
    }
    forall p | 0 <= p < |ns|
      ensures NoDuplicates(ns[p].creates)
    {
      assert ns[p].creates == nodes[p].creates;
    }
    forall t | 0 <= t < |a| && a[t].reader.Some?
      ensures a[t].reader.value < |ns| && ns[a[t].reader.value].read == Some(t)
    {
      if t != id {
        assert a[t] == access[t];
        assert a[t].reader.value != pass;
      }
    }
    forall p | 0 <= p < |ns| && ns[p].read.Some?
      ensures ns[p].read.value < |a| && a[ns[p].read.value].reader == Some(p)
    {
      if p != pass {
        assert ns[p] == nodes[p];
        assert ns[p].read.value != id;
      }
    }
  }

  //- RenderPassScheduler

  /** `GetRenderTextureID`: a known name keeps its ID; a new name gets the next ID, with neither
      creator nor reader. Nothing but the texture tables changes. */
  function GetRenderTextureID(g: Graph, name: string): (r: (Graph, nat))
    ensures name in r.0.textureIDs && r.0.textureIDs[name] == r.1
    ensures name in g.textureIDs ==> r == (g, g.textureIDs[name])
    ensures name !in g.textureIDs ==>
              && r.1 == |g.access| && r.0.access == g.access + [TextureAccess(None, None)]
              && r.0.textureIDs.Keys == g.textureIDs.Keys + {name}
              && (forall n :: n in g.textureIDs ==> r.0.textureIDs[n] == g.textureIDs[n])
    ensures r.0.nodes == g.nodes && r.0.passIDs == g.passIDs
  {
    if name in g.textureIDs then (g, g.textureIDs[name])
    else
      var id := |g.access|;
      (g.(access := g.access + [TextureAccess(None, None)], textureIDs := g.textureIDs[name := id]), id)
  }

  /** Interning keeps the invariant, and the ID it returns indexes the access table. */
  lemma GetRenderTextureIDKeepsValid(g: Graph, name: string)
    requires Valid(g)
    ensures Valid(GetRenderTextureID(g, name).0)
    ensures GetRenderTextureID(g, name).1 < |GetRenderTextureID(g, name).0.access|
  {
    if name !in g.textureIDs {
      FreshAccessKeepsLinks(g.access, g.nodes);
    }
  }

  /** Asking for the same name twice gives the same ID and changes nothing the second time. */
  lemma GetRenderTextureIDIsIdempotent(g: Graph, name: string)
    ensures GetRenderTextureID(GetRenderTextureID(g, name).0, name) == GetRenderTextureID(g, name)
  {
  }

  /** `RenderPassScheduler::CreateTexture`: records `pass` as the texture's creator and appends the
      texture to the pass's create list; a texture already created aborts. */
  function CreateTexture(g: Graph, pass: nat, name: string): (r: Result<Graph, GraphError>)
    requires pass < |g.nodes|
    ensures r.Ok? <==>
              name !in g.textureIDs
              || (g.textureIDs[name] < |g.access| && g.access[g.textureIDs[name]].creator.None?)
    ensures r.Ok? ==> |r.value.nodes| == |g.nodes| && r.value.passIDs == g.passIDs
    ensures r.Ok? ==>
              var id := GetRenderTextureID(g, name).1;
              && r.value.textureIDs == GetRenderTextureID(g, name).0.textureIDs
              && |r.value.access| == |GetRenderTextureID(g, name).0.access|
              && id < |r.value.access|
              && r.value.access[id].creator == Some(pass)
              && r.value.nodes[pass].creates == g.nodes[pass].creates + [id]
    ensures r.Ok? ==> forall p :: 0 <= p < |g.nodes| ==> r.value.nodes[p].name == g.nodes[p].name
  {
    var (g1, id) := GetRenderTextureID(g, name);
    if id >= |g1.access| then Err(Undefined)
    else if g1.access[id].creator.Some? then
      Err(AssertionFailed("Trying to create RenderTexture with the same name twice"))
    else
      var node := g1.nodes[pass];
      Ok(g1.(access := g1.access[id := g1.access[id].(creator := Some(pass))],
             nodes := g1.nodes[pass := node.(creates := node.creates + [id])]))
  }

  lemma CreateTextureKeepsValid(g: Graph, pass: nat, name: string)
    requires Valid(g) && pass < |g.nodes|
    requires CreateTexture(g, pass, name).Ok?
    ensures Valid(CreateTexture(g, pass, name).value)
  {
    GetRenderTextureIDKeepsValid(g, name);
    var (g1, id) := GetRenderTextureID(g, name);
    SetCreatorKeepsLinks(g1.access, g1.nodes, id, pass);
  }

  /** `RenderPassScheduler::ReadTexture`: records `pass` as the texture's only reader and the
      texture as the pass's only read; a second reader or a second read aborts. */
  function ReadTexture(g: Graph, pass: nat, name: string): (r: Result<Graph, GraphError>)
    requires pass < |g.nodes|
    ensures r.Ok? <==>
              && (name !in g.textureIDs
                  || (g.textureIDs[name] < |g.access| && g.access[g.textureIDs[name]].reader.None?))
              && g.nodes[pass].read.None?
    ensures r.Ok? ==> |r.value.nodes| == |g.nodes| && r.value.passIDs == g.passIDs
    ensures r.Ok? ==>
              var id := GetRenderTextureID(g, name).1;
              && r.value.textureIDs == GetRenderTextureID(g, name).0.textureIDs
              && |r.value.access| == |GetRenderTextureID(g, name).0.access|
              && id < |r.value.access|
              && r.value.access[id].reader == Some(pass)
              && r.value.nodes[pass].read == Some(id)
    ensures r.Ok? ==> forall p :: 0 <= p < |g.nodes| ==> r.value.nodes[p].name == g.nodes[p].name
  {
    var (g1, id) := GetRenderTextureID(g, name);
    if id >= |g1.access| then Err(Undefined)
    else if g1.access[id].reader.Some? then
      Err(AssertionFailed("Only one RenderTexture read access is supported"))
    else if g1.nodes[pass].read.Some? then
      Err(AssertionFailed("RenderPass can read only one RenderTexture"))
    else
      Ok(g1.(access := g1.access[id := g1.access[id].(reader := Some(pass))],
             nodes := g1.nodes[pass := g1.nodes[pass].(read := Some(id))]))
  }

  lemma ReadTextureKeepsValid(g: Graph, pass: nat, name: string)
    requires Valid(g) && pass < |g.nodes|
    requires ReadTexture(g, pass, name).Ok?
    ensures Valid(ReadTexture(g, pass, name).value)
  {
    GetRenderTextureIDKeepsValid(g, name);
    var (g1, id) := GetRenderTextureID(g, name);
    SetReaderKeepsLinks(g1.access, g1.nodes, id, pass);
  }

  /** What a pass asks of the scheduler from its `OnSchedule`. */
  datatype ScheduleCall = CreateCall(name: string) | ReadCall(name: string)

  /** A pass's `OnSchedule`, as the sequence of scheduler calls it makes, stopping at the first
      that aborts. */
  function Schedule(g: Graph, pass: nat, calls: seq<ScheduleCall>): (r: Result<Graph, GraphError>)
    requires pass < |g.nodes|
    ensures r.Ok? ==> |r.value.nodes| == |g.nodes| && r.value.passIDs == g.passIDs
    ensures r.Ok? ==> forall p :: 0 <= p < |g.nodes| ==> r.value.nodes[p].name == g.nodes[p].name
    decreases |calls|
  {
    if |calls| == 0 then Ok(g)
    else
      var g1 :- match calls[0]
        case CreateCall(n) => CreateTexture(g, pass, n)
        case ReadCall(n) => ReadTexture(g, pass, n);
      Schedule(g1, pass, calls[1..])
  }

  lemma {:induction false} ScheduleKeepsValid(g: Graph, pass: nat, calls: seq<ScheduleCall>)
    requires Valid(g) && pass < |g.nodes|
    requires Schedule(g, pass, calls).Ok?
    ensures Valid(Schedule(g, pass, calls).value)
    decreases |calls|
  {
    if |calls| > 0 {
      match calls[0]
      case CreateCall(n) =>
        CreateTextureKeepsValid(g, pass, n);
        ScheduleKeepsValid(CreateTexture(g, pass, n).value, pass, calls[1..]);
      case ReadCall(n) =>
        ReadTextureKeepsValid(g, pass, n);
        ScheduleKeepsValid(ReadTexture(g, pass, n).value, pass, calls[1..]);
    }
  }

  //- RenderGraph::AddRenderPass

  /** `AddRenderPass`: a new name gets the next pass ID and a node that reads nothing and creates
      nothing, which the pass's scheduling calls then fill in; a name already registered aborts. */
  function AddRenderPass(g: Graph, name: string, calls: seq<ScheduleCall>): (r: Result<Graph, GraphError>)
    ensures name in g.passIDs ==> r.Err? && r.error.AssertionFailed?
    ensures r.Ok? ==>
              && |r.value.nodes| == |g.nodes| + 1
              && r.value.passIDs == g.passIDs[name := |g.nodes|]
              && r.value.nodes[|g.nodes|].name == name
  {
    if name in g.passIDs then
      Err(AssertionFailed("Trying to add RenderPass with already registered name"))
    else
      var id := |g.nodes|;
      var g1 := g.(passIDs := g.passIDs[name := id], nodes := g.nodes + [Node(name, None, [])]);
      assert g1.nodes[id].name == name;
      Schedule(g1, id, calls)
  }

  /** Adding a pass keeps the invariant: pass names stay interned and links stay consistent. */
  lemma AddRenderPassKeepsValid(g: Graph, name: string, calls: seq<ScheduleCall>)
    requires Valid(g)
    requires AddRenderPass(g, name, calls).Ok?
    ensures Valid(AddRenderPass(g, name, calls).value)
  {
    var id := |g.nodes|;
    var g1 := g.(passIDs := g.passIDs[name := id], nodes := g.nodes + [Node(name, None, [])]);
    NewNodeKeepsLinks(g.access, g.nodes, name);
    assert forall p :: 0 <= p < id ==> g1.nodes[p] == g.nodes[p];
    assert PassesInterned(g1.passIDs, g1.nodes);
    ScheduleKeepsValid(g1, id, calls);
  }

  //- RenderGraph::Build

  /** One step of the backward walk: pass `p` reads a texture that pass `q` creates. */
  predicate Feeds(g: Graph, q: nat, p: nat) {
    && p < |g.nodes|
    && g.nodes[p].read.Some?
    && g.nodes[p].read.value < |g.access|
    && g.access[g.nodes[p].read.value].creator == Some(q)
  }

  /** A complete backward walk: each pass is fed by the next, and the last one reads nothing. */
  predicate IsWalk(g: Graph, w: seq<nat>) {
    && |w| > 0
    && (forall i :: 0 <= i < |w| ==> w[i] < |g.nodes|)
    && (forall i :: 0 <= i < |w| - 1 ==> Feeds(g, w[i + 1], w[i]))
    && g.nodes[w[|w| - 1]].read.None?
  }

  /** The loop of `Build` from pass `p`: push `p`, then continue from the creator of the texture
      `p` reads, until a pass reads nothing. `fuel` bounds the number of passes pushed. */
  function WalkFrom(g: Graph, p: nat, fuel: nat): (r: Result<seq<nat>, GraphError>)
    ensures r.Ok? ==> IsWalk(g, r.value) && r.value[0] == p && |r.value| <= fuel
    decreases fuel
  {
    if fuel == 0 then Err(Diverges)
    else if p >= |g.nodes| then Err(Undefined)
    else match g.nodes[p].read
      case None => Ok([p])
      case Some(t) =>
        if t >= |g.access| || g.access[t].creator.None? then Err(Undefined)
        else
          var rest :- WalkFrom(g, g.access[t].creator.value, fuel - 1);
          assert Feeds(g, rest[0], p);
          Ok([p] + rest)
  }

  lemma SuffixIsWalk(g: Graph, w: seq<nat>, i: nat)
    requires IsWalk(g, w) && i < |w|
    ensures IsWalk(g, w[i..])
  {
  }

  /** Every walk is found, given fuel for its length. */
  lemma {:induction false} WalkFromFindsEveryWalk(g: Graph, w: seq<nat>, fuel: nat)
    requires IsWalk(g, w) && |w| <= fuel
    ensures WalkFrom(g, w[0], fuel) == Ok(w)
    decreases |w|
  {
    if |w| == 1 {
      assert w == [w[0]];
    } else {
      assert Feeds(g, w[1], w[0]);
      SuffixIsWalk(g, w, 1);
      WalkFromFindsEveryWalk(g, w[1..], fuel - 1);
      assert w == [w[0]] + w[1..];
    }
  }

  /** A walk never visits a pass twice: from a repeated pass it would have to repeat forever. */
  lemma WalkVisitsNoPassTwice(g: Graph, w: seq<nat>)
    requires IsWalk(g, w)
    ensures NoDuplicates(w)
  {
    forall i, j | 0 <= i < j < |w|
      ensures w[i] != w[j]
    {
      SuffixIsWalk(g, w, i);
      SuffixIsWalk(g, w, j);
      WalkFromFindsEveryWalk(g, w[i..], |w|);
      WalkFromFindsEveryWalk(g, w[j..], |w|);
      assert |w[i..]| != |w[j..]|;
    }
  }

  /** A sequence without duplicates, of numbers below `n`, has at most `n` elements. */
  lemma {:induction false} DistinctBelowBound(s: seq<nat>, n: nat)
    requires NoDuplicates(s)
    requires forall i :: 0 <= i < |s| ==> s[i] < n
    ensures |s| <= n
    decreases n
  {
    if |s| > 0 {
      assert s[0] < n;
      if k :| 0 <= k < |s| && s[k] == n - 1 {
        var rest := s[..k] + s[k + 1..];
        assert forall i :: 0 <= i < |rest| ==> rest[i] == if i < k then s[i] else s[i + 1];
        forall i | 0 <= i < |rest|
          ensures rest[i] < n - 1
        {
          if i < k {
            assert s[i] != s[k];
          } else {
            assert s[i + 1] != s[k];
          }
        }
        DistinctBelowBound(rest, n - 1);
      } else {
        DistinctBelowBound(s, n - 1);
      }
    }
  }

  /** Fuel of one step per registered pass loses nothing: whatever walk any fuel finds, this
      finds too. So the model's `Diverges` is exactly the engine's endless loop. */
  lemma WalkFuelSuffices(g: Graph, p: nat, fuel: nat)
    requires WalkFrom(g, p, fuel).Ok?
    ensures WalkFrom(g, p, |g.nodes|) == WalkFrom(g, p, fuel)
  {
    var w := WalkFrom(g, p, fuel).value;
    WalkVisitsNoPassTwice(g, w);
    DistinctBelowBound(w, |g.nodes|);
    WalkFromFindsEveryWalk(g, w, |g.nodes|);
  }

  function Reverse(s: seq<nat>): (r: seq<nat>)
    ensures |r| == |s| && forall i :: 0 <= i < |s| ==> r[i] == s[|s| - 1 - i]
  {
    if |s| == 0 then [] else [s[|s| - 1]] + Reverse(s[..|s| - 1])
  }

  /** An execution order: each pass creates the texture the next one reads, the first reads
      nothing, and no pass runs twice. */
  predicate RunsCreatorsFirst(g: Graph, ps: seq<nat>) {
    && |ps| > 0
    && (forall k :: 0 <= k < |ps| ==> ps[k] < |g.nodes|)
    && (forall k :: 0 <= k < |ps| - 1 ==> Feeds(g, ps[k], ps[k + 1]))
    && g.nodes[ps[0]].read.None?
    && NoDuplicates(ps)
  }

  lemma ReversedWalkRunsCreatorsFirst(g: Graph, w: seq<nat>)
    requires IsWalk(g, w)
    ensures RunsCreatorsFirst(g, Reverse(w))
  {
    WalkVisitsNoPassTwice(g, w);
    var ps := Reverse(w);
    forall k | 0 <= k < |ps| - 1
      ensures Feeds(g, ps[k], ps[k + 1])
    {
      var j := |w| - 2 - k;
      assert ps[k + 1] == w[j] && ps[k] == w[j + 1];
    }
    forall i, j | 0 <= i < j < |ps|
      ensures ps[i] != ps[j]
    {
      assert ps[i] == w[|w| - 1 - i] && ps[j] == w[|w| - 1 - j];
    }
  }

  //- Usage stacks

  function StackOf(u: map<nat, seq<AttachmentUsage>>, t: nat): seq<AttachmentUsage> {
    if t in u then u[t] else []
  }

  /** `m_renderTextureUsages[t].push(x)`; a texture without a stack gets an empty one first. */
  function Push(u: map<nat, seq<AttachmentUsage>>, t: nat, x: AttachmentUsage): (r: map<nat, seq<AttachmentUsage>>)
    ensures StackOf(r, t) == StackOf(u, t) + [x]
    ensures forall t' :: t' != t ==> StackOf(r, t') == StackOf(u, t')
  {
    u[t := StackOf(u, t) + [x]]
  }

  function PushCreates(u: map<nat, seq<AttachmentUsage>>, cs: seq<nat>): map<nat, seq<AttachmentUsage>>
    decreases |cs|
  {
    if |cs| == 0 then u else Push(PushCreates(u, cs[..|cs| - 1]), cs[|cs| - 1], Create)
  }

  /** The pushes for one visited pass: `Create` for each texture it creates, then `Read` for the
      texture it reads. */
  function PushNode(u: map<nat, seq<AttachmentUsage>>, n: Node): map<nat, seq<AttachmentUsage>> {
    var u1 := PushCreates(u, n.creates);
    match n.read
    case None => u1
    case Some(t) => Push(u1, t, Read)
  }

  /** The pushes along a walk, in walk order. */
  function PushWalk(g: Graph, u: map<nat, seq<AttachmentUsage>>, w: seq<nat>): map<nat, seq<AttachmentUsage>>
    requires forall i :: 0 <= i < |w| ==> w[i] < |g.nodes|
    decreases |w|
  {
    if |w| == 0 then u else PushNode(PushWalk(g, u, w[..|w| - 1]), g.nodes[w[|w| - 1]])
  }

  function Count(s: seq<nat>, t: nat): nat
    decreases |s|
  {
    if |s| == 0 then 0 else Count(s[..|s| - 1], t) + (if s[|s| - 1] == t then 1 else 0)
  }

  function Creates(k: nat): (r: seq<AttachmentUsage>)
    ensures |r| == k
  {
    seq(k, _ => Create)
  }

  /** The uses of texture `t` a visited pass contributes, reference version: one `Create` per
      listing in its create list, then a `Read` if it reads `t`. */
  function UsesBy(n: Node, t: nat): seq<AttachmentUsage> {
    Creates(Count(n.creates, t)) + (if n.read == Some(t) then [Read] else [])
  }

  function UsesAlong(g: Graph, w: seq<nat>, t: nat): seq<AttachmentUsage>
    requires forall i :: 0 <= i < |w| ==> w[i] < |g.nodes|
    decreases |w|
  {
    if |w| == 0 then [] else UsesAlong(g, w[..|w| - 1], t) + UsesBy(g.nodes[w[|w| - 1]], t)
  }

  lemma {:induction false} PushCreatesStacks(u: map<nat, seq<AttachmentUsage>>, cs: seq<nat>, t: nat)
    ensures StackOf(PushCreates(u, cs), t) == StackOf(u, t) + Creates(Count(cs, t))
    decreases |cs|
  {
    if |cs| > 0 {
      var init := cs[..|cs| - 1];
      PushCreatesStacks(u, init, t);
      if cs[|cs| - 1] == t {
        assert Creates(Count(init, t)) + [Create] == Creates(Count(cs, t));
      }
    }
  }

  lemma PushNodeStacks(u: map<nat, seq<AttachmentUsage>>, n: Node, t: nat)
    ensures StackOf(PushNode(u, n), t) == StackOf(u, t) + UsesBy(n, t)
  {
    PushCreatesStacks(u, n.creates, t);
  }

  /** The pushes along a walk leave on each texture's stack exactly the uses the reference
      definition lists. */
  lemma {:induction false} PushWalkStacks(g: Graph, u: map<nat, seq<AttachmentUsage>>, w: seq<nat>, t: nat)
    requires forall i :: 0 <= i < |w| ==> w[i] < |g.nodes|
    ensures StackOf(PushWalk(g, u, w), t) == StackOf(u, t) + UsesAlong(g, w, t)
    decreases |w|
  {
    if |w| > 0 {
      var init := w[..|w| - 1];
      PushWalkStacks(g, u, init, t);
      PushNodeStacks(PushWalk(g, u, init), g.nodes[w[|w| - 1]], t);
    }
  }

  /** `RenderGraph::Build`. The output name is looked up with `operator[]`, so an unknown name is
      entered with ID 0 and the walk starts from texture 0. The usage stacks are rebuilt from
      scratch, and the execution order is the walk reversed. */
  function Build(g: Graph, output: string): (r: Result<Graph, GraphError>)
    ensures r.Ok? ==> r.value.nodes == g.nodes && r.value.access == g.access && r.value.passIDs == g.passIDs
    ensures r.Ok? ==> output in g.textureIDs ==> r.value.textureIDs == g.textureIDs
    ensures r.Ok? ==> output !in g.textureIDs ==> r.value.textureIDs == g.textureIDs[output := 0]
    ensures r.Ok? ==> RunsCreatorsFirst(g, r.value.passes) && IsWalk(g, Reverse(r.value.passes))
    ensures r.Ok? ==>
              && output in r.value.textureIDs
              && r.value.textureIDs[output] < |g.access|
              && g.access[r.value.textureIDs[output]].creator == Some(r.value.passes[|r.value.passes| - 1])
    ensures r.Ok? ==> forall t :: StackOf(r.value.usages, t) == UsesAlong(g, Reverse(r.value.passes), t)
  {
    var t := if output in g.textureIDs then g.textureIDs[output] else 0;
    if t >= |g.access| || g.access[t].creator.None? then Err(Undefined)
    else
      var w :- WalkFrom(g, g.access[t].creator.value, |g.nodes|);
      ReversedWalkRunsCreatorsFirst(g, w);
      ReverseTwice(w);
      PushWalkStacksAll(g, w);
      var ids := g.textureIDs[output := t];
      assert output in g.textureIDs ==> ids == g.textureIDs;
      Ok(g.(textureIDs := ids, usages := PushWalk(g, map[], w), passes := Reverse(w)))
  }

  lemma ReverseTwice(w: seq<nat>)
    requires |w| > 0
    ensures Reverse(Reverse(w)) == w && Reverse(w)[|w| - 1] == w[0]
  {
  }

  lemma PushWalkStacksAll(g: Graph, w: seq<nat>)
    requires forall i :: 0 <= i < |w| ==> w[i] < |g.nodes|
    ensures forall t :: StackOf(PushWalk(g, map[], w), t) == UsesAlong(g, w, t)
  {
    forall t {
      PushWalkStacks(g, map[], w, t);
    }
  }

  /** `Build` succeeds exactly when the walk from the output texture's creator ends: for every
      such walk it returns that walk, reversed, as the execution order. */
  lemma BuildFindsEveryWalk(g: Graph, output: string, w: seq<nat>)
    requires output in g.textureIDs && g.textureIDs[output] < |g.access|
    requires IsWalk(g, w) && g.access[g.textureIDs[output]].creator == Some(w[0])
    ensures Build(g, output).Ok? && Build(g, output).value.passes == Reverse(w)
  {
    WalkVisitsNoPassTwice(g, w);
    DistinctBelowBound(w, |g.nodes|);
    WalkFromFindsEveryWalk(g, w, |g.nodes|);
  }

  /** `RenderGraph::Execute`: the passes' `OnRender`, in execution order, as the names of the
      passes called. */
  function Execute(g: Graph): (calls: seq<string>)
    requires forall k :: 0 <= k < |g.passes| ==> g.passes[k] < |g.nodes|
    ensures |calls| == |g.passes|
    ensures forall k :: 0 <= k < |calls| ==> calls[k] == g.nodes[g.passes[k]].name
  {
    seq(|g.passes|, k requires 0 <= k < |g.passes| => g.nodes[g.passes[k]].name)
  }

  /** After a build, every pass `Execute` calls runs right after the pass that creates the texture
      it reads, and the last pass called creates the output texture. */
  lemma ExecuteRunsCreatorsFirst(g: Graph, output: string)
    requires Build(g, output).Ok?
    ensures var b := Build(g, output).value;
            var calls := Execute(b);
            && |calls| > 0
            && g.nodes[b.passes[0]].read.None?
            && (forall k :: 0 <= k < |calls| - 1 ==>
                  calls[k] == g.nodes[b.passes[k]].name && Feeds(g, b.passes[k], b.passes[k + 1]))
            && g.access[b.textureIDs[output]].creator == Some(b.passes[|calls| - 1])
  {
  }

  //- Usage stacks of a built graph

  lemma {:induction false} CountWithoutDuplicates(s: seq<nat>, t: nat)
    requires NoDuplicates(s)
    ensures Count(s, t) == if t in s then 1 else 0
    decreases |s|
  {
    if |s| > 0 {
      var init := s[..|s| - 1];
      CountWithoutDuplicates(init, t);
      assert s == init + [s[|s| - 1]];
      if s[|s| - 1] == t {
        forall k | 0 <= k < |init|
          ensures init[k] != t
        {
          assert init[k] == s[k];
        }
      }
    }
  }

  /** Under the invariants a pass uses a texture once as its creator, then once as its reader. */
  lemma UsesByUnderValid(g: Graph, p: nat, t: nat)
    requires Valid(g) && p < |g.nodes| && t < |g.access|
    ensures UsesBy(g.nodes[p], t) ==
              (if g.access[t].creator == Some(p) then [Create] else [])
              + (if g.access[t].reader == Some(p) then [Read] else [])
  {
    CountWithoutDuplicates(g.nodes[p].creates, t);
    if t in g.nodes[p].creates {
      assert g.access[t].creator == Some(p);
    }
    assert Creates(1) == [Create];
  }

  /** Along a walk where only positions `a` and `b` use texture `t` (`b` may be `|w|`, meaning
      only `a` does), the uses in the first `m` passes are those of `a`, then those of `b`. */
  lemma UsesAlongAt(g: Graph, w: seq<nat>, t: nat, a: nat, b: nat)
    requires forall i :: 0 <= i < |w| ==> w[i] < |g.nodes|
    requires a < b
    requires forall i :: 0 <= i < |w| && i != a && i != b ==> Unused(g, w[i], t)
    ensures UsesAlong(g, w, t) ==
              (if a < |w| then UsesBy(g.nodes[w[a]], t) else [])
              + (if b < |w| then UsesBy(g.nodes[w[b]], t) else [])
  {
    var parts := PerPass(g, w, t);
    UsesAlongFlattens(g, w, t);
    forall i | 0 <= i < |parts| && i != a && i != b
      ensures parts[i] == []
    {
      assert Unused(g, w[i], t);
    }
    FlattenTwo(parts, a, b);
  }

  /** The concatenation of `parts`, from the back. */
  function Flatten(parts: seq<seq<AttachmentUsage>>): seq<AttachmentUsage>
    decreases |parts|
  {
    if |parts| == 0 then [] else Flatten(parts[..|parts| - 1]) + parts[|parts| - 1]
  }

  /** The uses of `t` by each pass of `w`. */
  function PerPass(g: Graph, w: seq<nat>, t: nat): (parts: seq<seq<AttachmentUsage>>)
    requires forall i :: 0 <= i < |w| ==> w[i] < |g.nodes|
    ensures |parts| == |w| && forall i :: 0 <= i < |w| ==> parts[i] == UsesBy(g.nodes[w[i]], t)
  {
    seq(|w|, i requires 0 <= i < |w| => UsesBy(g.nodes[w[i]], t))
  }

  lemma {:induction false} UsesAlongFlattens(g: Graph, w: seq<nat>, t: nat)
    requires forall i :: 0 <= i < |w| ==> w[i] < |g.nodes|
    ensures UsesAlong(g, w, t) == Flatten(PerPass(g, w, t))
    decreases |w|
  {
    if |w| > 0 {
      var init := w[..|w| - 1];
      UsesAlongFlattens(g, init, t);
      assert PerPass(g, w, t)[..|w| - 1] == PerPass(g, init, t);
    }
  }

  /** When every part but `a` and `b` is empty, the concatenation is those two parts. */
  lemma {:induction false} FlattenTwo(parts: seq<seq<AttachmentUsage>>, a: nat, b: nat)
    requires a < b
    requires forall i :: 0 <= i < |parts| && i != a && i != b ==> parts[i] == []
    ensures Flatten(parts) ==
              (if a < |parts| then parts[a] else []) + (if b < |parts| then parts[b] else [])
    decreases |parts|
  {
    if |parts| > 0 {
      var init := parts[..|parts| - 1];
      FlattenTwo(init, a, b);
      var last := parts[|parts| - 1];
      if |parts| - 1 == a {
        assert Flatten(init) == [];
        assert Flatten(parts) == last;
      } else if |parts| - 1 == b {
        assert Flatten(init) == parts[a] + [];
      } else {
        assert last == [];
        assert Flatten(parts) == Flatten(init);
      }
    }
  }

  /** Pass `p` does not use texture `t`. */
  predicate Unused(g: Graph, p: nat, t: nat)
    requires p < |g.nodes|
  {
    UsesBy(g.nodes[p], t) == []
  }

  /** The uses of a texture by a pass that neither creates nor reads it, by its creator that
      does not read it, and by its reader that does not create it. */
  lemma UsesByRole(g: Graph, p: nat, t: nat)
    requires Valid(g) && p < |g.nodes| && t < |g.access|
    ensures g.access[t].creator != Some(p) && g.access[t].reader != Some(p) ==> UsesBy(g.nodes[p], t) == []
    ensures g.access[t].creator == Some(p) && g.access[t].reader != Some(p) ==> UsesBy(g.nodes[p], t) == [Create]
    ensures g.access[t].creator != Some(p) && g.access[t].reader == Some(p) ==> UsesBy(g.nodes[p], t) == [Read]
  {
    UsesByUnderValid(g, p, t);
  }

  /** On a walk, the texture a pass reads is created by the next pass and used by no other pass
      of the walk: its uses are `Read`, then `Create`. */
  lemma WalkUsesOfRead(g: Graph, w: seq<nat>, j: nat, t: nat)
    requires Valid(g) && IsWalk(g, w) && j + 1 < |w| && g.nodes[w[j]].read == Some(t)
    ensures UsesAlong(g, w, t) == [Read, Create]
  {
    assert Feeds(g, w[j + 1], w[j]);
    assert t < |g.access| && g.access[t].reader == Some(w[j]) && g.access[t].creator == Some(w[j + 1]);
    WalkVisitsNoPassTwice(g, w);
    OtherPassesUnused(g, w, t, j, j + 1);
    assert w[j] != w[j + 1];
    UsesByRole(g, w[j], t);
    UsesByRole(g, w[j + 1], t);
    assert UsesBy(g.nodes[w[j]], t) == [Read] && UsesBy(g.nodes[w[j + 1]], t) == [Create];
    UsesAlongAt(g, w, t, j, j + 1);
  }

  /** When the reader and the creator of `t` are passes `a` and `b` of a walk, no other pass of
      the walk uses `t`. */
  lemma OtherPassesUnused(g: Graph, w: seq<nat>, t: nat, a: nat, b: nat)
    requires Valid(g) && IsWalk(g, w) && NoDuplicates(w) && a < |w| && b < |w| && t < |g.access|
    requires g.access[t].reader == Some(w[a]) && g.access[t].creator == Some(w[b])
    ensures forall i :: 0 <= i < |w| && i != a && i != b ==> Unused(g, w[i], t)
  {
    forall i | 0 <= i < |w| && i != a && i != b
      ensures Unused(g, w[i], t)
    {
      assert w[i] != w[a] && w[i] != w[b];
      UsesByRole(g, w[i], t);
    }
  }

  /** On a walk from the creator of texture `t`, no pass reads `t`: its only use is `Create`. */
  lemma WalkUsesOfStart(g: Graph, w: seq<nat>, t: nat)
    requires Valid(g) && IsWalk(g, w) && t < |g.access| && g.access[t].creator == Some(w[0])
    ensures UsesAlong(g, w, t) == [Create]
  {
    WalkVisitsNoPassTwice(g, w);
    forall i | 0 <= i < |w|
      ensures g.access[t].reader != Some(w[i])
    {
      if i < |w| - 1 {
        assert Feeds(g, w[i + 1], w[i]);
        assert w[i + 1] != w[0];
      }
    }
    forall i | 0 <= i < |w| && i != 0
      ensures Unused(g, w[i], t)
    {
      assert w[i] != w[0];
      UsesByRole(g, w[i], t);
    }
    UsesByRole(g, w[0], t);
    UsesAlongAt(g, w, t, 0, |w|);
  }

  /** After a build, the texture each pass reads has `Create` under `Read` on its stack, and a
      known output texture has the single `Create` of its creator. */
  lemma BuiltStacks(g: Graph, output: string, k: nat)
    requires Valid(g) && Build(g, output).Ok?
    requires k + 1 < |Build(g, output).value.passes|
    ensures var b := Build(g, output).value;
            && Feeds(g, b.passes[k], b.passes[k + 1])
            && StackOf(b.usages, g.nodes[b.passes[k + 1]].read.value) == [Read, Create]
    ensures output in g.textureIDs ==>
              StackOf(Build(g, output).value.usages, g.textureIDs[output]) == [Create]
  {
    var b := Build(g, output).value;
    var ps := b.passes;
    var w := Reverse(ps);
    var n := |w|;
    assert Feeds(g, ps[k], ps[k + 1]);
    var j := n - 2 - k;
    assert w[j] == ps[k + 1] && w[j + 1] == ps[k];
    WalkUsesOfRead(g, w, j, g.nodes[w[j]].read.value);
    if output in g.textureIDs {
      assert w[0] == ps[n - 1];
      WalkUsesOfStart(g, w, g.textureIDs[output]);
    }
  }

  //- RenderPassBuilder

  /** The ID `m_renderTextureNameToID[name]` yields: an unknown name is entered with ID 0. */
  function TextureID(g: Graph, name: string): nat {
    if name in g.textureIDs then g.textureIDs[name] else 0
  }

  /** The ID `m_renderTextureHandleToID[handle]` yields: an unknown handle is entered with ID 0. */
  function HandleID(g: Graph, handle: nat): nat {
    if handle in g.handleToID then g.handleToID[handle] else 0
  }

  /** `RenderPassBuilder::GetRenderTexture`: `at` throws for a name no pass has created a
      texture for. */
  function GetRenderTexture(g: Graph, name: string): (r: Option<nat>)
    ensures r.Some? <==> name in g.textureHandles
    ensures r.Some? ==> r.value == g.textureHandles[name]
  {
    if name in g.textureHandles then Some(g.textureHandles[name]) else None
  }

  /** `RenderPassBuilder::CreateRenderTexture`. The description asks for a shader-readable texture
      exactly when some pass reads it; its load action is left value-initialised, which is
      `Clear`. The handle the backend returns for the description is the parameter `handle`; it
      is recorded under the name and mapped back to the texture's ID. */
  function CreateRenderTexture(g: Graph, name: string, width: nat, height: nat, format: RenderTextureFormat, handle: nat)
    : (r: Result<(Graph, RenderTextureDesc), GraphError>)
    ensures r.Ok? <==> TextureID(g, name) < |g.access|
    ensures r.Ok? ==>
              var desc := r.value.1;
              && desc.name == name && desc.width == width && desc.height == height && desc.format == format
              && desc.loadAction == LoadClear
              && (desc.usage == ShaderRead <==> g.access[TextureID(g, name)].reader.Some?)
    ensures r.Ok? ==>
              var g2 := r.value.0;
              && GetRenderTexture(g2, name) == Some(handle)
              && TextureID(g2, name) == TextureID(g, name)
              && HandleID(g2, handle) == TextureID(g, name)
              && g2.access == g.access && g2.nodes == g.nodes && g2.usages == g.usages && g2.passes == g.passes
    ensures r.Ok? && name in g.textureIDs ==> r.value.0.textureIDs == g.textureIDs
  {
    var id := TextureID(g, name);
    if id >= |g.access| then Err(Undefined)
    else
      var usage := if g.access[id].reader.None? then UsageDefault else ShaderRead;
      var desc := RenderTextureDesc(name, width, height, format, LoadClear, usage);
      Ok((g.(textureIDs := g.textureIDs[name := id],
             textureHandles := g.textureHandles[name := handle],
             handleToID := g.handleToID[handle := id]), desc))
  }

  /** The load action for an attachment's initial layout: clear what is rendered from scratch,
      load what was sampled. */
  function LoadActionFor(initial: AttachmentLayout): (r: AttachmentLoadAction)
    ensures r == AttachmentLoadAction.Clear <==> initial == Render
    ensures r == Load <==> initial == ShaderSample
  {
    match initial
    case Render => AttachmentLoadAction.Clear
    case ShaderSample => Load
    case Present => AttachmentLoadAction.LoadDontCare
  }

  /** `RenderPassBuilder::CreateAttachmentDesc`: pops the top use of the texture behind `handle`.
      The attachment starts in the render layout when that use was its creation, and sampled
      otherwise; it ends in the render layout when no use remains, and sampled otherwise, where a
      remaining creation trips the assertion. Taking the top of an empty stack is undefined. */
  function CreateAttachmentDesc(g: Graph, handle: nat): (r: Result<(Graph, AttachmentDesc), GraphError>)
    ensures var stack := StackOf(g.usages, HandleID(g, handle));
            && (r == Err(Undefined) <==> |stack| == 0)
            && (r == Err(AssertionFailed("This shouldn't happen")) <==> |stack| >= 2 && stack[|stack| - 2] == Create)
    ensures r.Ok? ==>
              var stack := StackOf(g.usages, HandleID(g, handle));
              var (g2, desc) := r.value;
              && desc.handle == handle
              && (desc.initialLayout == Render <==> stack[|stack| - 1] == Create)
              && (desc.finalLayout == Render <==> |stack| == 1)
              && desc.initialLayout != Present && desc.finalLayout != Present
              && desc.loadAction == LoadActionFor(desc.initialLayout)
              && (desc.storeAction == StoreDontCare <==> desc.finalLayout == Render)
              && StackOf(g2.usages, HandleID(g, handle)) == stack[..|stack| - 1]
              && (forall t :: t != HandleID(g, handle) ==> StackOf(g2.usages, t) == StackOf(g.usages, t))
              && HandleID(g2, handle) == HandleID(g, handle)
              && g2.access == g.access && g2.nodes == g.nodes && g2.textureHandles == g.textureHandles
  {
    var id := HandleID(g, handle);
    var stack := StackOf(g.usages, id);
    if |stack| == 0 then Err(Undefined)
    else
      var top := stack[|stack| - 1];
      var rest := stack[..|stack| - 1];
      var initial := if top == Create then Render else ShaderSample;
      if |rest| > 0 && rest[|rest| - 1] == Create then Err(AssertionFailed("This shouldn't happen"))
      else
        var final := if |rest| == 0 then Render else ShaderSample;
        var store := if final == Render then StoreDontCare else Store;
        Ok((g.(handleToID := g.handleToID[handle := id], usages := g.usages[id := rest]),
            AttachmentDesc(handle, LoadActionFor(initial), store, initial, final)))
  }

  /** The colour attachments of `CreateRenderPass`, described in order. */
  function CreateColorAttachments(g: Graph, handles: seq<nat>): (r: Result<(Graph, seq<AttachmentDesc>), GraphError>)
    ensures r.Ok? ==>
              && |r.value.1| == |handles|
              && (forall k :: 0 <= k < |handles| ==> r.value.1[k].handle == handles[k])
              && r.value.0.access == g.access && r.value.0.nodes == g.nodes
    decreases |handles|
  {
    if |handles| == 0 then Ok((g, []))
    else
      var first :- CreateAttachmentDesc(g, handles[0]);
      var rest :- CreateColorAttachments(first.0, handles[1..]);
      Ok((rest.0, [first.1] + rest.1))
  }

  /** `RenderPassBuilder::CreateRenderPass`: the description handed to the backend (whose handle
      for it is not modelled) holds one attachment per colour handle, in order, then the depth
      attachment if one is given, and the subpass as passed. */
  function CreateRenderPass(g: Graph, colors: seq<nat>, depth: Option<nat>, subpass: SubpassDesc)
    : (r: Result<(Graph, RenderPassDesc), GraphError>)
    ensures r.Ok? ==>
              var desc := r.value.1;
              && |desc.colorAttachments| == |colors|
              && (forall k :: 0 <= k < |colors| ==> desc.colorAttachments[k].handle == colors[k])
              && (desc.depthStencilAttachment.Some? <==> depth.Some?)
              && (depth.Some? ==> desc.depthStencilAttachment.value.handle == depth.value)
              && desc.subpass == subpass
  {
    var colored :- CreateColorAttachments(g, colors);
    match depth
    case None => Ok((colored.0, RenderPassDesc(colored.1, None, subpass)))
    case Some(h) =>
      var d :- CreateAttachmentDesc(colored.0, h);
      Ok((d.0, RenderPassDesc(colored.1, Some(d.1), subpass)))
  }

  /** A texture shared by two passes (stack `Read` over `Create`) is rendered by its creator,
      which clears it and keeps it for sampling, then sampled by its reader, which loads it and
      leaves it back in the render layout with its contents discarded. */
  lemma SharedTextureAttachments(g: Graph, handle: nat)
    requires StackOf(g.usages, HandleID(g, handle)) == [Read, Create]
    ensures var first := CreateAttachmentDesc(g, handle);
            && first.Ok?
            && first.value.1 == AttachmentDesc(handle, AttachmentLoadAction.Clear, Store, Render, ShaderSample)
            && var second := CreateAttachmentDesc(first.value.0, handle);
               && second.Ok?
               && second.value.1 == AttachmentDesc(handle, Load, StoreDontCare, ShaderSample, Render)
               && StackOf(second.value.0.usages, HandleID(g, handle)) == []
  {
    var first := CreateAttachmentDesc(g, handle);
    assert StackOf(first.value.0.usages, HandleID(first.value.0, handle)) == [Read];
  }

  /** The output texture (stack: one `Create`) is cleared, rendered and left in the render
      layout, its contents not kept by the pass. */
  lemma OutputTextureAttachment(g: Graph, handle: nat)
    requires StackOf(g.usages, HandleID(g, handle)) == [Create]
    ensures var first := CreateAttachmentDesc(g, handle);
            && first.Ok?
            && first.value.1 == AttachmentDesc(handle, AttachmentLoadAction.Clear, StoreDontCare, Render, Render)
            && StackOf(first.value.0.usages, HandleID(g, handle)) == []
  {
  }

  /** Two passes, each reading the texture the other creates: a valid graph in which no walk
      ends, so `Build` never returns. The graph does not detect cycles. */
  const TwoPassCycle := Graph(
    map["a" := 0, "b" := 1],
    [TextureAccess(Some(0), Some(1)), TextureAccess(Some(1), Some(0))],
    map["A" := 0, "B" := 1],
    [Node("A", Some(1), [0]), Node("B", Some(0), [1])],
    map[], [], map[], map[])

  lemma TwoPassCycleDiverges()
    ensures Valid(TwoPassCycle)
    ensures forall w :: !IsWalk(TwoPassCycle, w)
    ensures Build(TwoPassCycle, "a") == Err(Diverges)
  {
    TwoPassCycleIsValid();
    TwoPassCycleHasNoWalk();
    TwoPassCycleWalkDiverges();
  }

  lemma TwoPassCycleIsValid()
    ensures Valid(TwoPassCycle)
  {
  }

  lemma TwoPassCycleHasNoWalk()
    ensures forall w :: !IsWalk(TwoPassCycle, w)
  {
  }

  lemma TwoPassCycleWalkDiverges()
    ensures Build(TwoPassCycle, "a") == Err(Diverges)
  {
    var g := TwoPassCycle;
    assert WalkFrom(g, 1, 1) == Err(Diverges) by {
      assert WalkFrom(g, 0, 0) == Err(Diverges);
    }
    assert WalkFrom(g, 0, 2) == Err(Diverges);
  }
}

=== FILE: render_types.dfy ===
/** The renderer-independent description types: shader state enums, vertex layouts,
    render-texture descriptions and the engine's default pipeline states.
    Handles are plain numbers; `InvalidHandle` is the all-ones 32-bit value. */
module RenderTypes {
  import opened Wrappers

  /** `k_InvalidHandle`: -1 stored in an unsigned 32-bit integer. */
  const InvalidHandle: nat := 0xFFFF_FFFF

  //- Rasterizer state

  datatype PolygonMode = Fill | Wireframe

  datatype CullMode = CullOff | CullFront | CullBack

  datatype TriangleFrontFace = Clockwise | CounterClockwise

  //- Depth-stencil state

  datatype CompareFunction =
    | Never | Less | Equal | LessEqual | Greater | NotEqual | GreaterEqual | Always

  //- Blend state

  datatype BlendMode = BlendOff | BlendOpMode | LogicOpMode

  datatype BlendOp = Add | Subtract | ReverseSubtract | Min | Max

  datatype BlendFactor =
    | Zero | One | SrcColor | OneMinusSrcColor | DstColor | OneMinusDstColor
    | SrcAlpha | OneMinusSrcAlpha | DstAlpha | OneMinusDstAlpha | ScrAlphaSaturate
    | Src1Color | OneMinusSrc1Color | Src1Alpha | OneMinusSrc1Alpha

  datatype BlendLogicOp =
    | Clear | Set | Copy | CopyInversed | Noop | Invert | And | Nand
    | Or | Nor | Xor | Equivalent | AndReverse | AndInverted | OrReverse | OrInverted

  //- Vertex layout

  datatype VertexAttribute = Position | Normal | TexCoord0

  datatype VertexAttributeFormat =
    | SInt8 | SInt16 | SInt32 | UInt8 | UInt16 | UInt32
    | SNorm8 | SNorm16 | UNorm8 | UNorm16 | Float16 | Float32
  {
    /** Position of the constant in its declaration, as `static_cast<ui8>` sees it. */
    function Ordinal(): (r: nat)
      ensures r < 12
    {
      match this
      case SInt8 => 0 case SInt16 => 1 case SInt32 => 2
      case UInt8 => 3 case UInt16 => 4 case UInt32 => 5
      case SNorm8 => 6 case SNorm16 => 7 case UNorm8 => 8
      case UNorm16 => 9 case Float16 => 10 case Float32 => 11
    }
  }

  datatype VertexAttributeDesc = VertexAttributeDesc(
    attribute: VertexAttribute,
    format: VertexAttributeFormat,
    dimension: nat,
    offset: nat)

  //- Render textures

  datatype RenderTextureLoadAction = LoadClear | LoadDontCare | LoadLoad

  datatype RenderTextureUsage = UsageDefault | ShaderRead

  datatype RenderTextureFormat = BGRA32 | Depth32

  datatype RenderTextureType = ColorType | DepthType | StencilType | DepthStencilType

  datatype TextureFormat =
    | R8 | R16 | R16F | R32F | RG8 | RG16 | RGBA8 | RGBA16F | DEPTH16 | DEPTH32 | DEPTH32F

  datatype TextureWrapMode = ClampToEdge | ClampToBorder | MirroredOnce | MirroredRepeat | Repeat

  /** A render-texture description; the clear value (floating point) is not modelled. */
  datatype RenderTextureDesc = RenderTextureDesc(
    name: string,
    width: nat,
    height: nat,
    format: RenderTextureFormat,
    loadAction: RenderTextureLoadAction,
    usage: RenderTextureUsage)

  /** The render-pass description the DirectX 11 and OpenGL backends take: colour render
      textures and an optional depth-stencil render texture, by handle. */
  datatype HandleRenderPassDesc = HandleRenderPassDesc(colorAttachments: seq<nat>, depthStencilAttachment: Option<nat>)

  datatype TextureDesc = TextureDesc(
    width: nat,
    height: nat,
    format: TextureFormat,
    wrapMode: TextureWrapMode)

  /** `RenderTextureDesc::RenderTextureType`: only the colour format is a colour texture,
      every other format is a depth texture; stencil types are never produced. */
  function TypeOfRenderTexture(desc: RenderTextureDesc): (r: RenderTextureType)
    ensures r == ColorType <==> desc.format == BGRA32
    ensures r != StencilType && r != DepthStencilType
  {
    if desc.format == BGRA32 then ColorType else DepthType
  }

  //- Pipeline state descriptions

  datatype RasterizerStateDesc = RasterizerStateDesc(
    polygonMode: PolygonMode,
    cullMode: CullMode,
    frontFace: TriangleFrontFace)

  datatype DepthStencilStateDesc = DepthStencilStateDesc(
    depthTestEnable: bool,
    depthWriteEnable: bool,
    depthCompareFunction: CompareFunction)

  datatype BlendStateDesc = BlendStateDesc(
    blendMode: BlendMode,
    colorSrcBlendFactor: BlendFactor,
    colorDstBlendFactor: BlendFactor,
    colorBlendOp: BlendOp,
    alphaSrcBlendFactor: BlendFactor,
    alphaDstBlendFactor: BlendFactor,
    alphaBlendOp: BlendOp,
    logicOp: BlendLogicOp)

  datatype ShaderDesc = ShaderDesc(
    name: string,
    rasterizer: RasterizerStateDesc,
    depthStencil: DepthStencilStateDesc,
    blend: BlendStateDesc,
    vertexSource: string,
    fragmentSource: string)

  /** `RenderDefaults::RasterizerState`, returned by `RasterizerStateDesc::Default`. */
  const DefaultRasterizerState := RasterizerStateDesc(Fill, CullBack, CounterClockwise)

  /** `RenderDefaults::DepthStencilState`, returned by `DepthStencilStateDesc::Default`. */
  const DefaultDepthStencilState := DepthStencilStateDesc(true, true, Less)

  /** `RenderDefaults::BlendState`, returned by `BlendStateDesc::Default`. */
  const DefaultBlendState := BlendStateDesc(BlendOff, One, Zero, Add, One, Zero, Add, Noop)

  /** `RenderDefaults::IndependentBlendEnable`. */
  const IndependentBlendEnable := false

  /** The name under which the ImGui shader is registered (`RenderDefaults::ImGuiShaderName`).
      Its spelling is not part of this model, so it is left as an arbitrary fixed string. */
  const ImGuiShaderName: string

  /** `ShaderDesc::IsImGuiShader`. */
  predicate IsImGuiShader(desc: ShaderDesc)
  {
    desc.name == ImGuiShaderName
  }

  /** The default states describe an opaque, back-face culled, depth-tested pipeline:
      blending and logic ops are off, the blend equation is the identity `src * 1 + dst * 0`. */
  lemma DefaultStatesAreOpaque()
    ensures DefaultRasterizerState.cullMode == CullBack
    ensures DefaultRasterizerState.polygonMode == Fill
    ensures DefaultRasterizerState.frontFace == CounterClockwise
    ensures DefaultDepthStencilState.depthTestEnable && DefaultDepthStencilState.depthWriteEnable
    ensures DefaultDepthStencilState.depthCompareFunction == Less
    ensures DefaultBlendState.blendMode == BlendOff && DefaultBlendState.logicOp == Noop
    ensures DefaultBlendState.colorSrcBlendFactor == One && DefaultBlendState.colorDstBlendFactor == Zero
    ensures DefaultBlendState.alphaSrcBlendFactor == One && DefaultBlendState.alphaDstBlendFactor == Zero
    ensures DefaultBlendState.colorBlendOp == Add && DefaultBlendState.alphaBlendOp == Add
  {
  }
}

=== FILE: shader_parser.dfy ===
/** The shader-description parser (ShaderParser.cpp): a recursive-descent reader of

      Shader "<name>" {
        State { Blend <src> <dst> [, <src> <dst>]  Cull <mode>  DepthCompareFunction <fn> ... }
        Vertex { <source> }
        Fragment { <source> }
      }

    driven by the lexer. Every parse step takes a lexer and returns the lexer after it; a thrown
    `ShaderParserError` is an `Err(Raised(..))`. The parser's `BlendMode` and `DepthCompareFunction`
    conversions are name lookups whose definitions are not part of this model; they are represented
    by the blend factor and compare function lookups of EnumUtils, which know the same names. */
module ShaderParser {
  import opened Wrappers
  import opened Tokens
  import opened ShaderParserUtils
  import opened Lexer
  import opened RenderTypes
  import EnumUtils

  /** The result of a parse step: the value read and the lexer after it. */
  type Parsed<T> = Result<(T, LexerState), Failure>

  //- Parsed values

  datatype BlendState = BlendState(colorSrc: BlendFactor, colorDst: BlendFactor, alphaSrc: BlendFactor, alphaDst: BlendFactor)

  datatype ShaderState = ShaderState(blend: BlendState, cullMode: CullMode, depthCompareFunction: CompareFunction)

  /** `ShaderState::Default()`, the state a State block starts from; its value is not part of
      this model. */
  const DefaultShaderState: ShaderState

  /** The state of a shader description that has no State block (its value-initialised member);
      its value is not part of this model. */
  const UnsetShaderState: ShaderState

  /** The parser's shader description. */
  datatype ParsedShader = ParsedShader(name: string, state: ShaderState, vertexSource: string, fragmentSource: string)

  /** One `case` of the State block's `switch`. */
  datatype StateEntry =
    | BlendEntry(blend: BlendState)
    | CullEntry(cullMode: CullMode)
    | DepthCompareEntry(compare: CompareFunction)

  /** The assignment an entry performs. */
  function Assign(s: ShaderState, e: StateEntry): ShaderState
  {
    match e
    case BlendEntry(b) => s.(blend := b)
    case CullEntry(c) => s.(cullMode := c)
    case DepthCompareEntry(f) => s.(depthCompareFunction := f)
  }

  /** The entries' assignments, in the order they appear. */
  function ApplyEntries(s: ShaderState, es: seq<StateEntry>): ShaderState
    decreases |es|
  {
    if |es| == 0 then s else ApplyEntries(Assign(s, es[0]), es[1..])
  }

  /** The value of the last entry of each kind, if any. */
  function LastBlend(es: seq<StateEntry>): Option<BlendState>
  {
    if |es| == 0 then None
    else if es[|es| - 1].BlendEntry? then Some(es[|es| - 1].blend)
    else LastBlend(es[..|es| - 1])
  }

  function LastCullMode(es: seq<StateEntry>): Option<CullMode>
  {
    if |es| == 0 then None
    else if es[|es| - 1].CullEntry? then Some(es[|es| - 1].cullMode)
    else LastCullMode(es[..|es| - 1])
  }

  function LastDepthCompare(es: seq<StateEntry>): Option<CompareFunction>
  {
    if |es| == 0 then None
    else if es[|es| - 1].DepthCompareEntry? then Some(es[|es| - 1].compare)
    else LastDepthCompare(es[..|es| - 1])
  }

  /** A State block sets each field to the value of its last entry and leaves fields without an
      entry at their default. */
  lemma {:induction false} LastEntryWins(s: ShaderState, es: seq<StateEntry>)
    ensures ApplyEntries(s, es).blend == LastBlend(es).GetOr(s.blend)
    ensures ApplyEntries(s, es).cullMode == LastCullMode(es).GetOr(s.cullMode)
    ensures ApplyEntries(s, es).depthCompareFunction == LastDepthCompare(es).GetOr(s.depthCompareFunction)
    decreases |es|
  {
    if |es| > 0 {
      var s1 := Assign(s, es[0]);
      LastEntryWins(s1, es[1..]);
      LastOfCons(es);
    }
  }

  /** The last entry of a kind in `e :: rest` is the last one in `rest`, or `e` when `rest` has none. */
  lemma {:induction false} LastOfCons(es: seq<StateEntry>)
    requires |es| > 0
    ensures LastBlend(es) == (if LastBlend(es[1..]).Some? then LastBlend(es[1..]) else if es[0].BlendEntry? then Some(es[0].blend) else None)
    ensures LastCullMode(es) == (if LastCullMode(es[1..]).Some? then LastCullMode(es[1..]) else if es[0].CullEntry? then Some(es[0].cullMode) else None)
    ensures LastDepthCompare(es) == (if LastDepthCompare(es[1..]).Some? then LastDepthCompare(es[1..]) else if es[0].DepthCompareEntry? then Some(es[0].compare) else None)
    decreases |es|
  {
    if |es| > 1 {
      LastOfCons(es[..|es| - 1]);
      assert es[..|es| - 1][1..] == es[1..][..|es[1..]| - 1];
    } else {
      assert es[..|es| - 1] == [] && es[1..] == [];
    }
  }

  //- Value conversions

  /** The text of a token. */
  function Word(lx: LexerState, t: Token): string
    requires t.Within(lx.text)
  {
    t.Text(lx.text)
  }

  /** `FromString<BlendMode>` of a `Value_BlendMode` token: the factor the token names. */
  function BlendFactorOfToken(text: string, t: Token): (f: BlendFactor)
    requires t.Within(text) && t.kind == ValueBlendMode && KindMatchesText(text, t)
    ensures EnumUtils.BlendFactorToString(f) == t.Text(text)
  {
    ValueKeywordsAreEnumNames(t.Text(text));
    EnumUtils.BlendFactorNameRoundTrip(t.Text(text));
    EnumUtils.BlendFactorFromString(t.Text(text)).value
  }

  /** `FromString<DepthCompareFunction>` of a `Value_DepthCompareFunction` token. */
  function CompareFunctionOfToken(text: string, t: Token): (f: CompareFunction)
    requires t.Within(text) && t.kind == ValueDepthCompareFunction && KindMatchesText(text, t)
    ensures EnumUtils.CompareFunctionToString(f) == t.Text(text)
  {
    ValueKeywordsAreEnumNames(t.Text(text));
    EnumUtils.CompareFunctionNameRoundTrip(t.Text(text));
    EnumUtils.CompareFunctionFromString(t.Text(text)).value
  }

  /** `FromString<CullMode>` of a `Value_CullMode` or `Value_Off` token: never the fall-back, the
      mode is the one the token names. */
  function CullModeOfToken(text: string, t: Token): (c: CullMode)
    requires t.Within(text) && (t.kind == ValueCullMode || t.kind == ValueOff) && KindMatchesText(text, t)
    ensures EnumUtils.CullModeToString(c) == t.Text(text)
  {
    ValueKeywordsAreEnumNames(t.Text(text));
    EnumUtils.CullModeFromString(t.Text(text))
  }

  //- Lexer state through the parse

  /** A lexer that has been read from since `lx`: same text, valid, and not further from the end. */
  predicate Follows(after: LexerState, lx: LexerState)
    requires lx.Valid()
  {
    after.Valid() && after.text == lx.text && Remaining(after) < Remaining(lx)
  }

  //- State block

  /** One blend factor token. */
  function ParseBlendFactor(lx: LexerState): (r: Parsed<BlendFactor>)
    requires lx.Valid()
    ensures r.Ok? ==> Follows(r.value.1, lx) && r.value.1.peeked == None
    ensures r.Ok? <==> NextToken(lx).Ok? && NextToken(lx).value.0.kind == ValueBlendMode
    ensures r.Ok? ==> r.value.1 == NextToken(lx).value.1
    ensures r.Ok? ==> EnumUtils.BlendFactorToString(r.value.0) == Word(lx, NextToken(lx).value.0)
  {
    var (t, next) :- ExpectToken(lx, ValueBlendMode);
    Ok((BlendFactorOfToken(lx.text, t), next))
  }

  /** `ParseBlendStateValue`: two colour factors, then, after a comma, two alpha factors; without
      the comma the alpha factors are the colour factors and the token after them stays peeked. */
  function ParseBlendStateValue(lx: LexerState): (r: Parsed<BlendState>)
    requires lx.Valid()
    ensures r.Ok? ==> Follows(r.value.1, lx)
    ensures r.Ok? ==> ParseBlendFactor(lx).Ok? && r.value.0.colorSrc == ParseBlendFactor(lx).value.0
    ensures r.Ok? ==> var lx1 := ParseBlendFactor(lx).value.1;
              ParseBlendFactor(lx1).Ok? && r.value.0.colorDst == ParseBlendFactor(lx1).value.0
    ensures r.Ok? ==> var lx2 := ParseBlendFactor(ParseBlendFactor(lx).value.1).value.1;
              NextToken(lx2).Ok? &&
              (NextToken(lx2).value.0.kind != Comma ==>
                 r.value.0.alphaSrc == r.value.0.colorSrc && r.value.0.alphaDst == r.value.0.colorDst)
    ensures r.Ok? ==> var lx2 := ParseBlendFactor(ParseBlendFactor(lx).value.1).value.1;
              NextToken(lx2).Ok? && NextToken(lx2).value.0.kind == Comma ==>
                var lx3 := NextToken(lx2).value.1;
                ParseBlendFactor(lx3).Ok? && r.value.0.alphaSrc == ParseBlendFactor(lx3).value.0
                && ParseBlendFactor(ParseBlendFactor(lx3).value.1).Ok?
                && r.value.0.alphaDst == ParseBlendFactor(ParseBlendFactor(lx3).value.1).value.0
  {
    var (colorSrc, lx1) :- ParseBlendFactor(lx);
    var (colorDst, lx2) :- ParseBlendFactor(lx1);
    var (next, lx3) :- PeekNextToken(lx2);
    if next.kind == Comma then
      var (alphaSrc, lx4) :- ParseBlendFactor(Advance(lx3));
      var (alphaDst, lx5) :- ParseBlendFactor(lx4);
      Ok((BlendState(colorSrc, colorDst, alphaSrc, alphaDst), lx5))
    else
      Ok((BlendState(colorSrc, colorDst, colorSrc, colorDst), lx3))
  }

  /** `ParseCullModeValue`: a cull mode name or `Off`. */
  function ParseCullModeValue(lx: LexerState): (r: Parsed<CullMode>)
    requires lx.Valid()
    ensures r.Ok? ==> Follows(r.value.1, lx) && r.value.1.peeked == None
    ensures r.Ok? <==> NextToken(lx).Ok? && NextToken(lx).value.0.kind in {ValueCullMode, ValueOff}
    ensures r.Ok? ==> r.value.1 == NextToken(lx).value.1
    ensures r.Ok? ==> EnumUtils.CullModeToString(r.value.0) == Word(lx, NextToken(lx).value.0)
  {
    var (t, next) :- ExpectEither(lx, ValueCullMode, ValueOff);
    Ok((CullModeOfToken(lx.text, t), next))
  }

  /** `ParseDepthCompareFunctionValue`: a compare function name. */
  function ParseDepthCompareFunctionValue(lx: LexerState): (r: Parsed<CompareFunction>)
    requires lx.Valid()
    ensures r.Ok? ==> Follows(r.value.1, lx) && r.value.1.peeked == None
    ensures r.Ok? <==> NextToken(lx).Ok? && NextToken(lx).value.0.kind == ValueDepthCompareFunction
    ensures r.Ok? ==> r.value.1 == NextToken(lx).value.1
    ensures r.Ok? ==> EnumUtils.CompareFunctionToString(r.value.0) == Word(lx, NextToken(lx).value.0)
  {
    var (t, next) :- ExpectToken(lx, ValueDepthCompareFunction);
    Ok((CompareFunctionOfToken(lx.text, t), next))
  }

  /** The value after a State key: the `case` of the `switch` that the key selects. */
  function ParseStateValue(lx: LexerState, key: TokenType): (r: Parsed<StateEntry>)
    requires lx.Valid() && key in {Blend, Cull, DepthCompareFunction}
    ensures r.Ok? ==> Follows(r.value.1, lx)
    ensures r.Ok? ==> (r.value.0.BlendEntry? <==> key == Blend) && (r.value.0.CullEntry? <==> key == Cull)
    ensures key == Blend ==> (r.Ok? <==> ParseBlendStateValue(lx).Ok?)
    ensures key == Blend && r.Ok? ==>
              r.value == (BlendEntry(ParseBlendStateValue(lx).value.0), ParseBlendStateValue(lx).value.1)
    ensures key == Cull ==> (r.Ok? <==> ParseCullModeValue(lx).Ok?)
    ensures key == Cull && r.Ok? ==>
              r.value == (CullEntry(ParseCullModeValue(lx).value.0), ParseCullModeValue(lx).value.1)
    ensures key == DepthCompareFunction ==> (r.Ok? <==> ParseDepthCompareFunctionValue(lx).Ok?)
    ensures key == DepthCompareFunction && r.Ok? ==>
              r.value == (DepthCompareEntry(ParseDepthCompareFunctionValue(lx).value.0),
                          ParseDepthCompareFunctionValue(lx).value.1)
  {
    if key == Blend then
      var (b, next) :- ParseBlendStateValue(lx);
      Ok((BlendEntry(b), next))
    else if key == Cull then
      var (c, next) :- ParseCullModeValue(lx);
      Ok((CullEntry(c), next))
    else
      var (f, next) :- ParseDepthCompareFunctionValue(lx);
      Ok((DepthCompareEntry(f), next))
  }

  /** The entries of a State block up to its closing brace, in the order they appear. Any other
      token, including the end of the file, is unexpected. */
  function ParseStateEntries(lx: LexerState): (r: Parsed<seq<StateEntry>>)
    requires lx.Valid()
    ensures r.Ok? ==> Follows(r.value.1, lx) && r.value.1.peeked == None
    ensures r.Ok? ==> NextToken(lx).Ok? && NextToken(lx).value.0.kind in {CloseBrace, Blend, Cull, DepthCompareFunction}
    ensures r.Ok? ==> (r.value.0 == [] <==> NextToken(lx).value.0.kind == CloseBrace)
    ensures r.Ok? && r.value.0 != [] ==> KeyOf(r.value.0[0]) == NextToken(lx).value.0.kind
    ensures r.Ok? && r.value.0 != [] ==>
              var value := ParseStateValue(NextToken(lx).value.1, NextToken(lx).value.0.kind);
              && value.Ok? && r.value.0[0] == value.value.0
              && ParseStateEntries(value.value.1) == Ok((r.value.0[1..], r.value.1))
    decreases Remaining(lx)
  {
    var next := NextToken(lx);
    if next.Err? then Err(next.error)
    else
      var (t, lx1) := next.value;
      if t.kind == CloseBrace then
        Ok(([], lx1))
      else if t.kind in {Blend, Cull, DepthCompareFunction} then
        var value := ParseStateValue(lx1, t.kind);
        if value.Err? then Err(value.error)
        else
          var (e, lx2) := value.value;
          var rest := ParseStateEntries(lx2);
          if rest.Err? then Err(rest.error)
          else Ok(([e] + rest.value.0, rest.value.1))
      else
        Err(Raised(UnexpectedToken(lx.text, t)))
  }

  /** The key that selects an entry's `case`. */
  function KeyOf(e: StateEntry): TokenType
  {
    match e
    case BlendEntry(_) => Blend
    case CullEntry(_) => Cull
    case DepthCompareEntry(_) => DepthCompareFunction
  }

  /** A State block ends at a `}`; any token other than a `}` or a key is rejected. */
  lemma StateEntriesEndOrReject(lx: LexerState)
    requires lx.Valid() && NextToken(lx).Ok?
    ensures NextToken(lx).value.0.kind == CloseBrace ==> ParseStateEntries(lx) == Ok(([], NextToken(lx).value.1))
    ensures NextToken(lx).value.0.kind !in {CloseBrace, Blend, Cull, DepthCompareFunction} ==>
              ParseStateEntries(lx) == Err(Raised(UnexpectedToken(lx.text, NextToken(lx).value.0)))
  {
  }

  /** `ParseShaderState`: `{`, entries, `}`, applied in order to `ShaderState::Default()`. */
  function ParseShaderState(lx: LexerState): (r: Parsed<ShaderState>)
    requires lx.Valid()
    ensures r.Ok? ==> Follows(r.value.1, lx) && r.value.1.peeked == None
    ensures r.Ok? <==> ExpectToken(lx, OpenBrace).Ok? && ParseStateEntries(ExpectToken(lx, OpenBrace).value.1).Ok?
    ensures r.Ok? ==> r.value.0 == ApplyEntries(DefaultShaderState, ParseStateEntries(ExpectToken(lx, OpenBrace).value.1).value.0)
  {
    var (_, lx1) :- ExpectToken(lx, OpenBrace);
    var (es, lx2) :- ParseStateEntries(lx1);
    Ok((ApplyEntries(DefaultShaderState, es), lx2))
  }

  /** An unterminated State block is reported with the name the token-type table gives the end of
      the file, which is `{`. */
  lemma UnterminatedStateBlockReportsBrace(lx: LexerState)
    requires lx.Valid() && NextToken(lx).Ok? && NextToken(lx).value.0.kind == EndOfFile
    ensures ParseStateEntries(lx).Err?
    ensures ParseStateEntries(lx).error.error.message
            == "Unexpected '{'" + PositionSuffix(NextToken(lx).value.0)
  {
    var t := NextToken(lx).value.0;
    assert t.kind !in {CloseBrace, Blend, Cull, DepthCompareFunction};
    StateEntriesEndOrReject(lx);
    assert UnexpectedToken(lx.text, t) == MakeFormattedError(t, "Unexpected '{'");
  }

  //- Shader stages

  /** How a token changes the number of open braces. */
  function BraceDelta(t: Token): int
  {
    if t.kind == OpenBrace then 1 else if t.kind == CloseBrace then -1 else 0
  }

  /** The change in the number of open braces over a run of tokens. */
  function BraceDepth(ts: seq<Token>): int
    decreases |ts|
  {
    if |ts| == 0 then 0 else BraceDelta(ts[0]) + BraceDepth(ts[1..])
  }

  /** `ts` are one or more tokens `NextToken` hands out one after the other from `lx`, which
      leaves it at `after`. */
  predicate Reads(lx: LexerState, ts: seq<Token>, after: LexerState)
    requires lx.Valid()
    decreases |ts|
  {
    && |ts| > 0 && NextToken(lx).Ok? && NextToken(lx).value.0 == ts[0]
    && if |ts| == 1 then NextToken(lx).value.1 == after else Reads(NextToken(lx).value.1, ts[1..], after)
  }

  /** A stage body read with `open` braces open: no end of file, the count of open braces stays
      positive before the last token, and the last token brings it to zero. */
  predicate BalancedRun(ts: seq<Token>, open: nat) {
    && |ts| > 0
    && (forall k :: 0 <= k < |ts| ==> ts[k].kind != EndOfFile)
    && (forall k :: 0 < k < |ts| ==> open + BraceDepth(ts[..k]) > 0)
    && open + BraceDepth(ts) == 0
  }

  /** A token in front of a balanced run that leaves a brace open is a balanced run from one
      brace count earlier. */
  lemma BalancedCons(t: Token, ts: seq<Token>, open: nat)
    requires t.kind != EndOfFile && open + BraceDelta(t) >= 1
    requires BalancedRun(ts, open + BraceDelta(t))
    ensures BalancedRun([t] + ts, open)
  {
    var us := [t] + ts;
    assert us[1..] == ts;
    forall k | 0 < k < |us|
      ensures open + BraceDepth(us[..k]) > 0
    {
      assert us[..k][1..] == ts[..k - 1];
      if k == 1 {
        assert ts[..0] == [];
      }
    }
  }

  /** The tail of a balanced run whose first token leaves a brace open is a balanced run. */
  lemma BalancedTail(ts: seq<Token>, open: nat)
    requires |ts| > 1
    ensures BalancedRun(ts, open) ==> open + BraceDelta(ts[0]) >= 1
    ensures BalancedRun(ts, open) ==> BalancedRun(ts[1..], open + BraceDelta(ts[0]))
  {
    if BalancedRun(ts, open) {
      assert ts[..1][1..] == [];
      assert open + BraceDepth(ts[..1]) > 0;
      var rest := ts[1..];
      forall k | 0 < k < |rest|
        ensures open + BraceDelta(ts[0]) + BraceDepth(rest[..k]) > 0
      {
        assert ts[..k + 1][1..] == rest[..k];
        assert open + BraceDepth(ts[..k + 1]) > 0;
      }
    }
  }

  /** A balanced run is a single token exactly when its first token closes the last open brace. */
  lemma BalancedRunEnds(ts: seq<Token>, open: nat)
    requires BalancedRun(ts, open)
    ensures |ts| == 1 <==> open + BraceDelta(ts[0]) == 0
  {
    if |ts| == 1 {
      assert ts[1..] == [];
      assert BraceDepth(ts) == BraceDelta(ts[0]) + BraceDepth([]);
    } else {
      BalancedTail(ts, open);
    }
  }

  /** Two balanced runs that start with the same token both end there or both go on, as
      balanced runs from the same brace count. */
  lemma BalancedRunsAgree(ts1: seq<Token>, ts2: seq<Token>, open: nat)
    requires BalancedRun(ts1, open) && BalancedRun(ts2, open) && ts1[0] == ts2[0]
    ensures |ts1| == 1 <==> |ts2| == 1
    ensures |ts1| > 1 ==>
              && open + BraceDelta(ts1[0]) >= 1
              && BalancedRun(ts1[1..], open + BraceDelta(ts1[0]))
              && BalancedRun(ts2[1..], open + BraceDelta(ts1[0]))
  {
    BalancedRunEnds(ts1, open);
    BalancedRunEnds(ts2, open);
    if |ts1| > 1 {
      BalancedTail(ts1, open);
      BalancedTail(ts2, open);
    }
  }

  /** At most one balanced run follows a lexer state: the tokens are determined by the text. */
  lemma {:induction false} BalancedRunUnique(lx: LexerState, open: nat, ts1: seq<Token>, after1: LexerState,
                                             ts2: seq<Token>, after2: LexerState)
    requires lx.Valid()
    requires Reads(lx, ts1, after1) && BalancedRun(ts1, open)
    requires Reads(lx, ts2, after2) && BalancedRun(ts2, open)
    ensures ts1 == ts2 && after1 == after2
    decreases |ts1|
  {
    var t := NextToken(lx).value.0;
    var lx1 := NextToken(lx).value.1;
    assert ts1[0] == t && ts2[0] == t;
    BalancedRunsAgree(ts1, ts2, open);
    if |ts1| == 1 {
      assert ts1 == [t] == ts2;
    } else {
      assert Reads(lx1, ts1[1..], after1) && Reads(lx1, ts2[1..], after2);
      BalancedRunUnique(lx1, open + BraceDelta(t), ts1[1..], after1, ts2[1..], after2);
      assert ts1 == [t] + ts1[1..];
      assert ts2 == [t] + ts2[1..];
    }
  }

  /** The tokens of a stage body after its opening brace, up to and including the brace that
      closes it; `open` is the number of braces still open, counted as in
      `ParseShaderStage`'s loop. The tokens returned are the ones the lexer hands out, and they
      form a balanced run: the returned `}` is the first at which the count reaches zero. The
      end of the file is an error. */
  function MatchBraces(lx: LexerState, open: nat): (r: Parsed<seq<Token>>)
    requires lx.Valid() && lx.peeked == None && open >= 1
    ensures r.Ok? ==> Follows(r.value.1, lx) && r.value.1.peeked == None
    ensures r.Ok? ==> Reads(lx, r.value.0, r.value.1) && BalancedRun(r.value.0, open)
    ensures NextToken(lx).Ok? && NextToken(lx).value.0.kind == EndOfFile ==>
              r == Err(Raised(UnexpectedEndOfFile(NextToken(lx).value.0)))
    decreases Remaining(lx)
  {
    var next := NextToken(lx);
    if next.Err? then Err(next.error)
    else
      var t := next.value.0;
      var lx1 := next.value.1;
      if t.kind == EndOfFile then Err(Raised(UnexpectedEndOfFile(t)))
      else if open + BraceDelta(t) == 0 then
        Ok(([t], lx1))
      else
        var rest := MatchBraces(lx1, open + BraceDelta(t));
        if rest.Err? then rest
        else
          BalancedCons(t, rest.value.0, open);
          assert ([t] + rest.value.0)[1..] == rest.value.0;
          Ok(([t] + rest.value.0, rest.value.1))
  }

  /** A stage body `MatchBraces` returns is the balanced run that follows `lx`: any balanced run
      the lexer hands out from there is that one, so the `}` it ends with is the one that
      brings the count to zero, and no other. */
  lemma MatchBracesReturnsTheBalancedRun(lx: LexerState, open: nat, ts: seq<Token>, after: LexerState)
    requires lx.Valid() && lx.peeked == None && open >= 1
    requires Reads(lx, ts, after) && BalancedRun(ts, open)
    ensures MatchBraces(lx, open).Ok? ==> MatchBraces(lx, open) == Ok((ts, after))
  {
    var r := MatchBraces(lx, open);
    if r.Ok? {
      BalancedRunUnique(lx, open, r.value.0, r.value.1, ts, after);
    }
  }

  /** The change in the number of open braces up to the last token, and then by it. */
  lemma {:induction false} BraceDepthSnoc(ts: seq<Token>)
    requires |ts| > 0
    ensures BraceDepth(ts) == BraceDepth(ts[..|ts| - 1]) + BraceDelta(ts[|ts| - 1])
    decreases |ts|
  {
    if |ts| == 1 {
      assert ts[..0] == [] && ts[1..] == [];
    } else {
      BraceDepthSnoc(ts[1..]);
      assert ts[1..][..|ts| - 2] == ts[..|ts| - 1][1..];
    }
  }

  /** A balanced run ends with a `}`: the count is positive before its last token and zero after. */
  lemma BalancedRunEndsWithClose(ts: seq<Token>, open: nat)
    requires open >= 1 && BalancedRun(ts, open)
    ensures ts[|ts| - 1].kind == CloseBrace
  {
    BraceDepthSnoc(ts);
    if |ts| == 1 {
      assert ts[..0] == [];
    }
  }

  /** The last of the tokens read from `lx` is one the lexer hands out: it lies within the text
      and its kind agrees with its text. */
  lemma {:induction false} ReadsLastTokenFits(lx: LexerState, ts: seq<Token>, after: LexerState)
    requires lx.Valid() && lx.peeked == None && Reads(lx, ts, after) && |ts| > 0
    ensures ts[|ts| - 1].Within(lx.text) && KindMatchesText(lx.text, ts[|ts| - 1])
    decreases |ts|
  {
    if |ts| > 1 {
      var lx1 := NextToken(lx).value.1;
      assert Reads(lx1, ts[1..], after);
      ReadsLastTokenFits(lx1, ts[1..], after);
      assert ts[1..][|ts| - 2] == ts[|ts| - 1];
    }
  }

  /** The last of the tokens read from `lx` starts at or after its cursor. */
  lemma {:induction false} ReadsLastTokenAfterCursor(lx: LexerState, ts: seq<Token>, after: LexerState)
    requires lx.Valid() && lx.peeked == None && Reads(lx, ts, after) && |ts| > 0
    ensures lx.cursor.pos <= ts[|ts| - 1].start
    decreases |ts|
  {
    if |ts| > 1 {
      var lx1 := NextToken(lx).value.1;
      assert Reads(lx1, ts[1..], after);
      ReadsLastTokenAfterCursor(lx1, ts[1..], after);
      assert ts[1..][|ts| - 2] == ts[|ts| - 1];
    }
  }

  /** When the last of the tokens read from `lx` is punctuation, the lexer stops right behind it. */
  lemma {:induction false} ReadsLastPunctuationEnds(lx: LexerState, ts: seq<Token>, after: LexerState)
    requires lx.Valid() && lx.peeked == None && Reads(lx, ts, after) && |ts| > 0
    ensures IsPunctuation(ts[|ts| - 1].kind) ==> after.cursor.pos == ts[|ts| - 1].end
    decreases |ts|
  {
    if |ts| > 1 {
      var lx1 := NextToken(lx).value.1;
      assert Reads(lx1, ts[1..], after);
      ReadsLastPunctuationEnds(lx1, ts[1..], after);
      assert ts[1..][|ts| - 2] == ts[|ts| - 1];
    }
  }

  /** A balanced run the lexer reads ends with a `}` of the text after the cursor, right in front
      of where the lexer stops. */
  lemma BalancedRunReadCloses(lx: LexerState, ts: seq<Token>, after: LexerState, open: nat)
    requires lx.Valid() && lx.peeked == None && Reads(lx, ts, after)
    requires open >= 1 && BalancedRun(ts, open)
    ensures ClosingBrace(lx, ts[|ts| - 1], after)
  {
    BalancedRunEndsWithClose(ts, open);
    ReadsLastTokenFits(lx, ts, after);
    ReadsLastTokenAfterCursor(lx, ts, after);
    ReadsLastPunctuationEnds(lx, ts, after);
  }

  /** The `{` that `ExpectToken` reads is one character of the text after the cursor, and the
      lexer resumes at or behind it. */
  lemma ExpectedOpenBrace(lx: LexerState)
    requires lx.Valid() && lx.peeked == None && ExpectToken(lx, OpenBrace).Ok?
    ensures OpeningBrace(lx, ExpectToken(lx, OpenBrace).value.0, ExpectToken(lx, OpenBrace).value.1)
  {
  }

  /** `open` is a `{` read from `lx`'s text at or after its cursor, and `after` resumes at or behind it. */
  predicate OpeningBrace(lx: LexerState, open: Token, after: LexerState) {
    && open.Within(lx.text) && lx.cursor.pos <= open.start
    && open.end == open.start + 1 && lx.text[open.start] == '{'
    && after.text == lx.text && open.end <= after.cursor.pos
  }

  /** A `{` read from `lx` and a `}` read after it enclose the text between them. */
  lemma BracesEnclose(lx: LexerState, open: Token, lx1: LexerState, close: Token, after: LexerState)
    requires OpeningBrace(lx, open, lx1) && ClosingBrace(lx1, close, after)
    ensures lx.cursor.pos <= open.start < after.cursor.pos - 1 < |lx.text|
    ensures lx.text[open.start] == '{' && lx.text[after.cursor.pos - 1] == '}'
  {
  }

  /** `close` is a `}` read from `lx`'s text after its cursor, and `after` resumes right behind it. */
  predicate ClosingBrace(lx: LexerState, close: Token, after: LexerState) {
    && close.kind == CloseBrace && close.Within(lx.text)
    && lx.cursor.pos <= close.start && close.end == after.cursor.pos
    && close.end == close.start + 1 && lx.text[close.start] == '}'
  }

  /** `ParseShaderStage`: `{`, then everything up to the matching `}`; the source is the text
      strictly between the two braces, and the lexer resumes where `MatchBraces` stops
      (`StageBodyIsBalancedRun`, `StageBracesAround`). */
  function ParseShaderStage(lx: LexerState): (r: Parsed<string>)
    requires lx.Valid() && lx.peeked == None
    ensures r.Ok? ==> Follows(r.value.1, lx) && r.value.1.peeked == None
    ensures r.Ok? ==> ExpectToken(lx, OpenBrace).Ok? && MatchBraces(ExpectToken(lx, OpenBrace).value.1, 1).Ok?
    ensures r.Ok? ==> r.value.1 == MatchBraces(ExpectToken(lx, OpenBrace).value.1, 1).value.1
    ensures r.Ok? ==>
              var a := ExpectToken(lx, OpenBrace).value.0.start + 1;
              var b := r.value.1.cursor.pos - 1;
              a <= b <= |lx.text| && r.value.0 == lx.text[a..b]
  {
    var expected := ExpectToken(lx, OpenBrace);
    if expected.Err? then Err(expected.error)
    else
      ExpectedOpenBrace(lx);
      StageAfterBrace(lx, expected.value.0, expected.value.1)
  }

  /** The part of `ParseShaderStage` after its `{` has been read from `lx`: the braces must
      match, and the source runs from behind the `{` to before the `}` that closes it. */
  function StageAfterBrace(lx: LexerState, open: Token, lx1: LexerState): (r: Parsed<string>)
    requires lx.Valid() && lx.peeked == None && lx1.Valid() && lx1.peeked == None
    requires OpeningBrace(lx, open, lx1)
    ensures r.Ok? <==> MatchBraces(lx1, 1).Ok?
    ensures r.Ok? ==> r.value.1 == MatchBraces(lx1, 1).value.1
    ensures r.Ok? ==>
              var a := open.start + 1;
              var b := r.value.1.cursor.pos - 1;
              a <= b <= |lx.text| && r.value.0 == lx.text[a..b]
  {
    var matched := MatchBraces(lx1, 1);
    if matched.Err? then Err(matched.error)
    else
      StageBracesAround(lx, open, lx1, matched.value.0, matched.value.1);
      Ok((lx.text[open.start + 1..matched.value.1.cursor.pos - 1], matched.value.1))
  }

  /** The body of a stage is the balanced run of tokens the lexer reads after its `{`, and the
      lexer resumes where that run ends, so right behind its `}` (`BalancedRunReadCloses`). */
  lemma StageBodyIsBalancedRun(lx: LexerState)
    requires lx.Valid() && lx.peeked == None && ParseShaderStage(lx).Ok?
    ensures ExpectToken(lx, OpenBrace).Ok? && MatchBraces(ExpectToken(lx, OpenBrace).value.1, 1).Ok?
    ensures var lx1 := ExpectToken(lx, OpenBrace).value.1;
            var body := MatchBraces(lx1, 1).value.0;
            Reads(lx1, body, ParseShaderStage(lx).value.1) && BalancedRun(body, 1)
  {
  }

  /** After a `{` read from `lx`, the run `MatchBraces` returns ends at a `}` of the same text,
      later than the `{`, and the lexer resumes right behind that `}`. */
  lemma StageBracesAround(lx: LexerState, open: Token, lx1: LexerState, body: seq<Token>, after: LexerState)
    requires lx.Valid() && lx1.Valid() && lx1.peeked == None
    requires OpeningBrace(lx, open, lx1) && MatchBraces(lx1, 1) == Ok((body, after))
    ensures lx.cursor.pos <= open.start < after.cursor.pos - 1 < |lx.text|
    ensures lx.text[open.start] == '{' && lx.text[after.cursor.pos - 1] == '}'
  {
    BalancedRunReadCloses(lx1, body, after, 1);
    BracesEnclose(lx, open, lx1, body[|body| - 1], after);
  }

  /** A stage parses exactly when a `{` comes next and the braces after it match. */
  lemma StageParsesIffBracesMatch(lx: LexerState)
    requires lx.Valid() && lx.peeked == None
    ensures ParseShaderStage(lx).Ok? <==>
              ExpectToken(lx, OpenBrace).Ok? && MatchBraces(ExpectToken(lx, OpenBrace).value.1, 1).Ok?
  {
  }

  //- Shader body

  /** The blocks found so far in a shader body. */
  datatype Blocks = Blocks(state: Option<ShaderState>, vertex: Option<string>, fragment: Option<string>)

  /** The loop of `ParseShaderBody`: blocks until the closing brace. A block kind found a second
      time is an error, so a block once found is never replaced. */
  function ParseBodyItems(lx: LexerState, found: Blocks): (r: Parsed<Blocks>)
    requires lx.Valid() && lx.peeked == None
    ensures r.Ok? ==> Follows(r.value.1, lx) && r.value.1.peeked == None
    ensures r.Ok? ==> var b := r.value.0;
      && (found.state.Some? ==> b.state == found.state)
      && (found.vertex.Some? ==> b.vertex == found.vertex)
      && (found.fragment.Some? ==> b.fragment == found.fragment)
    decreases Remaining(lx)
  {
    var (t, lx1) :- NextToken(lx);
    if t.kind == CloseBrace then
      Ok((found, lx1))
    else if t.kind == EndOfFile then
      Err(Raised(UnexpectedEndOfFile(t)))
    else if t.kind == State then
      if found.state.Some? then Err(Raised(ShaderParserError("Found more than one State block")))
      else
        var (s, lx2) :- ParseShaderState(lx1);
        ParseBodyItems(lx2, found.(state := Some(s)))
    else if t.kind == Vertex then
      if found.vertex.Some? then Err(Raised(ShaderParserError("Found more than one Vertex shader stage")))
      else
        var (v, lx2) :- ParseShaderStage(lx1);
        ParseBodyItems(lx2, found.(vertex := Some(v)))
    else if t.kind == Fragment then
      if found.fragment.Some? then Err(Raised(ShaderParserError("Found more than one Fragment shader stage")))
      else
        var (f, lx2) :- ParseShaderStage(lx1);
        ParseBodyItems(lx2, found.(fragment := Some(f)))
    else
      Err(Raised(UnexpectedToken(lx.text, t)))
  }

  /** The body ends at a `}`; the end of the file and a block kind found a second time are errors. */
  lemma BodyItemsStopOrReject(lx: LexerState, found: Blocks)
    requires lx.Valid() && lx.peeked == None && NextToken(lx).Ok?
    ensures var (t, after) := NextToken(lx).value;
      && (t.kind == CloseBrace ==> ParseBodyItems(lx, found) == Ok((found, after)))
      && (t.kind == EndOfFile ==> ParseBodyItems(lx, found) == Err(Raised(UnexpectedEndOfFile(t))))
      && (t.kind == Vertex && found.vertex.Some? ==>
            ParseBodyItems(lx, found) == Err(Raised(ShaderParserError("Found more than one Vertex shader stage"))))
      && (t.kind == Fragment && found.fragment.Some? ==>
            ParseBodyItems(lx, found) == Err(Raised(ShaderParserError("Found more than one Fragment shader stage"))))
      && (t.kind == State && found.state.Some? ==>
            ParseBodyItems(lx, found) == Err(Raised(ShaderParserError("Found more than one State block"))))
      && (t.kind !in {CloseBrace, EndOfFile, State, Vertex, Fragment} ==>
            ParseBodyItems(lx, found) == Err(Raised(UnexpectedToken(lx.text, t))))
  {
    var t := NextToken(lx).value.0;
    if t.kind == CloseBrace {
    } else if t.kind == EndOfFile {
    } else if t.kind == State {
    } else if t.kind == Vertex {
    } else if t.kind == Fragment {
    }
  }

  /** A block kind not yet found is parsed by its own parser, whose failure ends the body; on
      success the loop goes on from behind the block with the block recorded, so a body that
      parses holds exactly that block's result. */
  lemma BodyItemsStoreNewBlocks(lx: LexerState, found: Blocks)
    requires lx.Valid() && lx.peeked == None && NextToken(lx).Ok?
    ensures NextToken(lx).value.0.kind == Vertex && found.vertex.None? ==>
              var stage := ParseShaderStage(NextToken(lx).value.1);
              && (stage.Err? ==> ParseBodyItems(lx, found) == Err(stage.error))
              && (stage.Ok? ==> ParseBodyItems(lx, found) == ParseBodyItems(stage.value.1, found.(vertex := Some(stage.value.0))))
              && (ParseBodyItems(lx, found).Ok? ==> stage.Ok? && ParseBodyItems(lx, found).value.0.vertex == Some(stage.value.0))
    ensures NextToken(lx).value.0.kind == Fragment && found.fragment.None? ==>
              var stage := ParseShaderStage(NextToken(lx).value.1);
              && (stage.Err? ==> ParseBodyItems(lx, found) == Err(stage.error))
              && (stage.Ok? ==> ParseBodyItems(lx, found) == ParseBodyItems(stage.value.1, found.(fragment := Some(stage.value.0))))
              && (ParseBodyItems(lx, found).Ok? ==> stage.Ok? && ParseBodyItems(lx, found).value.0.fragment == Some(stage.value.0))
    ensures NextToken(lx).value.0.kind == State && found.state.None? ==>
              var state := ParseShaderState(NextToken(lx).value.1);
              && (state.Err? ==> ParseBodyItems(lx, found) == Err(state.error))
              && (state.Ok? ==> ParseBodyItems(lx, found) == ParseBodyItems(state.value.1, found.(state := Some(state.value.0))))
              && (ParseBodyItems(lx, found).Ok? ==> state.Ok? && ParseBodyItems(lx, found).value.0.state == Some(state.value.0))
  {
  }

  /** `ParseShaderBody`: `{`, blocks, `}`; both stages must be present, the vertex stage being
      checked first. */
  function ParseShaderBody(lx: LexerState): (r: Parsed<Blocks>)
    requires lx.Valid() && lx.peeked == None
    ensures r.Ok? ==> Follows(r.value.1, lx) && r.value.1.peeked == None
    ensures r.Ok? ==> r.value.0.vertex.Some? && r.value.0.fragment.Some?
    ensures ExpectToken(lx, OpenBrace).Ok? && ParseBodyItems(ExpectToken(lx, OpenBrace).value.1, Blocks(None, None, None)).Ok? ==>
              var b := ParseBodyItems(ExpectToken(lx, OpenBrace).value.1, Blocks(None, None, None)).value.0;
              && (b.vertex.None? ==> r == Err(Raised(ShaderParserError("Vertex shader stage was not defined"))))
              && (b.vertex.Some? && b.fragment.None? ==> r == Err(Raised(ShaderParserError("Fragment shader stage was not defined"))))
  {
    var (_, lx1) :- ExpectToken(lx, OpenBrace);
    var (found, lx2) :- ParseBodyItems(lx1, Blocks(None, None, None));
    if found.vertex.None? then Err(Raised(ShaderParserError("Vertex shader stage was not defined")))
    else if found.fragment.None? then Err(Raised(ShaderParserError("Fragment shader stage was not defined")))
    else Ok((found, lx2))
  }

  /** `ParseShaderName`: the keyword `Shader`, then a string (or number) token whose text is the name. */
  function ParseShaderName(lx: LexerState): (r: Parsed<string>)
    requires lx.Valid()
    ensures r.Ok? ==> Follows(r.value.1, lx) && r.value.1.peeked == None
    ensures r.Ok? <==> NextToken(lx).Ok? && NextToken(lx).value.0.kind == Shader
                       && NextToken(NextToken(lx).value.1).Ok?
                       && NextToken(NextToken(lx).value.1).value.0.kind == ValueString
    ensures r.Ok? ==> r.value.0 == Word(lx, NextToken(NextToken(lx).value.1).value.0)
  {
    var (_, lx1) :- ExpectToken(lx, Shader);
    var (name, lx2) :- ExpectToken(lx1, ValueString);
    Ok((Word(lx, name), lx2))
  }

  /** `Parse`: name, body, then the end of the file. A description without a State block keeps
      the description's unset state. */
  function Parse(source: string): (r: Result<ParsedShader, Failure>)
    ensures r.Ok? ==> ParseShaderName(NewLexer(source)).Ok? && r.value.name == ParseShaderName(NewLexer(source)).value.0
    ensures r.Ok? ==> var lx1 := ParseShaderName(NewLexer(source)).value.1;
      && ParseShaderBody(lx1).Ok?
      && var b := ParseShaderBody(lx1).value.0;
      && r.value.state == b.state.GetOr(UnsetShaderState)
      && Some(r.value.vertexSource) == b.vertex && Some(r.value.fragmentSource) == b.fragment
      && NextToken(ParseShaderBody(lx1).value.1).Ok?
      && NextToken(ParseShaderBody(lx1).value.1).value.0.kind == EndOfFile
  {
    var (name, lx1) :- ParseShaderName(NewLexer(source));
    var (found, lx2) :- ParseShaderBody(lx1);
    var (_, _) :- ExpectToken(lx2, EndOfFile);
    Ok(ParsedShader(name, found.state.GetOr(UnsetShaderState), found.vertex.value, found.fragment.value))
  }
}

=== FILE: shader_parser_utils.dfy ===
/** Error values of the shader parser (ShaderParserError.hpp, ShaderParserUtils.cpp).
    Every message built by `MakeError` is the specific text followed by the received token's
    position, `"\nLine: <line>\nColumn: <column>"`, with both numbers in decimal. */
module ShaderParserUtils {
  import opened Tokens
  import EnumUtils

  /** `ShaderParserError`, the exception every parse failure throws. */
  datatype ShaderParserError = ShaderParserError(message: string)

  /** How reading a shader description can fail: a thrown `ShaderParserError`, or one of two
      kinds of undefined behaviour in the engine, reported here instead of being guessed at: the
      scanner stepping past the string's terminating '\0' (with the offending read position), and
      a signed overflow of the `i32` accumulators of a number literal (with the literal's start). */
  datatype Failure = Raised(error: ShaderParserError) | ReadPastEnd(position: nat) | NumberOverflow(position: nat)

  //- Decimal rendering (`{:d}`)

  predicate IsDigit(c: char) {
    '0' <= c <= '9'
  }

  predicate AllDigits(s: string) {
    forall i :: 0 <= i < |s| ==> IsDigit(s[i])
  }

  function DigitChar(d: nat): (c: char)
    requires d < 10
    ensures IsDigit(c)
  {
    ['0', '1', '2', '3', '4', '5', '6', '7', '8', '9'][d]
  }

  function DigitValue(c: char): (d: nat)
    requires IsDigit(c)
    ensures d < 10
  {
    (c as int - '0' as int) as nat
  }

  /** The value a string of decimal digits denotes. */
  function DecimalValue(s: string): nat
    requires AllDigits(s)
  {
    if |s| == 0 then 0 else DecimalValue(s[..|s| - 1]) * 10 + DigitValue(s[|s| - 1])
  }

  /** The decimal rendering of a number: non-empty, digits only, no leading zero. */
  function Decimal(n: nat): (r: string)
    ensures |r| > 0 && AllDigits(r)
    ensures |r| > 1 ==> r[0] != '0'
    decreases n
  {
    if n < 10 then [DigitChar(n)] else Decimal(n / 10) + [DigitChar(n % 10)]
  }

  /** Reading a rendered number back gives the number. */
  lemma {:induction false} DecimalRoundTrip(n: nat)
    ensures DecimalValue(Decimal(n)) == n
    decreases n
  {
    var r := Decimal(n);
    if n < 10 {
      assert r == [DigitChar(n)];
      assert r[..0] == [];
    } else {
      DecimalRoundTrip(n / 10);
      assert r[..|r| - 1] == Decimal(n / 10);
      assert DigitValue(r[|r| - 1]) == n % 10;
    }
  }

  /** Distinct numbers render differently. */
  lemma DecimalInjective(a: nat, b: nat)
    requires Decimal(a) == Decimal(b)
    ensures a == b
  {
    DecimalRoundTrip(a);
    DecimalRoundTrip(b);
  }

  //- Messages

  /** The position suffix `MakeFormattedError` appends. */
  function PositionSuffix(token: Token): string
  {
    "\nLine: " + Decimal(token.line) + "\nColumn: " + Decimal(token.column)
  }

  /** `MakeFormattedError`: the message followed by the received token's line and column. */
  function MakeFormattedError(token: Token, message: string): (e: ShaderParserError)
    ensures |e.message| == |message| + |PositionSuffix(token)|
    ensures e.message[..|message|] == message
    ensures e.message[|message|..] == PositionSuffix(token)
  {
    ShaderParserError(message + PositionSuffix(token))
  }

  /** One-argument `MakeError::UnexpectedTokenType`: identifiers are quoted by their text,
      every other token by the name of its type. */
  function UnexpectedToken(text: string, token: Token): ShaderParserError
    requires token.Within(text)
  {
    if token.kind == Identifier then
      MakeFormattedError(token, "Unexpected Identifier '" + token.Text(text) + "'")
    else
      MakeFormattedError(token, "Unexpected '" + EnumUtils.TokenTypeToString(token.kind) + "'")
  }

  /** Two-argument `MakeError::UnexpectedTokenType`: `Expected '<expected>', got '<received>'`. */
  function UnexpectedTokenType(token: Token, expected: TokenType): ShaderParserError
  {
    MakeFormattedError(token,
      "Expected '" + EnumUtils.TokenTypeToString(expected) + "', got '"
      + EnumUtils.TokenTypeToString(token.kind) + "'")
  }

  /** Three-argument `MakeError::UnexpectedTokenType`: both expected types in argument order. */
  function UnexpectedTokenType2(token: Token, expected1: TokenType, expected2: TokenType): ShaderParserError
  {
    MakeFormattedError(token,
      "Expected '" + EnumUtils.TokenTypeToString(expected1) + "' or '"
      + EnumUtils.TokenTypeToString(expected2) + "', got '"
      + EnumUtils.TokenTypeToString(token.kind) + "'")
  }

  /** `MakeError::UnexpectedEndOfFile`. */
  function UnexpectedEndOfFile(token: Token): ShaderParserError
  {
    MakeFormattedError(token, "Unexpected end of file")
  }

  /** A message ends with the position of `token`. */
  predicate EndsWithPosition(e: ShaderParserError, token: Token) {
    |e.message| >= |PositionSuffix(token)| && e.message[|e.message| - |PositionSuffix(token)|..] == PositionSuffix(token)
  }

  /** Every error `MakeError` builds for a token ends with that token's position, and an
      identifier is quoted by its own text. */
  lemma ErrorsEndWithPosition(text: string, token: Token, expected1: TokenType, expected2: TokenType)
    requires token.Within(text)
    ensures EndsWithPosition(UnexpectedToken(text, token), token)
    ensures EndsWithPosition(UnexpectedTokenType(token, expected1), token)
    ensures EndsWithPosition(UnexpectedTokenType2(token, expected1, expected2), token)
    ensures EndsWithPosition(UnexpectedEndOfFile(token), token)
    ensures token.kind == Identifier ==>
              UnexpectedToken(text, token).message[..|"Unexpected Identifier '" + token.Text(text) + "'"|]
              == "Unexpected Identifier '" + token.Text(text) + "'"
  {
    FormattedEndsWithPosition(token, if token.kind == Identifier then "Unexpected Identifier '" + token.Text(text) + "'"
                                     else "Unexpected '" + EnumUtils.TokenTypeToString(token.kind) + "'");
    FormattedEndsWithPosition(token, "Expected '" + EnumUtils.TokenTypeToString(expected1) + "', got '"
                                     + EnumUtils.TokenTypeToString(token.kind) + "'");
    FormattedEndsWithPosition(token, "Expected '" + EnumUtils.TokenTypeToString(expected1) + "' or '"
                                     + EnumUtils.TokenTypeToString(expected2) + "', got '"
                                     + EnumUtils.TokenTypeToString(token.kind) + "'");
    FormattedEndsWithPosition(token, "Unexpected end of file");
  }

  /** A formatted message ends with the token's position. */
  lemma FormattedEndsWithPosition(token: Token, message: string)
    ensures EndsWithPosition(MakeFormattedError(token, message), token)
  {
    var e := MakeFormattedError(token, message);
    assert |e.message| - |PositionSuffix(token)| == |message|;
  }

  /** In a digit run followed by a newline, the first newline is the one after the digits. */
  lemma DigitsThenNewline(d: string, x: string)
    requires AllDigits(d)
    ensures (d + "\n" + x)[|d|] == '\n'
    ensures forall i :: 0 <= i < |d| ==> (d + "\n" + x)[i] != '\n'
  {
  }

  /** So a digit run followed by a newline splits only one way. */
  lemma DigitsThenNewlineSplitUniquely(d1: string, x1: string, d2: string, x2: string)
    requires AllDigits(d1) && AllDigits(d2)
    requires d1 + "\n" + x1 == d2 + "\n" + x2
    ensures d1 == d2 && x1 == x2
  {
    var s := d1 + "\n" + x1;
    DigitsThenNewline(d1, x1);
    DigitsThenNewline(d2, x2);
    assert |d1| == |d2|;
    assert d1 == s[..|d1|] == d2;
    assert x1 == s[|d1| + 1..] == x2;
  }

  /** The position suffix determines the position: a reader of any error message can recover the
      line and column of the token that caused it. */
  lemma PositionSuffixInjective(a: Token, b: Token)
    requires PositionSuffix(a) == PositionSuffix(b)
    ensures a.line == b.line && a.column == b.column
  {
    var la, lb := Decimal(a.line), Decimal(b.line);
    var ca, cb := Decimal(a.column), Decimal(b.column);
    SuffixShape(la, ca);
    SuffixShape(lb, cb);
    PrefixCancels("\nLine: ", la + "\n" + ("Column: " + ca), lb + "\n" + ("Column: " + cb));
    DigitsThenNewlineSplitUniquely(la, "Column: " + ca, lb, "Column: " + cb);
    PrefixCancels("Column: ", ca, cb);
    DecimalInjective(a.line, b.line);
    DecimalInjective(a.column, b.column);
  }

  /** The suffix regrouped: a fixed head, then the line digits, a newline and the column part. */
  lemma SuffixShape(l: string, c: string)
    ensures "\nLine: " + l + "\nColumn: " + c == "\nLine: " + (l + "\n" + ("Column: " + c))
  {
  }

  lemma PrefixCancels(p: string, x: string, y: string)
    requires p + x == p + y
    ensures x == y
  {
    assert x == (p + x)[|p|..];
    assert y == (p + y)[|p|..];
  }
}

=== FILE: tokens.dfy ===
/** The token vocabulary of the shader-description language (Lexer.hpp).
    A token does not own its text: it is a half-open range `[start, end)` into the source text,
    the way the lexer hands out `std::string_view`s into the string it scans. */
module Tokens {

  datatype TokenType =
    //- Identifiers and keywords
    | Identifier
    | Shader
    | State
    | Blend
    | Cull
    | DepthTest
    | DepthCompareFunction
    | Vertex
    | Fragment
    //- Values
    | ValueNumber
    | ValueString
    | ValueOn
    | ValueOff
    | ValueBlendMode
    | ValueCullMode
    | ValueDepthCompareFunction
    //- Punctuation
    | OpenBrace
    | CloseBrace
    | Comma
    | EndOfFile
    | Undefined
  {
    /** Position of the constant in the declaration of `TokenType`. */
    function Ordinal(): (r: nat)
      ensures r < 21
    {
      match this
      case Identifier => 0
      case Shader => 1
      case State => 2
      case Blend => 3
      case Cull => 4
      case DepthTest => 5
      case DepthCompareFunction => 6
      case Vertex => 7
      case Fragment => 8
      case ValueNumber => 9
      case ValueString => 10
      case ValueOn => 11
      case ValueOff => 12
      case ValueBlendMode => 13
      case ValueCullMode => 14
      case ValueDepthCompareFunction => 15
      case OpenBrace => 16
      case CloseBrace => 17
      case Comma => 18
      case EndOfFile => 19
      case Undefined => 20
    }
  }

  /** A token: the range of its text, the position of its first character and its kind. */
  datatype Token = Token(start: nat, end: nat, line: nat, column: nat, kind: TokenType) {

    predicate Within(text: string) {
      start <= end <= |text|
    }

    /** The characters the token spans. */
    function Text(text: string): string
      requires Within(text)
    {
      text[start..end]
    }
  }

  /** Distinct kinds have distinct ordinals, so an ordinal-indexed table is a faithful lookup. */
  lemma OrdinalInjective(a: TokenType, b: TokenType)
    requires a.Ordinal() == b.Ordinal()
    ensures a == b
  {
  }
}

=== FILE: vulkan_backend.dfy ===
/** The Vulkan backend's decision logic (VulkanBackend.cpp): memory-type selection, physical
    device and queue-family selection, swapchain settings, the frame ring, how vertex data is
    split into per-attribute buffers, and texture descriptor indexing. Everything the driver
    reports (memory types, queue families, surface capabilities, present modes) is a
    parameter; the device calls themselves are not modelled. */
module VulkanBackend {
  import opened Wrappers
  import opened Faults
  import opened RenderTypes

  /** `k_BackBufferFrames`. */
  const BackBufferFrames: nat := 3
  /** `k_MaxTextureDescriptors`: the size of the material descriptor-set array. */
  const MaxTextureDescriptors: nat := 300
  /** `VK_MAX_MEMORY_TYPES`: a device reports at most this many memory types. */
  const MaxMemoryTypes: nat := 32

  //- Memory types

  /** `1 << i` as a memory-type mask. */
  function TypeBit(i: nat): bv32
    requires i < MaxMemoryTypes
  {
    (1 as bv32) << i
  }

  /** Memory type `i` may back the resource (its bit is set in the resource's requirements) and
      has every property the caller asks for. */
  predicate Suitable(typeFlags: seq<bv32>, typeBits: bv32, required: bv32, i: nat)
    requires i < |typeFlags| <= MaxMemoryTypes
  {
    typeBits & TypeBit(i) != 0 && typeFlags[i] & required == required
  }

  /** Which kind of resource the memory is for; only the assertion message differs. */
  datatype MemoryResource = BufferMemory | ImageMemory

  function NoMemoryTypeMessage(resource: MemoryResource): string {
    match resource
    case BufferMemory => "Couldn't find required VkBuffer memory type"
    case ImageMemory => "Couldn't find required VkImage memory type"
  }

  /** `FindBufferMemoryTypeIndex` / `FindImageMemoryTypeIndex`, after the driver has reported
      the property flags of each memory type and the resource's memory-type bits: the first
      suitable memory type, or the assertion when there is none. */
  method FindMemoryTypeIndex(typeFlags: seq<bv32>, typeBits: bv32, required: bv32, resource: MemoryResource)
    returns (r: Result<nat, Fault>)
    requires |typeFlags| <= MaxMemoryTypes
    ensures r.Ok? ==> r.value < |typeFlags| && Suitable(typeFlags, typeBits, required, r.value)
    ensures r.Ok? ==> forall j :: 0 <= j < r.value ==> !Suitable(typeFlags, typeBits, required, j)
    ensures r.Err? <==> forall j :: 0 <= j < |typeFlags| ==> !Suitable(typeFlags, typeBits, required, j)
    ensures r.Err? ==> r.error == AssertionFailed(NoMemoryTypeMessage(resource))
  {
    var i := 0;
    while i < |typeFlags|
      invariant 0 <= i <= |typeFlags|
      invariant forall j :: 0 <= j < i ==> !Suitable(typeFlags, typeBits, required, j)
    {
      if typeBits & TypeBit(i) != 0 && typeFlags[i] & required == required {
        assert Suitable(typeFlags, typeBits, required, i);
        return Ok(i);
      }
      i := i + 1;
    }
    return Err(AssertionFailed(NoMemoryTypeMessage(resource)));
  }

  //- Physical device

  /** `VkPhysicalDeviceType`. */
  datatype DeviceType = OtherDevice | IntegratedGpu | DiscreteGpu | VirtualGpu | CpuDevice

  /** What the driver reports about a queue family: does it have the graphics bit, and can it
      present to the window's surface. */
  datatype QueueFamily = QueueFamily(graphics: bool, supportsPresent: bool)

  predicate Usable(f: QueueFamily) {
    f.graphics && f.supportsPresent
  }

  /** `IsPhysicalDeviceSuitable`: `None` for "not suitable", otherwise the graphics queue
      family it picks. Only discrete GPUs are accepted, and only with a queue family that can
      both draw and present; the first such family is picked. */
  method SuitableQueueFamily(deviceType: DeviceType, families: seq<QueueFamily>) returns (r: Option<nat>)
    ensures r.Some? ==> deviceType == DiscreteGpu && r.value < |families| && Usable(families[r.value])
    ensures r.Some? ==> forall j :: 0 <= j < r.value ==> !Usable(families[j])
    ensures r.None? <==> deviceType != DiscreteGpu || forall j :: 0 <= j < |families| ==> !Usable(families[j])
  {
    if deviceType != DiscreteGpu {
      return None;
    }
    if |families| < 1 {
      return None;
    }
    var i := 0;
    while i < |families|
      invariant 0 <= i <= |families|
      invariant forall j :: 0 <= j < i ==> !Usable(families[j])
    {
      if families[i].supportsPresent && families[i].graphics {
        return Some(i);
      }
      i := i + 1;
    }
    return None;
  }

  //- Swapchain

  /** `VkPresentModeKHR` values. */
  const PresentImmediate: nat := 0
  const PresentMailbox: nat := 1
  const PresentFifo: nat := 2

  /** The present-mode loop in `CreateSwapchain`: start from FIFO and take MAILBOX whenever the
      surface lists it. */
  function ChoosePresentMode(modes: seq<nat>): (r: nat)
    ensures r == PresentMailbox <==> PresentMailbox in modes
    ensures r == PresentFifo <==> PresentMailbox !in modes
    decreases |modes|
  {
    if modes == [] then PresentFifo
    else
      var earlier := ChoosePresentMode(modes[..|modes| - 1]);
      assert modes == modes[..|modes| - 1] + [modes[|modes| - 1]];
      if modes[|modes| - 1] == PresentMailbox then PresentMailbox else earlier
  }

  /** `VkSurfaceCapabilitiesKHR`, as far as swapchain creation reads it. A maximum image count
      of 0 means "no maximum"; a current width of `UINT32_MAX` means the window decides. */
  datatype SurfaceCapabilities = SurfaceCapabilities(
    minImageCount: nat,
    maxImageCount: nat,
    currentWidth: nat,
    currentHeight: nat)

  datatype SwapchainSettings = SwapchainSettings(minImageCount: nat, width: nat, height: nat, presentMode: nat)

  const ImageCountMessage := "<SwapchainCreation/ImageCount>"
  const ExtentMessage := "Do glfwGetFramebufferSize"

  /** The surface accepts a swapchain of `k_BackBufferFrames` images. */
  predicate AcceptsBackBufferFrames(caps: SurfaceCapabilities) {
    caps.minImageCount <= BackBufferFrames && (caps.maxImageCount == 0 || BackBufferFrames <= caps.maxImageCount)
  }

  /** The decisions of `CreateSwapchain`: ask for `k_BackBufferFrames` images, use the surface's
      current extent and the chosen present mode; `imageCount` is how many images the driver
      then created, which must be exactly `k_BackBufferFrames`. */
  function CreateSwapchain(caps: SurfaceCapabilities, modes: seq<nat>, imageCount: nat): (r: Result<SwapchainSettings, Fault>)
    ensures r.Ok? <==> AcceptsBackBufferFrames(caps) && caps.currentWidth != 0xFFFF_FFFF && imageCount == BackBufferFrames
    ensures !AcceptsBackBufferFrames(caps) ==> r == Err(AssertionFailed(ImageCountMessage))
    ensures AcceptsBackBufferFrames(caps) && caps.currentWidth == 0xFFFF_FFFF ==> r == Err(AssertionFailed(ExtentMessage))
    ensures r.Ok? ==> r.value == SwapchainSettings(BackBufferFrames, caps.currentWidth, caps.currentHeight, ChoosePresentMode(modes))
  {
    if BackBufferFrames < caps.minImageCount || (caps.maxImageCount > 0 && caps.maxImageCount < BackBufferFrames) then
      Err(AssertionFailed(ImageCountMessage))
    else if caps.currentWidth == 0xFFFF_FFFF then
      Err(AssertionFailed(ExtentMessage))
    else if imageCount != BackBufferFrames then
      Err(AssertionFailed(ImageCountMessage))
    else
      Ok(SwapchainSettings(BackBufferFrames, caps.currentWidth, caps.currentHeight, ChoosePresentMode(modes)))
  }

  //- Frame ring

  /** `EndFrame`'s advance of `m_currentFrame`. */
  function NextFrame(frame: nat): (r: nat)
    ensures r < BackBufferFrames
    ensures frame < BackBufferFrames - 1 ==> r == frame + 1
    ensures frame == BackBufferFrames - 1 ==> r == 0
  {
    (frame + 1) % BackBufferFrames
  }

  /** `m_currentFrame` after `n` frames: it starts at 0 in the constructor. */
  function FrameAfter(n: nat): nat {
    if n == 0 then 0 else NextFrame(FrameAfter(n - 1))
  }

  /** The frame ring visits the back-buffer frames in turn. */
  lemma {:induction false} FrameAfterCycles(n: nat)
    ensures FrameAfter(n) == n % BackBufferFrames
    ensures FrameAfter(n) < BackBufferFrames
  {
    if n > 0 {
      FrameAfterCycles(n - 1);
    }
  }

  //- Vertex buffers

  /** The buffer objects `CreateBuffer` fills, one per attribute, in layout order. */
  const VertexBufferSlots: nat := 3
  /** The staging slot of the index data. */
  const IndexStagingSlot: nat := 3

  /** Where attribute `i`'s bytes end: at the next attribute's offset, the last at the end of
      the vertex data. */
  function AttributeEnd(layout: seq<VertexAttributeDesc>, dataSize: nat, i: nat): nat
    requires i < |layout|
  {
    if i + 1 < |layout| then layout[i + 1].offset else dataSize
  }

  /** Every attribute's range lies within the vertex data and does not run backwards. */
  predicate RangesInBounds(layout: seq<VertexAttributeDesc>, dataSize: nat) {
    forall i :: 0 <= i < |layout| ==> layout[i].offset <= AttributeEnd(layout, dataSize, i) <= dataSize
  }

  /** The byte slices `CreateBuffer` uploads, one per attribute. More than three attributes
      write past the three buffer objects; a range that runs backwards wraps its unsigned size
      and copies from outside the vertex data. Both are undefined behaviour. */
  function VertexSlices(data: seq<bv8>, layout: seq<VertexAttributeDesc>): (r: Result<seq<seq<bv8>>, Fault>)
    ensures r.Ok? <==> |layout| <= VertexBufferSlots && RangesInBounds(layout, |data|)
    ensures r.Err? ==> r.error == Undefined
    ensures r.Ok? ==> |r.value| == |layout|
    ensures r.Ok? ==> forall i :: 0 <= i < |layout| ==>
              |r.value[i]| == AttributeEnd(layout, |data|, i) - layout[i].offset
              && r.value[i] == data[layout[i].offset..AttributeEnd(layout, |data|, i)]
  {
    if |layout| > VertexBufferSlots || !RangesInBounds(layout, |data|) then Err(Undefined)
    else Ok(seq(|layout|, i requires 0 <= i < |layout| => data[layout[i].offset..AttributeEnd(layout, |data|, i)]))
  }

  function Flatten(slices: seq<seq<bv8>>): seq<bv8>
    decreases |slices|
  {
    if slices == [] then [] else slices[0] + Flatten(slices[1..])
  }

  /** The slices tile the vertex data from the first attribute's offset to the end, in order:
      no byte is lost or copied twice. */
  lemma VertexSlicesTile(data: seq<bv8>, layout: seq<VertexAttributeDesc>)
    requires VertexSlices(data, layout).Ok? && |layout| > 0
    ensures Flatten(VertexSlices(data, layout).value) == data[layout[0].offset..]
  {
    var slices := VertexSlices(data, layout).value;
    SlicesTileFrom(data, layout, slices, 0);
  }

  lemma {:induction false} SlicesTileFrom(data: seq<bv8>, layout: seq<VertexAttributeDesc>, slices: seq<seq<bv8>>, k: nat)
    requires RangesInBounds(layout, |data|) && |slices| == |layout| && k < |layout|
    requires forall i :: 0 <= i < |layout| ==> slices[i] == data[layout[i].offset..AttributeEnd(layout, |data|, i)]
    ensures Flatten(slices[k..]) == data[layout[k].offset..]
    decreases |layout| - k
  {
    var rest := slices[k..];
    assert rest[1..] == slices[k + 1..];
    if k + 1 < |layout| {
      SlicesTileFrom(data, layout, slices, k + 1);
      assert data[layout[k].offset..] == data[layout[k].offset..layout[k + 1].offset] + data[layout[k + 1].offset..];
    } else {
      assert slices[k + 1..] == [];
      assert data[layout[k].offset..] == data[layout[k].offset..|data|];
    }
  }

  /** The slots `0 .. n - 1`. */
  function SlotsBelow(n: nat): (r: set<nat>)
    ensures forall i: nat :: i in r <==> i < n
    ensures |r| == n
  {
    if n == 0 then {} else SlotsBelow(n - 1) + {n - 1}
  }

  /** The staging buffers `CreateBuffer` creates: one per attribute and the index buffer's. */
  function StagingSlotsCreated(attributeCount: nat): set<nat> {
    SlotsBelow(attributeCount) + {IndexStagingSlot}
  }

  /** Which staging slots `CreateBuffer` destroys at the end: as written, all four whatever
      was created; corrected, only those it created. */
  datatype StagingCleanup = DestroyAllFour | DestroyCreated

  function StagingSlotsDestroyed(attributeCount: nat, rule: StagingCleanup): set<nat> {
    match rule
    case DestroyAllFour => {0, 1, 2, 3}
    case DestroyCreated => StagingSlotsCreated(attributeCount)
  }

  /** As written, a layout of fewer than three attributes (a mesh without texture
      coordinates) makes `CreateBuffer` destroy staging buffers it never created, whose handles
      are indeterminate. */
  lemma DestroyAllFourTouchesUncreated(attributeCount: nat)
    requires attributeCount <= VertexBufferSlots
    ensures (StagingSlotsDestroyed(attributeCount, DestroyAllFour) <= StagingSlotsCreated(attributeCount))
            <==> attributeCount == VertexBufferSlots
  {
    if attributeCount < VertexBufferSlots {
      assert attributeCount in StagingSlotsDestroyed(attributeCount, DestroyAllFour);
      assert attributeCount !in StagingSlotsCreated(attributeCount);
    } else {
      var created := StagingSlotsCreated(attributeCount);
      assert 0 in created && 1 in created && 2 in created && 3 in created;
    }
  }

  /** Destroying only what was created destroys every staging buffer exactly once, and the
      index buffer's slot never collides with an attribute's. */
  lemma DestroyCreatedMatches(attributeCount: nat)
    requires attributeCount <= VertexBufferSlots
    ensures StagingSlotsDestroyed(attributeCount, DestroyCreated) == StagingSlotsCreated(attributeCount)
    ensures |StagingSlotsCreated(attributeCount)| == attributeCount + 1
  {
    assert IndexStagingSlot !in SlotsBelow(attributeCount);
  }

  //- Textures

  /** The staging size `CreateTexture` computes for RGBA8 data: `Width * Height` is a 32-bit
      product, widened only afterwards. */
  function TextureStagingSize(desc: TextureDesc): (size: nat)
    ensures desc.width * desc.height < 0x1_0000_0000 ==> size == desc.width * desc.height * 4
    ensures size < 0x1_0000_0000 * 4
  {
    (desc.width * desc.height) % 0x1_0000_0000 * 4
  }

  /** The textures created so far: the function-local counter that gives both the handle and
      the material descriptor-set index. */
  datatype TextureRegistry = TextureRegistry(count: nat, descriptorIndices: map<nat, nat>)

  /** `CreateTexture`'s bookkeeping. The descriptor-set array has `k_MaxTextureDescriptors`
      entries and the counter is not checked against it: writing past the end is undefined
      behaviour. */
  function CreateTexture(reg: TextureRegistry, desc: TextureDesc): (r: Result<(TextureRegistry, nat, nat), Fault>)
    ensures r.Ok? <==> reg.count < MaxTextureDescriptors
    ensures r.Err? ==> r.error == Undefined
    ensures r.Ok? ==>
              var (reg2, handle, staging) := r.value;
              && handle == reg.count && reg2.count == reg.count + 1
              && reg2.descriptorIndices == reg.descriptorIndices[handle := handle]
              && staging == TextureStagingSize(desc)
  {
    if reg.count >= MaxTextureDescriptors then Err(Undefined)
    else
      var handle := reg.count;
      Ok((TextureRegistry(handle + 1, reg.descriptorIndices[handle := handle]), handle, TextureStagingSize(desc)))
  }

  /** Every registered texture's descriptor set is the one at its own handle, inside the
      array. */
  predicate DescriptorsValid(reg: TextureRegistry) {
    && reg.count <= MaxTextureDescriptors
    && forall h :: h in reg.descriptorIndices ==> h < reg.count && reg.descriptorIndices[h] == h
  }

  lemma CreateTextureKeepsDescriptorsValid(reg: TextureRegistry, desc: TextureDesc)
    requires DescriptorsValid(reg)
    requires CreateTexture(reg, desc).Ok?
    ensures DescriptorsValid(CreateTexture(reg, desc).value.0)
  {
  }

  /** Under the invariant, no two textures share a descriptor set and none lies outside the
      array. */
  lemma DescriptorsAreDistinct(reg: TextureRegistry, h: nat, k: nat)
    requires DescriptorsValid(reg)
    requires h in reg.descriptorIndices && k in reg.descriptorIndices
    ensures reg.descriptorIndices[h] < MaxTextureDescriptors
    ensures h != k ==> reg.descriptorIndices[h] != reg.descriptorIndices[k]
  {
  }

  /** Creating textures one after another from an empty registry. */
  function CreateTextures(descs: seq<TextureDesc>): Result<TextureRegistry, Fault>
    decreases |descs|
  {
    if descs == [] then Ok(TextureRegistry(0, map[]))
    else
      match CreateTextures(descs[..|descs| - 1])
      case Err(e) => Err(e)
      case Ok(reg) =>
        match CreateTexture(reg, descs[|descs| - 1])
        case Err(e) => Err(e)
        case Ok((reg2, _, _)) => Ok(reg2)
  }

  /** Creating textures succeeds exactly for fewer than `k_MaxTextureDescriptors + 1` of them,
      and then every texture has a valid descriptor set of its own. */
  lemma {:induction false} CreateTexturesWithinArray(descs: seq<TextureDesc>)
    ensures CreateTextures(descs).Ok? <==> |descs| <= MaxTextureDescriptors
    ensures CreateTextures(descs).Ok? ==>
              && CreateTextures(descs).value.count == |descs|
              && DescriptorsValid(CreateTextures(descs).value)
              && forall h: nat :: h in CreateTextures(descs).value.descriptorIndices <==> h < |descs|
    decreases |descs|
  {
    if descs != [] {
      var prefix := descs[..|descs| - 1];
      CreateTexturesWithinArray(prefix);
      if CreateTextures(prefix).Ok? && |prefix| < MaxTextureDescriptors {
        var reg := CreateTextures(prefix).value;
        var reg2 := CreateTexture(reg, descs[|descs| - 1]).value.0;
        assert CreateTextures(descs) == Ok(reg2);
        assert reg2.descriptorIndices == reg.descriptorIndices[|prefix| := |prefix|];
        forall h | h in reg2.descriptorIndices ensures h < |descs| {
        }
        forall h: nat | h < |descs| ensures h in reg2.descriptorIndices {
          if h < |prefix| {
            assert h in reg.descriptorIndices;
          }
        }
      }
    }
  }
}

=== FILE: wrappers.dfy ===
/** Failure-compatible wrappers shared by the whole model.
    - Option<T> stands for a value that may be absent (a map miss, a std::optional).
    - Result<T, E> stands for a computation that either yields a value or raises an error
      (a thrown exception, an assertion that fires, undefined behaviour the model refuses to guess).
 */
module Wrappers {

  datatype Option<+T> = None | Some(value: T) {

    predicate IsFailure() {
      None?
    }

    function PropagateFailure<U>(): Option<U>
      requires None?
    {
      None
    }

    function Extract(): T
      requires Some?
    {
      value
    }

    function GetOr(default: T): T {
      match this
      case Some(v) => v
      case None => default
    }
  }

  datatype Result<+T, +E> = Ok(value: T) | Err(error: E) {

    predicate IsFailure() {
      Err?
    }

    function PropagateFailure<U>(): Result<U, E>
      requires Err?
    {
      Err(error)
    }

    function Extract(): T
      requires Ok?
    {
      value
    }
  }
}
